=== FILE: README.md ===
# wobot core, modelled in Dafny

wobot is a Discord bot for a university server. This project models its core: the logic between the chat platform and the database, with the platform and the database abstracted away. Most commands exist in two generations. The older builder-style files live under `src/commands/*.rs`; the newer ones live under `src/commands/{utility,misc,owner}/*.rs`. Where the two behave differently, both are modelled, the older one in a module whose name starts with `Legacy` (or through a generation parameter).

How the program's pieces appear in the model:

- **SQL tables** are immutable maps or sets keyed by the conflict target of the queries (`reaction_roles` by message and emoji, `birthdays` by user, `bet_participants` by bet and user, and so on). Counter tables use the insert-or-increment of `CounterTable`.
- **Platform calls** (send, edit, react, role and emoji changes, scheduled events) are effect values in a returned sequence. Where a call's success changes what follows, its outcome is a parameter.
- **Interactive collectors** are a state stepped over a finite sequence of events. The sequence ends in a timeout, or the list simply runs out.
- **Helpers whose code is not part of this model** (`get_emoji_id`, `get_emoji_from_id`, `parse_date`, `parse_duration_or_date`, `random_color`, `paginate_text`, the image decoder, HTTP downloads) are function parameters or already-resolved `Result` values.
- **Strings** are sequences of Unicode scalar values. Rust's byte lengths are computed through UTF-8 (`Text.Utf8Len`, `Utf8.Encode`), and byte-level truncation is modelled with its char-boundary panic.
- **Times** are integers in seconds (or day numbers for dates) in UTC. `Calendar` gives the proleptic Gregorian calendar, weekdays and ISO 8601 week numbers, which is what chrono's `%Y-%m-%d`, `%Y%m%dT%H%M%SZ` and `iso_week()` use.

Module map:

- `ReactionRole`: the reaction-role registry.
- `Handler`: the event dispatcher and auto-react/auto-reply.
- `Features` and `LegacyFeatures`: feature-list pagination.
- `FeatureStates` and `LegacyFeatureStates`: the feature states.
- `Man` and `Boop`: man-page paging and the boop counter.
- `KeywordStatistics`.
- `EmojiMarkup`, `Emojis` and `LegacyEmojis`: emoji extraction and upload.
- `Commands`: the `mod.rs` macros.
- `MensaPlan` and `Cruisine`: the canteen seating plan.
- `Meme` and `HashableRegexes`.
- `Modules`.
- `Bets` and `CheckBets`.
- `Reminders`, `LegacyReminders` and `CheckReminder`.
- `Birthdays` and `CheckBirthday`.
- `CheckAccess`: inactivity demotion.
- `EmojiUsage` and `Exclude`.
- `History`, `Clear` and `LegacyClear`: message clearing.
- `LinkFix` and `EmojiCache`: the utility actions; `LinkFixExamples` holds the concrete links on which the written and corrected rewrites differ.
- `UrlQuery` and `Utf8`: how the `url` crate reads and writes a query, and UTF-8 encoding and lossy decoding.
- `PercentEncoding` and `Mensa`: the canteen menu.
- `Sql`: the owner's SQL command.
- `Avatars`.
- `Events`: scheduled events and the ICS export.

The description of the bot and its code differ in a few places; the model follows the code. Where the code has evidently unintended behaviour, the model holds both a member that follows the code as written and a corrected one, and the rows under "## Findings" name them. Commands built on such a piece exist in both forms: `Mensa.Next` and `Mensa.Week` use the written lookup, `Mensa.NextFixed` and `Mensa.WeekFixed` the corrected one; `LinkFix.ApplyAsWritten` is the written rewrite, `LinkFix.Apply` the corrected one.

## Model

| member | source | states |
|---|---|---|
| ReactionRole.Startup | src/main.rs:143-167 | at startup the cache holds exactly the message ids of the table's rows, so every bound message is cached |
| ReactionRole.AddReactionRole | src/commands/reaction_role.rs:65-93 | an emoji-id failure or an already-bound (message, emoji) pair returns the error and changes neither table nor cache; otherwise the row is inserted, the message is cached, the bot reacts, and cache consistency is preserved |
| ReactionRole.AddEasy | src/commands/reaction_role.rs:28-51 | the prompt is always sent; a timeout only replies "Timeout :(, try again"; a failed fetch of the collected reaction is the error, with the registry unchanged; after a successful fetch and delete, the registry and result are those of add_reaction_role for the collected message and emoji; the registry changes only then; consistency is preserved |
| ReactionRole.RemoveReactionRole | src/commands/reaction_role.rs:118-139 | as written: the (message, emoji) row is deleted and the message id leaves the cache unconditionally |
| ReactionRole.RemoveReactionRoleKeepingCache | src/commands/reaction_role.rs:126-137 | corrected removal: the same row is deleted, the message leaves the cache only when no other binding on it remains, other messages keep their cache membership, consistency is preserved |
| ReactionRole.Remove | src/commands/reaction_role.rs:96-116 | a timeout only replies; a failed reaction purge changes nothing; otherwise the emoji's reactions are purged before the unbinding |
| ReactionRole.ChangeReactionRole | src/commands/reaction_role.rs:178-245 | an uncached message or a bot user gives Ok without a query; the lookup happens exactly for cached messages, human users and resolvable emoji; no matching row means Ok with no role change; a matching row grants (add) or revokes (remove) exactly that row's role in the row's guild, and the result fails exactly when the role call fails |
| ReactionRole.Selected | src/commands/reaction_role.rs:143-159 | every listed key is a row of the table |
| ReactionRole.SelectedIff | src/commands/reaction_role.rs:143-159 | a binding is listed exactly when it is in the table and the caller is an owner or in the binding's guild |
| ReactionRole.RowLines | src/commands/reaction_role.rs:161-173 | one line per selected row, in order, each the message link, emoji text and role mention; any emoji lookup failure fails the listing |
| ReactionRole.List | src/commands/reaction_role.rs:142-176 | the listing succeeds exactly when every emoji resolves, and is the header line followed by one line per visible binding |
| ReactionRole.ListLine | src/commands/reaction_role.rs:160-173 | line i + 1 of the listing shows the i-th selected binding |
| ReactionRole.SelectedNoRepeats | src/commands/reaction_role.rs:143-159 | selecting from rows that come once each lists no binding twice |
| ReactionRole.ListsEachOnce | src/commands/reaction_role.rs:143-159 | when the query yields every row of the table once, the listing holds exactly the bindings visible to the caller, each once |
| ReactionRole.BindThenReact | src/commands/reaction_role.rs:235-240 | after a successful add, a human reaction with the bound emoji grants the role and removing it revokes the role (with lines 80-89 of the same file) |
| ReactionRole.ConsistentNeverHidesBinding | src/commands/reaction_role.rs:184-191 | with a consistent cache, a human reaction on a bound emoji always reaches the binding lookup |
| ReactionRole.RemoveAsWrittenHidesSibling | src/commands/reaction_role.rs:134-137 | removing one emoji of a message with a second binding leaves that binding in the table but drops the message from the cache, so reactions with the second emoji change no role |
| ReactionRole.RemoveKeepingCacheKeepsSibling | src/commands/reaction_role.rs:126-137 | with the corrected removal, reactions with the remaining emoji still reach the lookup |
| Handler.WordsIff | src/handler.rs:177-180 | a string is one of the `\b\w+\b` matches of the content exactly when it is a word occurring there with a word boundary on both sides (with line 20 of the same file) |
| Handler.AutoReact | src/handler.rs:171-187 | every attempted entry is a configured one; an error is the failed reaction of an entry whose keyword is a word of the content; Ok means every matching entry's reaction succeeded |
| Handler.AutoReactWholeWords | src/handler.rs:177-185 | when no reaction fails, the entries reacted with are exactly those whose keyword is a whole word of the lowercased content, never a part of a longer word (with line 64 of the same file) |
| Handler.AutoReplyFrom | src/handler.rs:123-168 | at most one reply message per configured entry |
| Handler.AutoReplySends | src/handler.rs:123-168 | replies go out exactly for the entries whose keywords occur and whose chance roll does not skip them, in configuration order, until a user fetch fails; each counts its first keyword for the author before replying, and the k-th message carries that entry's title, mention and the matching-keyword total after the first k counts; a failed fetch is the result, with its own entry counted and nothing after it |
| Handler.Message | src/handler.rs:143-158 | the message mentions the configured user as plain content exactly when `ping` is set, and carries the title and the description with `{user}` and `{replies}` filled in |
| Handler.FiringFrom | src/handler.rs:123-131 | the entries that reply are exactly the triggered ones not skipped by their roll, listed once each in configuration order |
| Handler.FetchedCount | src/handler.rs:143 | the loop gets past exactly the leading replies whose user fetch succeeds, and stops at the first that fails |
| Handler.AutoReplyFirstEntry | src/handler.rs:126-152 | a triggered, unskipped entry sends a reply with its title, mentions the user in plain content exactly when `ping` is set, and describes the matching-keyword total including this reply |
| Handler.AutoReplySkipsUntriggered | src/handler.rs:123-126 | an entry none of whose keywords is a substring of the content sends nothing and leaves the counters alone |
| Handler.DescribeWithoutPlaceholders | src/handler.rs:144-147 | a description without "{user}" and "{replies}" is sent unchanged |
| Handler.UpdateActivity | src/handler.rs:101-115 | the state changes only for a configured guild, an uncached user and a successful upsert; then the user is cached, the row's last activity is now, its message count is kept, and other rows are unchanged |
| Handler.UpdateMessageCount | src/handler.rs:88-99 | unconfigured guilds and failed updates change nothing; no row is created; only the (guild, user) row's count grows by one |
| Handler.ActivityRowsPersist | src/handler.rs:88-115 | neither activity update deletes a row |
| Handler.FirstError | src/handler.rs:82 | the combined result is Ok exactly when all three are, and otherwise the first error in the order auto_react, auto_reply, celery_fact |
| Handler.EventHandler | src/handler.rs:22-86 | bot-authored messages and other events change nothing; reaction add and remove return change_reaction_role's result with add = true and add = false; a voice update plays a sound exactly when the user now has a channel, had none before, has a configured sound and joining the channel succeeds, and a failed join plays nothing and is the error; messages never touch the reaction-role registry |
| Features.ShownMembers | src/commands/utility/features.rs:248-273 | a row is in a view exactly when it is in the table and has the view's state (any state for All) |
| Features.ShownAscending | src/commands/utility/features.rs:256-265 | the shown rows keep ascending id order |
| Features.Page | src/commands/utility/features.rs:248-273 | a page is the up to five shown rows starting at the offset, and is empty at or past the count |
| Features.PagesCover | src/commands/utility/features.rs:248-273 | the pages at offsets 0, 5, 10, ... cover the shown rows exactly once, in order (with lines 134-138 of the same file) |
| Features.FeatureEmbeds | src/commands/utility/features.rs:212-222 | one embed per listed feature, in order |
| Features.Render | src/commands/utility/features.rs:196-228 | an empty page shows only the "No features found" embed; otherwise one embed per feature with its name, colour and timestamp, described by its state exactly in the All view; the header is "**All** Features " or the bold state name and a space, then "offset/count" |
| Features.NextOffset | src/commands/utility/features.rs:134-138 | next advances by five, and resets to 0 once at or past the count, so the offset is afterwards 0 or below the count and stays a multiple of five |
| Features.PrevOffset | src/commands/utility/features.rs:139-142 | prev goes back five when it can; from the first page it jumps to the largest multiple of five not above the count |
| Features.NextThenPrev | src/commands/utility/features.rs:134-142 | when next does not wrap, prev undoes it |
| Features.PrevFromFirstPage | src/commands/utility/features.rs:205-211 | from the first page, prev lands on an empty page exactly when the count is a multiple of five, and then only "No features found" is shown (with lines 139-142 of the same file) |
| Features.ControlsClassify | src/commands/utility/features.rs:94-120 | each control of the list message is recognised as the action it was made for |
| Features.OtherInvocationUnrelated | src/commands/utility/features.rs:129-175 | a press on another invocation's control is never taken for one of this invocation's actions |
| Features.SameSuffix | src/commands/utility/features.rs:94-97 | two control ids that are equal have the same invocation id and the same suffix |
| Features.Navigate | src/commands/utility/features.rs:134-191 | next, prev and refresh keep the state; refresh changes only the count; next and prev keep the count; alignment to five is preserved; the message shows the page of the new view |
| Features.Select | src/commands/utility/features.rs:150-167 | selecting the shown state only answers "Already showing that state" and changes nothing; any other state resets to its first page with its count |
| Features.Step | src/commands/utility/features.rs:133-191 | an unrelated press changes nothing; the press fails exactly when a filter press is not a string select with a value; alignment is preserved |
| Features.StepSelectsMenuOption | src/commands/utility/features.rs:145-167 | choosing a menu option selects the state it was made for (with lines 105-107 of the same file) |
| Features.Loop | src/commands/utility/features.rs:127-193 | alignment is preserved over any sequence of presses; a loop that ends normally leaves the message without components; at most one response per press |
| Features.List | src/commands/utility/features.rs:90-194 | the view starts aligned and stays aligned; on normal exit the components are gone |
| Features.IgnoredPressesChangeNothing | src/commands/utility/features.rs:127-175 | presses the collector does not admit and unrelated presses leave view, message and result as without them |
| Features.Add | src/commands/utility/features.rs:42-55 | the new row is To Do, both the All and the To Do counts grow by one, ids stay ascending, and the reply is "Added feature {name}" |
| Features.ShownAppend | src/commands/utility/features.rs:248-273 | appending a row appends it to exactly the views it matches |
| Features.SetState | src/commands/utility/features.rs:74-80 | every row with the name takes the state, others are unchanged |
| Features.Update | src/commands/utility/features.rs:67-88 | the reply is "No feature named {name}" exactly when no row has the name (then nothing changes), else "Updated feature {name}"; ids and names are kept and every named row has the new state |
| Features.WithoutName | src/commands/utility/features.rs:60 | exactly the rows with another name remain, in id order |
| Features.Delete | src/commands/utility/features.rs:57-65 | afterwards no row has the name, every other row remains and no row is added; the reply is "Deleted feature {name}" |
| LegacyFeatures.Step | src/commands/features.rs:114-163 | as in the newer generation, except that the filter reads the first value without checking the payload kind and fails exactly when there is none |
| LegacyFeatures.StepSelectsMenuOption | src/commands/features.rs:96-143 | a menu option, sent as a u32 value, still selects the state it was made for |
| LegacyFeatures.Loop | src/commands/features.rs:108-165 | alignment is preserved; on normal exit the components are removed and the embeds kept |
| LegacyFeatures.List | src/commands/features.rs:69-166 | starts with the All view at offset 0 and stays aligned; on normal exit the components are gone |
| FeatureStates.Discriminant | src/commands/utility/feature_state.rs:7-15 | the discriminants lie in -1..3, and -1 is exactly All |
| FeatureStates.FromI64 | src/commands/utility/feature_state.rs:60-70 | 0..3 map to the state with that discriminant; every other value maps to All |
| FeatureStates.FromDiscriminant | src/commands/utility/feature_state.rs:60-70 | converting a state to its discriminant and back gives the state (with lines 7-15 of the same file) |
| FeatureStates.DiscriminantInjective | src/commands/utility/feature_state.rs:7-15 | different states have different discriminants |
| FeatureStates.NamesDistinct | src/commands/utility/feature_state.rs:24-34 | the five display names are distinct |
| FeatureStates.ColourAndEmoji | src/commands/utility/feature_state.rs:36-58 | All gets the fallback gold and 🟡; different states get different colours and different emoji |
| FeatureStates.Menu | src/commands/utility/feature_state.rs:17-22 | an option's label is the display name, its emoji the state's emoji, and its value parses as the discriminant |
| FeatureStates.ParseSelection | src/commands/utility/features.rs:150 | an unparsable selection means All |
| FeatureStates.MenuRoundTrip | src/commands/utility/feature_state.rs:17-70 | selecting a state's option yields that state |
| LegacyFeatureStates.AsU32 | src/commands/feature_state.rs:20 | the u32 cast keeps the value modulo 2^32 within 0..2^32-1 |
| LegacyFeatureStates.Menu | src/commands/feature_state.rs:15-22 | the label is the derived display, the emoji the state's, and the value the discriminant, except All, which is sent as 4294967295 |
| LegacyFeatureStates.MenuRoundTrip | src/commands/feature_state.rs:15-58 | every option still selects its state, because All's wrapped value lies outside 0..3 |
| Man.Lines | src/commands/misc/man.rs:17 | the empty output has no lines, and no line contains a line feed |
| Man.GetPages | src/commands/misc/man.rs:16-41 | there is always at least one page, and the single page "No man page available!" appears exactly when the output has at most two lines |
| Man.PagesAreTerminated | src/commands/misc/man.rs:25-39 | every page is empty or ends in a line feed |
| Man.FillConcat | src/commands/misc/man.rs:28-40 | nothing is lost or reordered: the pages concatenate to the page in progress followed by every remaining line with its line feed |
| Man.GetPagesConcat | src/commands/misc/man.rs:16-41 | the pages concatenate to exactly the output without its first and last line |
| Man.FillBounded | src/commands/misc/man.rs:28-37 | when every line with its line feed fits in 1975 bytes, so does every page |
| Man.GetPagesBounded | src/commands/misc/man.rs:14-41 | under the same condition every page of the output fits in 1975 bytes |
| Man.NextIdx | src/commands/misc/man.rs:82-86 | next moves to (idx + 1) mod count, wrapping from the last page to the first |
| Man.PrevIdx | src/commands/misc/man.rs:87-92 | prev moves to (idx + count - 1) mod count, wrapping from the first page to the last |
| Man.PrevNextInverse | src/commands/misc/man.rs:82-92 | prev undoes next and next undoes prev |
| Man.Loop | src/commands/misc/man.rs:76-117 | the page index stays within the pages; every update shows a valid page; at most one update per press; at the end the buttons are gone and the embeds kept |
| Man.Man | src/commands/misc/man.rs:43-118 | the final index is a valid page of the output and the message ends without components |
| Man.UnrelatedPressIgnored | src/commands/misc/man.rs:93-100 | a press of neither button changes nothing |
| Man.NextPressAdvances | src/commands/misc/man.rs:82-115 | a next press shows page (idx + 1) mod count |
| Boop.Loop | src/commands/misc/boop.rs:33-51 | the count grows by exactly the accepted presses before the timeout, and each press k shows "Boop count: k" and is then acknowledged |
| Boop.Boop | src/commands/fun.rs:68-112 | the total is the number of accepted presses, the final message reads "Total boops: {total}" without components, and there are two effects per press; the older generation answers each press with a deferred update, the newer with an acknowledgement (src/commands/misc/boop.rs:14-59) |
| Boop.InitialMessage | src/commands/misc/boop.rs:19-29 | the prompt "I want some boops!" with a single button whose id is the invocation id |
| Boop.AcceptedAppend | src/commands/misc/boop.rs:34-39 | counting is additive over runs of presses without a timeout |
| Boop.PrefixedIdNotCounted | src/commands/misc/boop.rs:37 | a press whose id only starts with the invocation id is not counted, because the filter compares ids exactly |
| Boop.AfterTimeoutIgnored | src/commands/misc/boop.rs:34-39 | nothing after the timeout counts |
| KeywordStatistics.Query | src/commands/misc/keyword_statistics.rs:12 | one result row per listed user, holding the sum of that user's counts over the rows whose keyword contains the search word |
| KeywordStatistics.Statistics | src/commands/misc/keyword_statistics.rs:15-32 | the reply fails with "count is null" exactly when some sum is null; otherwise its title is "{keyword} statistics", its description the "name: count" lines joined by line feeds, and its footer "Total: {sum of the counts}" |
| KeywordStatistics.StatLines | src/commands/misc/keyword_statistics.rs:18-23 | one "name: count" line per result row, in order, the name falling back to the user id when the user lookup fails |
| KeywordStatistics.GroupsPartition | src/commands/misc/keyword_statistics.rs:12-24 | the per-user groups of distinct users that cover the matching rows add up to the sum over all matching rows |
| KeywordStatistics.StatisticsTotal | src/commands/fun.rs:37-58 | the footer's total is the sum of the counts of every row whose keyword matches, in either generation (LIKE in the older, ILIKE in the newer) |
| KeywordStatistics.NewerTotalIsRepliesAmount | src/handler.rs:134-141 | the newer generation's total for a keyword equals the count an automatic reply reports for it |
| Commands.LinkMessage | src/commands/mod.rs:29-34 | a message link always starts with "https://discord.com/channels/" |
| Commands.LinkMessageInjective | src/commands/mod.rs:29-34 | distinct (guild, channel, message) triples give distinct links |
| Commands.LinkMsg | src/commands/mod.rs:37-42 | without a guild the link fails with "guild_only"; with one it is that guild's message link |
| Commands.Done | src/commands/mod.rs:45-51 | the acknowledgement is an ephemeral reply reading "Done✅", after which the command succeeds |
| Commands.RemoveComponentsButKeepEmbeds | src/commands/mod.rs:53-69 | the edited message keeps its content and embeds and has no components |
| Commands.TeardownIdempotent | src/commands/mod.rs:53-69 | tearing a message down twice is the same as once |
| Commands.TeardownWithContent | src/commands/utility/emoji.rs:139 | the newer teardown keeps the embeds, clears the components and shows the given content when there is one |
| EmojiMarkup.NameRun | src/commands/utility/emoji.rs:21 | the run covers the longest prefix of `[a-zA-Z0-9_]` characters |
| Text.DigitRun | src/commands/utility/emoji.rs:21 | the run covers the longest prefix of ASCII digits (the `\d+` of the emoji and colour patterns) |
| Text.DigitRunOf | src/commands/meme.rs:51 | digits followed by a non-digit or by nothing form exactly one run |
| EmojiMarkup.Body | src/commands/utility/emoji.rs:21 | a match of `name:id>` yields a valid name and id that, re-rendered, are a prefix of the text |
| EmojiMarkup.MatchPrefix | src/commands/utility/emoji.rs:20-24 | a match at the front is a valid reference of the pattern's kind whose markup is a prefix of the text, and it consumes exactly that markup |
| EmojiMarkup.Scan | src/commands/utility/emoji.rs:144-145 | every match of one pattern is a valid reference of that pattern's kind |
| EmojiMarkup.ScanSound | src/commands/utility/emoji.rs:144-145 | each match's markup occurs in the scanned text |
| EmojiMarkup.SkipNoOpen | src/commands/utility/emoji.rs:144-145 | text without a '<' contributes no match |
| EmojiMarkup.MatchOfMarkup | src/commands/utility/emoji.rs:20-24 | a valid markup followed by anything matches exactly itself |
| EmojiMarkup.SkipOtherKind | src/commands/utility/emoji.rs:20-24 | markup of the other kind (static against animated) yields no match for a pattern |
| EmojiMarkup.ScanOne | src/commands/utility/emoji.rs:144-145 | one markup at the front yields itself exactly when it is of the pattern's kind, and scanning continues after it |
| EmojiMarkup.ScanMarkups | src/commands/utility/emoji.rs:144-145 | scanning a text made of valid markups finds exactly those of the pattern's kind, in order |
| EmojiMarkup.NewEmojiOf | src/commands/utility/emoji.rs:33-45 | the new emoji keeps its name, its url starts with the emoji CDN and the id, and its content type is image/gif for animated and image/png otherwise, matching the url's extension |
| EmojiMarkup.NewEmojiUrlId | src/commands/utility/emoji.rs:33-45 | the id reads back out of the url |
| EmojiMarkup.ToNew | src/commands/utility/emoji.rs:146-157 | each reference becomes the new emoji of its name, id and kind, in order |
| EmojiMarkup.ExtractEmojis | src/commands/utility/emoji.rs:143-158 | as many emojis as static plus animated matches |
| EmojiMarkup.ExtractFromMarkups | src/commands/utility/emoji.rs:143-158 | a text of emoji markups yields its static emojis first and then its animated ones, each group in text order |
| Emojis.AddEmoji | src/commands/utility/emoji.rs:47-69 | no guild fails with "Can't fetch your guild, try again later."; a name the guild already has fails with the duplicate message; success exactly when the guild is known, the name is new and creation succeeds, and then "Added new emoji ..." is replied |
| Emojis.AddFrom | src/commands/utility/emoji.rs:110-131 | each failed download, decode or creation takes one off the amount, so the amount left is the number created; the created names are those of offered emojis, in offered order, and none was already in the guild |
| Emojis.AddFromCreates | src/commands/utility/emoji.rs:47-131 | an offered emoji is created exactly when its image was downloaded and decoded, the guild is known, creation succeeds and its name is neither in the guild nor among the emojis created before it in the batch |
| Emojis.AllCreated | src/commands/utility/emoji.rs:110-131 | when every download, decode and creation succeeds and the names are new and distinct, every offered emoji is created |
| Emojis.AddAll | src/commands/utility/emoji.rs:76-133 | the reported amount equals the number of emojis actually created, and each offered emoji is created exactly under the conditions of AddFromCreates |
| Emojis.NoDuplicateCreated | src/commands/utility/emoji.rs:110-131 | two offered emojis with one name are never both created (with lines 57-61 of the same file) |
| Emojis.FirstAnswer | src/commands/utility/emoji.rs:100-103 | only a press whose id starts with the invocation id is taken |
| Emojis.Prompt | src/commands/utility/emoji.rs:77-95 | one embed per offered emoji, titled with its name and showing its url as thumbnail |
| Emojis.ExtractAndUpload | src/commands/utility/emoji.rs:71-141 | a timeout answers "No reaction, timeout :(", another press answers "Cancelled", and neither creates anything; Add runs the Add branch over the offered emojis, creating and replying what it does, and answers "Added n emojis." with n the number created; the final message shows the answer, keeps one embed per emoji and has no buttons |
| Emojis.CopyReactions | src/commands/utility/emoji.rs:209-227 | the command fails exactly when a custom reaction has no name; otherwise each reaction is either an emoji to copy or a "... is a builtin emoji" notice |
| Emojis.CopyReactionsAppend | src/commands/utility/emoji.rs:211-225 | reactions are read in order: those of `a + b` give the emojis and notices of `a` followed by those of `b`, and fail exactly when either part fails |
| Emojis.CopyReactionsCons | src/commands/utility/emoji.rs:212-222 | a custom reaction in front adds its emoji in front, a Unicode one adds its notice in front, and a custom one without a name fails |
| Emojis.Upload | src/commands/utility/emoji.rs:237-256 | an attachment without an image content type is refused with "Not an image" and nothing else happens; a failed download is the error; otherwise it is exactly `add_emoji` |
| LegacyEmojis.AddEmoji | src/commands/emoji.rs:48-111 | an emoji is created exactly when the guild is known, the name is new, the download succeeded and creation succeeded; the refusals reply and return Ok; a created emoji is announced with its markup |
| LegacyEmojis.AddFrom | src/commands/emoji.rs:157-175 | no more emojis are created than offered and none was already in the guild; a failed send of the next emoji stops the batch there with nothing more created; a batch that runs to the end saw every send succeed |
| LegacyEmojis.AllCreated | src/commands/emoji.rs:157-176 | when every send, download and creation succeeds and the names are new and distinct, the batch runs to the end and creates every offered emoji, so only then does the count match |
| LegacyEmojis.ExtractAndUpload | src/commands/emoji.rs:113-184 | a timeout answers "No reaction, timeout :(" and another press "Cancelled", both creating nothing; Add creates and replies what the batch does, answers "Added n emojis." with n the number offered when the batch runs to the end and gives no answer otherwise; a failed send returns Ok and a creation error is the command's error, both with the buttons still shown |
| LegacyEmojis.CountOverstates | src/commands/emoji.rs:118-176 | one offered emoji whose name the guild already has is not created, yet the answer says one was added |
| LegacyEmojis.NewerCountsCreated | src/commands/utility/emoji.rs:76-133 | on the same input the newer generation answers that none was added |
| LegacyEmojis.Upload | src/commands/emoji.rs:292-307 | an attachment without an image content type is refused with a reply and nothing is created; an image is handed to `add_emoji`, so an emoji is created exactly when the guild is known, the name is new, the download worked and the creation succeeded, and the reply then names the new emoji |
| MensaPlan.ParseCruisineLetters | src/commands/mensaplan.rs:260-283 | fewer than two or more than three bytes fail with "Bad position format, 2-3 characters"; an accepted seat is within A-J and 1-10 |
| MensaPlan.ParseIff | src/commands/mensaplan.rs:260-283 | a position is accepted as (letter, number) exactly when it has two or three bytes, the seat is in bounds, and the text spells it letter first or number last, in either case |
| MensaPlan.ParsedStartsWithNoLetter | src/commands/mensaplan.rs:267-271 | a number the `u8` parser accepts never starts with a letter, so the letter-first branch cannot take a number |
| MensaPlan.LetterFirstParses | src/commands/mensaplan.rs:290-301 | every in-bounds seat written letter first parses to itself |
| MensaPlan.NumberFirstParses | src/commands/mensaplan.rs:290-301 | every in-bounds seat written number first parses to itself |
| MensaPlan.LowerCaseParses | src/commands/mensaplan.rs:265 | a lower-case letter is read as its upper-case form |
| MensaPlan.RejectedExamples | src/commands/mensaplan.rs:303-309 | "A11" and "K5" are out of bounds, "A" has a bad length and "10" has no letter |
| MensaPlan.Expiry | src/commands/mensaplan.rs:90-93 | one hour when no duration is given; a given duration is capped at one day; an unparsable duration aborts |
| MensaPlan.Add | src/commands/mensaplan.rs:160-173 | the request is accepted exactly when both the position and the expiry parse; a bad position is its parse error and a bad expiry its error; an accepted request carries the grid indices counted from `A` and from 1 (up to 9), the expiry in whole minutes of at most one day, and is public only when asked to be (with lines 89-93 of the same file) |
| MensaPlan.AddSendsSeat | src/commands/mensaplan.rs:160-173 | a letter from A to J and a number from 1 to 10, with a valid expiry, are sent as the zero-based seat (letter minus `A`, number minus 1) with the expiry in minutes |
| Cruisine.ParsePosition | src/commands/cruisine.rs:52-67 | fewer than two or more than three bytes fail with the length error; an accepted seat has zero-based indices up to 9 |
| Cruisine.AcceptsFewer | src/commands/cruisine.rs:52-67 | every seat the older parser accepts the newer parser accepts as the same seat |
| Cruisine.NumberFirstRejected | src/commands/cruisine.rs:56-67 | "5A" is refused by the older parser but read as A5 by the newer one |
| Cruisine.Prune | src/commands/cruisine.rs:117 | exactly the positions not yet expired remain, unchanged |
| Cruisine.Tiles | src/commands/cruisine.rs:120-130 | a tile is listed exactly when some user sits on it, and its users are exactly those sitting there |
| Cruisine.OneTilePerUser | src/commands/cruisine.rs:120-130 | a user appears on exactly one tile |
| Cruisine.TilesDisjoint | src/commands/cruisine.rs:142-146 | distinct tiles are drawn into disjoint squares of side 53 pixels |
| Cruisine.ShowPlan | src/commands/cruisine.rs:109-152 | exactly the unexpired positions remain; cached avatars stay and only unexpired users are added to the cache; on success every unexpired user has a cached avatar, every drawn user has an unexpired position, and every unexpired position is drawn on its tile |
| Cruisine.LoadAll | src/commands/cruisine.rs:137-157 | cached avatars are kept unchanged and only the requested users are added; success means every requested user is cached and was looked up; when all are cached and resolvable nothing is loaded |
| Cruisine.ShowPlanAgain | src/commands/cruisine.rs:109-152 | showing the plan again at the same time after a successful showing gives the same state and tiles, whatever a download would return |
| Cruisine.Duration | src/commands/cruisine.rs:69-72 | without a given duration a seat lasts one hour; a given one is its parse result, failure included |
| Cruisine.StoreAndShow | src/commands/cruisine.rs:90-99 | the user's seat is stored, no other user's seat changes, and a successful plan shows the user on the seat's tile |
| Cruisine.Add | src/commands/cruisine.rs:44-101 | a bad position is its error and changes nothing; a bad duration is its error and changes nothing; a zero duration removes the user's position and cached avatar, keeps every other user's seat and replies that the seat was deleted; otherwise the seat, expiring after the duration (one hour by default), is stored, no other user's seat changes, and a successful plan shows the user on that tile |
| Cruisine.AddThenLeave | src/commands/cruisine.rs:69-100 | a user who took a seat and later adds with a zero duration is no longer on the plan, and the plan keeps every other seat that was current when the user sat down |
| Meme.SplitN | src/commands/meme.rs:57 | `splitn` gives between one and n parts |
| Meme.SplitNJoin | src/commands/meme.rs:57 | joining the parts with single spaces gives the input back |
| Meme.ParseChannels | src/commands/meme.rs:57-61 | the parts parse exactly when each is a `u8`, and then each value is that part's number, in order |
| Meme.ParseColor | src/commands/meme.rs:53-65 | text without a match of `\d+ \d+ \d+` fails with "Invalid color format: need 3 colors"; an accepted colour is opaque with channels up to 255 |
| Meme.MatchSplitsInThree | src/commands/meme.rs:57-64 | a matching text always splits into exactly three parts, so the four-byte colour always exists |
| Meme.Colour | src/commands/meme.rs:33 | no colour gives white; a given colour is parsed |
| Meme.ParseColorRoundTrip | src/commands/meme.rs:53-65 | three bytes written as "R G B" read back as that opaque colour |
| Meme.ExtraPartRejected | src/commands/meme.rs:57-61 | any text with a fourth space-separated part is refused (so "1 2 3 4" is), since the split keeps the rest in the third part, which is then not a byte |
| Meme.ParseColorErr | src/commands/meme.rs:59-61 | a part that is not a `u8` makes the colour fail |
| HashableRegexes.HashAgreesWithEq | src/hashable_regex.rs:27-37 | equal patterns hash equally under every hasher |
| HashableRegexes.EqualIffDisplay | src/hashable_regex.rs:13-37 | two patterns are equal exactly when they display the same text |
| HashableRegexes.Deserialize | src/hashable_regex.rs:41-50 | a keyword deserialises exactly when `\b{keyword}\b` compiles, and the result displays as that pattern |
| HashableRegexes.DeserializeInjective | src/hashable_regex.rs:41-50 | two keywords deserialise to equal patterns only when they are the same keyword |
| Modules.Discriminant | src/commands/modules.rs:9-22 | each module is stored as its declaration position, 0 to 5 |
| Modules.FromI32 | src/commands/modules.rs:24-36 | 0 to 5 name a module and every other value panics with "Invalid module value" |
| Modules.FromDiscriminant | src/commands/modules.rs:24-68 | storing a module and reading it back gives the same module |
| Modules.DiscriminantOfFrom | src/commands/modules.rs:24-36 | every stored value the reader accepts is the value of the module it reads |
| Modules.CommandsOf | src/commands/modules.rs:131-155 | every module contributes at least one command |
| Modules.ActiveCommands | src/commands/modules.rs:128-158 | a command is active exactly when one of the given modules contributes it |
| Modules.ActiveCommandsAppend | src/commands/modules.rs:128-158 | the command list of two module lists is the concatenation of their lists |
| Modules.AllCommands | src/commands/modules.rs:114-126 | all commands end with the two management commands `modules` and `register_commands` |
| Modules.ActiveWithinAll | src/commands/modules.rs:114-158 | every command a guild can enable is among all commands |
| Modules.ActiveModules | src/commands/modules.rs:100-112 | reading succeeds exactly when every stored value of the guild is between 0 and 5, and otherwise fails with "Invalid module value"; a module is active exactly when one of the guild's rows stores its value |
| Modules.ActiveModulesAppend | src/commands/modules.rs:100-112 | the modules read from two tables in turn are those of the first followed by those of the second, in table order, and the read fails exactly when either part fails |
| Modules.Enable | src/commands/modules.rs:65-71 | enabling appends exactly the (guild, module) row |
| Modules.Disable | src/commands/modules.rs:85-91 | disabling removes exactly the rows of that guild and module |
| Modules.DisableUndoesEnable | src/commands/modules.rs:65-91 | enabling a module that was not enabled and disabling it again leaves the table as it was |
| Modules.EnableDisableEffect | src/commands/modules.rs:60-98 | after enabling, the guild's modules are the earlier ones followed by the new one; after disabling, the module is not active; another guild's modules are unaffected |
| Modules.Toggle | src/commands/modules.rs:60-98 | the table changes as enabling or disabling says, the guild is registered with exactly the commands of its active modules, the reply is "Module {name} enabled" or "... disabled", and it fails exactly when reading the modules back fails |
| Modules.List | src/commands/modules.rs:48-58 | the reply is "Active modules: " followed by the active modules' names joined by ", ", and fails exactly when reading the modules fails |
| Modules.Names | src/commands/modules.rs:54 | one name per active module, in order |
| Bets.Rows | src/commands/bets.rs:357-361 | the rows are exactly the bet's participants with their watching flags |
| Bets.RowsOrdered | src/commands/bets.rs:359 | participants come before watchers, and within each group user ids ascend (with line 208 of the same file) |
| Bets.ParticipantsOf | src/commands/bets.rs:206-213 | one row per listed user, holding that user's watching flag |
| Bets.UsersWith | src/commands/bets.rs:311-322 | exactly the users whose flag is the one asked for |
| Platform.Mentions | src/commands/bets.rs:311-322 | one `<@id>` mention per user, in order (also the birthday congratulation's list) |
| Bets.BuildBetEmbed | src/commands/bets.rs:305-344 | the title is "Bet #{id}" and the description the bet's; the fields are Expires as a relative timestamp, then Participants (their mentions, or "No one yet"), then Watching only when someone watches |
| Bets.GetBet | src/commands/bets.rs:284-303 | with an id, that bet or "Bet not found"; without one, the channel's newest bet by creation time or "No active bets found in this channel" |
| Bets.Create | src/commands/bets.rs:23-95 | a bad end time fails with nothing stored; on success the bet is stored with its description, the author joins it as a participant, the announcement's id is recorded, and nothing else in the tables changes |
| Bets.UpdateBetMessage | src/commands/bets.rs:346-377 | the announcement is edited in place to the embed of the bet's current participants |
| Bets.Join | src/commands/bets.rs:97-146 | a missing bet is the lookup error; a user who has already joined is refused and nothing changes; otherwise the user's row becomes a participant row, turning a watcher into a participant |
| Bets.Watch | src/commands/bets.rs:148-190 | a missing bet is the lookup error; watching is refused exactly when the user already has a row; otherwise a watching row is added (another insert failure is ignored), and an ephemeral confirmation is sent |
| Bets.WatchThenJoin | src/commands/bets.rs:110-167 | a watcher may still join; a participant can neither join again nor watch |
| Bets.Status | src/commands/bets.rs:192-231 | the status shows the bet embed's fields plus an "Original Message" jump link to the announcement, and fails exactly when the bet lookup fails |
| Bets.Listed | src/commands/bets.rs:237-243 | at most 25 of the guild's bets, in ascending expiry, and all of them when fewer than 25 exist |
| Bets.ListedFirst | src/commands/bets.rs:238 | a guild bet left out of the list expires no earlier than any listed one |
| Bets.ListFields | src/commands/bets.rs:255-270 | one field per listed bet, in list order, named "ID: {id}" and reading the description followed by "(Ends <relative time>)", not inline |
| Bets.List | src/commands/bets.rs:233-282 | outside a guild the command panics; with no bets it sends the ephemeral "No active bets found on this server."; otherwise a public embed titled "Active Bets" whose fields are those of the listed bets, at most 25 |
| Bets.CommandsKeepValid | src/commands/bets.rs:23-190 | creating, joining and watching keep every participant row attached to an existing bet |
| CheckBets.Delete | src/check_bets.rs:92-94 | deleting a bet removes it and, by cascade, exactly its participant rows |
| CheckBets.Announce | src/check_bets.rs:45-88 | the notice replies to the announcement in its channel, pings every participant and watcher, and lists the participants (or "No participants"), taking the bet's rows as its own query returns them |
| CheckBets.StoredRows | src/check_bets.rs:45-50 | a bet's participant rows are exactly its stored (user, watching) pairs |
| CheckBets.AnnounceAfterDelete | src/check_bets.rs:45-50 | deleting another bet leaves a bet's rows, and so its notice, unchanged |
| CheckBets.UsersWithAny | src/check_bets.rs:76-79 | every row's user, watchers included, in order |
| CheckBets.Process | src/check_bets.rs:40-97 | the sweep succeeds exactly when every notice is sent, sends one notice per fetched bet when it succeeds and no more than that otherwise, each replying to its own bet's message, and never adds or alters a bet |
| CheckBets.ProcessAnnounces | src/check_bets.rs:40-93 | the i-th notice sent is the announcement of the i-th fetched bet, built from that bet's rows before the sweep began, whenever that bet was not fetched earlier |
| CheckBets.ProcessKeepsOthers | src/check_bets.rs:40-97 | a bet the sweep did not fetch stays |
| CheckBets.ProcessDeletesAll | src/check_bets.rs:88-94 | a sweep that completes has deleted every fetched bet |
| CheckBets.ProcessStopsAt | src/check_bets.rs:90 | the first failed send stops the sweep: the bets before it were announced, and the later ones stay |
| CheckBets.ProcessExpired | src/check_bets.rs:24-97 | a bet expiring after now is untouched, a completed sweep leaves only such bets and has sent one notice per expired bet, and the i-th notice announces the i-th expired bet by ascending id |
| CheckBets.ExpiredAnnounced | src/check_bets.rs:26-93 | the expired bets are distinct, so every notice of the sweep is its bet's announcement from the rows as they were before |
| CheckBets.DistinctAnnounced | src/check_bets.rs:40-93 | when no bet is fetched twice, the i-th notice announces the i-th fetched bet from its rows before the sweep |
| CheckBets.ProcessKeepsValid | src/check_bets.rs:40-97 | the sweep keeps participant rows attached to existing bets |
| Reminders.Add | src/commands/utility/reminder.rs:28-57 | an unreadable time aborts with nothing stored; with no time the reminder is due one hour from now; on success exactly one row (channel, confirmation id, author, content, time) is appended and "Reminder set for ..." is replied |
| Reminders.Store | src/commands/utility/reminder.rs:42-54 | the confirmation is always attempted; the row, keyed by the confirmation's id, is stored exactly when sending it succeeded |
| Reminders.InsertByTime | src/commands/utility/reminder.rs:68-75 | inserting keeps the rows sorted by time and adds exactly the one row |
| Reminders.SortByTime | src/commands/utility/reminder.rs:68-75 | `ORDER BY time` gives a permutation of the rows sorted by time |
| Reminders.SortByTimeKeeps | src/commands/utility/reminder.rs:68-75 | sorting keeps the number of rows and exactly the same rows |
| Reminders.OfUser | src/commands/utility/reminder.rs:66-70 | exactly the rows of the given user |
| Reminders.OfUserAppend | src/commands/reminder.rs:66-78 | a user's rows of two tables in turn are that user's rows of the first followed by those of the second, so the listing keeps storage order |
| Reminders.AuthorSuffixShort | src/commands/utility/reminder.rs:82 | the " ~ <@id>" suffix of a 64-bit user id has at most 25 bytes |
| Reminders.Room | src/commands/utility/reminder.rs:79-83 | the room left for the content plus the suffix's bytes is exactly 1024 |
| Reminders.FieldAsWritten | src/commands/utility/reminder.rs:81-89 | the field is named by the reminder's formatted time, and the byte cut panics exactly when it does not fall on a character boundary |
| Reminders.FieldFixed | src/commands/utility/reminder.rs:79-89 | cut at a character boundary, the field never exceeds 1024 bytes and is a prefix of the content followed by the author suffix |
| Reminders.FieldFixedAgrees | src/commands/utility/reminder.rs:81-89 | wherever the written cut does not panic, it shows what the boundary-respecting cut shows |
| Reminders.FieldsAsWritten | src/commands/reminder.rs:88-97 | the fields succeed exactly when every reminder's cut succeeds, one field per reminder in order |
| Reminders.FieldsFixed | src/commands/utility/reminder.rs:81-90 | one boundary-respecting field per reminder, in order |
| Reminders.Selected | src/commands/utility/reminder.rs:63-78 | with a user, the title "Reminders for {name}" and only that user's rows; otherwise "Reminders" and every row |
| Reminders.List | src/commands/utility/reminder.rs:59-93 | the listing fails exactly when some selected reminder's cut splits a character; otherwise it carries the title, and its fields are those of the selected reminders sorted by time, in that order |
| Reminders.ListFixed | src/commands/utility/reminder.rs:59-93 | with the cut on a character boundary the listing never fails, every field fits in 1024 bytes, and the fields are those of the selected reminders sorted by time, in that order |
| Reminders.ListPanicsOnSplitChar | src/commands/utility/reminder.rs:83 | a reminder of 1016 'a's followed by 'é' makes the written listing fail, while the boundary-respecting one shows the 1016 'a's and the suffix |
| Reminders.Remaining | src/commands/utility/reminder.rs:105-119 | exactly the rows that the delete does not match remain |
| Reminders.RemainingCount | src/commands/utility/reminder.rs:105-121 | the rows left and the rows counted as deleted make up the table |
| Reminders.Delete | src/commands/utility/reminder.rs:95-125 | the caller's reminders whose content starts with the message, ignoring case, are removed (everyone's only when an owner asks for all), other users' reminders stay otherwise, and the reply counts the rows removed |
| LegacyReminders.Add | src/commands/reminder.rs:30-61 | an unparsable duration aborts with nothing stored; on success exactly one row is appended, holding the channel, the confirmation's message id, the author and the text, due between now and one year from now and one hour from now when no time is given; the confirmation names that time |
| LegacyReminders.AddListedLast | src/commands/reminder.rs:30-78 | after a successful add, the author's listing is their earlier reminders followed by the new one |
| LegacyReminders.StoreCapped | src/commands/reminder.rs:40-58 | the stored row holds the channel, the confirmation's message id, the author and the text, due now plus the duration capped at one year; it is stored exactly when the confirmation was sent, and the confirmation names the capped time |
| LegacyReminders.List | src/commands/reminder.rs:63-100 | the selected reminders in storage order, failing exactly when some cut splits a character, as in the newer listing |
| CheckReminder.Due | src/check_reminder.rs:28-30 | exactly the rows whose time is (or is not) at or before now |
| CheckReminder.Deliver | src/check_reminder.rs:35-53 | deliveries go out in order, one per due reminder, and the run succeeds exactly when every original message is found and every send succeeds; on failure exactly the reminders before the first failing one were delivered, and a missing original message is "Unknown Message" |
| CheckReminder.SendReminders | src/check_reminder.rs:27-56 | every due reminder is deleted up front, so only reminders due after now stay, even when a delivery fails; each delivery mentions only users |
| CheckReminder.DeliveryText | src/check_reminder.rs:39-51 | each delivery replies to the original message with "Reminder for {content} \| <@user>", allowing no everyone or role mentions |
| Birthdays.Add | src/commands/utility/birthday.rs:18-40 | an unreadable date aborts with nothing stored; otherwise "Added your birthday at ..." is replied first and, only when that reply succeeds, the caller's row is upserted with the guild and date, keeping its last congratulation, and no other row changes |
| Birthdays.Delete | src/commands/utility/birthday.rs:42-56 | exactly the caller's row is removed, whether or not there was one, and "No more congratulations :(" is replied |
| Birthdays.AddThenDelete | src/commands/utility/birthday.rs:18-56 | registering a new user and deleting them leaves the table as it was |
| CheckBirthday.Mark | src/check_birthday.rs:47-49 | exactly the rows whose birthday is today and who were not congratulated today are stamped with today; the others are unchanged |
| CheckBirthday.DueOrder | src/check_birthday.rs:47-51 | the returned users are exactly the due ones |
| CheckBirthday.DueGuilds | src/check_birthday.rs:54-59 | a guild is listed exactly when one of its users is due, and at most once |
| CheckBirthday.UsersIn | src/check_birthday.rs:54-59 | a guild's group is exactly its due users |
| CheckBirthday.Send | src/check_birthday.rs:61-75 | messages go only to guilds with an event channel, in order; the run succeeds exactly when every such send succeeds, and then every such guild was messaged; on failure exactly the guilds before the first failing one were messaged |
| CheckBirthday.Configured | src/check_birthday.rs:72 | exactly the guilds that have an event channel |
| CheckBirthday.Posts | src/check_birthday.rs:61-74 | one post per guild, in order, each the guild's congratulation to its event channel |
| CheckBirthday.Birthday | src/check_birthday.rs:42-78 | the table afterwards is the marked table, every message names a guild's due users, and with nobody due nothing is sent; the run succeeds exactly when every configured guild's send succeeds, and then the posts are exactly one congratulation per configured guild with due users |
| CheckBirthday.EachGuildOnce | src/check_birthday.rs:54-74 | a configured guild with due users gets exactly one post, its congratulation |
| CheckBirthday.CongratulatesDueUsers | src/check_birthday.rs:47-65 | a guild's message names a user exactly when that user is due and registered in that guild |
| CheckBirthday.OncePerDay | src/check_birthday.rs:48 | a second sweep on the same day finds nobody due and sends nothing |
| CheckBirthday.UntilMidnightAsWritten | src/check_birthday.rs:22-27 | the wait, tomorrow's local midnight minus the local time 24 hours on, is non-negative and converts exactly when that midnight is not before the local time now |
| CheckBirthday.UntilMidnight | src/check_birthday.rs:22-27 | the wait until the next local midnight is positive, at most one day, and lands on a midnight |
| CheckBirthday.UntilMidnightAgrees | src/check_birthday.rs:22-27 | while the zone's offset does not change over the next day, the written wait is the wait until the next midnight |
| CheckBirthday.FallBackPanics | src/check_birthday.rs:23-27 | when the offset drops by an hour during the coming day, the written conversion fails while the calendar-day wait is 84600 seconds |
| CheckAccess.ActiveUsers | src/check_access.rs:45-55 | a user of the guild is active exactly when their last activity is at most the configured number of days ago |
| CheckAccess.FirstHeld | src/check_access.rs:66-73 | the rung found is the first the member holds among all but the lowest, and none is found exactly when the member holds none of them |
| CheckAccess.FirstHeldFrom | src/check_access.rs:67-73 | searching from a rung finds the first held one at or after it, or none exactly when no rung but the lowest is held |
| CheckAccess.Touch | src/check_access.rs:79 | the member's activity row afterwards exists with last activity now, keeps its message count if it existed, and no other row changes |
| CheckAccess.Demote | src/check_access.rs:66-87 | a member holding no rung but the lowest is left alone; otherwise their row is touched, they gain the next lower rung and lose the held one, in that order, and the count grows by one |
| CheckAccess.Members | src/check_access.rs:59-94 | each member is demoted at most once, with two role changes per demotion appended after the earlier effects; a failed member fetch ends the loop with nothing changed |
| CheckAccess.Reached | src/check_access.rs:59-91 | the loop reaches exactly the members before the first failed fetch |
| CheckAccess.DemotedFrom | src/check_access.rs:60-87 | a reached member is demoted exactly when they are not active and hold a rung above the lowest, listed once each in member order |
| CheckAccess.MembersDemote | src/check_access.rs:59-94 | the loop counts exactly the demotable reached members and, for each in member order, adds the next lower rung and then removes the first rung held |
| CheckAccess.GuildDemotes | src/check_access.rs:40-99 | a guild with at least two rungs demotes exactly its reached members who are inactive and hold a rung above the lowest, in member order: the next lower rung added, then the held rung removed; the count is their number, and the log follows only when it is not zero |
| CheckAccess.Guild | src/check_access.rs:40-99 | a guild with fewer than two rungs is skipped with nothing changed; the log "{n} users were demoted for being inactive" comes last and only when someone was demoted |
| CheckAccess.Sweep | src/check_access.rs:33-103 | the sweep never removes an activity row, and its effects are every configured guild's own pass against the table as it was before the sweep, one guild after another |
| CheckAccess.SweepGuilds | src/check_access.rs:40-100 | passing over the configured guilds never removes an activity row |
| CheckAccess.SweepGuildsEffects | src/check_access.rs:40-100 | over distinct guilds, the effects are the concatenation of each guild's pass against the starting table, because a pass touches only its own guild's rows |
| CheckAccess.GuildSameRows | src/check_access.rs:44-99 | a guild's pass depends only on that guild's activity rows |
| CheckAccess.GuildOtherRows | src/check_access.rs:79 | a guild's pass leaves every other guild's rows as they were |
| CheckAccess.MembersOtherRows | src/check_access.rs:79 | the member loop writes only rows of its own guild |
| CheckAccess.MembersIgnoreTable | src/check_access.rs:59-94 | what the member loop changes and counts does not depend on the activity table it writes to |
| CheckAccess.ActiveSameRows | src/check_access.rs:45-55 | the active users of a guild depend only on that guild's rows |
| CheckAccess.MembersNoLog | src/check_access.rs:59-94 | the member loop itself writes no log |
| CheckAccess.MembersKeepRows | src/check_access.rs:59-94 | the member loop never removes an activity row |
| CheckAccess.GuildKeepsRows | src/check_access.rs:40-99 | one guild's pass never removes an activity row |
| CheckAccess.OnlyInactiveDemoted | src/check_access.rs:60-87 | every role change the loop makes belongs to a listed member who is not active |
| CheckAccess.ActiveNeverDemoted | src/check_access.rs:63-65 | no role change of a guild names an active user |
| EmojiUsage.Track | src/commands/utility/emoji_usage.rs:33-51 | outside a guild nothing is counted; an emoji id failure is the error; otherwise the (guild, emoji) count grows by one when the store succeeds, a store failure is only logged, and every other count stays |
| EmojiUsage.TrackKeepsUnique | src/commands/utility/emoji_usage.rs:39-44 | tracking keeps one row per (guild, emoji) |
| EmojiUsage.GuildRows | src/commands/utility/emoji_usage.rs:13-17 | exactly the guild's rows, by count descending |
| EmojiUsage.Lines | src/commands/utility/emoji_usage.rs:25-28 | one "{emoji} {count}" line per row in order, failing exactly when some emoji cannot be rendered |
| EmojiUsage.List | src/commands/utility/emoji_usage.rs:8-31 | a guild without rows gets "No emoji usage recorded yet."; otherwise the listing fails exactly when some emoji of the guild cannot be rendered, and the pages are the header "**Emoji \| Usage Count**" followed, row by row in the guild's order, by "{emoji} {count}" |
| EmojiUsage.NoRowsNotice | src/commands/utility/emoji_usage.rs:20-23 | a guild with no recorded reaction gets the notice |
| EmojiUsage.ListAfterFirstTrack | src/commands/utility/emoji_usage.rs:8-51 | after a guild's first tracked reaction the listing is the header and that emoji with count 1 |
| Exclude.Toggle | src/commands/owner.rs:3-35 | a channel not yet excluded is added with the reply "Excluded {name}"; an excluded one is removed with "{name} is no longer excluded"; no other channel changes |
| Exclude.ToggleTwice | src/commands/owner.rs:12-33 | each run flips the channel's membership, and two runs restore the set |
| History.Older | src/commands/utility/clear.rs:33-36 | exactly the messages older than the `before` message (all without one), keeping newest-first order |
| History.Fetch | src/commands/utility/clear.rs:37-40 | at most `amount` messages: the newest ones older than `before` |
| History.FetchTakesNewest | src/commands/utility/clear.rs:37-40 | a message the fetch skipped is older than every message it got |
| History.Without | src/commands/utility/clear.rs:42 | exactly the messages that were not deleted remain |
| Clear.IsMod | src/commands/utility/clear.rs:19-22 | no member is not a moderator; a member without computed permissions makes `unwrap` panic; otherwise the manage_messages bit decides |
| Clear.Clear | src/commands/utility/clear.rs:14-50 | a member without computed permissions (a prefix invocation) panics before the owner test, whoever the author is; otherwise a caller who neither manages messages nor owns the bot is refused; an amount outside 2-100 (default 2) is refused; otherwise the fetched messages are deleted and "Deleted {n} messages." counts them, or "Error deleting messages" is the error when the bulk delete fails |
| Clear.ClearRemovesNewest | src/commands/utility/clear.rs:33-46 | a successful clear removes only messages older than `before`, and every older message it keeps is older than each one it removed |
| LegacyClear.Clear | src/commands/moderation.rs:15-51 | an amount outside 2-100 replies the range notice and fetches nothing; fewer than two fetched messages reply the same notice and delete nothing; otherwise the fetched messages are deleted and counted, or "Error deleting messages" is replied |
| LegacyClear.GenerationsAgree | src/commands/moderation.rs:20-48 | for a moderator and at least two fetched messages both generations delete the same messages and reply alike; with fewer the older one deletes nothing |
| LinkFix.PairOf | src/commands/utility/actions.rs:18-21 | a query piece splits at its first '=', so the key holds no '=' |
| LinkFix.PairsOf | src/commands/utility/actions.rs:18-19 | one pair per piece, in order |
| LinkFix.Renders | src/commands/utility/actions.rs:21 | one "k=v" text per pair, in order |
| LinkFix.Without | src/commands/utility/actions.rs:20 | exactly the pairs whose decoded key is not the tracking key survive |
| LinkFix.WithoutSubsequence | src/commands/utility/actions.rs:20-22 | the surviving pairs keep their order |
| LinkFix.SiteOf | src/commands/utility/actions.rs:12-15 | a leading "www." is removed for the lookup, and only then |
| LinkFix.SetHost | src/commands/utility/actions.rs:25-27 | the command fails exactly when the fix names a host and the URL refuses it; otherwise the named host replaces the old one |
| LinkFix.ApplyAsWritten | src/commands/utility/actions.rs:11-32 | a URL without host or matching fix is unchanged; with a fix, the decoded pairs without the tracking key are written as "k=v" joined by "&" and passed through `set_query`'s encoding, the host is replaced when the fix names one, the rest is kept, and the command fails exactly when the new host is refused |
| LinkFix.Apply | src/commands/utility/actions.rs:11-32 | corrected rewrite: as above, but the surviving pairs are serialized again, so the query is their form encoding |
| LinkFix.SerializedSafe | src/commands/utility/actions.rs:23 | `set_query` leaves a serialized query unchanged |
| LinkFix.QueryRoundTrip | src/commands/utility/actions.rs:18-23 | serialized pairs read back as the same pairs, whatever characters their keys and values hold |
| LinkFix.ApplyIdempotent | src/commands/utility/actions.rs:17-24 | with the corrected rewrite, a fix that only drops the tracking key is idempotent for every query |
| LinkFix.AsWrittenAgrees | src/commands/utility/actions.rs:18-23 | when every key and value is made of letters, digits and `*-._`, the written and corrected rewrites give the same result |
| LinkFixExamples.AsWrittenLosesEscapes | src/commands/utility/actions.rs:18-23 | for any plain keys k and t, the query `k=%26&t=v` is written back as `k=&`, which reads as an empty value, while the corrected rewrite writes `k=%26` |
| LinkFixExamples.AsWrittenNotIdempotent | src/commands/utility/actions.rs:18-23 | `k=%2526&t=v` is written back as `k=%26`, and fixing that link again gives `k=&` |
| UrlQuery.DecodeSerialize | src/commands/utility/actions.rs:18-23 | form-decoding a serialized name or value gives it back for every string, and the serialized text is made of letters, digits and `*-._+%` only |
| UrlQuery.SerializeVerbatim | src/commands/utility/actions.rs:18-23 | text made of letters, digits and `*-._` is serialized as it is |
| UrlQuery.EncodeQuerySafe | src/commands/utility/actions.rs:23 | `set_query` keeps a query whose characters are printable ASCII other than space, '"', '#', '<', '>' and '\'' |
| Utf8.DecodeLossyEncode | src/commands/utility/actions.rs:19 | reading the UTF-8 bytes of any string lossily gives the string back |
| EmojiCache.Flatten | src/commands/utility/actions.rs:41-44 | the guilds' emojis, concatenated |
| EmojiCache.Load | src/commands/utility/actions.rs:36-49 | the cache becomes the application's emojis followed by each guild's in order; any failed fetch leaves it as it was |
| EmojiCache.Matching | src/commands/utility/actions.rs:71 | exactly the available cached emojis whose name contains the partial text |
| EmojiCache.Displays | src/commands/utility/actions.rs:73 | each emoji displayed as its markup, in order |
| EmojiCache.Autocomplete | src/commands/utility/actions.rs:67-75 | the first up to 25 matching emojis: the i-th suggestion is the markup of the i-th available cached emoji, in cache order, whose name contains the partial text |
| EmojiCache.MatchingAppend | src/commands/utility/actions.rs:69-71 | the filter keeps cache order: the matches of `a + b` are those of `a` followed by those of `b` |
| EmojiCache.PrefixedAppend | src/commands/utility/actions.rs:57-62 | the choices keep the suggestions' order: those of `a + b` are those of `a` followed by those of `b` |
| EmojiCache.LastColon | src/commands/utility/actions.rs:52 | the position of the last ':' in the text, or none without one |
| EmojiCache.InText | src/commands/utility/actions.rs:51-65 | nothing without a ':' or with nothing after the last one; otherwise exactly the suggestions for the text after it, prefixed with the text before it, of at most 100 bytes |
| EmojiCache.OneCharSuffices | src/commands/utility/actions.rs:53-57 | one character after the ':' already gives suggestions, although the comment asks for two |
| PercentEncoding.EncodeByte | src/commands/mensa.rs:180-183 | an ASCII letter or digit stays itself; every other byte becomes '%' and two hex digits |
| PercentEncoding.Encode | src/commands/mensa.rs:180-183 | the encoding is at least as long as the bytes and holds only ASCII letters, digits and '%' |
| PercentEncoding.DecodeEncode | src/commands/mensa.rs:180-183 | decoding the encoding gives the bytes back |
| Mensa.SkipWeekend | src/commands/mensa.rs:282-284 | the first day from the given one that is not a Saturday or Sunday, every day skipped being a weekend day |
| Mensa.NextWeekDay | src/commands/mensa.rs:277-286 | the chosen day is a weekday at most three days ahead; before 20:00 on a weekday it is today; from 20:00 on it is later than today; every day passed over after the switch is a weekend day |
| Mensa.StripSeparators | src/commands/mensa.rs:221 | the text without spaces and hyphens, keeping only its own characters |
| Mensa.StripAppend | src/commands/mensa.rs:221 | removing separators distributes over concatenation |
| Mensa.Normalize | src/commands/mensa.rs:220-222 | a normalised name has no spaces, hyphens or upper-case ASCII letters |
| Mensa.Autocomplete | src/commands/mensa.rs:224-235 | a failed canteen fetch suggests nothing; otherwise exactly the names whose normalised form contains the normalised partial text |
| Mensa.AutocompleteAppend | src/commands/mensa.rs:224-235 | the suggestions for a list are those for its first part followed by those for its second, so they keep list order and a name is offered once per matching canteen |
| Mensa.Names | src/commands/mensa.rs:227-231 | exactly the canteen names whose normalised form contains the key |
| Mensa.NamesAppend | src/commands/mensa.rs:227-231 | the names for a concatenated list are those for the first part followed by those for the second |
| Mensa.NamesOne | src/commands/mensa.rs:227-231 | one canteen gives its name once when its normalised name contains the key, and nothing otherwise |
| Mensa.Find | src/commands/mensa.rs:243-247 | the first canteen whose normalised name contains the key, or none when no name does |
| Mensa.SearchKey | src/commands/mensa.rs:240-242 | the corrected key, with the default normalised like a given name, holds no spaces or hyphens |
| Mensa.DefaultKeyAbsent | src/commands/mensa.rs:240-247 | no normalised name contains the literal "Mensa Garching", because normalising removes its space |
| Mensa.GetMenuAsWritten | src/commands/mensa.rs:237-275 | without a canteen name, the written lookup always fails with "Canteen not found" |
| Mensa.DefaultNeverFound | src/commands/mensa.rs:240-247 | even when "Mensa Garching" is listed, the written default is not found, while the corrected lookup finds a canteen |
| Mensa.GetMenu | src/commands/mensa.rs:237-275 | corrected lookup: a failed canteen fetch is passed on; no matching canteen fails with "Canteen not found"; a success is the first matching canteen and the parsed menu of an answer without error status; a 404 fails with "No menu found, maybe the mensa is closed?" and other error statuses with "Menu fetching failed" |
| Mensa.DefaultFindsGarching | src/commands/mensa.rs:240-247 | with the default normalised, a listed "Mensa Garching" is found, or an earlier canteen whose name contains it |
| Mensa.SameWeekSameUrl | src/commands/mensa.rs:249-258 | with the ISO year, every day of a Monday-to-Sunday week asks for the same menu address |
| Mensa.UrlsAgreeInsideYear | src/commands/mensa.rs:249-258 | the written and corrected addresses agree whenever the calendar year is the ISO year |
| Mensa.YearEndMismatch | src/commands/mensa.rs:256-257 | Monday 2024-12-30 and Friday 2025-01-03 share an ISO week and so one corrected address, yet the written addresses differ |
| Mensa.YearEndUrls | src/commands/mensa.rs:252-258 | the written address of 2024-12-30 names year 2024 and that of 2025-01-03 year 2025, both with week 01 |
| Mensa.LinkLocation | src/commands/mensa.rs:176-185 | the link is the maps search address followed by the canteen's address percent-encoded, which decodes back to the address |
| Mensa.CanteenFields | src/commands/mensa.rs:87-95 | one field per canteen, in order |
| Mensa.Chunks | src/commands/mensa.rs:81-84 | the pieces number the ceiling of length over 25, and none is empty or longer than 25 |
| Mensa.ChunksFlatten | src/commands/mensa.rs:81-84 | the pieces put back together are the list |
| Mensa.ListEmbeds | src/commands/mensa.rs:85-97 | one embed per piece, in order |
| Mensa.List | src/commands/mensa.rs:75-100 | a failed fetch is passed on; otherwise one embed per 25 canteens, each titled "List of all canteens" and holding between 1 and 25 fields |
| Mensa.ListShowsAll | src/commands/mensa.rs:75-100 | the listing shows every canteen exactly once, in list order |
| Mensa.LabelEmojis | src/commands/mensa.rs:166-170 | the emojis of the labels the table knows, in label order, all of them when every label is known |
| Mensa.DishFields | src/commands/mensa.rs:165-172 | one field per dish, in order |
| Mensa.MenuEmbed | src/commands/mensa.rs:159-174 | the embed is titled with the day's date and has one field per dish |
| Mensa.MenuEmbeds | src/commands/mensa.rs:147-149 | one embed per day, in order |
| Mensa.DayWithDate | src/commands/mensa.rs:113-116 | the first day of the menu with the given date, or none when no day has it |
| Mensa.NextReply | src/commands/mensa.rs:111-130 | a failed lookup is passed on; a menu without the chosen date replies "No menu available for today." and nothing else; otherwise it succeeds exactly when the labels can be read, fails with their error if not, and sends one embed titled with that date and the content "The menu in " and the canteen link |
| Mensa.NextShowsChosenDay | src/commands/mensa.rs:111-129 | when the week's menu has the chosen day, the reply is "The menu in [name](link)" with that day's dishes |
| Mensa.Next | src/commands/mensa.rs:104-132 | built on the written lookup: without a canteen name the command fails with "Canteen not found"; any success needs the written lookup to succeed, and its embed is titled with the chosen weekday's date |
| Mensa.NextFixed | src/commands/mensa.rs:104-132 | built on the corrected lookup: any success needs that lookup to succeed, and its embed is titled with the chosen weekday's date |
| Mensa.WeekReply | src/commands/mensa.rs:143-155 | the reply succeeds exactly when the menu and the labels load, reads "This week's menu in [name](link)", and has one embed per day titled with its date, in order |
| Mensa.Week | src/commands/mensa.rs:136-157 | built on the written lookup: succeeds exactly when that lookup and the labels succeed; without a canteen name it fails with "Canteen not found" |
| Mensa.WeekFixed | src/commands/mensa.rs:136-157 | built on the corrected lookup: succeeds exactly when that lookup and the labels succeed, and then shows one embed per day of the found menu |
| Mensa.AsWrittenAgreesWhenFound | src/commands/mensa.rs:237-275 | with a canteen name given and a day whose calendar year is its ISO year, the written and corrected lookups give the same result |
| Sql.Attempts | src/commands/owner/sql.rs:7-70 | the cell is tried as eleven types in a fixed order |
| Sql.FirstOr | src/commands/owner/sql.rs:11-71 | the first attempt that yields text is shown, and " - " when none does |
| Sql.CellTextShown | src/commands/owner/sql.rs:7-72 | each value type is accepted by exactly one attempt, so every cell is shown as its own type shows it (null as " - ", bytes as "BLOB(n bytes)") |
| Sql.Cells | src/commands/owner/sql.rs:106-108 | one text per column, in order |
| Sql.JoinedRows | src/commands/owner/sql.rs:105-111 | each row's texts joined by tabs |
| Sql.RowLinesTerminated | src/commands/owner/sql.rs:105-111 | every row line is followed by a line feed |
| Sql.JoinNoNewline | src/commands/owner/sql.rs:103-109 | a joined line holds no line feed when its fields hold none |
| Sql.TableRoundTrip | src/commands/owner/sql.rs:100-111 | splitting the table at line feeds and tabs gives back the headers and each row's cells, when no field holds a tab or line feed |
| Sql.SqlAsWritten | src/commands/owner/sql.rs:76-127 | a failed query is the error; no rows give "SQL Result" with "No rows returned."; a table of at most 4096 bytes is shown fenced under "Query Result"; a longer one is sent as "result.tsv" with "{n} rows returned"; the reply is ephemeral unless asked otherwise |
| Sql.Sql | src/commands/owner/sql.rs:113-123 | with the switch deciding on the fenced description, an embedded result never exceeds the 4096-character description limit, a table whose fenced form fits is still embedded, and a longer one is sent as "result.tsv" with "{n} rows returned" |
| Sql.OverlongDescription | src/commands/owner/sql.rs:113-117 | a one-column result whose table is exactly 4096 bytes is embedded as written with a 4103-character description, while the corrected switch sends it as a file |
| Events.DateTimeOf | src/commands/events.rs:20 | the hour, minute and second of an instant lie in their ranges |
| Events.Pad2Reads | src/commands/events.rs:20 | a number below 100 is written as two digits that read back as it |
| Events.DatePartRoundTrip | src/commands/events.rs:20 | the `%Y%m%d` part of a date in the years 0 to 9999 is eight digits that read back as its day |
| Events.TimePartRoundTrip | src/commands/events.rs:20 | the `%H%M%S` part reads back as the seconds into the day |
| Events.IcsTimeRoundTrip | src/commands/events.rs:20-51 | an instant in the years 0 to 9999 formatted with `%Y%m%dT%H%M%SZ` reads back as that instant |
| Events.IcsTimeInjective | src/commands/events.rs:20 | within those years, different instants give different timestamps |
| Events.EndOf | src/commands/events.rs:47-53 | the event's end time, or one hour after its start when it has none |
| Events.Optional | src/commands/events.rs:36-43 | an absent value adds no property, a present one adds exactly its property |
| Events.ToIcs | src/commands/events.rs:30-53 | the event's properties are UID (its id), DTSTAMP (now), SUMMARY (its name), then the optional DESCRIPTION and LOCATION, then DTSTART and DTEND last |
| Events.Lookup | src/commands/events.rs:30-53 | a found value belongs to a property of that name in the event; none is found only when no property has the name |
| Events.AssembleReadsBack | src/commands/events.rs:30-53 | every property put into an event reads back as the value given, and an absent optional one reads back as absent |
| Events.ToIcsReadsBack | src/commands/events.rs:30-53 | an exported event reads back its id, name, description, location, start and end (one hour after the start by default) |
| Events.Export | src/commands/events.rs:17-56 | a version "2.0" calendar of product "ics-rs" with one event per scheduled event, in the order listed |
| Events.ExportUidsDistinct | src/commands/events.rs:30-33 | events with different ids get different UIDs |
| Events.EndTime | src/commands/events.rs:83-88 | the end is read relative to the start when given, and is one hour after the start otherwise |
| Events.CreateEvent | src/commands/events.rs:67-120 | an unreadable start or end aborts with no platform call; the command succeeds exactly when the times are read and the event is created; creation comes first; without an event channel the author is told to configure one; with one, the announcement "[name](link) mit <@author>", a thread and the author's membership follow, then "Done✅" |
| Events.CreatedWithoutEndExports | src/commands/events.rs:47-96 | an event created without an end is exported ending one hour after its start, at the location it was given |
| Avatars.AvatarUrl | src/commands/utils.rs:28-50 | a failed member lookup in a guild is the error; otherwise the member's guild avatar comes first, then the user's avatar, then the default one, each asked for at size 256 |
| Avatars.LoadAvatar | src/commands/utils.rs:8-26 | a cached avatar is returned with no download; otherwise the avatar's address is downloaded, a failed download gives "Downloading avatar failed", and only a decoded image enters the cache under the user's id |
| Avatars.LoadTwice | src/commands/utils.rs:8-26 | once an avatar has loaded, loading it again makes no request and gives the same image |
| Avatars.LoadKeepsOthers | src/commands/utils.rs:8-26 | loading one user's avatar leaves every other cache entry as it was |
| CounterTable.Upsert | src/handler.rs:134 | the insert-or-increment counter: the key's count grows by exactly one, a new key gets a row of count 1, and every other key's count is unchanged |
| CounterTable.UpsertUnique | src/commands/utility/emoji_usage.rs:39-44 | the conflict target stays a unique key: at most one row per key after the upsert |
| CounterTable.UpsertSumWhere | src/handler.rs:134 | any total over a set of keys grows by one exactly when the set holds the counted key |
| CounterTable.UpsertAllCounts | src/handler.rs:128-134 | counting a sequence of keys in turn raises each key's count by the number of times it occurs in the sequence |
| Calendar.CivilRoundTrip | src/commands/mensa.rs:116 | the civil date of a day number gives that day number back |
| Calendar.DateRoundTrip | src/commands/mensa.rs:116 | a day formatted with `%Y-%m-%d` in the years 0 to 9999 reads back as its date |
| Calendar.FormatDateInjective | src/commands/mensa.rs:116 | within those years, different days format to different strings, so a menu day matches at most one date |
| Calendar.IsoWeek | src/commands/mensa.rs:250 | the ISO 8601 week number lies between 1 and 53 |
| Calendar.SameIsoWeek | src/commands/mensa.rs:250 | all seven days of a Monday-to-Sunday week have the ISO year and week of their Thursday |
| Calendar.YearEnd2024 | src/commands/mensa.rs:249-250 | Monday 2024-12-30 and Friday 2025-01-03 lie in one Monday-to-Sunday week but in two calendar years |

## Left out

- Platform calls (serenity and poise) are effect values, not implementations. Their failures are modelled only where the code branches on them. Elsewhere a failed call ends the command with its error, and the model does not carry that error through every later step.
- Database execution (sqlx, Postgres) is left out. Tables are maps and sets, and a failed query is modelled only where the code handles it (the reaction-role insert, the bet watch insert, the emoji-usage upsert, the activity upsert). Serial ids are parameters. A query without `ORDER BY` has no defined row order, so the model fixes one for each: the bet sweep's expired bets and each bet's participant rows (`CheckBets.ProcessExpired`, `CheckBets.StoredRows`), the due birthdays and their guilds (`CheckBirthday.DueOrder`, `CheckBirthday.DueGuilds`), the configured access guilds (`CheckAccess.Sweep`) and the mensa users come by ascending id; the reminder and counter tables are sequences read in storage order (`LegacyReminders.List`), and `Reminders.SortByTime` keeps storage order among equal times.
- SQL `LIKE`/`ILIKE` wildcards typed by a user (`%`, `_`) are treated as plain characters in keyword statistics and the reminder delete. Case-insensitive matching folds ASCII letters only.
- Unicode lower-casing is modelled as ASCII lower-casing (`Text.AsciiLower`): the message handler's `to_lowercase` is `Text.AsciiLower` alone, so letters outside ASCII keep their case; in the mensa name normalisation, transliteration is a `deunicode` parameter and its ASCII output is then lower-cased the same way.
- Regular expressions are hand-written scanners for the exact patterns used. `\w`, `\d` and `\b` use their ASCII classes rather than Unicode ones.
- Concurrency and timers are left out: the celery-fact atomics, mutex and cooldown, the locks around caches, the tokio intervals, and the waiting in collectors (a timeout is an explicit event). The 60-second and daily sweep loops are single sweep steps. Their "log and continue" is the sweep's result, not a loop.
- Floating point is left out: the mensaplan position scaling and tile rounding, the newer plan percentage, music volume, and the meme font scale. `Cruisine` keeps the integer tile grouping and offsets.
- Image work is left out: plan stitching, meme drawing, PNG encoding and image decoding. The decoder is a parameter of `Avatars.LoadAvatar` and of the emoji upload.
- Randomness is left out. The auto-reply `chance` roll and `random_color` are parameters, and so is the celery fact text.
- Third-party services and crates: eat-api, the mensa plan API, ollama and the `ics` writer are left out. An ICS event is its ordered property list; escaping, line folding and the BEGIN/END framing are not modelled.
- Of the `url` crate, only the path of a query is modelled (`UrlQuery`): form decoding in `query_pairs()`, the `byte_serialize` writer and `set_query`'s special-query encoding, with lossy UTF-8 reading. A URL is its host, its query string and the rest as one opaque string. URL parsing and `set_host`'s validation are not modelled; whether the new host is accepted is a parameter.
- Time zones and daylight saving are left out: times are UTC. The one exception is the local-midnight computation of `CheckBirthday.UntilMidnightAsWritten`, whose offsets before and after midnight are parameters.
- `chrono`'s `Display` of dates and times (for example in the reminder field names) is a parameter. Only `%Y-%m-%d`, `%Y%m%dT%H%M%SZ` and `iso_week()` are modelled.
- `paginate_text`, the reqwest error texts and the `send_image` helper are not part of this model. They enter only as the strings or outcomes they produce.
- The emoji `remove` and `rename` commands are single platform calls with nothing to state. `copy_msg` and `copy_text` are compositions of `extract_emojis` and the upload, which are modelled.
- The newer mensaplan `delete` and `show_plan` commands call a network API and draw images. Only their expiry defaulting is modelled (`MensaPlan`).
- Hash-map iteration order is not modelled. The per-guild grouping in `CheckBirthday` (a `HashMap` at src/check_birthday.rs:54), and the guild loop of `CheckAccess.Sweep` (src/check_access.rs:40) are visited in ascending id order. `Cruisine.ShowPlan` does not walk its tile map: it loads every avatar on the plan in ascending user id across all tiles, and the tile map it returns is a value with no order. The code's order is unspecified, so which guilds were already messaged or swept, or which avatars were already cached, when a step fails may differ.
- Cruisine.LoadAll: the avatars are loaded one after another in ascending user id, stopping at the first failure. The code walks the tiles in hash-map order and loads each tile's avatars concurrently with `try_join_all`, so on a failure a different set of avatars may already have been cached.
- `CheckAccess.Sweep`: a failure of the role add or remove aborts the sweep in the code. The model treats role changes as always succeeding. It keeps the guild-level stop on a member-iteration error.
- Events.CreateEvent: failures of the announcement, the thread creation and the thread-member call are left out. `DTSTAMP` is a `now` parameter.
- Label caching in the handler, music (songbird), `uwu`, the image commands, `say`, `react`, `activity`, `inactive`, `easy_embed`, the constants and the bot setup in `main.rs` are outside the core. The reaction-role cache starts from the snapshot that `main.rs` loads; in the model this is the initial state's `reactionMsgs` set.
- Statistics.KeywordStatistics: the running `total += count` is an `i32` in the code and would overflow past 2147483647 occurrences; the model's total is unbounded.
- Emojis: `Env.guildOk` is one flag for the whole batch, because the code fetches the guild once before the loop; a guild fetch that fails midway is not modelled.
- Emojis.CopyReactions: a reaction without a name panics on `expect("Emoji has a name")`; the model returns that failure alone and drops the "is a builtin emoji" notices already sent for earlier reactions.
- Avatars.LoadAvatar: a failed download and a failed `.bytes()` read of its body are one `None` outcome of the `download` parameter, both reported as "Downloading avatar failed"; in the code only the first carries that context and the second keeps the HTTP client's own error text. A `partial_guild()` lookup that yields nothing is the `Direct` place, as outside a guild, which is what the code does with it.
- Integer widths: Discord ids are `nat`, and the casts to `i64` in queries are identities. `u8` parsing (grid positions, colours), the `u32` menu value of the older feature state, and the `i32`/`i64` parses are written out with their bounds.

## Findings

| source | as written | input that shows it | evidently intended | confidence | as-written member | corrected member |
|---|---|---|---|---|---|---|
| src/commands/reaction_role.rs:134-137 | `remove` deletes the message from `reaction_msgs` even when other emoji bindings on that message remain | a message bound to two emoji; remove one of the two bindings | keep the message cached while any binding on it remains, so the other emoji still grants its role | high, not executed | ReactionRole.RemoveAsWrittenHidesSibling | ReactionRole.RemoveKeepingCacheKeepsSibling |
| src/commands/utility/reminder.rs:83 | `String::truncate` at a byte count that can fall inside a multi-byte character, which panics | a reminder by user 1 whose content is 1016 'a's followed by 'é': the suffix " ~ <@1>" is 7 bytes, so the cut at byte 1017 falls inside 'é' | cut at the last character boundary not beyond the limit | high, not executed | Reminders.ListPanicsOnSplitChar | Reminders.ListFixed |
| src/commands/emoji.rs:118, 176 | "Added {n} emojis." reports the length of the extracted list even when `add_emoji` skipped some | one offered emoji whose name the guild already has: nothing is created, yet the answer is "Added 1 emojis." | report the number actually created, as the newer generation does | high, not executed | LegacyEmojis.CountOverstates | LegacyEmojis.NewerCountsCreated |
| src/check_birthday.rs:22-27 | the delay until local midnight is `to_std().unwrap()` of a difference that is negative on a daylight-saving fall-back night | started at 00:30 local time on the night the clocks go back from UTC+2 to UTC+1: 24 hours later it is 23:30 of the same local day | a non-negative delay to the next midnight | medium, not executed | CheckBirthday.FallBackPanics | CheckBirthday.UntilMidnight |
| src/commands/mensa.rs:240-247 | the default search key "Mensa Garching" is not normalised, while canteen names are, so the default never matches | no canteen name given, with the canteen "Mensa Garching" present | normalise the default key as well, so the default finds Mensa Garching | high, not executed | Mensa.DefaultNeverFound | Mensa.DefaultFindsGarching |
| src/commands/mensa.rs:249-258 | the menu URL pairs the calendar year with the ISO week number | Monday 2024-12-30 and Friday 2025-01-03, both in the same ISO week | use the ISO week-numbering year, so every day of a week fetches the same menu | high, not executed | Mensa.YearEndMismatch | Mensa.SameWeekSameUrl |
| src/commands/owner/sql.rs:113-117 | the 4096-byte embed limit is checked on the table, but the description adds the code fence | a one-column result whose table is exactly 4096 bytes: it goes inline in a description of 4103 characters | check the length of the fenced description | medium, not executed | Sql.OverlongDescription | Sql.Sql |
| src/commands/utility/actions.rs:18-23 | the kept pairs come decoded from `query_pairs()` but are written back as raw "k=v" text, so a decoded '&', '=' or '%' changes the query | a site whose fix drops `t`, and the query `q=%26&t=1`: the result is `q=&`, which reads back as an empty `q`; `q=%2526&t=1` becomes `q=%26` and then `q=&` on a second fix | serialize the kept pairs again, so the query reads back as the kept pairs and fixing a fixed link changes nothing | high, not executed | LinkFixExamples.AsWrittenLosesEscapes | LinkFix.Apply |

=== FILE: access.dfy ===
/** The inactivity sweep: in each configured guild, members that have not
    been active for `activeDays` days step one rung down a ladder of roles,
    and the guild's log channel learns how many were demoted. */
module CheckAccess {
  import opened Wrappers
  import Text
  import Ordering
  import Handler

  const SECS_PER_DAY: nat := 24 * 60 * 60

  /** A guild's configuration: roles from highest to lowest. */
  datatype Access = Access(descendingRoles: seq<nat>, activeDays: int, logChannel: nat)

  /** The `activity` table, keyed by (guild, user). */
  type Table = map<(nat, nat), Handler.ActivityRow>

  /** One item of the guild's member stream. */
  datatype MemberResult = Fetched(userId: nat, roles: set<nat>) | FetchFailed

  datatype Effect =
    | AddRole(guildId: nat, userId: nat, roleId: nat)
    | RemoveRole(guildId: nat, userId: nat, roleId: nat)
    | Log(channelId: nat, content: string)

  /** Users of the guild whose last activity is at most `days` days ago. */
  function ActiveUsers(t: Table, guild: nat, days: int, now: int): (r: set<nat>)
    ensures forall u :: u in r <==> (guild, u) in t && now - t[(guild, u)].lastActive <= days * SECS_PER_DAY
  {
    set k | k in t && k.0 == guild && now - t[k].lastActive <= days * SECS_PER_DAY :: k.1
  }

  /** The first rung among all but the lowest that the member holds. */
  function FirstHeld(ladder: seq<nat>, held: set<nat>): (r: Option<nat>)
    ensures r.Some? ==> r.value + 1 < |ladder| && ladder[r.value] in held
    ensures r.Some? ==> forall j | 0 <= j < r.value :: ladder[j] !in held
    ensures r.None? <==> forall j | 0 <= j < |ladder| - 1 :: ladder[j] !in held
  {
    FirstHeldFrom(ladder, held, 0)
  }

  function FirstHeldFrom(ladder: seq<nat>, held: set<nat>, k: nat): (r: Option<nat>)
    requires forall j | 0 <= j < k && j < |ladder| - 1 :: ladder[j] !in held
    ensures r.Some? ==> k <= r.value && r.value + 1 < |ladder| && ladder[r.value] in held
    ensures r.Some? ==> forall j | 0 <= j < r.value :: ladder[j] !in held
    ensures r.None? <==> forall j | 0 <= j < |ladder| - 1 :: ladder[j] !in held
    decreases |ladder| - k
  {
    if k + 1 >= |ladder| then None
    else if ladder[k] in held then Some(k)
    else FirstHeldFrom(ladder, held, k + 1)
  }

  /** The upsert a demotion makes: the row's last activity becomes now; a
      new row counts no messages. */
  function Touch(t: Table, guild: nat, user: nat, now: int): (r: Table)
    ensures r.Keys == t.Keys + {(guild, user)}
    ensures r[(guild, user)].lastActive == now
    ensures (guild, user) in t ==> r[(guild, user)].messageCount == t[(guild, user)].messageCount
    ensures forall k | k in t && k != (guild, user) :: r[k] == t[k]
  {
    var count := if (guild, user) in t then t[(guild, user)].messageCount else 0;
    t[(guild, user) := Handler.ActivityRow(now, count)]
  }

  /** The state of one guild's pass over its members. */
  datatype Pass = Pass(table: Table, effects: seq<Effect>, count: nat)

  /** Step one rung down for an inactive member, or leave them be. */
  function Demote(p: Pass, guild: nat, ladder: seq<nat>, userId: nat, held: set<nat>, now: int): (r: Pass)
    ensures FirstHeld(ladder, held).None? ==> r == p
    ensures FirstHeld(ladder, held).Some? ==>
      var i := FirstHeld(ladder, held).value;
      && r.table == Touch(p.table, guild, userId, now)
      && r.effects == p.effects + [AddRole(guild, userId, ladder[i + 1]), RemoveRole(guild, userId, ladder[i])]
      && r.count == p.count + 1
  {
    match FirstHeld(ladder, held)
    case None => p
    case Some(i) =>
      Pass(Touch(p.table, guild, userId, now),
           p.effects + [AddRole(guild, userId, ladder[i + 1]), RemoveRole(guild, userId, ladder[i])],
           p.count + 1)
  }

  /** The member loop: active members are skipped, a failed fetch ends the
      loop. */
  function Members(p: Pass, guild: nat, ladder: seq<nat>, active: set<nat>, members: seq<MemberResult>, now: int): (r: Pass)
    ensures p.count <= r.count <= p.count + |members|
    ensures |r.effects| == |p.effects| + 2 * (r.count - p.count)
    ensures r.effects[..|p.effects|] == p.effects
    ensures |members| > 0 && members[0].FetchFailed? ==> r == p
    decreases |members|
  {
    if |members| == 0 then p
    else match members[0]
      case FetchFailed => p
      case Fetched(userId, held) =>
        var next := if userId in active then p else Demote(p, guild, ladder, userId, held, now);
        Members(next, guild, ladder, active, members[1..], now)
  }

  function DemotedLog(count: nat): string {
    Text.Decimal(count) + " users were demoted for being inactive"
  }

  /** One guild: skipped without at least two rungs; otherwise its members
      are passed over and a non-zero count is logged. */
  function Guild(t: Table, guild: nat, access: Access, members: seq<MemberResult>, now: int): (r: Pass)
    ensures |access.descendingRoles| < 2 ==> r == Pass(t, [], 0)
    ensures r.count == 0 ==> forall i | 0 <= i < |r.effects| :: !r.effects[i].Log?
    ensures r.count != 0 ==> |r.effects| > 0 && r.effects[|r.effects| - 1] == Log(access.logChannel, DemotedLog(r.count))
  {
    if |access.descendingRoles| < 2 then Pass(t, [], 0)
    else
      var active := ActiveUsers(t, guild, access.activeDays, now);
      var p := Members(Pass(t, [], 0), guild, access.descendingRoles, active, members, now);
      MembersNoLog(Pass(t, [], 0), guild, access.descendingRoles, active, members, now);
      if p.count == 0 then p
      else p.(effects := p.effects + [Log(access.logChannel, DemotedLog(p.count))])
  }

  /** `access`: the configured guilds one after another (in ascending id
      order here); `membersOf` is the member stream of each guild. Each
      guild's pass reads only that guild's rows, so the effects are every
      guild's pass against the table as it was before the sweep. */
  function Sweep(t: Table, config: map<nat, Access>, membersOf: nat -> seq<MemberResult>, now: int): (r: (Table, seq<Effect>))
    ensures r.0.Keys >= t.Keys
    ensures r.1 == SweepEffects(t, config, Ordering.Unordered(config.Keys), membersOf, now)
  {
    var guilds := Ordering.Unordered(config.Keys);
    SweepGuildsEffects(t, t, config, guilds, membersOf, now);
    SweepGuilds(t, config, guilds, membersOf, now)
  }

  function SweepGuilds(t: Table, config: map<nat, Access>, guilds: seq<nat>, membersOf: nat -> seq<MemberResult>, now: int): (r: (Table, seq<Effect>))
    requires forall i | 0 <= i < |guilds| :: guilds[i] in config
    ensures r.0.Keys >= t.Keys
    decreases |guilds|
  {
    if |guilds| == 0 then (t, [])
    else
      var p := Guild(t, guilds[0], config[guilds[0]], membersOf(guilds[0]), now);
      GuildKeepsRows(t, guilds[0], config[guilds[0]], membersOf(guilds[0]), now);
      var rest := SweepGuilds(p.table, config, guilds[1..], membersOf, now);
      (rest.0, p.effects + rest.1)
  }

  // ---------------------------------------------------------------------
  // Properties

  lemma {:induction false} MembersNoLog(p: Pass, guild: nat, ladder: seq<nat>, active: set<nat>, members: seq<MemberResult>, now: int)
    requires forall i | 0 <= i < |p.effects| :: !p.effects[i].Log?
    ensures var r := Members(p, guild, ladder, active, members, now);
      forall i | 0 <= i < |r.effects| :: !r.effects[i].Log?
    decreases |members|
  {
    if |members| > 0 && members[0].Fetched? {
      var next := if members[0].userId in active then p else Demote(p, guild, ladder, members[0].userId, members[0].roles, now);
      assert forall i | |p.effects| <= i < |next.effects| :: !next.effects[i].Log?;
      MembersNoLog(next, guild, ladder, active, members[1..], now);
      var r := Members(p, guild, ladder, active, members, now);
      assert r == Members(next, guild, ladder, active, members[1..], now);
      assert forall i | 0 <= i < |r.effects| :: !r.effects[i].Log?;
    }
  }

  lemma GuildKeepsRows(t: Table, guild: nat, access: Access, members: seq<MemberResult>, now: int)
    ensures Guild(t, guild, access, members, now).table.Keys >= t.Keys
  {
    if |access.descendingRoles| >= 2 {
      var active := ActiveUsers(t, guild, access.activeDays, now);
      MembersKeepRows(Pass(t, [], 0), guild, access.descendingRoles, active, members, now);
    }
  }

  lemma {:induction false} MembersKeepRows(p: Pass, guild: nat, ladder: seq<nat>, active: set<nat>, members: seq<MemberResult>, now: int)
    ensures Members(p, guild, ladder, active, members, now).table.Keys >= p.table.Keys
    decreases |members|
  {
    if |members| > 0 && members[0].Fetched? {
      var next := if members[0].userId in active then p else Demote(p, guild, ladder, members[0].userId, members[0].roles, now);
      MembersKeepRows(next, guild, ladder, active, members[1..], now);
    }
  }

  /** The role effects of a pass concern only inactive fetched members that
      hold a rung above the lowest, and each such member gets exactly the
      next rung added and their rung removed. */
  predicate Demoted(guild: nat, ladder: seq<nat>, active: set<nat>, members: seq<MemberResult>, e: Effect) {
    exists j | 0 <= j < |members| && members[j].Fetched? && members[j].userId !in active && FirstHeld(ladder, members[j].roles).Some? ::
      var i := FirstHeld(ladder, members[j].roles).value;
      e == AddRole(guild, members[j].userId, ladder[i + 1]) || e == RemoveRole(guild, members[j].userId, ladder[i])
  }

  lemma {:induction false} OnlyInactiveDemoted(p: Pass, guild: nat, ladder: seq<nat>, active: set<nat>, members: seq<MemberResult>, now: int)
    ensures forall i | |p.effects| <= i < |Members(p, guild, ladder, active, members, now).effects| ::
      Demoted(guild, ladder, active, members, Members(p, guild, ladder, active, members, now).effects[i])
    decreases |members|
  {
    if |members| > 0 && members[0].Fetched? {
      var m := members[0];
      var next := if m.userId in active then p else Demote(p, guild, ladder, m.userId, m.roles, now);
      OnlyInactiveDemoted(next, guild, ladder, active, members[1..], now);
      var r := Members(p, guild, ladder, active, members, now);
      assert r == Members(next, guild, ladder, active, members[1..], now);
      forall i | |p.effects| <= i < |r.effects|
        ensures Demoted(guild, ladder, active, members, r.effects[i])
      {
        if i < |next.effects| {
          assert m.userId !in active && FirstHeld(ladder, m.roles).Some?;
          assert next.effects[i] == r.effects[i];
          assert Demoted(guild, ladder, active, members, next.effects[i]) by {
            assert members[0] == m;
          }
        } else {
          assert Demoted(guild, ladder, active, members[1..], r.effects[i]);
          var j :| 0 <= j < |members[1..]| && members[1..][j].Fetched? && members[1..][j].userId !in active && FirstHeld(ladder, members[1..][j].roles).Some? &&
            var k := FirstHeld(ladder, members[1..][j].roles).value;
            (r.effects[i] == AddRole(guild, members[1..][j].userId, ladder[k + 1]) || r.effects[i] == RemoveRole(guild, members[1..][j].userId, ladder[k]));
          assert members[j + 1] == members[1..][j];
        }
      }
    }
  }

  /** Active members are never demoted: no role effect of a guild names an
      active user, and a guild with fewer than two rungs changes nothing. */
  lemma ActiveNeverDemoted(t: Table, guild: nat, access: Access, members: seq<MemberResult>, now: int, u: nat, i: nat)
    requires u in ActiveUsers(t, guild, access.activeDays, now)
    requires i < |Guild(t, guild, access, members, now).effects|
    ensures !Guild(t, guild, access, members, now).effects[i].Log? ==> Guild(t, guild, access, members, now).effects[i].userId != u
  {
    var active := ActiveUsers(t, guild, access.activeDays, now);
    var p := Members(Pass(t, [], 0), guild, access.descendingRoles, active, members, now);
    OnlyInactiveDemoted(Pass(t, [], 0), guild, access.descendingRoles, active, members, now);
    assert forall k | 0 <= k < |p.effects| :: Demoted(guild, access.descendingRoles, active, members, p.effects[k]);
    var e := Guild(t, guild, access, members, now).effects[i];
    if !e.Log? && |access.descendingRoles| >= 2 {
      assert i < |p.effects|;
      assert e == p.effects[i];
      assert Demoted(guild, access.descendingRoles, active, members, p.effects[i]);
    }
  }

  // ---------------------------------------------------------------------
  // Which members are demoted, and the effects of a whole sweep

  /** The members the loop reaches: those before the first failed fetch. */
  function Reached(members: seq<MemberResult>): (r: seq<MemberResult>)
    ensures |r| <= |members| && r == members[..|r|]
    ensures forall j | 0 <= j < |r| :: r[j].Fetched?
    ensures |r| < |members| ==> members[|r|].FetchFailed?
    decreases |members|
  {
    if |members| == 0 || members[0].FetchFailed? then []
    else [members[0]] + Reached(members[1..])
  }

  /** A reached member who is not active and holds a rung above the lowest. */
  predicate Demotable(ladder: seq<nat>, active: set<nat>, m: MemberResult) {
    m.Fetched? && m.userId !in active && FirstHeld(ladder, m.roles).Some?
  }

  /** The positions, from `j` on and ascending, of the members that are
      demoted. */
  function DemotedFrom(ladder: seq<nat>, active: set<nat>, ms: seq<MemberResult>, j: nat): (r: seq<nat>)
    requires j <= |ms|
    ensures forall x :: x in r <==> j <= x < |ms| && Demotable(ladder, active, ms[x])
    ensures forall k | 0 <= k < |r| :: j <= r[k] < |ms| && Demotable(ladder, active, ms[r[k]])
    ensures forall a, b | 0 <= a < b < |r| :: r[a] < r[b]
    decreases |ms| - j
  {
    if j == |ms| then []
    else if Demotable(ladder, active, ms[j]) then [j] + DemotedFrom(ladder, active, ms, j + 1)
    else DemotedFrom(ladder, active, ms, j + 1)
  }

  /** From position `off` on, `effects` hold the two role changes of each
      member listed in `idx`, in that order: the next lower rung added, then
      the held rung removed. */
  predicate DemotionsAt(effects: seq<Effect>, off: nat, guild: nat, ladder: seq<nat>, ms: seq<MemberResult>, idx: seq<nat>)
    requires forall k | 0 <= k < |idx| :: idx[k] < |ms| && ms[idx[k]].Fetched? && FirstHeld(ladder, ms[idx[k]].roles).Some?
  {
    && off + 2 * |idx| <= |effects|
    && forall k | 0 <= k < |idx| ::
         var i := FirstHeld(ladder, ms[idx[k]].roles).value;
         && effects[off + 2 * k] == AddRole(guild, ms[idx[k]].userId, ladder[i + 1])
         && effects[off + 2 * k + 1] == RemoveRole(guild, ms[idx[k]].userId, ladder[i])
  }

  /** The member loop from position `j` demotes exactly the demotable
      reached members, in member order, and counts each once. */
  lemma {:induction false} MembersDemote(p: Pass, guild: nat, ladder: seq<nat>, active: set<nat>, members: seq<MemberResult>, now: int, j: nat)
    requires j <= |Reached(members)|
    ensures Members(p, guild, ladder, active, members[j..], now).count == p.count + |DemotedFrom(ladder, active, Reached(members), j)|
    ensures DemotionsAt(Members(p, guild, ladder, active, members[j..], now).effects, |p.effects|, guild, ladder, Reached(members), DemotedFrom(ladder, active, Reached(members), j))
    decreases |members| - j
  {
    var ms := Reached(members);
    if j == |ms| {
      if j < |members| {
        assert members[j..][0] == members[j];
      }
      assert Members(p, guild, ladder, active, members[j..], now) == p;
    } else {
      var m := ms[j];
      var next := if m.userId in active then p else Demote(p, guild, ladder, m.userId, m.roles, now);
      MembersDemote(next, guild, ladder, active, members, now, j + 1);
      MembersDemoteStep(p, next, guild, ladder, active, members, now, j);
    }
  }

  lemma MembersDemoteStep(p: Pass, next: Pass, guild: nat, ladder: seq<nat>, active: set<nat>, members: seq<MemberResult>, now: int, j: nat)
    requires j < |Reached(members)|
    requires next == if Reached(members)[j].userId in active then p else Demote(p, guild, ladder, Reached(members)[j].userId, Reached(members)[j].roles, now)
    requires Members(next, guild, ladder, active, members[j + 1..], now).count == next.count + |DemotedFrom(ladder, active, Reached(members), j + 1)|
    requires DemotionsAt(Members(next, guild, ladder, active, members[j + 1..], now).effects, |next.effects|, guild, ladder, Reached(members), DemotedFrom(ladder, active, Reached(members), j + 1))
    ensures Members(p, guild, ladder, active, members[j..], now).count == p.count + |DemotedFrom(ladder, active, Reached(members), j)|
    ensures DemotionsAt(Members(p, guild, ladder, active, members[j..], now).effects, |p.effects|, guild, ladder, Reached(members), DemotedFrom(ladder, active, Reached(members), j))
  {
    var ms := Reached(members);
    var m := ms[j];
    MembersUnfold(p, next, guild, ladder, active, members, now, j);
    var r := Members(p, guild, ladder, active, members[j..], now);
    if Demotable(ladder, active, m) {
      DemoteHead(p, next, r, guild, ladder, m, now);
      DemotedFromCons(ladder, active, ms, j);
      DemotedStep(p, next, r, guild, ladder, ms, j, DemotedFrom(ladder, active, ms, j + 1));
    } else {
      DemotedFromSkip(ladder, active, ms, j);
      assert next == p;
    }
  }

  lemma DemotedStep(p: Pass, next: Pass, r: Pass, guild: nat, ladder: seq<nat>, ms: seq<MemberResult>, j: nat, rest: seq<nat>)
    requires j < |ms| && ms[j].Fetched? && FirstHeld(ladder, ms[j].roles).Some?
    requires forall k | 0 <= k < |rest| :: rest[k] < |ms| && ms[rest[k]].Fetched? && FirstHeld(ladder, ms[rest[k]].roles).Some?
    requires |next.effects| == |p.effects| + 2 && next.count == p.count + 1
    requires var i := FirstHeld(ladder, ms[j].roles).value;
      && |p.effects| + 1 < |r.effects|
      && r.effects[|p.effects|] == AddRole(guild, ms[j].userId, ladder[i + 1])
      && r.effects[|p.effects| + 1] == RemoveRole(guild, ms[j].userId, ladder[i])
    requires r.count == next.count + |rest|
    requires DemotionsAt(r.effects, |next.effects|, guild, ladder, ms, rest)
    ensures r.count == p.count + |[j] + rest|
    ensures DemotionsAt(r.effects, |p.effects|, guild, ladder, ms, [j] + rest)
  {
    DemotionsCons(r.effects, |p.effects|, guild, ladder, ms, j, rest);
  }

  /** A member who is not demotable adds no position. */
  lemma DemotedFromSkip(ladder: seq<nat>, active: set<nat>, ms: seq<MemberResult>, j: nat)
    requires j < |ms| && !Demotable(ladder, active, ms[j])
    ensures DemotedFrom(ladder, active, ms, j) == DemotedFrom(ladder, active, ms, j + 1)
  {
  }

  /** A demotable member heads the demoted positions from its own. */
  lemma DemotedFromCons(ladder: seq<nat>, active: set<nat>, ms: seq<MemberResult>, j: nat)
    requires j < |ms| && Demotable(ladder, active, ms[j])
    ensures DemotedFrom(ladder, active, ms, j) == [j] + DemotedFrom(ladder, active, ms, j + 1)
  {
  }

  /** One step of the member loop at a reached member. */
  lemma MembersUnfold(p: Pass, next: Pass, guild: nat, ladder: seq<nat>, active: set<nat>, members: seq<MemberResult>, now: int, j: nat)
    requires j < |Reached(members)|
    requires next == if Reached(members)[j].userId in active then p else Demote(p, guild, ladder, Reached(members)[j].userId, Reached(members)[j].roles, now)
    ensures Members(p, guild, ladder, active, members[j..], now) == Members(next, guild, ladder, active, members[j + 1..], now)
  {
    assert members[j] == Reached(members)[j];
    assert members[j..][0] == members[j];
    assert members[j..][1..] == members[j + 1..];
  }

  lemma DemotionsCons(effects: seq<Effect>, off: nat, guild: nat, ladder: seq<nat>, ms: seq<MemberResult>, j: nat, rest: seq<nat>)
    requires j < |ms| && ms[j].Fetched? && FirstHeld(ladder, ms[j].roles).Some?
    requires forall k | 0 <= k < |rest| :: rest[k] < |ms| && ms[rest[k]].Fetched? && FirstHeld(ladder, ms[rest[k]].roles).Some?
    requires var i := FirstHeld(ladder, ms[j].roles).value;
      && off + 1 < |effects|
      && effects[off] == AddRole(guild, ms[j].userId, ladder[i + 1])
      && effects[off + 1] == RemoveRole(guild, ms[j].userId, ladder[i])
    requires DemotionsAt(effects, off + 2, guild, ladder, ms, rest)
    ensures DemotionsAt(effects, off, guild, ladder, ms, [j] + rest)
  {
    var idx := [j] + rest;
    forall k | 1 <= k < |idx|
      ensures var i := FirstHeld(ladder, ms[idx[k]].roles).value;
        && effects[off + 2 * k] == AddRole(guild, ms[idx[k]].userId, ladder[i + 1])
        && effects[off + 2 * k + 1] == RemoveRole(guild, ms[idx[k]].userId, ladder[i])
    {
      assert idx[k] == rest[k - 1];
      assert off + 2 * k == off + 2 + 2 * (k - 1);
    }
  }

  /** A guild with at least two rungs demotes exactly its reached,
      inactive members holding a rung above the lowest, in member order,
      and counts them. */
  lemma GuildDemotes(t: Table, guild: nat, access: Access, members: seq<MemberResult>, now: int)
    requires |access.descendingRoles| >= 2
    ensures var idx := DemotedFrom(access.descendingRoles, ActiveUsers(t, guild, access.activeDays, now), Reached(members), 0);
      && Guild(t, guild, access, members, now).count == |idx|
      && |Guild(t, guild, access, members, now).effects| == 2 * |idx| + (if |idx| == 0 then 0 else 1)
      && DemotionsAt(Guild(t, guild, access, members, now).effects, 0, guild, access.descendingRoles, Reached(members), idx)
  {
    var active := ActiveUsers(t, guild, access.activeDays, now);
    assert members[0..] == members;
    MembersDemote(Pass(t, [], 0), guild, access.descendingRoles, active, members, now, 0);
    var p := Members(Pass(t, [], 0), guild, access.descendingRoles, active, members, now);
    var r := Guild(t, guild, access, members, now);
    assert r.effects[..|p.effects|] == p.effects;
    DemotionsPrefix(p.effects, r.effects, guild, access.descendingRoles, Reached(members), DemotedFrom(access.descendingRoles, active, Reached(members), 0));
  }

  /** Effects appended after the role changes leave them in place. */
  lemma DemotionsPrefix(effects: seq<Effect>, longer: seq<Effect>, guild: nat, ladder: seq<nat>, ms: seq<MemberResult>, idx: seq<nat>)
    requires forall k | 0 <= k < |idx| :: idx[k] < |ms| && ms[idx[k]].Fetched? && FirstHeld(ladder, ms[idx[k]].roles).Some?
    requires DemotionsAt(effects, 0, guild, ladder, ms, idx)
    requires |effects| <= |longer| && longer[..|effects|] == effects
    ensures DemotionsAt(longer, 0, guild, ladder, ms, idx)
  {
    forall k | 0 <= k < |idx|
      ensures longer[2 * k] == effects[2 * k] && longer[2 * k + 1] == effects[2 * k + 1]
    {
      assert longer[2 * k] == longer[..|effects|][2 * k];
      assert longer[2 * k + 1] == longer[..|effects|][2 * k + 1];
    }
  }

  /** The first demotion of a step sits right after the earlier effects. */
  lemma DemoteHead(p: Pass, next: Pass, r: Pass, guild: nat, ladder: seq<nat>, m: MemberResult, now: int)
    requires m.Fetched? && FirstHeld(ladder, m.roles).Some?
    requires next == Demote(p, guild, ladder, m.userId, m.roles, now)
    requires |next.effects| <= |r.effects| && r.effects[..|next.effects|] == next.effects
    ensures var i := FirstHeld(ladder, m.roles).value;
      && r.effects[|p.effects|] == AddRole(guild, m.userId, ladder[i + 1])
      && r.effects[|p.effects| + 1] == RemoveRole(guild, m.userId, ladder[i])
  {
    assert r.effects[|p.effects|] == r.effects[..|next.effects|][|p.effects|];
    assert r.effects[|p.effects| + 1] == r.effects[..|next.effects|][|p.effects| + 1];
  }

  /** Two tables hold the same rows for one guild. */
  ghost predicate SameRows(t: Table, t2: Table, guild: nat) {
    forall u :: ((guild, u) in t <==> (guild, u) in t2) && ((guild, u) in t ==> t[(guild, u)] == t2[(guild, u)])
  }

  lemma ActiveSameRows(t: Table, t2: Table, guild: nat, days: int, now: int)
    requires SameRows(t, t2, guild)
    ensures ActiveUsers(t, guild, days, now) == ActiveUsers(t2, guild, days, now)
  {
    var a := ActiveUsers(t, guild, days, now);
    var b := ActiveUsers(t2, guild, days, now);
    forall u
      ensures u in a <==> u in b
    {
      assert (guild, u) in t <==> (guild, u) in t2;
    }
  }

  /** The member loop touches only rows of its own guild. */
  lemma {:induction false} MembersOtherRows(p: Pass, guild: nat, ladder: seq<nat>, active: set<nat>, members: seq<MemberResult>, now: int, other: nat)
    requires other != guild
    ensures SameRows(p.table, Members(p, guild, ladder, active, members, now).table, other)
    decreases |members|
  {
    if |members| > 0 && members[0].Fetched? {
      var next := if members[0].userId in active then p else Demote(p, guild, ladder, members[0].userId, members[0].roles, now);
      MembersOtherRows(next, guild, ladder, active, members[1..], now, other);
      assert SameRows(p.table, next.table, other);
    }
  }

  /** What the member loop appends and counts does not depend on the table. */
  lemma {:induction false} MembersIgnoreTable(p: Pass, t2: Table, guild: nat, ladder: seq<nat>, active: set<nat>, members: seq<MemberResult>, now: int)
    ensures Members(p.(table := t2), guild, ladder, active, members, now).effects == Members(p, guild, ladder, active, members, now).effects
    ensures Members(p.(table := t2), guild, ladder, active, members, now).count == Members(p, guild, ladder, active, members, now).count
    decreases |members|
  {
    if |members| > 0 && members[0].Fetched? {
      var m := members[0];
      var next := if m.userId in active then p else Demote(p, guild, ladder, m.userId, m.roles, now);
      var next2 := if m.userId in active then p.(table := t2) else Demote(p.(table := t2), guild, ladder, m.userId, m.roles, now);
      assert next2 == next.(table := next2.table);
      MembersIgnoreTable(next, next2.table, guild, ladder, active, members[1..], now);
    }
  }

  /** A guild's pass yields the same effects from any table with the same
      rows for that guild. */
  lemma GuildSameRows(t: Table, t2: Table, guild: nat, access: Access, members: seq<MemberResult>, now: int)
    requires SameRows(t, t2, guild)
    ensures Guild(t, guild, access, members, now).effects == Guild(t2, guild, access, members, now).effects
  {
    if |access.descendingRoles| >= 2 {
      ActiveSameRows(t, t2, guild, access.activeDays, now);
      var active := ActiveUsers(t, guild, access.activeDays, now);
      MembersIgnoreTable(Pass(t, [], 0), t2, guild, access.descendingRoles, active, members, now);
      assert Pass(t, [], 0).(table := t2) == Pass(t2, [], 0);
    }
  }

  lemma GuildOtherRows(t: Table, guild: nat, access: Access, members: seq<MemberResult>, now: int, other: nat)
    requires other != guild
    ensures SameRows(t, Guild(t, guild, access, members, now).table, other)
  {
    if |access.descendingRoles| >= 2 {
      var active := ActiveUsers(t, guild, access.activeDays, now);
      MembersOtherRows(Pass(t, [], 0), guild, access.descendingRoles, active, members, now, other);
    }
  }

  /** The reference effects of a sweep: each guild's pass against the table
      `t`, concatenated in guild order. */
  function SweepEffects(t: Table, config: map<nat, Access>, guilds: seq<nat>, membersOf: nat -> seq<MemberResult>, now: int): seq<Effect>
    requires forall i | 0 <= i < |guilds| :: guilds[i] in config
    decreases |guilds|
  {
    if |guilds| == 0 then []
    else Guild(t, guilds[0], config[guilds[0]], membersOf(guilds[0]), now).effects + SweepEffects(t, config, guilds[1..], membersOf, now)
  }

  /** Passing over distinct guilds in turn gives every guild's own pass
      against the starting table, concatenated in guild order. */
  lemma {:induction false} SweepGuildsEffects(t0: Table, t: Table, config: map<nat, Access>, guilds: seq<nat>, membersOf: nat -> seq<MemberResult>, now: int)
    requires forall i | 0 <= i < |guilds| :: guilds[i] in config
    requires forall a, b | 0 <= a < b < |guilds| :: guilds[a] != guilds[b]
    requires forall i | 0 <= i < |guilds| :: SameRows(t0, t, guilds[i])
    ensures SweepGuilds(t, config, guilds, membersOf, now).1 == SweepEffects(t0, config, guilds, membersOf, now)
    decreases |guilds|
  {
    if |guilds| > 0 {
      var g := guilds[0];
      var p := Guild(t, g, config[g], membersOf(g), now);
      GuildSameRows(t0, t, g, config[g], membersOf(g), now);
      forall i | 0 <= i < |guilds[1..]|
        ensures SameRows(t0, p.table, guilds[1..][i])
      {
        assert guilds[1..][i] == guilds[i + 1];
        GuildOtherRows(t, g, config[g], membersOf(g), now, guilds[i + 1]);
        assert SameRows(t0, t, guilds[i + 1]);
      }
      SweepGuildsEffects(t0, p.table, config, guilds[1..], membersOf, now);
    }
  }
}

=== FILE: actions.dfy ===
/** `embed`: a link is re-posted with the configured fix for its site
    applied, dropping a tracking query parameter and swapping the host.
    A URL is modelled by its host and its query string; everything else
    passes through untouched. */
module LinkFix {
  import opened Wrappers
  import Text
  import UrlQuery
  import Utf8

  datatype Url = Url(host: Option<string>, query: Option<string>, rest: string)

  /** A configured fix: the query key to drop and the host to use. */
  datatype Fix = Fix(tracking: Option<string>, host: Option<string>)

  datatype Pair = Pair(key: string, value: string)

  /** One piece of the query: split at the first '='; without one the
      whole piece is the key. */
  function PairOf(piece: string): (p: Pair)
    ensures '=' !in p.key
  {
    if |piece| == 0 then Pair("", "")
    else if piece[0] == '=' then Pair("", piece[1..])
    else
      var p := PairOf(piece[1..]);
      Pair([piece[0]] + p.key, p.value)
  }

  function NonEmpty(pieces: seq<string>): (r: seq<string>)
    ensures forall i | 0 <= i < |r| :: |r[i]| > 0 && r[i] in pieces
  {
    if |pieces| == 0 then []
    else
      var rest := NonEmpty(pieces[1..]);
      assert forall x | x in pieces[1..] :: x in pieces;
      (if |pieces[0]| > 0 then [pieces[0]] else []) + rest
  }

  function PairsOf(pieces: seq<string>): (r: seq<Pair>)
    ensures |r| == |pieces| && forall i | 0 <= i < |r| :: r[i] == PairOf(pieces[i])
  {
    if |pieces| == 0 then [] else [PairOf(pieces[0])] + PairsOf(pieces[1..])
  }

  function DecodePairs(ps: seq<Pair>): (r: seq<Pair>)
    ensures |r| == |ps|
    ensures forall i | 0 <= i < |r| :: r[i] == Pair(UrlQuery.Decode(ps[i].key), UrlQuery.Decode(ps[i].value))
  {
    if |ps| == 0 then []
    else [Pair(UrlQuery.Decode(ps[0].key), UrlQuery.Decode(ps[0].value))] + DecodePairs(ps[1..])
  }

  /** `query_pairs()`: '&'-separated pieces, empty ones skipped, each split
      at its first '=' and both halves form-decoded. */
  function QueryPairs(query: Option<string>): seq<Pair> {
    match query
    case None => []
    case Some(q) => DecodePairs(PairsOf(NonEmpty(Text.Split(q, '&'))))
  }

  function Render(p: Pair): string {
    p.key + "=" + p.value
  }

  function Renders(ps: seq<Pair>): (r: seq<string>)
    ensures |r| == |ps| && forall i | 0 <= i < |r| :: r[i] == Render(ps[i])
  {
    if |ps| == 0 then [] else [Render(ps[0])] + Renders(ps[1..])
  }

  /** The pairs that survive: those whose key is not the tracking key. */
  function Without(ps: seq<Pair>, tracking: string): (r: seq<Pair>)
    ensures forall p :: p in r <==> p in ps && p.key != tracking
    ensures |r| <= |ps|
  {
    if |ps| == 0 then []
    else
      assert forall p | p in ps[1..] :: p in ps;
      assert forall p | p in ps && p != ps[0] :: p in ps[1..];
      (if ps[0].key == tracking then [] else [ps[0]]) + Without(ps[1..], tracking)
  }

  /** Dropping pairs keeps the others in their order: `Without` is a
      subsequence of its input. */
  predicate SubsequenceOf(a: seq<Pair>, b: seq<Pair>)
    decreases |b|
  {
    |a| == 0 || (|b| > 0 && (if a[0] == b[0] then SubsequenceOf(a[1..], b[1..]) else SubsequenceOf(a, b[1..])))
  }

  lemma {:induction false} WithoutSubsequence(ps: seq<Pair>, tracking: string)
    ensures SubsequenceOf(Without(ps, tracking), ps)
  {
    if |ps| > 0 {
      WithoutSubsequence(ps[1..], tracking);
      var r := Without(ps, tracking);
      if ps[0].key != tracking {
        assert r[0] == ps[0] && r[1..] == Without(ps[1..], tracking);
      } else {
        assert r == Without(ps[1..], tracking);
        if |r| > 0 {
          assert r[0] in ps[1..] && r[0] != ps[0];
        }
      }
    }
  }

  /** The host used to look the fix up: a leading "www." removed. */
  function SiteOf(host: string): (r: string)
    ensures "www." <= host ==> host == "www." + r
    ensures !("www." <= host) ==> r == host
  {
    if "www." <= host then host[4..] else host
  }

  /** The fix's host put in when it names one; a refused host fails. */
  function SetHost(url: Url, host: Option<string>, hostAccepted: bool): (r: Result<Url>)
    ensures r.Err? <==> host.Some? && !hostAccepted
    ensures r.Ok? ==> r.value == url.(host := if host.Some? then host else url.host)
  {
    match host
    case None => Ok(url)
    case Some(h) => if hostAccepted then Ok(url.(host := Some(h))) else Err(Failure("set_host failed"))
  }

  /** The query as the command writes it back: the surviving decoded pairs
      as "k=v" joined by '&', handed to `set_query`. */
  function WrittenQuery(kept: seq<Pair>): string {
    UrlQuery.EncodeQuery(Text.Join(Renders(kept), "&"))
  }

  /** The fix as the command applies it; `hostAccepted` says whether the
      URL takes the new host. */
  function ApplyAsWritten(url: Url, fixes: map<string, Fix>, hostAccepted: bool): (r: Result<Url>)
    ensures url.host.None? || SiteOf(url.host.value) !in fixes ==> r == Ok(url)
    ensures r.Ok? ==> r.value.rest == url.rest
    ensures r.Ok? && url.host.Some? && SiteOf(url.host.value) in fixes ==>
      var fix := fixes[SiteOf(url.host.value)];
      && r.value.host == (if fix.host.Some? then fix.host else url.host)
      && r.value.query == (if fix.tracking.Some? then Some(WrittenQuery(Without(QueryPairs(url.query), fix.tracking.value))) else url.query)
    ensures r.Err? <==> url.host.Some? && SiteOf(url.host.value) in fixes && fixes[SiteOf(url.host.value)].host.Some? && !hostAccepted
  {
    match url.host
    case None => Ok(url)
    case Some(host) =>
      var site := SiteOf(host);
      if site !in fixes then Ok(url)
      else
        var fix := fixes[site];
        var query := if fix.tracking.Some? then Some(WrittenQuery(Without(QueryPairs(url.query), fix.tracking.value))) else url.query;
        SetHost(url.(query := query), fix.host, hostAccepted)
  }

  // ---------------------------------------------------------------------
  // The corrected rewrite: surviving pairs re-serialized

  function SerializePairs(ps: seq<Pair>): (r: seq<Pair>)
    ensures |r| == |ps|
    ensures forall i | 0 <= i < |r| :: r[i] == Pair(UrlQuery.Serialize(ps[i].key), UrlQuery.Serialize(ps[i].value))
  {
    if |ps| == 0 then []
    else [Pair(UrlQuery.Serialize(ps[0].key), UrlQuery.Serialize(ps[0].value))] + SerializePairs(ps[1..])
  }

  /** What the form serializer writes for the pairs. */
  function Serialized(ps: seq<Pair>): string {
    Text.Join(Renders(SerializePairs(ps)), "&")
  }

  /** The fix with the surviving pairs serialized again before they go
      to `set_query`. */
  function Apply(url: Url, fixes: map<string, Fix>, hostAccepted: bool): (r: Result<Url>)
    ensures url.host.None? || SiteOf(url.host.value) !in fixes ==> r == Ok(url)
    ensures r.Ok? ==> r.value.rest == url.rest
    ensures r.Ok? && url.host.Some? && SiteOf(url.host.value) in fixes ==>
      var fix := fixes[SiteOf(url.host.value)];
      && r.value.host == (if fix.host.Some? then fix.host else url.host)
      && r.value.query == (if fix.tracking.Some? then Some(Serialized(Without(QueryPairs(url.query), fix.tracking.value))) else url.query)
    ensures r.Err? <==> url.host.Some? && SiteOf(url.host.value) in fixes && fixes[SiteOf(url.host.value)].host.Some? && !hostAccepted
  {
    match url.host
    case None => Ok(url)
    case Some(host) =>
      var site := SiteOf(host);
      if site !in fixes then Ok(url)
      else
        var fix := fixes[site];
        var query := if fix.tracking.Some? then
          var kept := Without(QueryPairs(url.query), fix.tracking.value);
          SerializedSafe(kept);
          Some(UrlQuery.EncodeQuery(Serialized(kept)))
        else url.query;
        SetHost(url.(query := query), fix.host, hostAccepted)
  }

  /** Serialized pairs hold nothing `set_query` would encode. */
  lemma {:induction false} SerializedSafe(ps: seq<Pair>)
    ensures UrlQuery.EncodeQuery(Serialized(ps)) == Serialized(ps)
  {
    var rs := Renders(SerializePairs(ps));
    forall i | 0 <= i < |rs| ensures UrlQuery.QuerySafeText(rs[i]) {
      RenderSerialized(ps[i]);
    }
    JoinSafe(rs);
    UrlQuery.EncodeQuerySafe(Serialized(ps));
  }

  /** A serialized pair is written with no '&' and with its key before the
      first '='. */
  lemma RenderSerialized(p: Pair)
    ensures var k, v := UrlQuery.Serialize(p.key), UrlQuery.Serialize(p.value);
      && UrlQuery.QuerySafeText(Render(Pair(k, v))) && '&' !in Render(Pair(k, v)) && '=' !in k
  {
    var k, v := UrlQuery.Serialize(p.key), UrlQuery.Serialize(p.value);
    UrlQuery.DecodeSerialize(p.key);
    UrlQuery.DecodeSerialize(p.value);
    UrlQuery.SerializedSafe(k);
    UrlQuery.SerializedSafe(v);
    UrlQuery.QuerySafeAppend(k, "=");
    UrlQuery.QuerySafeAppend(k + "=", v);
  }

  lemma {:induction false} JoinSafe(parts: seq<string>)
    requires forall i | 0 <= i < |parts| :: UrlQuery.QuerySafeText(parts[i])
    ensures UrlQuery.QuerySafeText(Text.Join(parts, "&"))
  {
    if |parts| > 1 {
      JoinSafe(parts[1..]);
      assert Text.Join(parts, "&") == parts[0] + "&" + Text.Join(parts[1..], "&");
      UrlQuery.QuerySafeAppend(parts[0], "&");
      UrlQuery.QuerySafeAppend(parts[0] + "&", Text.Join(parts[1..], "&"));
    }
  }

  // ---------------------------------------------------------------------
  // Re-reading a rewritten query

  lemma {:induction false} PairOfRender(p: Pair)
    requires '=' !in p.key
    ensures PairOf(Render(p)) == p
    decreases |p.key|
  {
    if |p.key| == 0 {
      assert Render(p) == "=" + p.value;
      assert Render(p)[1..] == p.value;
    } else {
      assert Render(p)[1..] == Render(Pair(p.key[1..], p.value));
      PairOfRender(Pair(p.key[1..], p.value));
      assert [p.key[0]] + p.key[1..] == p.key;
    }
  }

  lemma {:induction false} NonEmptyAll(pieces: seq<string>)
    requires forall i | 0 <= i < |pieces| :: |pieces[i]| > 0
    ensures NonEmpty(pieces) == pieces
  {
    if |pieces| > 0 {
      NonEmptyAll(pieces[1..]);
    }
  }

  lemma {:induction false} PairsOfRenders(ps: seq<Pair>)
    requires forall i | 0 <= i < |ps| :: '=' !in ps[i].key
    ensures PairsOf(Renders(ps)) == ps
  {
    if |ps| > 0 {
      PairOfRender(ps[0]);
      PairsOfRenders(ps[1..]);
      assert Renders(ps)[1..] == Renders(ps[1..]);
    }
  }

  /** The pieces of a serialized query are the rendered pairs. */
  lemma SerializedPieces(ps: seq<Pair>)
    requires |ps| > 0
    ensures NonEmpty(Text.Split(Serialized(ps), '&')) == Renders(SerializePairs(ps))
  {
    var rs := Renders(SerializePairs(ps));
    forall i | 0 <= i < |rs| ensures '&' !in rs[i] && |rs[i]| > 0 {
      RenderSerialized(ps[i]);
    }
    assert "&" == ['&'];
    Text.SplitJoin(rs, '&');
    NonEmptyAll(rs);
  }

  lemma {:induction false} DecodeSerializedPairs(ps: seq<Pair>)
    ensures DecodePairs(SerializePairs(ps)) == ps
  {
    if |ps| > 0 {
      UrlQuery.DecodeSerialize(ps[0].key);
      UrlQuery.DecodeSerialize(ps[0].value);
      DecodeSerializedPairs(ps[1..]);
      assert SerializePairs(ps)[1..] == SerializePairs(ps[1..]);
      assert DecodePairs(SerializePairs(ps))[1..] == DecodePairs(SerializePairs(ps[1..]));
    }
  }

  /** Serializing pairs and reading them back gives the same pairs,
      whatever characters they hold. */
  lemma QueryRoundTrip(ps: seq<Pair>)
    ensures QueryPairs(Some(Serialized(ps))) == ps
  {
    var sp := SerializePairs(ps);
    if |ps| == 0 {
      assert Text.Split("", '&') == [""];
    } else {
      SerializedPieces(ps);
      forall i | 0 <= i < |sp| ensures '=' !in sp[i].key {
        RenderSerialized(ps[i]);
      }
      PairsOfRenders(sp);
      DecodeSerializedPairs(ps);
    }
  }

  /** A fix that only drops the tracking key is idempotent: posting the
      fixed link again changes nothing more. */
  lemma ApplyIdempotent(url: Url, fixes: map<string, Fix>, hostAccepted: bool)
    requires url.host.Some? && SiteOf(url.host.value) in fixes && fixes[SiteOf(url.host.value)].host.None?
    ensures Apply(url, fixes, hostAccepted).Ok?
    ensures Apply(Apply(url, fixes, hostAccepted).value, fixes, hostAccepted) == Apply(url, fixes, hostAccepted)
  {
    var fix := fixes[SiteOf(url.host.value)];
    if fix.tracking.Some? {
      var t := fix.tracking.value;
      var kept := Without(QueryPairs(url.query), t);
      QueryRoundTrip(kept);
      WithoutNoKey(kept, t);
    }
  }

  lemma {:induction false} WithoutNoKey(ps: seq<Pair>, t: string)
    requires forall i | 0 <= i < |ps| :: ps[i].key != t
    ensures Without(ps, t) == ps
  {
    if |ps| > 0 {
      WithoutNoKey(ps[1..], t);
    }
  }

  /** Pairs of letters, digits and `*-._` are written the same by the
      command and by the corrected rewrite. */
  lemma AsWrittenAgrees(url: Url, fixes: map<string, Fix>, hostAccepted: bool)
    requires forall p | p in QueryPairs(url.query) :: UrlQuery.Verbatims(p.key) && UrlQuery.Verbatims(p.value)
    ensures ApplyAsWritten(url, fixes, hostAccepted) == Apply(url, fixes, hostAccepted)
  {
    if url.host.Some? && SiteOf(url.host.value) in fixes && fixes[SiteOf(url.host.value)].tracking.Some? {
      var kept := Without(QueryPairs(url.query), fixes[SiteOf(url.host.value)].tracking.value);
      forall i | 0 <= i < |kept| ensures SerializePairs(kept)[i] == kept[i] {
        assert kept[i] in QueryPairs(url.query);
        UrlQuery.SerializeVerbatim(kept[i].key);
        UrlQuery.SerializeVerbatim(kept[i].value);
      }
      assert SerializePairs(kept) == kept;
    }
  }
}

=== FILE: actions_examples.dfy ===
/** Concrete links on which the `embed` rewrite as written and the
    corrected one part ways: one escaped '&' in a kept value. */
module LinkFixExamples {
  import opened Wrappers
  import Text
  import UrlQuery
  import Utf8
  import opened LinkFix

  /** The command loses an escaped '&': a value `%26` is read as "&",
      written back bare, and then reads as an empty value, while the
      corrected rewrite keeps it escaped. */
  lemma AsWrittenLosesEscapes(k: string, t: string, v: string)
    requires UrlQuery.Verbatims(k) && UrlQuery.Verbatims(t) && UrlQuery.Verbatims(v) && k != t
    ensures var fixes := map["x.com" := Fix(Some(t), None)];
      var url := Url(Some("x.com"), Some(k + "=" + "%26" + "&" + t + "=" + v), "");
      && Without(QueryPairs(url.query), t) == [Pair(k, "&")]
      && ApplyAsWritten(url, fixes, true) == Ok(Url(Some("x.com"), Some(k + "=" + "&"), ""))
      && QueryPairs(Some(k + "=" + "&")) == [Pair(k, "")]
      && Apply(url, fixes, true) == Ok(Url(Some("x.com"), Some(k + "=" + "%26"), ""))
  {
    var url := Url(Some("x.com"), Some(k + "=" + "%26" + "&" + t + "=" + v), "");
    DropOnly(url, t);
    ReadEscapedAmpersand(k, t, v);
    assert Without([Pair(k, "&"), Pair(t, v)], t) == [Pair(k, "&")];
    WriteBare(k, "&");
    ReadBare(k);
    SerializeAmpersand(k);
  }

  /** The command is not idempotent: a value `%2526` is written back as
      `%26`, and fixing that link again turns it into a bare '&'. */
  lemma AsWrittenNotIdempotent(k: string, t: string, v: string)
    requires UrlQuery.Verbatims(k) && UrlQuery.Verbatims(t) && UrlQuery.Verbatims(v) && k != t
    ensures var fixes := map["x.com" := Fix(Some(t), None)];
      var url := Url(Some("x.com"), Some(k + "=" + "%2526" + "&" + t + "=" + v), "");
      && ApplyAsWritten(url, fixes, true) == Ok(Url(Some("x.com"), Some(k + "=" + "%26"), ""))
      && ApplyAsWritten(Url(Some("x.com"), Some(k + "=" + "%26"), ""), fixes, true) == Ok(Url(Some("x.com"), Some(k + "=" + "&"), ""))
  {
    var url := Url(Some("x.com"), Some(k + "=" + "%2526" + "&" + t + "=" + v), "");
    DropOnly(url, t);
    DropOnly(Url(Some("x.com"), Some(k + "=" + "%26"), ""), t);
    ReadEscapedPercent(k, t, v);
    assert Without([Pair(k, "%26"), Pair(t, v)], t) == [Pair(k, "%26")];
    WriteBare(k, "%26");
    ReadEscapedOnly(k);
    assert Without([Pair(k, "&")], t) == [Pair(k, "&")];
    WriteBare(k, "&");
  }

  /** A link on a site whose fix only drops the key `t`. */
  lemma DropOnly(url: Url, t: string)
    requires url.host == Some("x.com")
    ensures var fixes := map["x.com" := Fix(Some(t), None)];
      && ApplyAsWritten(url, fixes, true) == Ok(url.(query := Some(WrittenQuery(Without(QueryPairs(url.query), t)))))
      && Apply(url, fixes, true) == Ok(url.(query := Some(Serialized(Without(QueryPairs(url.query), t)))))
  {
    assert !("www." <= "x.com") by {
      assert "x.com"[0] != "www."[0];
    }
  }

  /** Letters, digits and `*-._` read as themselves and hold nothing a
      query would split at or encode. */
  lemma VerbatimsRead(s: string)
    requires UrlQuery.Verbatims(s)
    ensures UrlQuery.Decode(s) == s && '&' !in s && '=' !in s && UrlQuery.QuerySafeText(s)
  {
    UrlQuery.SerializeVerbatim(s);
    UrlQuery.DecodeSerialize(s);
    UrlQuery.SerializedSafe(s);
  }

  lemma SplitSingle(s: string)
    requires '&' !in s
    ensures Text.Split(s, '&') == [s]
  {
    Text.SplitPrefix(s, "", '&');
    assert Text.Split("", '&') == [""];
    assert s + "" == s;
  }

  lemma ReadPiece(piece: string, key: string, value: string)
    requires '=' !in key && piece == key + "=" + value
    ensures PairOf(piece) == Pair(key, value)
  {
    PairOfRender(Pair(key, value));
  }

  /** A query of one piece `key=value`, with or without a trailing '&'. */
  lemma ReadOne(q: string, key: string, value: string, trailing: bool)
    requires '&' !in key + value && '=' !in key
    requires q == key + "=" + value + (if trailing then "&" else "")
    ensures QueryPairs(Some(q)) == [Pair(UrlQuery.Decode(key), UrlQuery.Decode(value))]
  {
    var piece := key + "=" + value;
    ReadPiece(piece, key, value);
    assert '&' !in piece;
    if trailing {
      Text.SplitPrefix(piece, "&", '&');
      assert Text.Split("", '&') == [""];
      assert Text.Split("&", '&') == ["", ""];
      assert piece + "" == piece;
      assert Text.Split(q, '&') == [piece, ""];
      assert NonEmpty([piece, ""]) == [piece];
    } else {
      assert q == piece;
      SplitSingle(piece);
      assert NonEmpty([piece]) == [piece];
    }
    assert PairsOf([piece]) == [Pair(key, value)];
  }

  lemma SplitTwo(p1: string, p2: string)
    requires '&' !in p1 && '&' !in p2
    ensures Text.Split(p1 + "&" + p2, '&') == [p1, p2]
  {
    Text.SplitJoin([p1, p2], '&');
    assert Text.Join([p2], "&") == p2;
    assert "&" == ['&'];
  }

  /** A query of two pieces. */
  lemma ReadTwo(q: string, k1: string, v1: string, k2: string, v2: string)
    requires '&' !in k1 + v1 + k2 + v2 && '=' !in k1 && '=' !in k2
    requires q == k1 + "=" + v1 + "&" + k2 + "=" + v2
    ensures QueryPairs(Some(q)) ==
      [Pair(UrlQuery.Decode(k1), UrlQuery.Decode(v1)), Pair(UrlQuery.Decode(k2), UrlQuery.Decode(v2))]
  {
    var p1, p2 := k1 + "=" + v1, k2 + "=" + v2;
    ReadPiece(p1, k1, v1);
    ReadPiece(p2, k2, v2);
    assert q == p1 + "&" + p2;
    SplitTwo(p1, p2);
    NonEmptyAll([p1, p2]);
    assert PairsOf([p1, p2]) == [Pair(k1, v1), Pair(k2, v2)];
  }

  lemma ReadEscapedAmpersand(k: string, t: string, v: string)
    requires UrlQuery.Verbatims(k) && UrlQuery.Verbatims(t) && UrlQuery.Verbatims(v)
    ensures QueryPairs(Some(k + "=" + "%26" + "&" + t + "=" + v)) == [Pair(k, "&"), Pair(t, v)]
  {
    DecodeEscapedAmpersand();
    VerbatimsRead(k);
    VerbatimsRead(t);
    VerbatimsRead(v);
    ReadTwo(k + "=" + "%26" + "&" + t + "=" + v, k, "%26", t, v);
  }

  lemma ReadEscapedOnly(k: string)
    requires UrlQuery.Verbatims(k)
    ensures QueryPairs(Some(k + "=" + "%26")) == [Pair(k, "&")]
  {
    DecodeEscapedAmpersand();
    VerbatimsRead(k);
    ReadOne(k + "=" + "%26", k, "%26", false);
    assert k + "=" + "%26" + "" == k + "=" + "%26";
  }

  lemma ReadEscapedPercent(k: string, t: string, v: string)
    requires UrlQuery.Verbatims(k) && UrlQuery.Verbatims(t) && UrlQuery.Verbatims(v)
    ensures QueryPairs(Some(k + "=" + "%2526" + "&" + t + "=" + v)) == [Pair(k, "%26"), Pair(t, v)]
  {
    DecodeEscapedPercent();
    VerbatimsRead(k);
    VerbatimsRead(t);
    VerbatimsRead(v);
    ReadTwo(k + "=" + "%2526" + "&" + t + "=" + v, k, "%2526", t, v);
  }

  lemma ReadBare(k: string)
    requires UrlQuery.Verbatims(k)
    ensures QueryPairs(Some(k + "=" + "&")) == [Pair(k, "")]
  {
    VerbatimsRead(k);
    UrlQuery.SerializeVerbatim("");
    UrlQuery.DecodeSerialize("");
    ReadOne(k + "=" + "&", k, "", true);
    assert k + "=" + "" + "&" == k + "=" + "&";
  }

  /** A single pair whose key and value need no encoding is written as
      "k=v". */
  lemma WriteBare(k: string, v: string)
    requires UrlQuery.Verbatims(k) && (v == "&" || v == "%26")
    ensures WrittenQuery([Pair(k, v)]) == k + "=" + v
  {
    VerbatimsRead(k);
    var r := k + "=" + v;
    assert Text.Join(Renders([Pair(k, v)]), "&") == r;
    assert UrlQuery.QuerySafeText("=" + v) by {
      if v == "&" {
        assert "=" + v == "=&";
      } else {
        assert "=" + v == "=%26";
      }
    }
    UrlQuery.QuerySafeAppend(k, "=" + v);
    assert k + ("=" + v) == r;
    UrlQuery.EncodeQuerySafe(r);
  }

  lemma DecodeEscapedAmpersand()
    ensures UrlQuery.Decode("%26") == "&"
  {
    assert Utf8.Encode("%26") == [37, 50, 54];
    assert UrlQuery.DecodeBytes([37, 50, 54]) == [38];
    assert Utf8.DecodeLossy([38]) == "&";
  }

  lemma DecodeEscapedPercent()
    ensures UrlQuery.Decode("%2526") == "%26"
  {
    assert Utf8.Encode("%2526") == [37, 50, 53, 50, 54];
    assert UrlQuery.DecodeBytes([37, 50, 53, 50, 54]) == [37, 50, 54];
    assert Utf8.DecodeLossy([37, 50, 54]) == "%26";
  }

  lemma SerializeAmpersand(k: string)
    requires UrlQuery.Verbatims(k)
    ensures Serialized([Pair(k, "&")]) == k + "=" + "%26"
    ensures UrlQuery.EncodeQuery(k + "=" + "%26") == k + "=" + "%26"
  {
    assert Utf8.Encode("&") == [38];
    assert UrlQuery.SerializeBytes([38]) == UrlQuery.Escape(38);
    UrlQuery.SerializeVerbatim(k);
    assert Serialized([Pair(k, "&")]) == k + "=" + "%26";
    SerializedSafe([Pair(k, "&")]);
  }
}

=== FILE: avatars.dfy ===
/** Avatars for the image commands: which picture a user shows, and a
    per-user cache of the decoded images so each is downloaded once. */
module Avatars {
  import opened Wrappers
  import Text

  const SIZE_QUERY: string := "?size=256"
  const CDN: string := "https://cdn.discordapp.com/"
  const DOWNLOAD_FAILED: string := "Downloading avatar failed"

  /** The user as the platform describes them: id, avatar hash if any, and
      the address of their default avatar. */
  datatype User = User(id: nat, avatar: Option<string>, defaultAvatarUrl: string)

  /** Where the command runs: outside a guild, or in a guild where looking
      up the member gives their guild avatar hash (or fails). */
  datatype Place = Direct | InGuild(guildId: nat, memberAvatar: Result<Option<string>>)

  function GuildAvatarUrl(guildId: nat, userId: nat, hash: string): string {
    CDN + "guilds/" + Text.Decimal(guildId) + "/users/" + Text.Decimal(userId) + "/avatars/" + hash + ".png" + SIZE_QUERY
  }

  function UserAvatarUrl(userId: nat, hash: string): string {
    CDN + "avatars/" + Text.Decimal(userId) + "/" + hash + ".png" + SIZE_QUERY
  }

  /** `get_avatar_url`: the member's guild avatar first, then the user's
      own avatar, then the default one; a failed member lookup is an
      error. */
  function AvatarUrl(place: Place, user: User): (r: Result<string>)
    ensures r.Err? <==> place.InGuild? && place.memberAvatar.Err?
    ensures r.Ok? ==> EndsWith(r.value, SIZE_QUERY)
    ensures place.InGuild? && place.memberAvatar.Ok? && place.memberAvatar.value.Some? ==>
      r == Ok(GuildAvatarUrl(place.guildId, user.id, place.memberAvatar.value.value))
    ensures r.Ok? && user.avatar.Some? && !(place.InGuild? && place.memberAvatar.value.Some?) ==>
      r.value == UserAvatarUrl(user.id, user.avatar.value)
    ensures r.Ok? && user.avatar.None? && !(place.InGuild? && place.memberAvatar.value.Some?) ==>
      r.value == user.defaultAvatarUrl + SIZE_QUERY
  {
    match place
    case InGuild(g, Err(e)) => Err(e)
    case InGuild(g, Ok(Some(hash))) =>
      Ok(GuildAvatarUrl(g, user.id, hash))
    case _ =>
      match user.avatar
      case Some(hash) => Ok(UserAvatarUrl(user.id, hash))
      case None => Ok(user.defaultAvatarUrl + SIZE_QUERY)
  }

  predicate EndsWith(s: string, suffix: string) {
    |suffix| <= |s| && s[|s| - |suffix|..] == suffix
  }

  /** The result of `load_avatar`: the cache afterwards, the image or the
      error, and the address downloaded, if any. */
  datatype Load<Image> = Load(cache: map<nat, Image>, result: Result<Image>, downloaded: Option<string>)

  /** `load_avatar`: a cached image is returned without any request;
      otherwise the avatar is downloaded from `download(url)` and decoded,
      and only a decoded image enters the cache. */
  function LoadAvatar<Image>(cache: map<nat, Image>, place: Place, user: User,
                             download: string -> Option<seq<int>>, decode: seq<int> -> Result<Image>): (r: Load<Image>)
    ensures user.id in cache ==> r == Load(cache, Ok(cache[user.id]), None)
    ensures r.result.Err? ==> r.cache == cache
    ensures r.result.Ok? ==> r.cache == cache[user.id := r.result.value]
    ensures r.downloaded.Some? ==> user.id !in cache && AvatarUrl(place, user) == Ok(r.downloaded.value)
    ensures user.id !in cache && AvatarUrl(place, user).Ok? ==>
      r.downloaded == Some(AvatarUrl(place, user).value)
      && (download(AvatarUrl(place, user).value).None? ==> r.result == Err(Failure(DOWNLOAD_FAILED)))
      && (download(AvatarUrl(place, user).value).Some? ==> r.result == decode(download(AvatarUrl(place, user).value).value))
  {
    if user.id in cache then Load(cache, Ok(cache[user.id]), None)
    else
      match AvatarUrl(place, user)
      case Err(e) => Load(cache, Err(e), None)
      case Ok(url) =>
        match download(url)
        case None => Load(cache, Err(Failure(DOWNLOAD_FAILED)), Some(url))
        case Some(bytes) =>
          match decode(bytes)
          case Err(e) => Load(cache, Err(e), Some(url))
          case Ok(image) => Load(cache[user.id := image], Ok(image), Some(url))
  }

  /** Once an avatar loaded, loading it again, wherever and whatever the
      network does, makes no request and gives the same image. */
  lemma LoadTwice<Image>(cache: map<nat, Image>, place: Place, place2: Place, user: User,
                         download: string -> Option<seq<int>>, decode: seq<int> -> Result<Image>,
                         download2: string -> Option<seq<int>>, decode2: seq<int> -> Result<Image>)
    requires LoadAvatar(cache, place, user, download, decode).result.Ok?
    ensures var first := LoadAvatar(cache, place, user, download, decode);
      LoadAvatar(first.cache, place2, user, download2, decode2) == Load(first.cache, first.result, None)
  {
  }

  /** Loading touches no other user's entry. */
  lemma LoadKeepsOthers<Image>(cache: map<nat, Image>, place: Place, user: User,
                               download: string -> Option<seq<int>>, decode: seq<int> -> Result<Image>, other: nat)
    requires other != user.id
    ensures var after := LoadAvatar(cache, place, user, download, decode).cache;
      (other in after <==> other in cache) && (other in cache ==> after[other] == cache[other])
  {
  }
}

=== FILE: bets.dfy ===
/** Bets: a guild member opens a bet with an expiry, others join it as
    participants or watch it, and a periodic sweep announces and deletes
    the bets whose expiry has passed. */
module Bets {
  import opened Wrappers
  import opened Platform
  import Text
  import Commands
  import Ordering

  /** A row of `bets`, keyed by its serial id. */
  datatype Bet = Bet(
    guildId: nat,
    channelId: nat,
    messageId: nat,
    authorId: nat,
    description: string,
    expiry: int,
    createdAt: int)

  /** The two tables. `bet_participants` is keyed by its unique
      (bet, user) pair and holds the watching flag; its rows go with their
      bet when the bet is deleted. */
  datatype Db = Db(bets: map<nat, Bet>, participants: map<(nat, nat), bool>)

  /** Every participant row refers to an existing bet. */
  predicate Valid(db: Db) {
    forall k | k in db.participants :: k.0 in db.bets
  }

  const UNIQUE_VIOLATION: string := "duplicate key value violates unique constraint"
  const ALREADY_JOINED: string := "You have already joined this bet!"
  const ALREADY_PARTICIPATING: string := "You are already participating in this bet!"
  const BET_NOT_FOUND: string := "Bet not found"
  const NO_BETS_IN_CHANNEL: string := "No active bets found in this channel"
  const NO_BETS_ON_SERVER: string := "No active bets found on this server."
  const NO_ONE_YET: string := "No one yet"
  const GUILD_ONLY: string := "guild_only"
  const LIST_LIMIT: nat := 25

  datatype Effect =
    | SendEmbed(embed: Embed, ephemeral: bool)
    | SendContent(content: string, ephemeral: bool)
    | EditMessage(channelId: nat, messageId: nat, embed: Embed)

  datatype Outcome = Outcome(db: Db, effects: seq<Effect>, result: Result<Unit>)

  // ---------------------------------------------------------------------
  // Participants

  datatype Participant = Participant(userId: nat, watching: bool)

  function UsersOf(db: Db, betId: nat): set<nat> {
    set k | k in db.participants && k.0 == betId :: k.1
  }

  /** The participant rows of a bet as `ORDER BY watching, user_id`
      returns them. */
  function Rows(db: Db, betId: nat): (r: seq<Participant>)
    ensures forall u: nat, w :: Participant(u, w) in r <==> (betId, u) in db.participants && db.participants[(betId, u)] == w
  {
    var key := (u: nat) => if (betId, u) in db.participants && db.participants[(betId, u)] then 1 else 0;
    var users := Ordering.SortBy(key, UsersOf(db, betId));
    assert forall u :: u in users <==> (betId, u) in db.participants;
    ParticipantsOf(db, betId, users)
  }

  function ParticipantsOf(db: Db, betId: nat, users: seq<nat>): (r: seq<Participant>)
    requires forall u | u in users :: (betId, u) in db.participants
    ensures |r| == |users|
    ensures forall i | 0 <= i < |r| :: r[i] == Participant(users[i], db.participants[(betId, users[i])])
  {
    if |users| == 0 then []
    else [Participant(users[0], db.participants[(betId, users[0])])] + ParticipantsOf(db, betId, users[1..])
  }

  /** Non-watchers come before watchers, and within each group users
      ascend. */
  lemma RowsOrdered(db: Db, betId: nat)
    ensures var r := Rows(db, betId);
      forall i, j | 0 <= i < j < |r| ::
        (!r[i].watching && r[j].watching) || (r[i].watching == r[j].watching && r[i].userId < r[j].userId)
  {
    var key := (u: nat) => if (betId, u) in db.participants && db.participants[(betId, u)] then 1 else 0;
    var users := Ordering.SortBy(key, UsersOf(db, betId));
    var r := Rows(db, betId);
    forall i, j | 0 <= i < j < |r|
      ensures (!r[i].watching && r[j].watching) || (r[i].watching == r[j].watching && r[i].userId < r[j].userId)
    {
      assert Ordering.Before(key, users[i], users[j]);
    }
  }

  /** The users of `ps` whose watching flag is `watching`, in order. */
  function UsersWith(ps: seq<Participant>, watching: bool): (r: seq<nat>)
    ensures forall u :: u in r <==> Participant(u, watching) in ps
    ensures |r| <= |ps|
  {
    if |ps| == 0 then []
    else (if ps[0].watching == watching then [ps[0].userId] else []) + UsersWith(ps[1..], watching)
  }

  function MentionList(users: seq<nat>): string {
    Text.Join(Mentions(users), ", ")
  }

  /** `build_bet_embed`: the Participants field lists the non-watchers
      (or says no one has joined), and a Watching field appears only when
      someone watches. */
  function BuildBetEmbed(id: nat, description: string, expiry: int, ps: seq<Participant>): (e: Embed)
    ensures e.title == Some("Bet #" + Text.Decimal(id)) && e.description == Some(description)
    ensures |e.fields| == (if UsersWith(ps, true) == [] then 2 else 3)
    ensures e.fields[0] == Field("Expires", RelativeTimestamp(expiry), true)
    ensures e.fields[1].name == "Participants"
    ensures e.fields[1].value == (if UsersWith(ps, false) == [] then NO_ONE_YET else MentionList(UsersWith(ps, false)))
    ensures |e.fields| == 3 ==> e.fields[2] == Field("Watching", MentionList(UsersWith(ps, true)), false)
  {
    var accepted := UsersWith(ps, false);
    var watching := UsersWith(ps, true);
    var base := NewEmbed()
      .(title := Some("Bet #" + Text.Decimal(id)), description := Some(description))
      .(fields := [Field("Expires", RelativeTimestamp(expiry), true)])
      .(colour := Some(Random), footer := Some("Use /bet join " + Text.Decimal(id) + " (or just /bet join)"));
    var withParticipants := base.(fields := base.fields + [Field("Participants", if accepted != [] then MentionList(accepted) else NO_ONE_YET, false)]);
    if watching != [] then withParticipants.(fields := withParticipants.fields + [Field("Watching", MentionList(watching), false)])
    else withParticipants
  }

  // ---------------------------------------------------------------------
  // Looking a bet up

  function NewestFirst(db: Db): nat -> int {
    (id: nat) => if id in db.bets then -db.bets[id].createdAt else 0
  }

  function ChannelBets(db: Db, channelId: nat): set<nat> {
    set id | id in db.bets && db.bets[id].channelId == channelId
  }

  /** `get_bet`: the given bet, or without an id the channel's newest bet
      (by creation time; equal times resolved towards the smaller id). */
  function GetBet(db: Db, betId: Option<int>, channelId: nat): (r: Result<nat>)
    ensures r.Ok? ==> r.value in db.bets
    ensures betId.Some? ==> (r.Ok? <==> betId.value >= 0 && betId.value as nat in db.bets)
    ensures betId.Some? && r.Ok? ==> r.value == betId.value
    ensures betId.Some? && r.Err? ==> r.error == UserError(BET_NOT_FOUND)
    ensures betId.None? ==> (r.Ok? <==> ChannelBets(db, channelId) != {})
    ensures betId.None? && r.Err? ==> r.error == UserError(NO_BETS_IN_CHANNEL)
    ensures betId.None? && r.Ok? ==> db.bets[r.value].channelId == channelId
    ensures betId.None? && r.Ok? ==> forall id | id in ChannelBets(db, channelId) :: db.bets[id].createdAt <= db.bets[r.value].createdAt
  {
    match betId
    case Some(id) =>
      if id >= 0 && id as nat in db.bets then Ok(id as nat) else Err(UserError(BET_NOT_FOUND))
    case None =>
      var candidates := ChannelBets(db, channelId);
      var order := Ordering.SortBy(NewestFirst(db), candidates);
      if order == [] then Err(UserError(NO_BETS_IN_CHANNEL))
      else
        assert forall id | id in candidates && id != order[0] :: Ordering.Before(NewestFirst(db), order[0], id) by {
          forall id | id in candidates && id != order[0]
            ensures Ordering.Before(NewestFirst(db), order[0], id)
          {
            var j :| 0 <= j < |order| && order[j] == id;
            assert j != 0;
          }
        }
        Ok(order[0])
  }

  // ---------------------------------------------------------------------
  // Commands

  function CreateEmbed(id: nat, description: string, expiry: int, authorId: nat): Embed {
    NewEmbed()
      .(title := Some("Bet #" + Text.Decimal(id)), description := Some(description))
      .(fields := [Field("Expires", FormattedTimestamp(expiry), true), Field("Participants", UserMention(authorId), false)])
      .(colour := Some(Random), footer := Some("Use /bet join " + Text.Decimal(id) + " to participate"))
  }

  /** `create`: in one transaction insert the bet (message id 0) and its
      author as a joined participant; then announce it and record the
      announcement's id. `newId` is the id the serial column hands out,
      `sent` what sending the announcement gave. */
  function Create(
    db: Db, guildId: nat, channelId: nat, authorId: nat, description: string,
    expiry: Result<int>, now: int, newId: nat, sent: Result<nat>): (r: Outcome)
    ensures expiry.Err? ==> r == Outcome(db, [], Err(expiry.error))
    ensures expiry.Ok? && (newId in db.bets || (newId, authorId) in db.participants) ==> r.db == db && r.result.Err?
    ensures r.result.Ok? <==> expiry.Ok? && newId !in db.bets && (newId, authorId) !in db.participants && sent.Ok?
    ensures r.result.Ok? ==> newId in r.db.bets && r.db.bets[newId].messageId == sent.value
    ensures r.db != db ==> newId in r.db.bets && r.db.bets[newId].description == description
    ensures r.db != db ==> (newId, authorId) in r.db.participants && !r.db.participants[(newId, authorId)]
    ensures r.db != db && sent.Err? ==> r.db.bets[newId].messageId == 0
    ensures r.db != db ==> r.db.bets - {newId} == db.bets && r.db.participants - {(newId, authorId)} == db.participants
  {
    match expiry
    case Err(e) => Outcome(db, [], Err(e))
    case Ok(end) =>
      if newId in db.bets || (newId, authorId) in db.participants then
        Outcome(db, [], Err(Failure(UNIQUE_VIOLATION)))
      else
        var bet := Bet(guildId, channelId, 0, authorId, description, end, now);
        var committed := Db(db.bets[newId := bet], db.participants[(newId, authorId) := false]);
        var reply := SendEmbed(CreateEmbed(newId, description, end, authorId), false);
        match sent
        case Err(e) => Outcome(committed, [reply], Err(e))
        case Ok(messageId) =>
          Outcome(committed.(bets := committed.bets[newId := bet.(messageId := messageId)]), [reply], Ok(Unit))
  }

  /** `update_bet_message`: re-render the bet's announcement from its
      current participants. Its failure is only logged. */
  function UpdateBetMessage(db: Db, betId: nat): (e: Effect)
    requires betId in db.bets
    ensures e.EditMessage? && e.channelId == db.bets[betId].channelId && e.messageId == db.bets[betId].messageId
    ensures e.embed == BuildBetEmbed(betId, db.bets[betId].description, db.bets[betId].expiry, Rows(db, betId))
  {
    var bet := db.bets[betId];
    EditMessage(bet.channelId, bet.messageId, BuildBetEmbed(betId, bet.description, bet.expiry, Rows(db, betId)))
  }

  /** `join`: a user who has joined already is refused; otherwise the row
      is upserted as joined, which turns a watcher into a participant. */
  function Join(db: Db, betId: Option<int>, channelId: nat, userId: nat): (r: Outcome)
    ensures GetBet(db, betId, channelId).Err? ==> r == Outcome(db, [], Err(GetBet(db, betId, channelId).error))
    ensures GetBet(db, betId, channelId).Ok? ==> var b := GetBet(db, betId, channelId).value;
      && (r.result.Ok? <==> !((b, userId) in db.participants && !db.participants[(b, userId)]))
    ensures r.result.Err? ==> r.db == db
    ensures r.result.Ok? ==> var b := GetBet(db, betId, channelId).value;
      r.db == db.(participants := db.participants[(b, userId) := false])
  {
    match GetBet(db, betId, channelId)
    case Err(e) => Outcome(db, [], Err(e))
    case Ok(b) =>
      if (b, userId) in db.participants && !db.participants[(b, userId)] then
        Outcome(db, [], Err(UserError(ALREADY_JOINED)))
      else
        var after := db.(participants := db.participants[(b, userId) := false]);
        var bet := db.bets[b];
        var reply := NewEmbed()
          .(title := Some("Joined Bet"), colour := Some(DarkGreen))
          .(description := Some("You joined the bet #" + Text.Decimal(b) + ": **" + bet.description + "**"));
        Outcome(after, [UpdateBetMessage(after, b), SendEmbed(reply, false)], Ok(Unit))
  }

  /** `watch`: insert the row as watching. A unique violation (the user
      already joined or watches) is refused; any other insert failure,
      flagged by `insertFails`, is ignored and the command carries on. */
  function Watch(db: Db, betId: Option<int>, channelId: nat, userId: nat, insertFails: bool): (r: Outcome)
    ensures GetBet(db, betId, channelId).Err? ==> r == Outcome(db, [], Err(GetBet(db, betId, channelId).error))
    ensures GetBet(db, betId, channelId).Ok? ==> var b := GetBet(db, betId, channelId).value;
      && (r.result.Ok? <==> (b, userId) !in db.participants)
    ensures r.result.Err? || insertFails ==> r.db == db
    ensures r.result.Ok? && !insertFails ==> var b := GetBet(db, betId, channelId).value;
      r.db == db.(participants := db.participants[(b, userId) := true])
    ensures r.result.Ok? ==> |r.effects| == 2 && r.effects[1].SendEmbed? && r.effects[1].ephemeral
  {
    match GetBet(db, betId, channelId)
    case Err(e) => Outcome(db, [], Err(e))
    case Ok(b) =>
      if (b, userId) in db.participants then
        Outcome(db, [], Err(UserError(ALREADY_PARTICIPATING)))
      else
        var after := if insertFails then db else db.(participants := db.participants[(b, userId) := true]);
        var bet := db.bets[b];
        var reply := NewEmbed()
          .(title := Some("Watching Bet"), colour := Some(Blue))
          .(description := Some("You are now watching the bet #" + Text.Decimal(b) + ": **" + bet.description + "**"));
        Outcome(after, [UpdateBetMessage(after, b), SendEmbed(reply, true)], Ok(Unit))
  }

  /** A watcher may still join; a participant can neither join again nor
      watch. */
  lemma WatchThenJoin(db: Db, b: nat, channelId: nat, userId: nat)
    requires b in db.bets && (b, userId) !in db.participants
    ensures var w := Watch(db, Some(b), channelId, userId, false);
      && w.result.Ok? && w.db.participants[(b, userId)]
      && var j := Join(w.db, Some(b), channelId, userId);
      && j.result.Ok? && !j.db.participants[(b, userId)]
      && Join(j.db, Some(b), channelId, userId).result == Err(UserError(ALREADY_JOINED))
      && Watch(j.db, Some(b), channelId, userId, false).result == Err(UserError(ALREADY_PARTICIPATING))
  {
  }

  /** `status`: the bet embed plus a jump link to the announcement. */
  function Status(db: Db, betId: Option<int>, channelId: nat): (r: Result<Embed>)
    ensures r.Ok? <==> GetBet(db, betId, channelId).Ok?
    ensures r.Ok? ==> var b := GetBet(db, betId, channelId).value; var bet := db.bets[b];
      r.value.fields == BuildBetEmbed(b, bet.description, bet.expiry, Rows(db, b)).fields
        + [Field("Original Message", "[Jump to Bet](" + Commands.LinkMessage(bet.guildId, bet.channelId, bet.messageId) + ")", false)]
  {
    match GetBet(db, betId, channelId)
    case Err(e) => Err(e)
    case Ok(b) =>
      var bet := db.bets[b];
      var embed := BuildBetEmbed(b, bet.description, bet.expiry, Rows(db, b));
      var link := Commands.LinkMessage(bet.guildId, bet.channelId, bet.messageId);
      Ok(embed.(fields := embed.fields + [Field("Original Message", "[Jump to Bet](" + link + ")", false)]))
  }

  function ByExpiry(db: Db): nat -> int {
    (id: nat) => if id in db.bets then db.bets[id].expiry else 0
  }

  function GuildBets(db: Db, guildId: nat): set<nat> {
    set id | id in db.bets && db.bets[id].guildId == guildId
  }

  /** The bets `list` shows: the guild's first 25 by expiry. */
  function Listed(db: Db, guildId: nat): (r: seq<nat>)
    ensures |r| <= LIST_LIMIT
    ensures forall i | 0 <= i < |r| :: r[i] in db.bets && r[i] in GuildBets(db, guildId)
    ensures forall i, j | 0 <= i < j < |r| :: db.bets[r[i]].expiry <= db.bets[r[j]].expiry
    ensures |r| < LIST_LIMIT ==> forall id :: id in r <==> id in GuildBets(db, guildId)
  {
    var all := Ordering.SortBy(ByExpiry(db), GuildBets(db, guildId));
    SortedByExpiry(db, guildId, all);
    if |all| <= LIST_LIMIT then all
    else
      TakeSorted(db, guildId, all, LIST_LIMIT);
      all[..LIST_LIMIT]
  }

  /** A prefix of the sorted guild bets is still sorted guild bets. */
  lemma TakeSorted(db: Db, guildId: nat, all: seq<nat>, n: nat)
    requires n <= |all|
    requires forall i | 0 <= i < |all| :: all[i] in db.bets && all[i] in GuildBets(db, guildId)
    requires forall i, j | 0 <= i < j < |all| :: db.bets[all[i]].expiry <= db.bets[all[j]].expiry
    ensures forall i | 0 <= i < n :: all[..n][i] in db.bets && all[..n][i] in GuildBets(db, guildId)
    ensures forall i, j | 0 <= i < j < n :: db.bets[all[..n][i]].expiry <= db.bets[all[..n][j]].expiry
  {
    forall i | 0 <= i < n ensures all[..n][i] == all[i] {}
  }

  /** The guild's bets sorted by expiry are bets of the guild, soonest first. */
  lemma SortedByExpiry(db: Db, guildId: nat, all: seq<nat>)
    requires all == Ordering.SortBy(ByExpiry(db), GuildBets(db, guildId))
    ensures forall i | 0 <= i < |all| :: all[i] in db.bets && all[i] in GuildBets(db, guildId)
    ensures forall i, j | 0 <= i < j < |all| :: db.bets[all[i]].expiry <= db.bets[all[j]].expiry
    ensures forall id :: id in all <==> id in GuildBets(db, guildId)
  {
    forall i | 0 <= i < |all| ensures all[i] in db.bets && all[i] in GuildBets(db, guildId) {
      assert all[i] in all;
    }
    forall i, j | 0 <= i < j < |all| ensures db.bets[all[i]].expiry <= db.bets[all[j]].expiry {
      assert Ordering.Before(ByExpiry(db), all[i], all[j]);
      assert ByExpiry(db)(all[i]) == db.bets[all[i]].expiry;
      assert ByExpiry(db)(all[j]) == db.bets[all[j]].expiry;
    }
  }

  /** A guild bet left out of the list expires no earlier than any listed
      one. */
  lemma ListedFirst(db: Db, guildId: nat, x: nat, y: nat)
    requires x in Listed(db, guildId)
    requires y in GuildBets(db, guildId) && y !in Listed(db, guildId)
    ensures db.bets[x].expiry <= db.bets[y].expiry
  {
    var s := GuildBets(db, guildId);
    var all := Ordering.SortBy(ByExpiry(db), s);
    assert Listed(db, guildId) == all[..if LIST_LIMIT < |s| then LIST_LIMIT else |s|];
    Ordering.TakeIsLeast(ByExpiry(db), s, LIST_LIMIT, x, y);
  }

  function ListFields(db: Db, ids: seq<nat>): (r: seq<Field>)
    requires forall i | 0 <= i < |ids| :: ids[i] in db.bets
    ensures |r| == |ids|
    ensures forall i | 0 <= i < |ids| :: r[i].name == "ID: " + Text.Decimal(ids[i])
    ensures forall i | 0 <= i < |ids| ::
      r[i] == Field("ID: " + Text.Decimal(ids[i]), db.bets[ids[i]].description + " (Ends " + RelativeTimestamp(db.bets[ids[i]].expiry) + ")", false)
  {
    if |ids| == 0 then []
    else
      var bet := db.bets[ids[0]];
      [Field("ID: " + Text.Decimal(ids[0]), bet.description + " (Ends " + RelativeTimestamp(bet.expiry) + ")", false)]
        + ListFields(db, ids[1..])
  }

  /** `list`: the guild's bets soonest first, at most 25, or an ephemeral
      note when there are none. Outside a guild the command panics. */
  function List(db: Db, guildId: Option<nat>): (r: Result<Effect>)
    ensures guildId.None? <==> r.Err?
    ensures r.Ok? ==> (r.value.SendContent? <==> GuildBets(db, guildId.value) == {})
    ensures r.Ok? && r.value.SendContent? ==> r.value == SendContent(NO_BETS_ON_SERVER, true)
    ensures r.Ok? && r.value.SendEmbed? ==> |r.value.embed.fields| == |Listed(db, guildId.value)| <= LIST_LIMIT
    ensures r.Ok? && r.value.SendEmbed? ==>
      && r.value.embed.title == Some("Active Bets")
      && r.value.embed.fields == ListFields(db, Listed(db, guildId.value))
      && !r.value.ephemeral
  {
    match guildId
    case None => Err(Failure(GUILD_ONLY))
    case Some(g) =>
      var ids := Listed(db, g);
      if ids == [] then
        assert forall id :: id !in GuildBets(db, g);
        Ok(SendContent(NO_BETS_ON_SERVER, true))
      else
        assert ids[0] in GuildBets(db, g);
        Ok(SendEmbed(NewEmbed().(title := Some("Active Bets"), colour := Some(Random), fields := ListFields(db, ids)), false))
  }

  /** Creating, joining and watching keep every participant row attached
      to an existing bet. */
  lemma CommandsKeepValid(
    db: Db, guildId: nat, channelId: nat, userId: nat, description: string,
    expiry: Result<int>, now: int, newId: nat, sent: Result<nat>, betId: Option<int>, insertFails: bool)
    requires Valid(db)
    ensures Valid(Create(db, guildId, channelId, userId, description, expiry, now, newId, sent).db)
    ensures Valid(Join(db, betId, channelId, userId).db)
    ensures Valid(Watch(db, betId, channelId, userId, insertFails).db)
  {
    CreateKeepsValid(db, guildId, channelId, userId, description, expiry, now, newId, sent);
    JoinKeepsValid(db, betId, channelId, userId);
    WatchKeepsValid(db, betId, channelId, userId, insertFails);
  }

  lemma CreateKeepsValid(
    db: Db, guildId: nat, channelId: nat, userId: nat, description: string,
    expiry: Result<int>, now: int, newId: nat, sent: Result<nat>)
    requires Valid(db)
    ensures Valid(Create(db, guildId, channelId, userId, description, expiry, now, newId, sent).db)
  {
  }

  lemma JoinKeepsValid(db: Db, betId: Option<int>, channelId: nat, userId: nat)
    requires Valid(db)
    ensures Valid(Join(db, betId, channelId, userId).db)
  {
  }

  lemma WatchKeepsValid(db: Db, betId: Option<int>, channelId: nat, userId: nat, insertFails: bool)
    requires Valid(db)
    ensures Valid(Watch(db, betId, channelId, userId, insertFails).db)
  {
  }
}

=== FILE: birthdays.dfy ===
/** Birthdays: members register the date of their birthday, and a daily
    sweep congratulates everyone whose birthday is today, once per day, in
    their guild's event channel. */
module Birthdays {
  import opened Wrappers
  import opened Platform

  const SECS_PER_DAY: nat := 24 * 60 * 60

  /** The UTC calendar day of a timestamp, as a day number. */
  function DateOf(t: int): int {
    t / SECS_PER_DAY
  }

  /** A row of `birthdays`, keyed by user: at most one birthday per user. */
  datatype Row = Row(guildId: nat, birthday: int, lastCongratulated: Option<int>)

  type Table = map<nat, Row>

  const ADDED_PREFIX: string := "Added your birthday at "
  const DELETED: string := "No more congratulations :("

  /** `add`: the parsed date is confirmed first and then upserted on the
      user; a new row has never been congratulated, an existing one keeps
      that mark. `parsed` is the timestamp the unshown `parse_date` gave,
      `replied` whether the confirmation went out. */
  function Add(t: Table, guildId: nat, userId: nat, parsed: Result<int>, replied: bool): (r: (Table, seq<string>, Result<Unit>))
    ensures parsed.Err? ==> r == (t, [], Err(parsed.error))
    ensures parsed.Ok? ==> r.1 == [ADDED_PREFIX + FormattedTimestamp(parsed.value)]
    ensures r.2.Ok? <==> parsed.Ok? && replied
    ensures r.2.Err? ==> r.0 == t
    ensures r.2.Ok? ==> r.0.Keys == t.Keys + {userId}
    ensures r.2.Ok? ==> r.0[userId].guildId == guildId && r.0[userId].birthday == DateOf(parsed.value)
    ensures r.2.Ok? ==> r.0[userId].lastCongratulated == (if userId in t then t[userId].lastCongratulated else None)
    ensures r.2.Ok? ==> forall u | u in t && u != userId :: r.0[u] == t[u]
  {
    match parsed
    case Err(e) => (t, [], Err(e))
    case Ok(when) =>
      var reply := [ADDED_PREFIX + FormattedTimestamp(when)];
      if !replied then (t, reply, Err(Failure("reply failed")))
      else
        var last := if userId in t then t[userId].lastCongratulated else None;
        (t[userId := Row(guildId, DateOf(when), last)], reply, Ok(Unit))
  }

  /** `delete`: removes the caller's row, whether or not there was one. */
  function Delete(t: Table, userId: nat): (r: (Table, string))
    ensures r.0.Keys == t.Keys - {userId}
    ensures forall u | u in r.0 :: r.0[u] == t[u]
    ensures r.1 == DELETED
  {
    (t - {userId}, DELETED)
  }

  /** Registering and deleting leaves no trace of the user. */
  lemma AddThenDelete(t: Table, guildId: nat, userId: nat, when: int)
    requires userId !in t
    ensures Delete(Add(t, guildId, userId, Ok(when), true).0, userId).0 == t
  {
  }
}

=== FILE: boop.dfy ===
/** `boop`: a button that counts its presses until ten quiet seconds pass.
    Both generations behave alike; they differ only in how a press is
    acknowledged. */
module Boop {
  import opened Wrappers
  import opened Platform
  import Text

  const BOOP_TIMEOUT_SECS: nat := 10
  const INITIAL_CONTENT: string := "I want some boops!"
  const BUTTON_LABEL: string := "Boop me!"

  /** The newer generation acknowledges; the older defers an update. */
  datatype Generation = Newer | Older

  datatype Effect =
    | EditContent(content: string)
    | Acknowledge
    | DeferredUpdate

  function AckOf(g: Generation): Effect {
    if g == Newer then Acknowledge else DeferredUpdate
  }

  /** The collector admits only presses in the channel whose custom id is
      exactly the invocation id. */
  predicate Accepted(ctxId: nat, channelId: nat, i: Interaction) {
    i.channelId == channelId && i.customId == Text.Decimal(ctxId)
  }

  /** The number of accepted presses before the timeout (or the end). */
  function AcceptedBefore(ctxId: nat, channelId: nat, events: seq<CollectorEvent>): nat
    decreases |events|
  {
    if |events| == 0 || events[0].TimedOut? then 0
    else
      var here: nat := if Accepted(ctxId, channelId, events[0].interaction) then 1 else 0;
      here + AcceptedBefore(ctxId, channelId, events[1..])
  }

  function CountContent(n: nat): string {
    "Boop count: " + Text.Decimal(n)
  }

  /** The collector loop from count `n`: each accepted press raises the
      count by one, shows it, and is acknowledged. */
  function Loop(ctxId: nat, channelId: nat, g: Generation, n: nat, events: seq<CollectorEvent>): (r: (nat, seq<Effect>))
    ensures r.0 == n + AcceptedBefore(ctxId, channelId, events)
    ensures PressEffects(n, g, r.0, r.1)
    decreases |events|
  {
    if |events| == 0 || events[0].TimedOut? then (n, [])
    else if Accepted(ctxId, channelId, events[0].interaction) then
      var rest := Loop(ctxId, channelId, g, n + 1, events[1..]);
      PrependPress(n, g, rest.0, rest.1);
      (rest.0, [EditContent(CountContent(n + 1)), AckOf(g)] + rest.1)
    else Loop(ctxId, channelId, g, n, events[1..])
  }

  /** The effects of the presses from count `n` to `count`, in order. */
  predicate PressEffects(n: nat, g: Generation, count: nat, effects: seq<Effect>)
    requires n <= count
  {
    && |effects| == 2 * (count - n)
    && forall k | 0 <= k < count - n ::
         effects[2 * k] == EditContent(CountContent(n + k + 1)) && effects[2 * k + 1] == AckOf(g)
  }

  /** One more press in front: its edit and acknowledgement come first. */
  lemma PrependPress(n: nat, g: Generation, count: nat, effects: seq<Effect>)
    requires n + 1 <= count && PressEffects(n + 1, g, count, effects)
    ensures PressEffects(n, g, count, [EditContent(CountContent(n + 1)), AckOf(g)] + effects)
  {
    var all := [EditContent(CountContent(n + 1)), AckOf(g)] + effects;
    forall k | 0 <= k < count - n
      ensures all[2 * k] == EditContent(CountContent(n + k + 1)) && all[2 * k + 1] == AckOf(g)
    {
      if k > 0 {
        assert all[2 * k] == effects[2 * (k - 1)];
        assert all[2 * k + 1] == effects[2 * (k - 1) + 1];
      }
    }
  }

  datatype Outcome = Outcome(count: nat, effects: seq<Effect>, message: Message)

  function TotalContent(n: nat): string {
    "Total boops: " + Text.Decimal(n)
  }

  /** `boop`: the count starts at 0; after the timeout the message shows the
      total and loses its button. */
  function Boop(ctxId: nat, channelId: nat, g: Generation, events: seq<CollectorEvent>): (r: Outcome)
    ensures r.count == AcceptedBefore(ctxId, channelId, events)
    ensures r.message == Message(TotalContent(r.count), [], [])
    ensures |r.effects| == 2 * r.count
  {
    var (n, effects) := Loop(ctxId, channelId, g, 0, events);
    Outcome(n, effects, Message(TotalContent(n), [], []))
  }

  /** The initial message: the prompt and one button whose id is the
      invocation id. */
  function InitialMessage(ctxId: nat): (m: Message)
    ensures m.content == INITIAL_CONTENT
    ensures |m.components| == 1
    ensures forall c | c in m.components :: c.customId == Text.Decimal(ctxId)
  {
    Message(INITIAL_CONTENT, [], [Button(Text.Decimal(ctxId))])
  }

  /** Counting is additive over a run of events with no timeout in it. */
  lemma {:induction false} AcceptedAppend(ctxId: nat, channelId: nat, a: seq<CollectorEvent>, b: seq<CollectorEvent>)
    requires forall k | 0 <= k < |a| :: a[k].Interacted?
    ensures AcceptedBefore(ctxId, channelId, a + b)
      == AcceptedBefore(ctxId, channelId, a) + AcceptedBefore(ctxId, channelId, b)
    decreases |a|
  {
    if |a| > 0 {
      assert (a + b)[0] == a[0];
      assert (a + b)[1..] == a[1..] + b;
      AcceptedAppend(ctxId, channelId, a[1..], b);
    } else {
      assert a + b == b;
    }
  }

  /** A press on another collector's button whose id merely starts with
      this invocation's id (as "{id}next" does) is not counted. */
  lemma PrefixedIdNotCounted(ctxId: nat, channelId: nat, suffix: string, events: seq<CollectorEvent>)
    requires |suffix| > 0
    ensures var e := Interacted(Interaction(channelId, 0, Text.Decimal(ctxId) + suffix));
      AcceptedBefore(ctxId, channelId, [e] + events) == AcceptedBefore(ctxId, channelId, events)
  {
    var e := Interacted(Interaction(channelId, 0, Text.Decimal(ctxId) + suffix));
    assert |Text.Decimal(ctxId) + suffix| != |Text.Decimal(ctxId)|;
    assert ([e] + events)[1..] == events;
  }

  /** Nothing after the timeout counts. */
  lemma AfterTimeoutIgnored(ctxId: nat, channelId: nat, a: seq<CollectorEvent>, b: seq<CollectorEvent>)
    ensures AcceptedBefore(ctxId, channelId, [TimedOut] + a) == AcceptedBefore(ctxId, channelId, [TimedOut] + b)
  {
  }
}

=== FILE: calendar.dfy ===
/** Proleptic Gregorian calendar arithmetic on day numbers (days since
    1970-01-01), in the closed form of the civil-from-days algorithm, plus
    weekdays and ISO 8601 week numbers. Used where the bot formats dates
    and picks a week's menu. */
module Calendar {
  import opened Wrappers
  import Text

  datatype Date = Date(year: int, month: int, day: int)

  /** Days in the 400-year era before the year `yoe` of the era starts
      (years run March to February). */
  function EraYearStart(yoe: int): int {
    yoe * 365 + yoe / 4 - yoe / 100
  }

  /** Days of the March-based year before month index `mp` (0 = March). */
  function MonthStart(mp: int): int {
    (153 * mp + 2) / 5
  }

  /** The year of the era holding day `doe` of the era: whole centuries of
      36524 days (the era's last day, a leap day, closes the fourth), then
      four-year groups of 1461 days, then years of 365 days (the leap day
      closes the fourth year). */
  function YearOfEra(doe: int): int {
    var cent := if doe == 146096 then 3 else doe / 36524;
    var doc := doe - cent * 36524;
    var quad := doc / 1461;
    var doq := doc - quad * 1461;
    var yoq := if doq == 1460 then 3 else doq / 365;
    cent * 100 + quad * 4 + yoq
  }

  lemma YearOfEraBounds(doe: int)
    requires 0 <= doe < 146097
    ensures 0 <= YearOfEra(doe) < 400
    ensures 0 <= doe - EraYearStart(YearOfEra(doe)) < 366
  {
    var cent := if doe == 146096 then 3 else doe / 36524;
    assert 0 <= cent <= 3;
    var doc := doe - cent * 36524;
    assert 0 <= doc <= 36524;
    assert doc == 36524 ==> cent == 3;
    var quad := doc / 1461;
    var doq := doc - quad * 1461;
    assert 0 <= quad <= 24 && 0 <= doq < 1461;
    var yoq := if doq == 1460 then 3 else doq / 365;
    assert 0 <= yoq <= 3 && 0 <= doq - 365 * yoq < 366;
    var yoe := cent * 100 + quad * 4 + yoq;
    assert YearOfEra(doe) == yoe;
    assert yoe / 4 == cent * 25 + quad;
    assert yoe / 100 == cent;
    assert EraYearStart(yoe) == cent * 36524 + quad * 1461 + yoq * 365;
  }

  lemma MonthBounds(doy: int)
    requires 0 <= doy < 366
    ensures 0 <= (5 * doy + 2) / 153 < 12
    ensures 0 <= doy - MonthStart((5 * doy + 2) / 153) < 31
  {
  }

  /** Day number of a civil date. */
  function DaysFromCivil(y: int, m: int, d: int): int {
    var y' := if m <= 2 then y - 1 else y;
    var era := y' / 400;
    var yoe := y' - era * 400;
    var mp := if m > 2 then m - 3 else m + 9;
    era * 146097 + EraYearStart(yoe) + MonthStart(mp) + d - 1 - 719468
  }

  /** Civil date of a day number. */
  function CivilFromDays(z: int): (r: Date)
    ensures 1 <= r.month <= 12 && 1 <= r.day <= 31
  {
    var z' := z + 719468;
    var era := z' / 146097;
    var doe := z' - era * 146097;
    YearOfEraBounds(doe);
    var yoe := YearOfEra(doe);
    var doy := doe - EraYearStart(yoe);
    MonthBounds(doy);
    var mp := (5 * doy + 2) / 153;
    var d := doy - MonthStart(mp) + 1;
    var m := if mp < 10 then mp + 3 else mp - 9;
    Date(if m <= 2 then yoe + era * 400 + 1 else yoe + era * 400, m, d)
  }

  /** Reading a day number's date back gives the day number. */
  lemma CivilRoundTrip(z: int)
    ensures var c := CivilFromDays(z); DaysFromCivil(c.year, c.month, c.day) == z
  {
    var z' := z + 719468;
    var era := z' / 146097;
    var doe := z' - era * 146097;
    YearOfEraBounds(doe);
    var yoe := YearOfEra(doe);
    var y := yoe + era * 400;
    assert y / 400 == era;
  }

  /** Day of the week, Monday = 0 ... Sunday = 6; day 0 was a Thursday. */
  function Weekday(z: int): (r: int)
    ensures 0 <= r < 7
  {
    (z + 3) % 7
  }

  lemma WeekdayNext(z: int)
    ensures Weekday(z + 1) == (Weekday(z) + 1) % 7
  {
  }

  /** Days of a Monday-based week have consecutive weekdays. */
  lemma WeekdayInWeek(monday: int, k: int)
    requires Weekday(monday) == 0 && 0 <= k < 7
    ensures Weekday(monday + k) == k
  {
    var q := (monday + 3) / 7;
    assert monday + 3 == 7 * q;
    assert monday + k + 3 == 7 * q + k;
  }

  /** Zero-based position of a day within its calendar year. */
  function OrdinalDay(z: int): int {
    z - DaysFromCivil(CivilFromDays(z).year, 1, 1)
  }

  lemma {:induction false} OrdinalDayBounds(z: int)
    ensures 0 <= OrdinalDay(z) < 366
  {
    var z' := z + 719468;
    var era := z' / 146097;
    var doe := z' - era * 146097;
    YearOfEraBounds(doe);
    var yoe := YearOfEra(doe);
    var doy := doe - EraYearStart(yoe);
    MonthBounds(doy);
    var mp := (5 * doy + 2) / 153;
    LateMonths(doy);
    CivilYear(z, era, yoe, doy, mp);
    if mp >= 10 {
      OrdinalLate(z, era, yoe, doy);
    } else {
      OrdinalEarly(z, era, yoe, doy);
    }
  }

  /** Month indexes 10 and 11 (January and February) are the days from 306 on. */
  lemma LateMonths(doy: int)
    requires 0 <= doy < 366
    ensures (5 * doy + 2) / 153 >= 10 <==> doy >= 306
  {
    if doy >= 306 {
      assert 5 * doy + 2 >= 153 * 10;
    } else {
      assert 5 * doy + 2 < 153 * 10;
    }
  }

  /** The calendar year `CivilFromDays` gives, from its intermediate values. */
  lemma CivilYear(z: int, era: int, yoe: int, doy: int, mp: int)
    requires era == (z + 719468) / 146097
    requires yoe == YearOfEra(z + 719468 - era * 146097)
    requires doy == z + 719468 - era * 146097 - EraYearStart(yoe)
    requires mp == (5 * doy + 2) / 153 && 0 <= mp < 12
    ensures CivilFromDays(z).year == if mp >= 10 then yoe + era * 400 + 1 else yoe + era * 400
  {
  }

  /** A day from March 1 on lies in the year after the March-based one. */
  lemma OrdinalLate(z: int, era: int, yoe: int, doy: int)
    requires 0 <= yoe < 400 && 306 <= doy < 366
    requires z == era * 146097 + EraYearStart(yoe) + doy - 719468
    ensures 0 <= z - DaysFromCivil(yoe + era * 400 + 1, 1, 1) < 366
  {
    LateYearStart(era, yoe);
  }

  /** A day before March 1 lies in the year the March-based one started in. */
  lemma OrdinalEarly(z: int, era: int, yoe: int, doy: int)
    requires 0 <= yoe < 400 && 0 <= doy < 306
    requires z == era * 146097 + EraYearStart(yoe) + doy - 719468
    ensures 0 <= z - DaysFromCivil(yoe + era * 400, 1, 1) < 366
  {
    if yoe >= 1 {
      EarlyYearStart(era, yoe);
      YearLength(yoe - 1);
    } else {
      EraStart(era);
      assert EraYearStart(399) == 145731;
    }
  }

  /** January 1 of the year that starts in the March-based year `yoe`. */
  lemma LateYearStart(era: int, yoe: int)
    requires 0 <= yoe < 400
    ensures DaysFromCivil(yoe + era * 400 + 1, 1, 1) == era * 146097 + EraYearStart(yoe) + 306 - 719468
  {
    assert (yoe + era * 400) / 400 == era;
  }

  /** January 1 of the year that ends the March-based year `yoe - 1`. */
  lemma EarlyYearStart(era: int, yoe: int)
    requires 1 <= yoe < 400
    ensures DaysFromCivil(yoe + era * 400, 1, 1) == era * 146097 + EraYearStart(yoe - 1) + 306 - 719468
  {
    assert (yoe - 1 + era * 400) / 400 == era;
  }

  /** January 1 of an era's first year lies in the previous era. */
  lemma EraStart(era: int)
    ensures DaysFromCivil(era * 400, 1, 1) == (era - 1) * 146097 + EraYearStart(399) + 306 - 719468
  {
    assert (era * 400 - 1) / 400 == era - 1;
  }

  lemma MonthStartMono(a: int, b: int)
    requires 0 <= a <= b
    ensures MonthStart(a) <= MonthStart(b)
  {
  }

  lemma YearLength(yoe: int)
    requires 0 <= yoe
    ensures 365 <= EraYearStart(yoe + 1) - EraYearStart(yoe) <= 366
  {
    var q4, r4 := yoe / 4, yoe % 4;
    var q100, r100 := yoe / 100, yoe % 100;
    assert yoe == 4 * q4 + r4 && yoe == 100 * q100 + r100;
    var a := (yoe + 1) / 4 - q4;
    var b := (yoe + 1) / 100 - q100;
    assert a == if r4 == 3 then 1 else 0;
    assert b == if r100 == 99 then 1 else 0;
    assert r100 == 99 ==> r4 == 3 by {
      if r100 == 99 {
        assert yoe + 1 == 100 * (q100 + 1);
        assert yoe + 1 == 4 * (25 * (q100 + 1));
      }
    }
  }

  /** Thursday of the Monday-to-Sunday week holding day `z`; ISO 8601
      gives a week the year and the number its Thursday has. */
  function WeekThursday(z: int): int {
    z - Weekday(z) + 3
  }

  /** The ISO 8601 week-numbering year of a day (chrono's `iso_week().year()`). */
  function IsoYear(z: int): int {
    CivilFromDays(WeekThursday(z)).year
  }

  /** The ISO 8601 week number of a day (chrono's `iso_week().week()`). */
  function IsoWeek(z: int): (r: nat)
    ensures 1 <= r <= 53
  {
    OrdinalDayBounds(WeekThursday(z));
    OrdinalDay(WeekThursday(z)) / 7 + 1
  }

  /** All seven days of a Monday-to-Sunday week share ISO year and week. */
  lemma SameIsoWeek(monday: int, k: int)
    requires Weekday(monday) == 0 && 0 <= k < 7
    ensures WeekThursday(monday + k) == monday + 3
    ensures IsoYear(monday + k) == IsoYear(monday) && IsoWeek(monday + k) == IsoWeek(monday)
  {
    WeekdayInWeek(monday, k);
    WeekdayInWeek(monday, 0);
  }

  /** chrono's `%Y`: four digits, zero-padded, for years 0 to 9999, and a
      sign in front otherwise. */
  function FormatYear(y: int): string {
    if 0 <= y <= 9999 then Text.ZeroPad(y, 4)
    else if y > 9999 then "+" + Text.Decimal(y)
    else "-" + Text.ZeroPad(-y, 4)
  }

  /** A day formatted with `%Y-%m-%d`. */
  function FormatDate(z: int): string {
    var c := CivilFromDays(z);
    FormatYear(c.year) + "-" + Text.ZeroPad(c.month, 2) + "-" + Text.ZeroPad(c.day, 2)
  }

  /** Reads a `YYYY-MM-DD` date back. */
  function ParseDate(s: string): Option<Date> {
    if |s| == 10 && s[4] == '-' && s[7] == '-'
      && Text.AllDigits(s[..4]) && Text.AllDigits(s[5..7]) && Text.AllDigits(s[8..])
    then Some(Date(Text.DigitsValue(s[..4]), Text.DigitsValue(s[5..7]), Text.DigitsValue(s[8..])))
    else None
  }

  /** A formatted date of the years 0 to 9999 reads back as that date. */
  lemma DateRoundTrip(z: int)
    requires 0 <= CivilFromDays(z).year <= 9999
    ensures ParseDate(FormatDate(z)) == Some(CivilFromDays(z))
  {
    var c := CivilFromDays(z);
    Text.DecimalLength(c.year, 4);
    Text.DecimalLength(c.month, 2);
    Text.DecimalLength(c.day, 2);
    var y, m, d := Text.ZeroPad(c.year, 4), Text.ZeroPad(c.month, 2), Text.ZeroPad(c.day, 2);
    var s := FormatDate(z);
    assert s == y + "-" + m + "-" + d;
    assert s[..4] == y && s[5..7] == m && s[8..] == d;
  }

  /** Within those years, different days format differently. */
  lemma FormatDateInjective(a: int, b: int)
    ensures (0 <= CivilFromDays(a).year <= 9999 && 0 <= CivilFromDays(b).year <= 9999
      && FormatDate(a) == FormatDate(b)) ==> a == b
  {
    if 0 <= CivilFromDays(a).year <= 9999 && 0 <= CivilFromDays(b).year <= 9999 {
      DateRoundTrip(a);
      DateRoundTrip(b);
      CivilRoundTrip(a);
      CivilRoundTrip(b);
    }
  }

  /** Monday 2024-12-30 and Friday 2025-01-03 lie in one Monday-to-Sunday
      week, so in one ISO 8601 week, but in two calendar years. */
  lemma YearEnd2024()
    ensures CivilFromDays(20087) == Date(2024, 12, 30)
    ensures CivilFromDays(20091) == Date(2025, 1, 3)
    ensures Weekday(20087) == 0
  {
    Dec30();
    Jan3();
  }

  lemma Dec30()
    ensures CivilFromDays(20087) == Date(2024, 12, 30)
  {
    YearOfEraIn(9070, 0, 6, 0);
    CivilOf(20087, 5, 24, 9);
  }

  lemma Jan3()
    ensures CivilFromDays(20091) == Date(2025, 1, 3)
  {
    YearOfEraIn(9074, 0, 6, 0);
    CivilOf(20091, 5, 24, 10);
  }

  /** The year of the era of a day given its century, four-year group and
      year in the group. */
  lemma YearOfEraIn(doe: int, cent: int, quad: int, yoq: int)
    requires 0 <= cent <= 2 && 0 <= quad <= 24 && 0 <= yoq <= 2
    requires 0 <= doe - cent * 36524 - quad * 1461 - yoq * 365 < 365
    requires doe - cent * 36524 - quad * 1461 < 1460 && doe - cent * 36524 < 36524
    ensures YearOfEra(doe) == cent * 100 + quad * 4 + yoq
  {
    assert doe / 36524 == cent;
    assert (doe - cent * 36524) / 1461 == quad;
    assert (doe - cent * 36524 - quad * 1461) / 365 == yoq;
  }

  /** The steps of `CivilFromDays` for one given day, its era, year of the
      era and month index supplied. */
  lemma CivilOf(z: int, era: int, yoe: int, mp: int)
    requires 0 <= z + 719468 - era * 146097 < 146097
    requires YearOfEra(z + 719468 - era * 146097) == yoe
    requires (5 * (z + 719468 - era * 146097 - EraYearStart(yoe)) + 2) / 153 == mp
    ensures var doy := z + 719468 - era * 146097 - EraYearStart(yoe);
      var m := if mp < 10 then mp + 3 else mp - 9;
      CivilFromDays(z) == Date(if m <= 2 then yoe + era * 400 + 1 else yoe + era * 400, m, doy - MonthStart(mp) + 1)
  {
    assert (z + 719468) / 146097 == era;
  }
}

=== FILE: check_bets.dfy ===
/** The expired-bet sweep run every minute. */
module CheckBets {
  import opened Wrappers
  import opened Platform
  import Text
  import Ordering
  import opened Bets

  const SWEEP_INTERVAL_SECS: nat := 60
  const NO_PARTICIPANTS: string := "No participants"

  /** The message announcing a bet's end, posted as a reply to its
      announcement. */
  datatype Announcement = Announcement(channelId: nat, replyTo: nat, content: string, embed: Embed)

  datatype Sweep = Sweep(db: Db, sent: seq<Announcement>, result: Result<Unit>)

  /** Deleting a bet takes its participant rows with it. */
  function Delete(db: Db, id: nat): (r: Db)
    ensures r.bets == db.bets - {id}
    ensures forall k :: k in r.participants <==> k in db.participants && k.0 != id
    ensures forall k | k in r.participants :: r.participants[k] == db.participants[k]
  {
    Db(db.bets - {id}, map k | k in db.participants && k.0 != id :: db.participants[k])
  }

  function ExpiredIds(db: Db, now: int): set<nat> {
    set id | id in db.bets && db.bets[id].expiry <= now
  }

  /** The participant rows of a bet as the sweep's query returns them: it
      asks for no order, so they come by ascending user id. */
  function StoredRows(db: Db, id: nat): (r: seq<Participant>)
    ensures forall u: nat, w :: Participant(u, w) in r <==> (id, u) in db.participants && db.participants[(id, u)] == w
  {
    var users := Ordering.Unordered(UsersOf(db, id));
    assert forall u :: u in users <==> (id, u) in db.participants;
    ParticipantsOf(db, id, users)
  }

  lemma StoredRowsAscending(db: Db, id: nat)
    ensures var r := StoredRows(db, id);
      forall i, j | 0 <= i < j < |r| :: r[i].userId < r[j].userId
  {
  }

  /** Deleting another bet leaves a bet's rows, and so its announcement,
      as they were. */
  lemma AnnounceAfterDelete(db: Db, x: nat, id: nat, bet: Bet)
    requires x != id
    ensures StoredRows(Delete(db, x), id) == StoredRows(db, id)
    ensures Announce(Delete(db, x), id, bet) == Announce(db, id, bet)
  {
    assert UsersOf(Delete(db, x), id) == UsersOf(db, id);
  }

  /** The announcement of one expired bet: the ping names every row,
      watchers included; the Participants field names only those who
      joined. */
  function Announce(db: Db, id: nat, bet: Bet): (a: Announcement)
    ensures a.channelId == bet.channelId && a.replyTo == bet.messageId
    ensures a.content == MentionList(UsersWithAny(StoredRows(db, id)))
    ensures |a.embed.fields| == 2 && a.embed.fields[1].value == (if UsersWith(StoredRows(db, id), false) == [] then NO_PARTICIPANTS else MentionList(UsersWith(StoredRows(db, id), false)))
  {
    AnnounceRows(StoredRows(db, id), id, bet)
  }

  function AnnounceRows(rows: seq<Participant>, id: nat, bet: Bet): (a: Announcement)
    ensures a.channelId == bet.channelId && a.replyTo == bet.messageId
    ensures a.content == MentionList(UsersWithAny(rows))
    ensures |a.embed.fields| == 2 && a.embed.fields[1].value == (if UsersWith(rows, false) == [] then NO_PARTICIPANTS else MentionList(UsersWith(rows, false)))
  {
    var joined := UsersWith(rows, false);
    var embed := NewEmbed()
      .(title := Some("Bet #" + Text.Decimal(id) + " is over!"), description := Some(bet.description))
      .(fields := [
          Field("Created at", RelativeTimestamp(bet.createdAt), true),
          Field("Participants", if joined == [] then NO_PARTICIPANTS else MentionList(joined), false)])
      .(colour := Some(Gold));
    Announcement(bet.channelId, bet.messageId, MentionList(UsersWithAny(rows)), embed)
  }

  function UsersWithAny(ps: seq<Participant>): (r: seq<nat>)
    ensures |r| == |ps| && forall i | 0 <= i < |ps| :: r[i] == ps[i].userId
  {
    if |ps| == 0 then [] else [ps[0].userId] + UsersWithAny(ps[1..])
  }

  /** Announce and delete the fetched bets one by one; a failed send
      (`sendOk` false for that bet) stops the sweep with that bet and the
      later ones still stored. */
  function Process(db: Db, rows: seq<(nat, Bet)>, sendOk: nat -> bool): (r: Sweep)
    ensures r.result.Ok? <==> forall i | 0 <= i < |rows| :: sendOk(rows[i].0)
    ensures |r.sent| <= |rows|
    ensures r.result.Ok? ==> |r.sent| == |rows|
    ensures forall i | 0 <= i < |r.sent| :: r.sent[i].replyTo == rows[i].1.messageId
    ensures forall id | id in r.db.bets :: id in db.bets && r.db.bets[id] == db.bets[id]
    decreases |rows|
  {
    if |rows| == 0 then Sweep(db, [], Ok(Unit))
    else
      var (id, bet) := rows[0];
      if !sendOk(id) then
        Sweep(db, [], Err(Failure("send_message failed")))
      else
        var announced := Announce(db, id, bet);
        var rest := Process(Delete(db, id), rows[1..], sendOk);
        RepliesCons(rows, announced, rest.sent);
        Sweep(rest.db, [announced] + rest.sent, rest.result)
  }

  /** Each notice of the sweep is the announcement of its bet, made from
      the participant rows as they were before the sweep, whenever that
      bet id was not fetched earlier. */
  lemma {:induction false} ProcessAnnounces(db: Db, rows: seq<(nat, Bet)>, sendOk: nat -> bool)
    ensures var r := Process(db, rows, sendOk);
      |r.sent| <= |rows| && AnnouncedAll(db, rows, r.sent)
    decreases |rows|
  {
    if |rows| > 0 && sendOk(rows[0].0) {
      var rest := Process(Delete(db, rows[0].0), rows[1..], sendOk);
      ProcessAnnounces(Delete(db, rows[0].0), rows[1..], sendOk);
      SentCons(db, rows, Announce(db, rows[0].0, rows[0].1), rest.sent);
      assert Process(db, rows, sendOk).sent == [Announce(db, rows[0].0, rows[0].1)] + rest.sent;
    }
  }

  /** Row `i` is the first of `rows` with its bet id. */
  predicate FirstOf(rows: seq<(nat, Bet)>, i: nat)
    requires i < |rows|
  {
    forall j | 0 <= j < i :: rows[j].0 != rows[i].0
  }

  /** Announcement `i` is that of row `i`, made before the sweep, for every
      row whose bet id does not occur earlier. */
  predicate AnnouncedAll(db: Db, rows: seq<(nat, Bet)>, sent: seq<Announcement>)
    requires |sent| <= |rows|
  {
    forall i | 0 <= i < |sent| && FirstOf(rows, i) :: sent[i] == Announce(db, rows[i].0, rows[i].1)
  }

  /** The notices of a sweep whose first send succeeded answer the fetched
      bets in order. */
  lemma {:induction false} RepliesCons(rows: seq<(nat, Bet)>, announced: Announcement, sent: seq<Announcement>)
    requires |rows| > 0 && announced.replyTo == rows[0].1.messageId
    requires |sent| <= |rows| - 1 && forall i | 0 <= i < |sent| :: sent[i].replyTo == rows[1..][i].1.messageId
    ensures forall i | 0 <= i < |sent| + 1 :: ([announced] + sent)[i].replyTo == rows[i].1.messageId
  {
    forall i | 0 < i < |sent| + 1 ensures ([announced] + sent)[i].replyTo == rows[i].1.messageId {
      assert rows[1..][i - 1] == rows[i];
    }
  }

  /** The announcements of a sweep whose first send succeeded: that
      bet's, then those of the rest, which are made after that bet was
      deleted and so are the same as before. */
  lemma {:induction false} SentCons(db: Db, rows: seq<(nat, Bet)>, announced: Announcement, sent: seq<Announcement>)
    requires |rows| > 0 && announced == Announce(db, rows[0].0, rows[0].1)
    requires |sent| <= |rows| - 1 && AnnouncedAll(Delete(db, rows[0].0), rows[1..], sent)
    ensures AnnouncedAll(db, rows, [announced] + sent)
  {
    var all := [announced] + sent;
    forall i | 0 <= i < |all| && FirstOf(rows, i)
      ensures all[i] == Announce(db, rows[i].0, rows[i].1)
    {
      if i > 0 {
        SentAt(db, rows, sent, i);
      }
    }
  }

  lemma {:induction false} SentAt(db: Db, rows: seq<(nat, Bet)>, sent: seq<Announcement>, i: nat)
    requires |rows| > 0 && |sent| <= |rows| - 1 && 0 < i <= |sent|
    requires AnnouncedAll(Delete(db, rows[0].0), rows[1..], sent)
    requires FirstOf(rows, i)
    ensures sent[i - 1] == Announce(db, rows[i].0, rows[i].1)
  {
    FirstOfTail(rows, i);
    SentLater(db, rows, sent[i - 1], i);
  }

  /** A later bet's announcement made after the first bet was deleted is
      the one made before. */
  lemma {:induction false} SentLater(db: Db, rows: seq<(nat, Bet)>, a: Announcement, i: nat)
    requires 0 < i < |rows| && rows[0].0 != rows[i].0
    requires a == Announce(Delete(db, rows[0].0), rows[i].0, rows[i].1)
    ensures a == Announce(db, rows[i].0, rows[i].1)
  {
    AnnounceAfterDelete(db, rows[0].0, rows[i].0, rows[i].1);
  }

  /** A first occurrence after the head is one in the tail too. */
  lemma {:induction false} FirstOfTail(rows: seq<(nat, Bet)>, i: nat)
    requires 0 < i < |rows| && FirstOf(rows, i)
    ensures rows[1..][i - 1] == rows[i] && FirstOf(rows[1..], i - 1) && rows[0].0 != rows[i].0
  {
    forall j | 0 <= j < i - 1 ensures rows[1..][j].0 != rows[1..][i - 1].0 {
      assert rows[1..][j] == rows[j + 1];
    }
  }

  /** A bet the sweep did not fetch stays. */
  lemma {:induction false} ProcessKeepsOthers(db: Db, rows: seq<(nat, Bet)>, sendOk: nat -> bool, id: nat)
    requires id in db.bets && forall i | 0 <= i < |rows| :: rows[i].0 != id
    ensures id in Process(db, rows, sendOk).db.bets
    decreases |rows|
  {
    if |rows| > 0 && sendOk(rows[0].0) {
      ProcessKeepsOthers(Delete(db, rows[0].0), rows[1..], sendOk, id);
    }
  }

  /** A sweep that completes has deleted every fetched bet. */
  lemma {:induction false} ProcessDeletesAll(db: Db, rows: seq<(nat, Bet)>, sendOk: nat -> bool, i: nat)
    requires Process(db, rows, sendOk).result.Ok? && i < |rows|
    ensures rows[i].0 !in Process(db, rows, sendOk).db.bets
    decreases |rows|
  {
    assert sendOk(rows[0].0);
    ProcessStep(db, rows, sendOk);
    if i > 0 {
      ProcessDeletesAll(Delete(db, rows[0].0), rows[1..], sendOk, i - 1);
    }
  }

  /** At the first failed send the sweep stops: the announcements before
      it were sent, and that bet and every later one not already handled
      are still stored. */
  lemma ProcessStopsAt(db: Db, rows: seq<(nat, Bet)>, sendOk: nat -> bool, k: nat)
    requires k < |rows| && !sendOk(rows[k].0) && forall j | 0 <= j < k :: sendOk(rows[j].0)
    ensures var r := Process(db, rows, sendOk);
      && r.result.Err? && |r.sent| == k
      && forall j | k <= j < |rows| && rows[j].0 in db.bets && (forall i | 0 <= i < k :: rows[i].0 != rows[j].0) :: rows[j].0 in r.db.bets
  {
    StopsAfter(db, rows, sendOk, k);
    forall j | k <= j < |rows| && rows[j].0 in db.bets && (forall i | 0 <= i < k :: rows[i].0 != rows[j].0)
      ensures rows[j].0 in Process(db, rows, sendOk).db.bets
    {
      StopKeeps(db, rows, sendOk, k, j);
    }
  }

  /** The sweep fails after sending exactly the announcements before the
      first failed send. */
  lemma {:induction false} StopsAfter(db: Db, rows: seq<(nat, Bet)>, sendOk: nat -> bool, k: nat)
    requires k < |rows| && !sendOk(rows[k].0) && forall j | 0 <= j < k :: sendOk(rows[j].0)
    ensures Process(db, rows, sendOk).result.Err? && |Process(db, rows, sendOk).sent| == k
    decreases k
  {
    if k > 0 {
      var tail := rows[1..];
      assert forall j | 0 <= j < k - 1 :: tail[j] == rows[j + 1];
      StopsAfter(Delete(db, rows[0].0), tail, sendOk, k - 1);
      ProcessStep(db, rows, sendOk);
    }
  }

  /** A stored bet at or after the failed send, not among the bets handled
      before it, is still stored. */
  lemma {:induction false} StopKeeps(db: Db, rows: seq<(nat, Bet)>, sendOk: nat -> bool, k: nat, j: nat)
    requires k < |rows| && !sendOk(rows[k].0) && forall i | 0 <= i < k :: sendOk(rows[i].0)
    requires k <= j < |rows| && rows[j].0 in db.bets && forall i | 0 <= i < k :: rows[i].0 != rows[j].0
    ensures rows[j].0 in Process(db, rows, sendOk).db.bets
    decreases k
  {
    if k > 0 {
      var tail := rows[1..];
      assert tail[j - 1] == rows[j];
      assert forall i | 0 <= i < k - 1 :: tail[i] == rows[i + 1];
      assert rows[j].0 != rows[0].0;
      StopKeeps(Delete(db, rows[0].0), tail, sendOk, k - 1, j - 1);
      ProcessStep(db, rows, sendOk);
    }
  }

  lemma ProcessStep(db: Db, rows: seq<(nat, Bet)>, sendOk: nat -> bool)
    requires |rows| > 0 && sendOk(rows[0].0)
    ensures var r := Process(db, rows, sendOk);
      var rest := Process(Delete(db, rows[0].0), rows[1..], sendOk);
      r.db == rest.db && r.result == rest.result && |r.sent| == |rest.sent| + 1
  {
  }

  /** `process_expired_bets`: every bet whose expiry is at or before `now`,
      in id order (the query asks for no order). Announcement `i` is that
      of the `i`-th expired bet, made from its rows as they were before
      the sweep. */
  function ProcessExpired(db: Db, now: int, sendOk: nat -> bool): (r: Sweep)
    ensures ExpiredIds(db, now) == {} ==> r == Sweep(db, [], Ok(Unit))
    ensures forall id | id in db.bets && db.bets[id].expiry > now :: id in r.db.bets && r.db.bets[id] == db.bets[id]
    ensures r.result.Ok? ==> forall id | id in r.db.bets :: r.db.bets[id].expiry > now
    ensures |r.sent| <= |ExpiredIds(db, now)|
    ensures r.result.Ok? ==> |r.sent| == |ExpiredIds(db, now)|
    ensures var ids := Ordering.Unordered(ExpiredIds(db, now));
      forall i | 0 <= i < |r.sent| :: ids[i] in db.bets && r.sent[i] == Announce(db, ids[i], db.bets[ids[i]])
  {
    var ids := Ordering.Unordered(ExpiredIds(db, now));
    assert forall i | 0 <= i < |ids| :: ids[i] in ExpiredIds(db, now);
    var rows := BetRows(db, ids);
    ExpiredAnnounced(db, sendOk, ids, rows);
    SweepKeepsLater(db, now, sendOk, ids, rows);
    SweepClearsExpired(db, now, sendOk, ids, rows);
    var r := Process(db, rows, sendOk);
    assert |r.sent| <= |rows| == |ids| == |ExpiredIds(db, now)|;
    r
  }

  /** The expired bets are distinct, so each announcement is made from
      the bet's rows as they were before the sweep. */
  lemma ExpiredAnnounced(db: Db, sendOk: nat -> bool, ids: seq<nat>, rows: seq<(nat, Bet)>)
    requires forall a, b | 0 <= a < b < |ids| :: ids[a] < ids[b]
    requires forall i | 0 <= i < |ids| :: ids[i] in db.bets
    requires rows == BetRows(db, ids)
    ensures var r := Process(db, rows, sendOk);
      forall i | 0 <= i < |r.sent| :: ids[i] in db.bets && r.sent[i] == Announce(db, ids[i], db.bets[ids[i]])
  {
    forall a, b | 0 <= a < b < |rows| ensures rows[a].0 != rows[b].0 {
      assert rows[a].0 == ids[a] < ids[b] == rows[b].0;
    }
    DistinctAnnounced(db, rows, sendOk);
  }

  /** When no bet is fetched twice, notice `i` announces fetched bet `i`. */
  lemma DistinctAnnounced(db: Db, rows: seq<(nat, Bet)>, sendOk: nat -> bool)
    requires forall a, b | 0 <= a < b < |rows| :: rows[a].0 != rows[b].0
    ensures var r := Process(db, rows, sendOk);
      forall i | 0 <= i < |r.sent| :: r.sent[i] == Announce(db, rows[i].0, rows[i].1)
  {
    var sent := Process(db, rows, sendOk).sent;
    ProcessAnnounces(db, rows, sendOk);
    forall i | 0 <= i < |sent|
      ensures sent[i] == Announce(db, rows[i].0, rows[i].1)
    {
      assert FirstOf(rows, i);
    }
  }

  /** The sweep over the expired bets keeps every bet not yet expired. */
  lemma SweepKeepsLater(db: Db, now: int, sendOk: nat -> bool, ids: seq<nat>, rows: seq<(nat, Bet)>)
    requires forall i | 0 <= i < |ids| :: ids[i] in db.bets && ids[i] in ExpiredIds(db, now)
    requires rows == BetRows(db, ids)
    ensures forall id | id in db.bets && db.bets[id].expiry > now :: id in Process(db, rows, sendOk).db.bets
  {
    forall id | id in db.bets && db.bets[id].expiry > now
      ensures id in Process(db, rows, sendOk).db.bets
    {
      assert id !in ExpiredIds(db, now);
      ProcessKeepsOthers(db, rows, sendOk, id);
    }
  }

  /** A completed sweep over all expired bets leaves none of them. */
  lemma SweepClearsExpired(db: Db, now: int, sendOk: nat -> bool, ids: seq<nat>, rows: seq<(nat, Bet)>)
    requires forall i | 0 <= i < |ids| :: ids[i] in db.bets && ids[i] in ExpiredIds(db, now)
    requires forall id | id in ExpiredIds(db, now) :: id in ids
    requires rows == BetRows(db, ids)
    ensures var r := Process(db, rows, sendOk);
      r.result.Ok? ==> forall id | id in r.db.bets :: r.db.bets[id].expiry > now
  {
    var r := Process(db, rows, sendOk);
    if r.result.Ok? {
      forall id | id in r.db.bets
        ensures r.db.bets[id].expiry > now
      {
        if db.bets[id].expiry <= now {
          assert id in ExpiredIds(db, now);
          var i :| 0 <= i < |ids| && ids[i] == id;
          ProcessDeletesAll(db, rows, sendOk, i);
        }
      }
    }
  }

  function BetRows(db: Db, ids: seq<nat>): (r: seq<(nat, Bet)>)
    requires forall i | 0 <= i < |ids| :: ids[i] in db.bets
    ensures |r| == |ids|
    ensures forall i | 0 <= i < |ids| :: r[i] == (ids[i], db.bets[ids[i]])
  {
    if |ids| == 0 then [] else [(ids[0], db.bets[ids[0]])] + BetRows(db, ids[1..])
  }

  /** The sweep keeps participant rows attached to existing bets. */
  lemma {:induction false} ProcessKeepsValid(db: Db, rows: seq<(nat, Bet)>, sendOk: nat -> bool)
    requires Valid(db)
    ensures Valid(Process(db, rows, sendOk).db)
    decreases |rows|
  {
    if |rows| > 0 && sendOk(rows[0].0) {
      ProcessKeepsValid(Delete(db, rows[0].0), rows[1..], sendOk);
    }
  }
}

=== FILE: check_birthday.dfy ===
/** The daily birthday sweep. */
module CheckBirthday {
  import opened Wrappers
  import opened Platform
  import Text
  import Ordering
  import opened Birthdays

  const CONGRATS_SUFFIX: string := "! <:blobCuddleFerris:1313272092879360040>🎉"

  /** Due today: today's birthday and not yet congratulated today. */
  predicate IsDue(row: Row, today: int) {
    row.birthday == today && (row.lastCongratulated.None? || row.lastCongratulated.value < today)
  }

  /** The marking statement: every due row is stamped with today. */
  function Mark(t: Table, today: int): (r: Table)
    ensures r.Keys == t.Keys
    ensures forall u | u in t :: r[u] == (if IsDue(t[u], today) then t[u].(lastCongratulated := Some(today)) else t[u])
  {
    map u | u in t :: if IsDue(t[u], today) then t[u].(lastCongratulated := Some(today)) else t[u]
  }

  function DueUsers(t: Table, today: int): set<nat> {
    set u | u in t && IsDue(t[u], today)
  }

  /** The returned rows, in user order (the statement asks for none). */
  function DueOrder(t: Table, today: int): (r: seq<nat>)
    ensures forall u :: u in r <==> u in DueUsers(t, today)
    ensures forall i | 0 <= i < |r| :: r[i] in t && IsDue(t[r[i]], today)
  {
    var r := Ordering.SortBy((u: nat) => 0, DueUsers(t, today));
    assert forall i | 0 <= i < |r| :: r[i] in DueUsers(t, today);
    r
  }

  /** The guilds with a due user, in ascending id order. */
  function DueGuilds(t: Table, today: int): (r: seq<nat>)
    ensures forall g :: g in r <==> exists u | u in DueUsers(t, today) :: t[u].guildId == g
    ensures Ordering.Distinct(r)
  {
    var r := Ordering.SortBy((g: nat) => 0, set u | u in DueUsers(t, today) :: t[u].guildId);
    assert forall i, j | 0 <= i < j < |r| :: Ordering.Before((g: nat) => 0, r[i], r[j]);
    r
  }

  function UsersIn(t: Table, users: seq<nat>, guildId: nat): (r: seq<nat>)
    requires forall i | 0 <= i < |users| :: users[i] in t
    ensures forall u :: u in r <==> u in users && t[u].guildId == guildId
  {
    if |users| == 0 then []
    else (if t[users[0]].guildId == guildId then [users[0]] else []) + UsersIn(t, users[1..], guildId)
  }

  function Congratulation(users: seq<nat>): string {
    "Happy birthday to " + Text.Join(Mentions(users), ", ") + CONGRATS_SUFFIX
  }

  datatype Post = Post(channelId: nat, content: string)

  /** The message for guild `g`: its due users, to its event channel. */
  function GuildPost(t: Table, due: seq<nat>, eventChannel: map<nat, nat>, g: nat): Post
    requires forall i | 0 <= i < |due| :: due[i] in t
    requires g in eventChannel
  {
    Post(eventChannel[g], Congratulation(UsersIn(t, due, g)))
  }

  /** `p` is the message of one of `guilds` that has an event channel. */
  predicate PostedFor(t: Table, due: seq<nat>, eventChannel: map<nat, nat>, guilds: seq<nat>, p: Post)
    requires forall i | 0 <= i < |due| :: due[i] in t
  {
    exists g | g in guilds && g in eventChannel :: p == GuildPost(t, due, eventChannel, g)
  }

  /** The guilds that have an event channel, in the order given. */
  function Configured(guilds: seq<nat>, eventChannel: map<nat, nat>): (r: seq<nat>)
    ensures forall g :: g in r <==> g in guilds && g in eventChannel
  {
    if |guilds| == 0 then []
    else (if guilds[0] in eventChannel then [guilds[0]] else []) + Configured(guilds[1..], eventChannel)
  }

  /** Each guild's message, in the order of `guilds`. */
  function Posts(t: Table, due: seq<nat>, eventChannel: map<nat, nat>, guilds: seq<nat>): (r: seq<Post>)
    requires forall i | 0 <= i < |due| :: due[i] in t
    requires forall g | g in guilds :: g in eventChannel
    ensures |r| == |guilds| && forall i | 0 <= i < |guilds| :: r[i] == GuildPost(t, due, eventChannel, guilds[i])
  {
    if |guilds| == 0 then [] else [GuildPost(t, due, eventChannel, guilds[0])] + Posts(t, due, eventChannel, guilds[1..])
  }

  /** The guilds messaged, one per guild with due users, at the guild's
      event channel if it has one; a failed send stops the remaining
      guilds. On success every configured guild has had its message, in
      order; on failure exactly those before the first guild whose send
      fails. */
  function Send(guilds: seq<nat>, eventChannel: map<nat, nat>, sendOk: nat -> bool): (r: (seq<nat>, Result<Unit>))
    ensures r.1.Ok? <==> forall g | g in guilds && g in eventChannel :: sendOk(g)
    ensures r.1.Ok? ==> r.0 == Configured(guilds, eventChannel)
    ensures r.1.Err? ==>
      var cs := Configured(guilds, eventChannel);
      && |r.0| < |cs| && !sendOk(cs[|r.0|])
      && r.0 == cs[..|r.0|]
  {
    if |guilds| == 0 then ([], Ok(Unit))
    else
      var g := guilds[0];
      var tail := Send(guilds[1..], eventChannel, sendOk);
      var cs := Configured(guilds[1..], eventChannel);
      if g !in eventChannel then
        assert Configured(guilds, eventChannel) == cs;
        tail
      else if !sendOk(g) then ([], Err(Failure("send_message failed")))
      else
        assert Configured(guilds, eventChannel) == [g] + cs;
        assert tail.1.Err? ==> ([g] + cs)[..|tail.0| + 1] == [g] + cs[..|tail.0|];
        ([g] + tail.0, tail.1)
  }

  /** `birthday`: mark the due rows, group them per guild and congratulate
      each group; `sendOk` says whether sending to a guild works. When every
      send works, each guild with due users and an event channel gets its
      message, in guild order. */
  function Birthday(t: Table, today: int, eventChannel: map<nat, nat>, sendOk: nat -> bool): (r: (Table, seq<Post>, Result<Unit>))
    ensures r.0 == Mark(t, today)
    ensures forall i | 0 <= i < |r.1| :: PostedFor(t, DueOrder(t, today), eventChannel, DueGuilds(t, today), r.1[i])
    ensures DueUsers(t, today) == {} ==> r.1 == [] && r.2.Ok?
    ensures r.2.Ok? <==> forall g | g in DueGuilds(t, today) && g in eventChannel :: sendOk(g)
    ensures r.2.Ok? ==> r.1 == Posts(t, DueOrder(t, today), eventChannel, Configured(DueGuilds(t, today), eventChannel))
  {
    var due := DueOrder(t, today);
    var sent := Send(DueGuilds(t, today), eventChannel, sendOk);
    var posts := Posts(t, due, eventChannel, sent.0);
    assert forall i | 0 <= i < |posts| :: PostedFor(t, due, eventChannel, DueGuilds(t, today), posts[i]) by {
      forall i | 0 <= i < |posts|
        ensures PostedFor(t, due, eventChannel, DueGuilds(t, today), posts[i])
      {
        assert sent.0[i] in sent.0;
      }
    }
    (Mark(t, today), posts, sent.1)
  }

  /** A guild with a due user and an event channel comes exactly once in
      the messages a successful `Birthday` sends, with its own message. */
  lemma EachGuildOnce(t: Table, today: int, eventChannel: map<nat, nat>, g: nat)
    requires g in DueGuilds(t, today) && g in eventChannel
    ensures var cs := Configured(DueGuilds(t, today), eventChannel);
      var posts := Posts(t, DueOrder(t, today), eventChannel, cs);
      exists i | 0 <= i < |cs| ::
        && cs[i] == g
        && (forall j | 0 <= j < |cs| && j != i :: cs[j] != g)
        && posts[i] == GuildPost(t, DueOrder(t, today), eventChannel, g)
  {
    var cs := Configured(DueGuilds(t, today), eventChannel);
    var i := OnceIn(cs, g, DueGuilds(t, today), eventChannel);
    assert Posts(t, DueOrder(t, today), eventChannel, cs)[i] == GuildPost(t, DueOrder(t, today), eventChannel, g);
  }

  /** Where a guild of a list without repeats sits among the configured
      ones, and that it sits nowhere else. */
  lemma OnceIn(cs: seq<nat>, g: nat, guilds: seq<nat>, eventChannel: map<nat, nat>) returns (i: nat)
    requires cs == Configured(guilds, eventChannel)
    requires Ordering.Distinct(guilds) && g in guilds && g in eventChannel
    ensures i < |cs| && cs[i] == g
    ensures forall j | 0 <= j < |cs| && j != i :: cs[j] != g
  {
    ConfiguredDistinct(guilds, eventChannel);
    i :| 0 <= i < |cs| && cs[i] == g;
    forall j | 0 <= j < |cs| && j != i
      ensures cs[j] != g
    {
      if j < i {} else {}
    }
  }

  /** Filtering a list without repeats keeps it without repeats. */
  lemma {:induction false} ConfiguredDistinct(guilds: seq<nat>, eventChannel: map<nat, nat>)
    requires Ordering.Distinct(guilds)
    ensures Ordering.Distinct(Configured(guilds, eventChannel))
  {
    if |guilds| > 0 {
      var g := guilds[0];
      ConfiguredDistinct(guilds[1..], eventChannel);
      var rest := Configured(guilds[1..], eventChannel);
      assert g !in guilds[1..] by {
        forall j | 1 <= j < |guilds| ensures guilds[j] != g {}
      }
      assert g !in rest;
      if g in eventChannel {
        var cs := [g] + rest;
        assert Configured(guilds, eventChannel) == cs;
        forall i, j | 0 <= i < j < |cs| ensures cs[i] != cs[j] {
          assert cs[j] == rest[j - 1];
          if i == 0 {
            assert rest[j - 1] in rest;
          } else {
            assert cs[i] == rest[i - 1];
          }
        }
      } else {
        assert Configured(guilds, eventChannel) == rest;
      }
    }
  }

  /** Each guild's message names exactly the due users of that guild. */
  lemma CongratulatesDueUsers(t: Table, today: int, g: nat, u: nat)
    ensures u in UsersIn(t, DueOrder(t, today), g) <==> u in t && IsDue(t[u], today) && t[u].guildId == g
  {
  }

  /** A second sweep on the same day finds nobody due. */
  lemma OncePerDay(t: Table, today: int, eventChannel: map<nat, nat>, sendOk: nat -> bool)
    ensures var after := Birthday(t, today, eventChannel, sendOk).0;
      DueUsers(after, today) == {} && Birthday(after, today, eventChannel, sendOk).1 == []
  {
    var after := Mark(t, today);
    assert forall u | u in after :: !IsDue(after[u], today);
  }

  // ---------------------------------------------------------------------
  // Scheduling

  const OUT_OF_RANGE_PANIC: string := "called `Result::unwrap()` on an `Err` value: OutOfRangeError(())"

  /** The wait before the first daily tick, as written: the local date of
      the instant 24 hours from now, at midnight, minus the local time now.
      `offset` is the zone's UTC offset in seconds at an instant; a negative
      wait makes `to_std().unwrap()` panic, which ends the sweep task. */
  function UntilMidnightAsWritten(now: int, offset: int -> int): (r: Result<int>)
    ensures r.Ok? ==> r.value >= 0
    ensures r.Ok? <==> (DateOf(now + SECS_PER_DAY + offset(now + SECS_PER_DAY)) * SECS_PER_DAY >= now + offset(now))
  {
    var localNow := now + offset(now);
    var tomorrow := now + SECS_PER_DAY;
    var afterMidnight := DateOf(tomorrow + offset(tomorrow)) * SECS_PER_DAY;
    var until := afterMidnight - localNow;
    if until < 0 then Err(Failure(OUT_OF_RANGE_PANIC)) else Ok(until)
  }

  /** The wait until the next local midnight: a calendar day added to the
      local date rather than 24 hours to the instant. */
  function UntilMidnight(now: int, offset: int -> int): (r: int)
    ensures 0 < r <= SECS_PER_DAY
    ensures (now + offset(now) + r) % SECS_PER_DAY == 0
  {
    var localNow := now + offset(now);
    (DateOf(localNow) + 1) * SECS_PER_DAY - localNow
  }

  /** While the offset stays the same over the next day the written wait is
      the wait until the next midnight. */
  lemma UntilMidnightAgrees(now: int, offset: int -> int)
    requires offset(now + SECS_PER_DAY) == offset(now)
    ensures UntilMidnightAsWritten(now, offset) == Ok(UntilMidnight(now, offset))
  {
    var localNow := now + offset(now);
    assert DateOf(localNow + SECS_PER_DAY) == DateOf(localNow) + 1;
  }

  /** On the night the clocks go back from UTC+2 to UTC+1, starting at
      00:30 local time: 24 hours later it is 23:30 of the same local day,
      so the written wait is -30 minutes and `unwrap` panics. */
  lemma FallBackPanics()
    ensures var offset := (t: int) => if t < 100_000 then 7200 else 3600;
      && UntilMidnightAsWritten(81_000, offset).Err?
      && UntilMidnight(81_000, offset) == 84_600
  {
  }
}

=== FILE: check_reminder.dfy ===
/** The reminder sweep run every minute. */
module CheckReminder {
  import opened Wrappers
  import opened Platform
  import Text
  import opened Reminders

  const SWEEP_INTERVAL_SECS: nat := 60

  /** Who a message may ping. */
  datatype AllowedMentions = AllowedMentions(everyone: bool, roles: bool, users: bool)

  const ONLY_USERS: AllowedMentions := AllowedMentions(false, false, true)

  /** A delivered reminder, posted as a reply to the confirmation. */
  datatype Delivery = Delivery(channelId: nat, replyTo: nat, content: string, mentions: AllowedMentions)

  datatype Sweep = Sweep(rows: seq<Reminder>, sent: seq<Delivery>, result: Result<Unit>)

  function Due(rows: seq<Reminder>, now: int, due: bool): (r: seq<Reminder>)
    ensures forall x :: x in r <==> x in rows && (x.time <= now) == due
    ensures |r| <= |rows|
  {
    if |rows| == 0 then []
    else (if (rows[0].time <= now) == due then [rows[0]] else []) + Due(rows[1..], now, due)
  }

  function DeliveryOf(x: Reminder): Delivery {
    Delivery(x.channelId, x.msgId, "Reminder for " + x.content + " | " + UserMention(x.userId), ONLY_USERS)
  }

  /** Deliver in order; fetching the original message (`found`) or sending
      (`sendOk`) failing stops the rest, so on failure exactly the
      reminders before the first failing one were delivered. */
  function Deliver(due: seq<Reminder>, found: Reminder -> bool, sendOk: Reminder -> bool): (r: (seq<Delivery>, Result<Unit>))
    ensures |r.0| <= |due|
    ensures forall i | 0 <= i < |r.0| :: r.0[i] == DeliveryOf(due[i])
    ensures r.1.Ok? <==> forall i | 0 <= i < |due| :: found(due[i]) && sendOk(due[i])
    ensures r.1.Ok? ==> |r.0| == |due|
    ensures r.1.Err? ==>
      && |r.0| < |due|
      && (forall i | 0 <= i < |r.0| :: found(due[i]) && sendOk(due[i]))
      && !(found(due[|r.0|]) && sendOk(due[|r.0|]))
    ensures r.1.Err? && !found(due[|r.0|]) ==> r.1 == Err(Failure("Unknown Message"))
  {
    if |due| == 0 then ([], Ok(Unit))
    else if !found(due[0]) then ([], Err(Failure("Unknown Message")))
    else if !sendOk(due[0]) then ([], Err(Failure("send_message failed")))
    else
      var (rest, result) := Deliver(due[1..], found, sendOk);
      assert forall i | 1 <= i < |due| :: due[i] == due[1..][i - 1];
      ([DeliveryOf(due[0])] + rest, result)
  }

  /** `send_reminders`: one statement deletes and returns every due row,
      then the rows are delivered; whatever fails afterwards, no due row
      is left to be sent again. */
  function SendReminders(rows: seq<Reminder>, now: int, found: Reminder -> bool, sendOk: Reminder -> bool): (r: Sweep)
    ensures r.rows == Due(rows, now, false)
    ensures forall x | x in r.rows :: x.time > now
    ensures forall x | x in rows && x.time > now :: x in r.rows
    ensures |r.sent| <= |Due(rows, now, true)|
    ensures forall i | 0 <= i < |r.sent| :: r.sent[i].mentions == ONLY_USERS
    ensures r.result.Ok? ==> |r.sent| == |Due(rows, now, true)|
  {
    var due := Due(rows, now, true);
    var (sent, result) := Deliver(due, found, sendOk);
    Sweep(Due(rows, now, false), sent, result)
  }

  /** Each due reminder pings its user by mention and quotes its content. */
  lemma DeliveryText(x: Reminder)
    ensures DeliveryOf(x).content == "Reminder for " + x.content + " | <@" + Text.Decimal(x.userId) + ">"
    ensures DeliveryOf(x).replyTo == x.msgId && !DeliveryOf(x).mentions.everyone && !DeliveryOf(x).mentions.roles
  {
  }
}

=== FILE: clear.dfy ===
/** `clear` (the command-group generation): moderators or bot owners only,
    an amount in 2..=100, and a failed bulk delete is an error. */
module Clear {
  import opened Wrappers
  import opened History

  const NO_PERMISSION: string := "You do not have permission to use this command"

  datatype Outcome = Outcome(history: seq<nat>, reply: string)

  /** The message of the panic of `Option::unwrap` on `None`. */
  const UNWRAP_NONE: string := "called `Option::unwrap()` on a `None` value"

  /** Whether the author is a moderator, from what `author_member` yields:
      no member (None) is not a moderator; a member whose permissions were
      not computed (Some(None), as for a prefix invocation) makes `unwrap`
      panic, whoever the author is; otherwise the manage_messages bit. */
  function IsMod(member: Option<Option<bool>>): (r: Result<bool>)
    ensures r.Err? <==> member == Some(None)
    ensures r.Ok? ==> (r.value <==> member == Some(Some(true)))
  {
    match member
    case None => Ok(false)
    case Some(None) => Err(Failure(UNWRAP_NONE))
    case Some(Some(manages)) => Ok(manages)
  }

  /** `deleteOk` is whether the bulk delete succeeds. */
  function Clear(h: seq<nat>, member: Option<Option<bool>>, isOwner: bool, amount: Option<nat>, before: Option<nat>, deleteOk: bool): (r: Result<Outcome>)
    ensures member == Some(None) ==> r == Err(Failure(UNWRAP_NONE))
    ensures member != Some(None) ==>
      var isMod := member == Some(Some(true));
      && (!(isMod || isOwner) ==> r == Err(UserError(NO_PERMISSION)))
      && ((isMod || isOwner) && !InRange(AmountOrDefault(amount)) ==> r == Err(UserError(AMOUNT_RANGE)))
      && (r.Ok? <==> (isMod || isOwner) && InRange(AmountOrDefault(amount)) && deleteOk)
      && (r.Err? && (isMod || isOwner) && InRange(AmountOrDefault(amount)) ==> r == Err(Failure(DELETE_FAILED)))
    ensures r.Ok? ==>
      var fetched := Fetch(h, before, AmountOrDefault(amount));
      && r.value.history == Without(h, fetched)
      && r.value.reply == Deleted(|fetched|)
      && |fetched| <= AmountOrDefault(amount)
  {
    match IsMod(member)
    case Err(e) => Err(e)
    case Ok(isMod) =>
      if !(isMod || isOwner) then Err(UserError(NO_PERMISSION))
      else
        var n := AmountOrDefault(amount);
        if !InRange(n) then Err(UserError(AMOUNT_RANGE))
        else
          var fetched := Fetch(h, before, n);
          if deleteOk then Ok(Outcome(Without(h, fetched), Deleted(|fetched|)))
          else Err(Failure(DELETE_FAILED))
  }

  /** A successful clear removes exactly the fetched messages: none newer
      than `before`, at most the amount, and the newest such. */
  lemma ClearRemovesNewest(h: seq<nat>, member: Option<Option<bool>>, isOwner: bool, amount: Option<nat>, before: Option<nat>, m: nat)
    requires NewestFirst(h)
    requires Clear(h, member, isOwner, amount, before, true).Ok?
    requires m in h && m !in Clear(h, member, isOwner, amount, before, true).value.history
    ensures before.Some? ==> m < before.value
    ensures forall k | k in Older(h, before) && k in Clear(h, member, isOwner, amount, before, true).value.history :: k < m
  {
    var fetched := Fetch(h, before, AmountOrDefault(amount));
    assert m in fetched;
    assert forall x | x in fetched :: x in Older(h, before);
    forall k | k in Older(h, before) && k in Clear(h, member, isOwner, amount, before, true).value.history
      ensures k < m
    {
      FetchTakesNewest(h, before, AmountOrDefault(amount), k, m);
    }
  }
}

=== FILE: commands.dfy ===
/** Shared command helpers: message links, the `link_msg!` guard, the
    `done!` acknowledgement and the collector teardown that removes a
    message's components while keeping its embeds. */
module Commands {
  import opened Wrappers
  import opened Platform
  import Text

  const LINK_PREFIX: string := "https://discord.com/channels/"

  /** `link_message`: the jump link of a guild message. */
  function LinkMessage(guildId: nat, channelId: nat, msgId: nat): (r: string)
    ensures LINK_PREFIX <= r
  {
    LINK_PREFIX + Text.Decimal(guildId) + "/" + Text.Decimal(channelId) + "/" + Text.Decimal(msgId)
  }

  predicate NoSlash(s: string) {
    forall i | 0 <= i < |s| :: s[i] != '/'
  }

  lemma DecimalNoSlash(n: nat)
    ensures NoSlash(Text.Decimal(n))
  {
  }

  /** Two slash-free heads followed by a '/' can only match when heads and tails match. */
  lemma SplitAtSlash(x: string, y: string, r1: string, r2: string)
    requires NoSlash(x) && NoSlash(y)
    requires x + "/" + r1 == y + "/" + r2
    ensures x == y && r1 == r2
  {
    var a := x + "/" + r1;
    var b := y + "/" + r2;
    assert a[|x|] == '/' && b[|y|] == '/';
    assert |x| == |y|;
    assert x == a[..|x|] == b[..|y|] == y;
    assert r1 == a[|x| + 1..] == b[|y| + 1..] == r2;
  }

  lemma DecimalInjective(a: nat, b: nat)
    requires Text.Decimal(a) == Text.Decimal(b)
    ensures a == b
  {
    Text.DigitsValueOfDecimal(a);
    Text.DigitsValueOfDecimal(b);
  }

  /** Distinct (guild, channel, message) triples have distinct links. */
  lemma LinkMessageInjective(g1: nat, c1: nat, m1: nat, g2: nat, c2: nat, m2: nat)
    requires LinkMessage(g1, c1, m1) == LinkMessage(g2, c2, m2)
    ensures g1 == g2 && c1 == c2 && m1 == m2
  {
    var dg1, dc1, dm1 := Text.Decimal(g1), Text.Decimal(c1), Text.Decimal(m1);
    var dg2, dc2, dm2 := Text.Decimal(g2), Text.Decimal(c2), Text.Decimal(m2);
    DecimalNoSlash(g1); DecimalNoSlash(c1); DecimalNoSlash(m1);
    DecimalNoSlash(g2); DecimalNoSlash(c2); DecimalNoSlash(m2);
    LinkParts(g1, c1, m1);
    LinkParts(g2, c2, m2);
    DropPrefix(LINK_PREFIX, dg1 + "/" + (dc1 + "/" + dm1), dg2 + "/" + (dc2 + "/" + dm2));
    SplitAtSlash(dg1, dg2, dc1 + "/" + dm1, dc2 + "/" + dm2);
    SplitAtSlash(dc1, dc2, dm1, dm2);
    DecimalInjective(g1, g2);
    DecimalInjective(c1, c2);
    DecimalInjective(m1, m2);
  }

  /** A link is the prefix followed by the three ids, '/'-separated. */
  lemma LinkParts(g: nat, c: nat, m: nat)
    ensures LinkMessage(g, c, m) == LINK_PREFIX + (Text.Decimal(g) + "/" + (Text.Decimal(c) + "/" + Text.Decimal(m)))
  {
  }

  lemma DropPrefix(p: string, t1: string, t2: string)
    requires p + t1 == p + t2
    ensures t1 == t2
  {
    assert t1 == (p + t1)[|p|..];
    assert t2 == (p + t2)[|p|..];
  }

  /** `link_msg!`: a link needs a guild; without one it fails with "guild_only". */
  function LinkMsg(guildId: Option<nat>, channelId: nat, msgId: nat): (r: Result<string>)
    ensures guildId.None? <==> r == Err(Failure("guild_only"))
    ensures guildId.Some? ==> r == Ok(LinkMessage(guildId.value, channelId, msgId))
  {
    match guildId
    case None => Err(Failure("guild_only"))
    case Some(g) => Ok(LinkMessage(g, channelId, msgId))
  }

  /** A reply the bot sends in answer to an invocation. */
  datatype Reply = Reply(content: string, ephemeral: bool, asReply: bool)

  const DONE_TEXT: string := "Done✅"

  /** `done!`: an ephemeral "Done✅" reply, then the command returns Ok. */
  function Done(): (r: (Reply, Result<Unit>))
    ensures r.0.content == DONE_TEXT && r.0.ephemeral && r.0.asReply
    ensures r.1.Ok?
  {
    (Reply(DONE_TEXT, true, true), Ok(Unit))
  }

  /** `remove_components_but_keep_embeds`: the message is edited so that its
      embeds are the current ones and its component list is empty. */
  function RemoveComponentsButKeepEmbeds(m: Message): (r: Message)
    ensures r.content == m.content
    ensures r.embeds == m.embeds
    ensures r.components == []
  {
    Message(m.content, m.embeds, [])
  }

  /** The teardown is idempotent: a second run changes nothing. */
  lemma TeardownIdempotent(m: Message)
    ensures RemoveComponentsButKeepEmbeds(RemoveComponentsButKeepEmbeds(m)) == RemoveComponentsButKeepEmbeds(m)
  {
  }

  /** The newer generation's teardown edit: content given by the command
      (when it passes one), embeds kept, components cleared. */
  function TeardownWithContent(m: Message, content: Option<string>): (r: Message)
    ensures r.embeds == m.embeds && r.components == []
    ensures content.Some? ==> r.content == content.value
    ensures content.None? ==> r == RemoveComponentsButKeepEmbeds(m)
  {
    Message(if content.Some? then content.value else m.content, m.embeds, [])
  }
}

=== FILE: counter_table.dfy ===
/** A counter table: rows of (key, count) with the key as the conflict
    target, as used by `INSERT ... VALUES (..., 1) ON CONFLICT (key) DO
    UPDATE SET count = count + 1`. Rows are kept in storage order; the
    key-uniqueness the primary key enforces is the invariant `UniqueKeys`. */
module CounterTable {

  datatype Row<K> = Row(key: K, count: nat)

  predicate UniqueKeys<K(==)>(rows: seq<Row<K>>) {
    forall i, j | 0 <= i < j < |rows| :: rows[i].key != rows[j].key
  }

  predicate HasKey<K(==)>(rows: seq<Row<K>>, key: K) {
    exists i | 0 <= i < |rows| :: rows[i].key == key
  }

  /** The stored count of a key, 0 when it has no row. */
  function Count<K(==)>(rows: seq<Row<K>>, key: K): nat {
    if |rows| == 0 then 0
    else if rows[0].key == key then rows[0].count
    else Count(rows[1..], key)
  }

  /** Sum of the counts of the rows whose key satisfies `p`. */
  function SumWhere<K>(rows: seq<Row<K>>, p: K -> bool): nat {
    if |rows| == 0 then 0
    else (if p(rows[0].key) then rows[0].count else 0) + SumWhere(rows[1..], p)
  }

  /** The upsert: a new key gets a row with count 1, an existing key's
      count grows by exactly 1. */
  function Upsert<K(==, !new)>(rows: seq<Row<K>>, key: K): (r: seq<Row<K>>)
    ensures Count(r, key) == Count(rows, key) + 1
    ensures forall k | k != key :: Count(r, k) == Count(rows, k)
    ensures HasKey(rows, key) ==> |r| == |rows|
    ensures !HasKey(rows, key) ==> r == rows + [Row(key, 1)]
  {
    if |rows| == 0 then [Row(key, 1)]
    else if rows[0].key == key then
      assert HasKey(rows, key) by { assert rows[0].key == key; }
      [Row(key, rows[0].count + 1)] + rows[1..]
    else
      var rest := Upsert(rows[1..], key);
      assert HasKey(rows, key) <==> HasKey(rows[1..], key) by {
        if HasKey(rows, key) {
          var i :| 0 <= i < |rows| && rows[i].key == key;
          assert rows[1..][i - 1].key == key;
        }
        if HasKey(rows[1..], key) {
          var i :| 0 <= i < |rows[1..]| && rows[1..][i].key == key;
          assert rows[i + 1].key == key;
        }
      }
      [rows[0]] + rest
  }

  /** The upsert keeps the keys unique. */
  lemma {:induction false} UpsertUnique<K(!new)>(rows: seq<Row<K>>, key: K)
    requires UniqueKeys(rows)
    ensures UniqueKeys(Upsert(rows, key))
  {
    if |rows| > 0 && rows[0].key != key {
      UpsertUnique(rows[1..], key);
      UpsertKeys(rows[1..], key);
      var r := Upsert(rows, key);
      forall i, j | 0 <= i < j < |r| ensures r[i].key != r[j].key {
        if i == 0 {
          var t := Upsert(rows[1..], key);
          assert r[j] == t[j - 1];
          if t[j - 1].key == key {
          } else {
            var m :| 0 <= m < |rows[1..]| && rows[1..][m].key == t[j - 1].key;
            assert rows[m + 1].key == rows[0].key ==> m + 1 == 0;
          }
        }
      }
    } else if |rows| > 0 {
      var r := Upsert(rows, key);
      forall i, j | 0 <= i < j < |r| ensures r[i].key != r[j].key {
        assert r[i].key == rows[i].key && r[j].key == rows[j].key;
      }
    }
  }

  /** Every key after the upsert is the new key or an old one. */
  lemma {:induction false} UpsertKeys<K(!new)>(rows: seq<Row<K>>, key: K)
    ensures forall i | 0 <= i < |Upsert(rows, key)| ::
      Upsert(rows, key)[i].key == key || HasKey(rows, Upsert(rows, key)[i].key)
  {
    var r := Upsert(rows, key);
    if |rows| > 0 && rows[0].key != key {
      UpsertKeys(rows[1..], key);
      forall i | 0 <= i < |r| ensures r[i].key == key || HasKey(rows, r[i].key) {
        if i == 0 {
          assert rows[0].key == r[0].key;
        } else if r[i].key != key {
          var t := Upsert(rows[1..], key);
          assert r[i] == t[i - 1];
          var m :| 0 <= m < |rows[1..]| && rows[1..][m].key == t[i - 1].key;
          assert rows[m + 1].key == r[i].key;
        }
      }
    } else if |rows| > 0 {
      forall i | 0 <= i < |r| ensures r[i].key == key || HasKey(rows, r[i].key) {
        assert rows[i].key == r[i].key || i == 0;
      }
    }
  }

  /** An upsert adds exactly one to every sum whose filter admits the key. */
  lemma {:induction false} UpsertSumWhere<K(!new)>(rows: seq<Row<K>>, key: K, p: K -> bool)
    ensures SumWhere(Upsert(rows, key), p) == SumWhere(rows, p) + (if p(key) then 1 else 0)
  {
    if |rows| > 0 && rows[0].key != key {
      UpsertSumWhere(rows[1..], key, p);
      assert Upsert(rows, key)[1..] == Upsert(rows[1..], key);
    } else if |rows| > 0 {
      assert Upsert(rows, key)[1..] == rows[1..];
    }
  }

  /** Upserting each key in turn. */
  function UpsertAll<K(==, !new)>(rows: seq<Row<K>>, keys: seq<K>): seq<Row<K>>
    decreases |keys|
  {
    if |keys| == 0 then rows
    else UpsertAll(Upsert(rows, keys[0]), keys[1..])
  }

  /** Upserting keys one after another adds to each key's count the number
      of times it was upserted. */
  lemma {:induction false} UpsertAllCounts<K(!new)>(rows: seq<Row<K>>, keys: seq<K>, k: K)
    ensures Count(UpsertAll(rows, keys), k) == Count(rows, k) + multiset(keys)[k]
    decreases |keys|
  {
    if |keys| > 0 {
      assert keys == [keys[0]] + keys[1..];
      UpsertAllCounts(Upsert(rows, keys[0]), keys[1..], k);
    }
  }
}

=== FILE: cruisine.dfy ===
/** `cruisine`: the older in-memory canteen plan. A seat must be letter
    first; positions live in a per-user map and expire. */
module Cruisine {
  import opened Wrappers
  import Text
  import MensaPlan
  import Ordering
  import Avatars

  const DISAPPEAR_SECS: nat := 3600
  const X_OFFSET: nat := 40
  const Y_OFFSET: nat := 12
  const SCALING: nat := 53
  const DELETED: string := "Your location was rapidly approached (position was deleted)."

  /** A stored seat, zero-based, with its expiry time in seconds. */
  datatype MensaPosition = MensaPosition(x: nat, y: nat, expires: int)

  /** The plan state and the avatar cache, decoded images by user id. */
  datatype State<Image> = State(mensa: map<nat, MensaPosition>, avatarCache: map<nat, Image>)

  /** What looking a user up by id tells: their avatar hash, if any, and
      the address of their default avatar. */
  type Lookup = nat -> Result<(Option<string>, string)>

  /** The position checks of `add`: the letter must come first. */
  function ParsePosition(position: string): (r: Result<(nat, nat)>)
    ensures (Text.Utf8Len(position) < 2 || Text.Utf8Len(position) > 3) ==> r == Err(Failure(MensaPlan.BAD_LENGTH))
    ensures r.Ok? ==> r.value.0 <= 9 && r.value.1 <= 9
  {
    if Text.Utf8Len(position) < 2 || Text.Utf8Len(position) > 3 then Err(Failure(MensaPlan.BAD_LENGTH))
    else
      var u := Text.AsciiUpper(position);
      if |u| == 0 then Err(Failure(MensaPlan.BAD_LENGTH))
      else
        var letter := u[0];
        match Text.ParseUnsigned(u[1..], Text.U8_MAX)
        case Some(n) =>
          if MensaPlan.InBounds(letter, n) then Ok((letter as nat - 'A' as nat, n - 1))
          else Err(Failure(MensaPlan.OUT_OF_BOUNDS))
        case None => Err(Failure(MensaPlan.OUT_OF_BOUNDS))
  }

  /** Every seat this parser accepts the newer one accepts too, as the same
      seat; the newer one also takes the number first. */
  lemma AcceptsFewer(position: string)
    requires ParsePosition(position).Ok?
    ensures var (x, y) := ParsePosition(position).value;
      MensaPlan.ParseCruisineLetters(position) == Ok((('A' as nat + x) as char, y + 1))
  {
    var (x, y) := ParsePosition(position).value;
    MensaPlan.ParseIff(position, ('A' as nat + x) as char, y + 1);
  }

  lemma NumberFirstRejected()
    ensures ParsePosition("5A").Err?
    ensures MensaPlan.ParseCruisineLetters("5A") == Ok(('A', 5))
  {
    Text.AsciiUtf8Len("5A");
    assert Text.AsciiUpper("5A") == "5A";
    MensaPlan.NumberFirstParses('A', 5);
    assert Text.Decimal(5) + ['A'] == "5A";
  }

  /** `retain(now <= expires)`. */
  function Prune(mensa: map<nat, MensaPosition>, now: int): (r: map<nat, MensaPosition>)
    ensures forall u :: u in r <==> u in mensa && now <= mensa[u].expires
    ensures forall u | u in r :: r[u] == mensa[u]
  {
    map u | u in mensa && now <= mensa[u].expires :: mensa[u]
  }

  /** The users shown on each tile. */
  function Tiles(mensa: map<nat, MensaPosition>): (r: map<(nat, nat), set<nat>>)
    ensures forall t :: t in r <==> exists u | u in mensa :: TileOf(mensa[u]) == t
    ensures forall t, u | t in r :: u in r[t] <==> u in mensa && TileOf(mensa[u]) == t
  {
    map t | t in Occupied(mensa) :: set u | u in mensa && TileOf(mensa[u]) == t
  }

  function TileOf(p: MensaPosition): (nat, nat) {
    (p.x, p.y)
  }

  function Occupied(mensa: map<nat, MensaPosition>): set<(nat, nat)> {
    set u | u in mensa :: TileOf(mensa[u])
  }

  /** Top-left pixel of a tile. */
  function TileOrigin(t: (nat, nat)): (nat, nat) {
    (X_OFFSET + t.0 * SCALING, Y_OFFSET + t.1 * SCALING)
  }

  /** Distinct tiles are drawn into disjoint squares of side SCALING. */
  lemma TilesDisjoint(a: (nat, nat), b: (nat, nat), px: int, py: int)
    requires a != b
    requires TileOrigin(a).0 <= px < TileOrigin(a).0 + SCALING && TileOrigin(a).1 <= py < TileOrigin(a).1 + SCALING
    ensures !(TileOrigin(b).0 <= px < TileOrigin(b).0 + SCALING && TileOrigin(b).1 <= py < TileOrigin(b).1 + SCALING)
  {
    if a.0 != b.0 {
      if a.0 < b.0 {
        assert TileOrigin(b).0 >= TileOrigin(a).0 + SCALING;
      } else {
        assert TileOrigin(a).0 >= TileOrigin(b).0 + SCALING;
      }
    } else {
      if a.1 < b.1 {
        assert TileOrigin(b).1 >= TileOrigin(a).1 + SCALING;
      } else {
        assert TileOrigin(a).1 >= TileOrigin(b).1 + SCALING;
      }
    }
  }

  /** `get` for each of `users` in turn: look the user up, then
      `load_avatar`; the first failure ends the run. The cache only grows,
      and only by the users loaded. */
  function LoadAll<Image>(cache: map<nat, Image>, users: seq<nat>, lookup: Lookup, place: Avatars.Place,
                          download: string -> Option<seq<int>>, decode: seq<int> -> Result<Image>): (r: (map<nat, Image>, Result<Unit>))
    ensures forall k | k in cache :: k in r.0 && r.0[k] == cache[k]
    ensures forall k | k in r.0 :: k in cache || k in users
    ensures r.1.Ok? ==> forall u | u in users :: u in r.0 && lookup(u).Ok?
    ensures (forall u | u in users :: u in cache && lookup(u).Ok?) ==> r == (cache, Ok(Unit))
    decreases |users|
  {
    if |users| == 0 then (cache, Ok(Unit))
    else
      var u := users[0];
      match lookup(u)
      case Err(e) => (cache, Err(e))
      case Ok((hash, defaultUrl)) =>
        var load := Avatars.LoadAvatar(cache, place, Avatars.User(u, hash, defaultUrl), download, decode);
        match load.result
        case Err(e) => (load.cache, Err(e))
        case Ok(_) =>
          var rest := LoadAll(load.cache, users[1..], lookup, place, download, decode);
          assert forall k | k in users[1..] :: k in users;
          rest
  }

  /** `show_plan`: store the pruned positions, then load the avatar of every
      user still on the plan and draw the tiles; the pruning stays even
      when a load fails. */
  function ShowPlan<Image>(s: State<Image>, now: int, lookup: Lookup, place: Avatars.Place,
                           download: string -> Option<seq<int>>, decode: seq<int> -> Result<Image>): (r: (State<Image>, Result<map<(nat, nat), set<nat>>>))
    ensures r.0.mensa == Prune(s.mensa, now)
    ensures forall k | k in s.avatarCache :: k in r.0.avatarCache && r.0.avatarCache[k] == s.avatarCache[k]
    ensures forall k | k in r.0.avatarCache :: k in s.avatarCache || (k in s.mensa && now <= s.mensa[k].expires)
    ensures r.1.Ok? ==> forall u | u in s.mensa && now <= s.mensa[u].expires :: u in r.0.avatarCache
    ensures r.1.Ok? ==> forall t, u | t in r.1.value :: u in r.1.value[t] ==> u in s.mensa && now <= s.mensa[u].expires
    ensures r.1.Ok? ==> forall u | u in s.mensa && now <= s.mensa[u].expires ::
      TileOf(s.mensa[u]) in r.1.value && u in r.1.value[TileOf(s.mensa[u])]
  {
    var pruned := Prune(s.mensa, now);
    var drawn := Ordering.SortBy((u: nat) => 0, pruned.Keys);
    var loaded := LoadAll(s.avatarCache, drawn, lookup, place, download, decode);
    (State(pruned, loaded.0), if loaded.1.Ok? then Ok(Tiles(pruned)) else Err(loaded.1.error))
  }

  /** Once the plan showed, showing it again at the same time downloads
      nothing, whatever the network does, and changes nothing. */
  lemma ShowPlanAgain<Image>(s: State<Image>, now: int, lookup: Lookup, place: Avatars.Place,
                             download: string -> Option<seq<int>>, decode: seq<int> -> Result<Image>,
                             download2: string -> Option<seq<int>>, decode2: seq<int> -> Result<Image>)
    ensures var first := ShowPlan(s, now, lookup, place, download, decode);
      first.1.Ok? ==> ShowPlan(first.0, now, lookup, place, download2, decode2) == first
  {
    var first := ShowPlan(s, now, lookup, place, download, decode);
    if first.1.Ok? {
      var pruned := Prune(s.mensa, now);
      PruneTwice(s.mensa, now);
      var drawn := Ordering.SortBy((u: nat) => 0, pruned.Keys);
      var loaded := LoadAll(s.avatarCache, drawn, lookup, place, download, decode);
      assert first == (State(pruned, loaded.0), Ok(Tiles(pruned)));
      var again := LoadAll(loaded.0, drawn, lookup, place, download2, decode2);
      assert again == (loaded.0, Ok(Unit));
    }
  }

  /** Pruning twice at the same time prunes nothing more. */
  lemma PruneTwice(mensa: map<nat, MensaPosition>, now: int)
    ensures Prune(Prune(mensa, now), now) == Prune(mensa, now)
  {
  }

  /** A user appears on exactly one tile. */
  lemma OneTilePerUser(mensa: map<nat, MensaPosition>, u: nat, t1: (nat, nat), t2: (nat, nat))
    requires t1 in Tiles(mensa) && t2 in Tiles(mensa)
    requires u in Tiles(mensa)[t1] && u in Tiles(mensa)[t2]
    ensures t1 == t2
  {
  }

  datatype Reply = Deleted | Plan(tiles: map<(nat, nat), set<nat>>)

  /** After storing `seat` for `user`: the seat is in the plan, no other
      user's seat changed, and a plan shown has the user on the seat's
      tile. */
  predicate Kept<Image>(s: State<Image>, r: (State<Image>, Result<Reply>), user: nat, seat: MensaPosition) {
    && user in r.0.mensa && r.0.mensa[user] == seat
    && (forall v | v in r.0.mensa && v != user :: v in s.mensa && r.0.mensa[v] == s.mensa[v])
    && (r.1.Ok? ==> r.1.value.Plan? && TileOf(seat) in r.1.value.tiles && user in r.1.value.tiles[TileOf(seat)])
  }

  /** The end of `add` for a kept seat: store it, then show the plan. */
  function StoreAndShow<Image>(s: State<Image>, user: nat, seat: MensaPosition, now: int,
                               lookup: Lookup, place: Avatars.Place,
                               download: string -> Option<seq<int>>, decode: seq<int> -> Result<Image>): (r: (State<Image>, Result<Reply>))
    requires now <= seat.expires
    ensures Kept(s, r, user, seat)
  {
    var stored := s.(mensa := s.mensa[user := seat]);
    var (after, tiles) := ShowPlan(stored, now, lookup, place, download, decode);
    (after, if tiles.Ok? then Ok(Plan(tiles.value)) else Err(tiles.error))
  }

  /** The duration asked for: an hour when none is given. */
  function Duration(expires: Option<Result<nat>>): (r: Result<nat>)
    ensures expires.None? ==> r == Ok(DISAPPEAR_SECS)
    ensures expires.Some? ==> r == expires.value
  {
    match expires case None => Ok(DISAPPEAR_SECS) case Some(d) => d
  }

  /** `add`: a zero duration forgets the user's position and avatar; any
      other duration stores the seat with its expiry and shows the plan.
      The stored seat stays even when showing the plan fails. */
  function Add<Image>(s: State<Image>, user: nat, position: string, expires: Option<Result<nat>>, now: int,
                      lookup: Lookup, place: Avatars.Place,
                      download: string -> Option<seq<int>>, decode: seq<int> -> Result<Image>): (r: (State<Image>, Result<Reply>))
    ensures ParsePosition(position).Err? ==> r == (s, Err(ParsePosition(position).error))
    ensures r.1.Ok? && r.1.value.Deleted? ==>
      r.0 == State(s.mensa - {user}, s.avatarCache - {user}) && Duration(expires) == Ok(0)
    ensures ParsePosition(position).Ok? && Duration(expires) == Ok(0) ==>
      && r == (State(s.mensa - {user}, s.avatarCache - {user}), Ok(Deleted))
      && user !in r.0.mensa && user !in r.0.avatarCache
      && (forall v | v in s.mensa && v != user :: v in r.0.mensa && r.0.mensa[v] == s.mensa[v])
    ensures ParsePosition(position).Ok? && Duration(expires).Err? ==> r == (s, Err(Duration(expires).error))
    ensures ParsePosition(position).Ok? && Duration(expires).Ok? && Duration(expires).value > 0 ==>
      var (x, y) := ParsePosition(position).value;
      Kept(s, r, user, MensaPosition(x, y, now + Duration(expires).value))
  {
    match ParsePosition(position)
    case Err(e) => (s, Err(e))
    case Ok((x, y)) =>
      match Duration(expires)
      case Err(e) => (s, Err(e))
      case Ok(secs) =>
        if secs == 0 then (State(s.mensa - {user}, s.avatarCache - {user}), Ok(Deleted))
        else StoreAndShow(s, user, MensaPosition(x, y, now + secs), now, lookup, place, download, decode)
  }

  /** Taking a seat and then giving a zero duration leaves exactly the
      seats the plan kept, without the user's. */
  lemma AddThenLeave<Image>(s: State<Image>, user: nat, position: string, secs: nat, now: int, later: int,
                            lookup: Lookup, place: Avatars.Place,
                            download: string -> Option<seq<int>>, decode: seq<int> -> Result<Image>)
    requires ParsePosition(position).Ok? && secs > 0
    ensures var seated := Add(s, user, position, Some(Ok(secs)), now, lookup, place, download, decode).0;
      Add(seated, user, position, Some(Ok(0)), later, lookup, place, download, decode).0.mensa == Prune(s.mensa, now) - {user}
  {
    var (x, y) := ParsePosition(position).value;
    var seat := MensaPosition(x, y, now + secs);
    var stored := s.(mensa := s.mensa[user := seat]);
    var seated := Add(s, user, position, Some(Ok(secs)), now, lookup, place, download, decode).0;
    AddSeated(s, user, position, secs, now, lookup, place, download, decode);
    assert seated == StoreAndShow(s, user, seat, now, lookup, place, download, decode).0;
    StoreAndShowPrunes(s, user, seat, now, lookup, place, download, decode);
    assert seated.mensa == Prune(stored.mensa, now);
    var left := Add(seated, user, position, Some(Ok(0)), later, lookup, place, download, decode).0;
    assert Duration(Some(Ok(0))) == Ok(0);
    assert left.mensa == seated.mensa - {user};
    PruneWithout(s.mensa, user, seat, now);
  }

  lemma AddSeated<Image>(s: State<Image>, user: nat, position: string, secs: nat, now: int,
                         lookup: Lookup, place: Avatars.Place,
                         download: string -> Option<seq<int>>, decode: seq<int> -> Result<Image>)
    requires ParsePosition(position).Ok? && secs > 0
    ensures Add(s, user, position, Some(Ok(secs)), now, lookup, place, download, decode)
      == StoreAndShow(s, user, MensaPosition(ParsePosition(position).value.0, ParsePosition(position).value.1, now + secs), now, lookup, place, download, decode)
  {
  }

  lemma StoreAndShowPrunes<Image>(s: State<Image>, user: nat, seat: MensaPosition, now: int,
                                  lookup: Lookup, place: Avatars.Place,
                                  download: string -> Option<seq<int>>, decode: seq<int> -> Result<Image>)
    requires now <= seat.expires
    ensures StoreAndShow(s, user, seat, now, lookup, place, download, decode).0.mensa == Prune(s.mensa[user := seat], now)
  {
    var stored := s.(mensa := s.mensa[user := seat]);
    assert StoreAndShow(s, user, seat, now, lookup, place, download, decode).0 == ShowPlan(stored, now, lookup, place, download, decode).0;
  }

  lemma PruneWithout(mensa: map<nat, MensaPosition>, user: nat, seat: MensaPosition, now: int)
    ensures Prune(mensa[user := seat], now) - {user} == Prune(mensa, now) - {user}
  {
    var a := Prune(mensa[user := seat], now) - {user};
    var b := Prune(mensa, now) - {user};
    forall u
      ensures (u in a <==> u in b) && (u in a ==> a[u] == b[u])
    {
      if u != user && u in mensa {
        assert mensa[user := seat][u] == mensa[u];
      }
    }
  }
}

=== FILE: emoji.dfy ===
/** Custom-emoji markup in message text (`<:name:id>` and `<a:name:id>`),
    its extraction, and the CDN download description built from it. Both
    command generations use the same two patterns and the same builder. */
module EmojiMarkup {
  import opened Wrappers
  import Text

  const EMOJI_URL: string := "https://cdn.discordapp.com/emojis/"
  const EMOJI_FORMAT: string := "png"
  const ANIMATED_EMOJI_FORMAT: string := "gif"

  /** `[a-zA-Z0-9_]`. */
  predicate IsNameChar(c: char) {
    Text.IsAsciiAlnum(c) || c == '_'
  }

  predicate ValidName(s: string) {
    |s| > 0 && forall i | 0 <= i < |s| :: IsNameChar(s[i])
  }

  predicate ValidId(s: string) {
    |s| > 0 && Text.AllDigits(s)
  }

  /** A custom emoji as written in text. */
  datatype EmojiRef = EmojiRef(name: string, id: string, animated: bool)

  predicate ValidRef(e: EmojiRef) {
    ValidName(e.name) && ValidId(e.id)
  }

  function Open(animated: bool): string {
    if animated then "<a:" else "<:"
  }

  /** The markup the platform renders for a custom emoji. */
  function Markup(e: EmojiRef): string {
    Open(e.animated) + e.name + ":" + e.id + ">"
  }

  /** Length of the longest prefix of name characters. */
  function NameRun(s: string): (n: nat)
    ensures n <= |s|
    ensures forall i | 0 <= i < n :: IsNameChar(s[i])
    ensures n < |s| ==> !IsNameChar(s[n])
  {
    if |s| == 0 || !IsNameChar(s[0]) then 0 else 1 + NameRun(s[1..])
  }

  /** `name:id>` at the start of `t`: a non-empty name run, ':', a
      non-empty digit run, '>'. */
  function Body(t: string): (r: Option<(string, string)>)
    ensures r.Some? ==> ValidName(r.value.0) && ValidId(r.value.1)
    ensures r.Some? ==> r.value.0 + ":" + r.value.1 + ">" <= t
  {
    var n := NameRun(t);
    if n == 0 || n >= |t| || t[n] != ':' then None
    else
      var u := t[n + 1..];
      var d := Text.DigitRun(u);
      if d == 0 || d >= |u| || u[d] != '>' then None
      else
        var name := t[..n];
        var id := u[..d];
        BodyPrefix(t, n, d);
        Some((name, id))
  }

  lemma BodyPrefix(t: string, n: nat, d: nat)
    requires n < |t| && t[n] == ':'
    requires d < |t[n + 1..]| && t[n + 1..][d] == '>'
    ensures t[..n] + ":" + t[n + 1..][..d] + ">" <= t
  {
    var w := t[..n] + ":" + t[n + 1..][..d] + ">";
    assert |w| == n + d + 2;
    forall i | 0 <= i < |w| ensures w[i] == t[i] {
      if i < n {
      } else if i == n {
      } else if i < n + 1 + d {
        assert w[i] == t[n + 1..][..d][i - n - 1];
      } else {
        assert w[i] == '>';
      }
    }
  }

  /** A match of the pattern of the given kind at the start of `s`, with the
      length it spans. The name and id classes exclude the ':' and '>' that
      follow them, so the match at a position is unique. */
  function MatchPrefix(s: string, animated: bool): (r: Option<(EmojiRef, nat)>)
    ensures r.Some? ==> ValidRef(r.value.0) && r.value.0.animated == animated
    ensures r.Some? ==> Markup(r.value.0) <= s && r.value.1 == |Markup(r.value.0)|
  {
    var open := Open(animated);
    if !(open <= s) then None
    else match Body(s[|open|..])
      case None => None
      case Some((name, id)) =>
        var e := EmojiRef(name, id, animated);
        MarkupPrefix(e, s);
        Some((e, |Markup(e)|))
  }

  lemma MarkupPrefix(e: EmojiRef, s: string)
    requires Open(e.animated) <= s
    requires e.name + ":" + e.id + ">" <= s[|Open(e.animated)|..]
    ensures Markup(e) <= s
  {
    PrefixJoin(Open(e.animated), e.name + ":" + e.id + ">", s);
    assert Markup(e) == Open(e.animated) + (e.name + ":" + e.id + ">");
  }

  lemma PrefixJoin(a: string, b: string, s: string)
    requires a <= s && b <= s[|a|..]
    ensures a + b <= s
  {
    assert forall i | |a| <= i < |a| + |b| :: (a + b)[i] == s[|a|..][i - |a|];
  }

  /** `captures_iter`: the non-overlapping matches of one pattern, left to
      right. */
  function Scan(s: string, animated: bool): (r: seq<EmojiRef>)
    ensures forall i | 0 <= i < |r| :: ValidRef(r[i]) && r[i].animated == animated
    decreases |s|
  {
    if |s| == 0 then []
    else match MatchPrefix(s, animated)
      case Some((e, len)) =>
        var rest := Scan(s[len..], animated);
        ConsRefs(e, rest, animated);
        [e] + rest
      case None => Scan(s[1..], animated)
  }

  lemma ConsRefs(e: EmojiRef, rest: seq<EmojiRef>, animated: bool)
    requires ValidRef(e) && e.animated == animated
    requires forall i | 0 <= i < |rest| :: ValidRef(rest[i]) && rest[i].animated == animated
    ensures forall i | 0 <= i < |rest| + 1 :: ValidRef(([e] + rest)[i]) && ([e] + rest)[i].animated == animated
  {
    forall i | 0 < i < |rest| + 1 ensures ([e] + rest)[i] == rest[i - 1] {}
  }

  /** The emoji of the given kind among `es`, in order. */
  function OfKind(es: seq<EmojiRef>, animated: bool): seq<EmojiRef> {
    if |es| == 0 then []
    else (if es[0].animated == animated then [es[0]] else []) + OfKind(es[1..], animated)
  }

  function Markups(es: seq<EmojiRef>): string {
    if |es| == 0 then "" else Markup(es[0]) + Markups(es[1..])
  }

  /** Each match is markup that occurs in the scanned text. */
  lemma {:induction false} ScanSound(s: string, animated: bool)
    ensures forall i | 0 <= i < |Scan(s, animated)| :: Text.Contains(s, Markup(Scan(s, animated)[i]))
    decreases |s|
  {
    if |s| > 0 {
      Text.ContainsIff(s, "");
      match MatchPrefix(s, animated)
      case Some((e, len)) =>
        ScanSound(s[len..], animated);
        var r := Scan(s, animated);
        forall i | 0 <= i < |r| ensures Text.Contains(s, Markup(r[i])) {
          if i == 0 {
            Text.ContainsIff(s, Markup(e));
            assert Text.OccursAt(s, Markup(e), 0);
          } else {
            ContainsInSuffix(s, len, Markup(r[i]));
          }
        }
      case None =>
        ScanSound(s[1..], animated);
        forall i | 0 <= i < |Scan(s, animated)| ensures Text.Contains(s, Markup(Scan(s, animated)[i])) {
          ContainsInSuffix(s, 1, Markup(Scan(s, animated)[i]));
        }
    }
  }

  lemma ContainsInSuffix(s: string, k: nat, needle: string)
    requires k <= |s|
    requires Text.Contains(s[k..], needle)
    ensures Text.Contains(s, needle)
  {
    Text.ContainsIff(s[k..], needle);
    Text.ContainsIff(s, needle);
    var i :| Text.OccursAt(s[k..], needle, i);
    assert s[k + i..k + i + |needle|] == s[k..][i..i + |needle|];
    assert Text.OccursAt(s, needle, k + i);
  }

  /** Text in which no markup can start is skipped. */
  lemma {:induction false} SkipNoOpen(x: string, rest: string, animated: bool)
    requires '<' !in x
    ensures Scan(x + rest, animated) == Scan(rest, animated)
    decreases |x|
  {
    if |x| > 0 {
      assert (x + rest)[0] == x[0];
      assert (x + rest)[1..] == x[1..] + rest;
      SkipNoOpen(x[1..], rest, animated);
    } else {
      assert x + rest == rest;
    }
  }

  /** A valid markup followed by anything matches exactly itself. */
  lemma MatchOfMarkup(e: EmojiRef, rest: string)
    requires ValidRef(e)
    ensures MatchPrefix(Markup(e) + rest, e.animated) == Some((e, |Markup(e)|))
  {
    var s := Markup(e) + rest;
    var open := Open(e.animated);
    var t := e.name + ":" + e.id + ">" + rest;
    assert s == open + t;
    assert s[|open|..] == t;
    BodyOfValid(e.name, e.id, rest);
  }

  lemma BodyOfValid(name: string, id: string, rest: string)
    requires ValidName(name) && ValidId(id)
    ensures Body(name + ":" + id + ">" + rest) == Some((name, id))
  {
    var t := name + ":" + id + ">" + rest;
    assert t == name + ([':'] + (id + ">" + rest));
    RunOfValid(name, ':', id + ">" + rest);
    var u := t[|name| + 1..];
    assert u == id + ([ '>' ] + rest);
    Text.DigitRunOf(id, ">" + rest);
    assert t[..|name|] == name;
    assert u[..|id|] == id;
  }

  lemma RunOfValid(x: string, c: char, rest: string)
    requires forall i | 0 <= i < |x| :: IsNameChar(x[i])
    requires !IsNameChar(c)
    ensures NameRun(x + ([c] + rest)) == |x|
    decreases |x|
  {
    if |x| > 0 {
      assert (x + ([c] + rest))[1..] == x[1..] + ([c] + rest);
      RunOfValid(x[1..], c, rest);
    }
  }

  /** A markup of the other kind yields no match for this pattern. */
  lemma SkipOtherKind(e: EmojiRef, rest: string, animated: bool)
    requires ValidRef(e) && e.animated != animated
    ensures Scan(Markup(e) + rest, animated) == Scan(rest, animated)
  {
    var s := Markup(e) + rest;
    var tail := Markup(e)[1..];
    assert Markup(e) == "<" + tail;
    assert s[1] == (if e.animated then 'a' else ':');
    assert MatchPrefix(s, animated).None? by {
      assert !(Open(animated) <= s) by {
        if animated { assert Open(animated)[1] == 'a'; } else { assert Open(animated)[1] == ':'; }
      }
    }
    assert '<' !in tail by {
      forall i | 0 <= i < |tail| ensures tail[i] != '<' {
        var open := Open(e.animated);
        assert Markup(e) == open + e.name + ":" + e.id + ">";
        if i + 1 < |open| {
        } else if i + 1 < |open| + |e.name| {
          assert tail[i] == e.name[i + 1 - |open|];
        } else if i + 1 == |open| + |e.name| {
        } else if i + 1 < |open| + |e.name| + 1 + |e.id| {
          assert tail[i] == e.id[i + 1 - |open| - |e.name| - 1];
        }
      }
    }
    assert s[1..] == tail + rest;
    SkipNoOpen(tail, rest, animated);
  }

  /** One markup at the front yields itself when of the pattern's kind. */
  lemma ScanOne(e: EmojiRef, after: string, animated: bool)
    requires ValidRef(e)
    ensures Scan(Markup(e) + after, animated) == (if e.animated == animated then [e] else []) + Scan(after, animated)
  {
    if e.animated == animated {
      var s := Markup(e) + after;
      MatchOfMarkup(e, after);
      assert s[|Markup(e)|..] == after;
      assert |s| > 0;
      assert Scan(s, animated) == [e] + Scan(after, animated);
    } else {
      SkipOtherKind(e, after, animated);
    }
  }

  /** Scanning the markups of valid emojis finds exactly those of the
      pattern's kind, in order. */
  lemma {:induction false} ScanMarkups(es: seq<EmojiRef>, rest: string, animated: bool)
    requires forall i | 0 <= i < |es| :: ValidRef(es[i])
    ensures Scan(Markups(es) + rest, animated) == OfKind(es, animated) + Scan(rest, animated)
    decreases |es|
  {
    if |es| == 0 {
      assert Markups(es) + rest == rest;
    } else {
      var e := es[0];
      var after := Markups(es[1..]) + rest;
      ScanMarkups(es[1..], rest, animated);
      assert Markups(es) + rest == Markup(e) + after;
      ScanOne(e, after, animated);
      var head := if e.animated == animated then [e] else [];
      assert OfKind(es, animated) == head + OfKind(es[1..], animated);
      Regroup(Scan(Markups(es) + rest, animated), head, Scan(after, animated), OfKind(es[1..], animated), Scan(rest, animated));
    }
  }

  lemma Regroup<T>(x: seq<T>, head: seq<T>, y: seq<T>, p: seq<T>, q: seq<T>)
    requires x == head + y && y == p + q
    ensures x == (head + p) + q
  {
  }

  /** What the command downloads and uploads for one emoji. */
  datatype NewEmoji = NewEmoji(name: string, url: string, contentType: string)

  /** `NewEmoji::new`. */
  function NewEmojiOf(name: string, id: string, animated: bool): (r: NewEmoji)
    ensures r.name == name
    ensures EMOJI_URL + id <= r.url
    ensures r.contentType == "image/" + (if animated then ANIMATED_EMOJI_FORMAT else EMOJI_FORMAT)
    ensures r.url[|r.url| - 4..] == "." + r.contentType[6..]
  {
    var format := if animated then ANIMATED_EMOJI_FORMAT else EMOJI_FORMAT;
    NewEmoji(name, EMOJI_URL + id + "." + format, "image/" + format)
  }

  /** The id can be read back from the url, so distinct ids give distinct urls. */
  lemma NewEmojiUrlId(name: string, id: string, animated: bool)
    ensures NewEmojiOf(name, id, animated).url[|EMOJI_URL|..|NewEmojiOf(name, id, animated).url| - 4] == id
  {
  }

  function ToNew(es: seq<EmojiRef>): (r: seq<NewEmoji>)
    ensures |r| == |es|
    ensures forall i | 0 <= i < |r| :: r[i] == NewEmojiOf(es[i].name, es[i].id, es[i].animated)
  {
    if |es| == 0 then [] else [NewEmojiOf(es[0].name, es[0].id, es[0].animated)] + ToNew(es[1..])
  }

  /** `extract_emojis`: every static match in order, then every animated one. */
  function ExtractEmojis(content: string): (r: seq<NewEmoji>)
    ensures |r| == |Scan(content, false)| + |Scan(content, true)|
  {
    ToNew(Scan(content, false) + Scan(content, true))
  }

  /** Text made of emoji markups yields its static emojis first, then its
      animated ones, each group in text order. */
  lemma ExtractFromMarkups(es: seq<EmojiRef>)
    requires forall i | 0 <= i < |es| :: ValidRef(es[i])
    ensures ExtractEmojis(Markups(es)) == ToNew(OfKind(es, false) + OfKind(es, true))
  {
    var m := Markups(es);
    assert m + "" == m;
    ScanMarkups(es, "", false);
    ScanMarkups(es, "", true);
    var s, a := Scan(m, false), Scan(m, true);
    AppendEmpty(s, OfKind(es, false));
    AppendEmpty(a, OfKind(es, true));
  }

  lemma AppendEmpty<T>(x: seq<T>, p: seq<T>)
    requires x == p + []
    ensures x == p
  {
  }
}

=== FILE: emoji_cache.dfy ===
/** The bot's emoji cache and the suggestions built from it. */
module EmojiCache {
  import opened Wrappers
  import Text
  import EmojiMarkup

  datatype Emoji = Emoji(id: nat, name: string, animated: bool, available: bool)

  /** An emoji as the platform writes it in text. */
  function Display(e: Emoji): string {
    EmojiMarkup.Markup(EmojiMarkup.EmojiRef(e.name, Text.Decimal(e.id), e.animated))
  }

  function Flatten(parts: seq<seq<Emoji>>): (r: seq<Emoji>)
    ensures forall x :: x in r <==> exists i | 0 <= i < |parts| :: x in parts[i]
  {
    if |parts| == 0 then []
    else
      var rest := Flatten(parts[1..]);
      assert forall i | 1 <= i < |parts| :: parts[i] == parts[1..][i - 1];
      parts[0] + rest
  }

  function AllOk<T>(results: seq<Result<T>>): bool {
    forall i | 0 <= i < |results| :: results[i].Ok?
  }

  function Values<T>(results: seq<Result<T>>): (r: seq<T>)
    requires AllOk(results)
    ensures |r| == |results| && forall i | 0 <= i < |r| :: results[i] == Ok(r[i])
  {
    if |results| == 0 then [] else [results[0].value] + Values(results[1..])
  }

  /** `load_bot_emojis`: the application's emojis, then each guild's in the
      order given, replace the cache; any failed fetch leaves it as it was. */
  function Load(cache: seq<Emoji>, app: Result<seq<Emoji>>, guilds: seq<Result<seq<Emoji>>>): (r: (seq<Emoji>, Result<Unit>))
    ensures r.1.Ok? <==> app.Ok? && AllOk(guilds)
    ensures r.1.Err? ==> r.0 == cache
    ensures r.1.Ok? ==> r.0 == app.value + Flatten(Values(guilds))
  {
    if app.Ok? && AllOk(guilds) then (app.value + Flatten(Values(guilds)), Ok(Unit))
    else (cache, Err(Failure("emoji fetch failed")))
  }

  const MAX_SUGGESTIONS: nat := 25
  const MAX_CHOICE_BYTES: nat := 100

  function Matching(cache: seq<Emoji>, partial: string): (r: seq<Emoji>)
    ensures forall e :: e in r <==> e in cache && e.available && Text.Contains(e.name, partial)
    ensures |r| <= |cache|
  {
    if |cache| == 0 then []
    else
      var rest := Matching(cache[1..], partial);
      assert forall e | e in cache[1..] :: e in cache;
      assert forall e | e in cache && e != cache[0] :: e in cache[1..];
      (if cache[0].available && Text.Contains(cache[0].name, partial) then [cache[0]] else []) + rest
  }

  /** Matching keeps cache order: the matches of `a + b` are those of `a`
      followed by those of `b`. */
  lemma {:induction false} MatchingAppend(a: seq<Emoji>, b: seq<Emoji>, partial: string)
    ensures Matching(a + b, partial) == Matching(a, partial) + Matching(b, partial)
    decreases |a|
  {
    if |a| == 0 {
      assert a + b == b;
    } else {
      assert (a + b)[0] == a[0] && (a + b)[1..] == a[1..] + b;
      MatchingAppend(a[1..], b, partial);
      var h := if a[0].available && Text.Contains(a[0].name, partial) then [a[0]] else [];
      assert h + (Matching(a[1..], partial) + Matching(b, partial)) == (h + Matching(a[1..], partial)) + Matching(b, partial);
    }
  }

  function Displays(es: seq<Emoji>): (r: seq<string>)
    ensures |r| == |es| && forall i | 0 <= i < |r| :: r[i] == Display(es[i])
  {
    if |es| == 0 then [] else [Display(es[0])] + Displays(es[1..])
  }

  /** `autocomplete_emoji`: the first 25 available cached emojis whose name
      contains the partial text, in cache order. */
  function Autocomplete(cache: seq<Emoji>, partial: string): (r: seq<string>)
    ensures |r| <= MAX_SUGGESTIONS
    ensures |r| == if |Matching(cache, partial)| < MAX_SUGGESTIONS then |Matching(cache, partial)| else MAX_SUGGESTIONS
    ensures forall i | 0 <= i < |r| :: exists e | e in cache && e.available && Text.Contains(e.name, partial) :: r[i] == Display(e)
    ensures forall i | 0 <= i < |r| :: r[i] == Display(Matching(cache, partial)[i])
  {
    var m := Matching(cache, partial);
    var k := if |m| < MAX_SUGGESTIONS then |m| else MAX_SUGGESTIONS;
    var r := Displays(m[..k]);
    assert forall i | 0 <= i < |r| :: r[i] == Display(m[i]) && m[i] in m;
    r
  }

  /** The position of the last ':' in the text. */
  function LastColon(text: string): (r: Option<nat>)
    ensures r.Some? ==> r.value < |text| && text[r.value] == ':' && forall j | r.value < j < |text| :: text[j] != ':'
    ensures r.None? ==> forall j | 0 <= j < |text| :: text[j] != ':'
  {
    if |text| == 0 then None
    else if text[|text| - 1] == ':' then Some(|text| - 1)
    else LastColon(text[..|text| - 1])
  }

  /** `s` is one of the suggestions behind `head`, within 100 bytes. */
  predicate IsChoice(head: string, suggestions: seq<string>, s: string) {
    exists i | 0 <= i < |suggestions| :: s == head + suggestions[i] && Text.Utf8Len(s) <= MAX_CHOICE_BYTES
  }

  function Prefixed(head: string, suggestions: seq<string>): (r: seq<string>)
    ensures forall s :: s in r <==> IsChoice(head, suggestions, s)
  {
    if |suggestions| == 0 then []
    else
      var rest := Prefixed(head, suggestions[1..]);
      assert forall i | 1 <= i < |suggestions| :: suggestions[i] == suggestions[1..][i - 1];
      var s := head + suggestions[0];
      (if Text.Utf8Len(s) <= MAX_CHOICE_BYTES then [s] else []) + rest
  }

  /** The choices keep the suggestions' order: those of `a + b` are those
      of `a` followed by those of `b`. */
  lemma {:induction false} PrefixedAppend(head: string, a: seq<string>, b: seq<string>)
    ensures Prefixed(head, a + b) == Prefixed(head, a) + Prefixed(head, b)
    decreases |a|
  {
    if |a| == 0 {
      assert a + b == b;
    } else {
      assert (a + b)[0] == a[0] && (a + b)[1..] == a[1..] + b;
      PrefixedAppend(head, a[1..], b);
      var s := head + a[0];
      var h := if Text.Utf8Len(s) <= MAX_CHOICE_BYTES then [s] else [];
      assert h + (Prefixed(head, a[1..]) + Prefixed(head, b)) == (h + Prefixed(head, a[1..])) + Prefixed(head, b);
    }
  }

  /** `autocomplete_emoji_in_text`: the emoji name being typed after the
      last ':' is completed, the text before the ':' kept in front; a
      choice longer than 100 bytes is dropped. Nothing without a ':' or
      with nothing after the last one. */
  function InText(cache: seq<Emoji>, text: string): (r: seq<string>)
    ensures LastColon(text).None? ==> r == []
    ensures LastColon(text).Some? && LastColon(text).value == |text| - 1 ==> r == []
    ensures forall s | s in r :: Text.Utf8Len(s) <= MAX_CHOICE_BYTES
    ensures LastColon(text).Some? && LastColon(text).value < |text| - 1 ==>
      forall s :: s in r <==> IsChoice(text[..LastColon(text).value], Autocomplete(cache, text[LastColon(text).value + 1..]), s)
  {
    match LastColon(text)
    case None => []
    case Some(i) =>
      if |text| - i < 2 then []
      else Prefixed(text[..i], Autocomplete(cache, text[i + 1..]))
  }

  /** One character after the ':' is already enough to get suggestions,
      although the code's own comment asks for two. */
  lemma OneCharSuffices()
    ensures InText([Emoji(1, "a", false, true)], "x:a") == ["x<:a:1>"]
  {
    var cache := [Emoji(1, "a", false, true)];
    assert LastColon("x:a") == Some(1);
    assert "x:a"[2..] == "a";
    assert Text.Contains("a", "a");
    assert Matching(cache, "a") == cache;
    assert Text.Decimal(1) == "1";
    assert Display(cache[0]) == "<:a:1>";
    assert Autocomplete(cache, "a") == ["<:a:1>"];
    assert "x:a"[..1] + "<:a:1>" == "x<:a:1>";
    assert Text.IsAscii("x<:a:1>");
    Text.AsciiUtf8Len("x<:a:1>");
  }
}

=== FILE: emoji_usage.dfy ===
/** Emoji usage statistics: every reaction in a guild bumps the counter of
    its emoji, and the listing shows a guild's counters, most used first. */
module EmojiUsage {
  import opened Wrappers
  import opened CounterTable
  import Ordering
  import Text

  /** The conflict target of `emoji_usage`: (guild, emoji id). */
  datatype Key = Key(guildId: nat, emojiId: nat)

  type Table = seq<Row<Key>>

  const NO_USAGE: string := "No emoji usage recorded yet."
  const HEADER: string := "**Emoji | Usage Count**"

  /** `track_emoji_usage`: a reaction outside a guild changes nothing; the
      emoji id comes from the unshown `get_emoji_id`, whose failure is
      passed on; a failed upsert is only logged. */
  function Track(t: Table, guildId: Option<nat>, emojiId: Result<nat>, dbOk: bool): (r: Result<Table>)
    ensures guildId.None? ==> r == Ok(t)
    ensures guildId.Some? && emojiId.Err? ==> r == Err(emojiId.error)
    ensures guildId.Some? && emojiId.Ok? ==> r.Ok?
    ensures guildId.Some? && emojiId.Ok? ==>
      var k := Key(guildId.value, emojiId.value);
      && Count(r.value, k) == Count(t, k) + (if dbOk then 1 else 0)
      && forall other | other != k :: Count(r.value, other) == Count(t, other)
  {
    match guildId
    case None => Ok(t)
    case Some(g) =>
      match emojiId
      case Err(e) => Err(e)
      case Ok(id) => if dbOk then Ok(Upsert(t, Key(g, id))) else Ok(t)
  }

  /** Tracking keeps one row per (guild, emoji). */
  lemma TrackKeepsUnique(t: Table, guildId: Option<nat>, emojiId: Result<nat>, dbOk: bool)
    requires UniqueKeys(t)
    requires Track(t, guildId, emojiId, dbOk).Ok?
    ensures UniqueKeys(Track(t, guildId, emojiId, dbOk).value)
  {
    if guildId.Some? && emojiId.Ok? && dbOk {
      UpsertUnique(t, Key(guildId.value, emojiId.value));
    }
  }

  /** Sort key of a row position: higher counts first. */
  function ByCountDesc(t: Table): nat -> int {
    (i: nat) => if i < |t| then -(t[i].count as int) else 0
  }

  /** The positions of the guild's rows, by count descending (`ORDER BY
      count DESC`; equal counts keep storage order). */
  function GuildRows(t: Table, guildId: nat): (r: seq<nat>)
    ensures forall i | 0 <= i < |r| :: r[i] < |t| && t[r[i]].key.guildId == guildId
    ensures forall i | 0 <= i < |t| && t[i].key.guildId == guildId :: i in r
    ensures forall i, j | 0 <= i < j < |r| :: t[r[i]].count >= t[r[j]].count
  {
    var s := set i | 0 <= i < |t| && t[i].key.guildId == guildId;
    var r := Ordering.SortBy(ByCountDesc(t), s);
    assert forall i | 0 <= i < |r| :: r[i] in s;
    r
  }

  /** What the listing shows: a plain reply, or lines handed to the pager. */
  datatype Listing = Plain(content: string) | Pages(lines: seq<string>)

  /** The listing's lines after the header: the emoji as the unshown
      `get_emoji_from_id` renders it, then the count; a rendering failure
      aborts the listing. */
  function Lines(t: Table, rows: seq<nat>, emojiText: nat -> Result<string>): (r: Result<seq<string>>)
    requires forall i | 0 <= i < |rows| :: rows[i] < |t|
    ensures r.Ok? <==> forall i | 0 <= i < |rows| :: emojiText(t[rows[i]].key.emojiId).Ok?
    ensures r.Ok? ==> |r.value| == |rows|
    ensures r.Ok? ==> forall i | 0 <= i < |rows| ::
      r.value[i] == emojiText(t[rows[i]].key.emojiId).value + " " + Text.Decimal(t[rows[i]].count)
  {
    if |rows| == 0 then Ok([])
    else
      match emojiText(t[rows[0]].key.emojiId)
      case Err(e) => Err(e)
      case Ok(text) =>
        match Lines(t, rows[1..], emojiText)
        case Err(e) => Err(e)
        case Ok(rest) => Ok([text + " " + Text.Decimal(t[rows[0]].count)] + rest)
  }

  /** `emoji_usage`: only the current guild's rows, most used first, under
      a header line; no rows gives a plain notice. */
  function List(t: Table, guildId: nat, emojiText: nat -> Result<string>): (r: Result<Listing>)
    ensures GuildRows(t, guildId) == [] ==> r == Ok(Plain(NO_USAGE))
    ensures GuildRows(t, guildId) != [] && r.Ok? ==>
      && r.value.Pages?
      && |r.value.lines| == |GuildRows(t, guildId)| + 1
      && r.value.lines[0] == HEADER
    ensures var rows := GuildRows(t, guildId);
      rows != [] ==> (r.Ok? <==> forall i | 0 <= i < |rows| :: emojiText(t[rows[i]].key.emojiId).Ok?)
    ensures var rows := GuildRows(t, guildId);
      rows != [] && r.Ok? ==> |r.value.lines| == |rows| + 1 && forall i | 0 <= i < |rows| ::
        r.value.lines[i + 1] == emojiText(t[rows[i]].key.emojiId).value + " " + Text.Decimal(t[rows[i]].count)
  {
    var rows := GuildRows(t, guildId);
    if rows == [] then Ok(Plain(NO_USAGE))
    else
      match Lines(t, rows, emojiText)
      case Err(e) => Err(e)
      case Ok(lines) => Ok(Pages([HEADER] + lines))
  }

  /** A guild with no recorded reaction gets the notice. */
  lemma NoRowsNotice(t: Table, guildId: nat, emojiText: nat -> Result<string>)
    requires forall i | 0 <= i < |t| :: t[i].key.guildId != guildId
    ensures List(t, guildId, emojiText) == Ok(Plain(NO_USAGE))
  {
    assert GuildRows(t, guildId) == [];
  }

  /** After the guild's first tracked reaction the listing is the header
      and that emoji with count 1. */
  lemma ListAfterFirstTrack(t: Table, guildId: nat, emojiId: nat, emojiText: nat -> Result<string>)
    requires forall i | 0 <= i < |t| :: t[i].key.guildId != guildId
    requires emojiText(emojiId).Ok?
    ensures List(Track(t, Some(guildId), Ok(emojiId), true).value, guildId, emojiText) == Ok(Pages([HEADER, emojiText(emojiId).value + " 1"]))
  {
    var k := Key(guildId, emojiId);
    assert !HasKey(t, k);
    var after := Upsert(t, k);
    assert after == t + [Row(k, 1)];
    OnlyNewRow(t, k, after);
    var rows := GuildRows(after, guildId);
    assert rows == [|t|];
    assert Text.Decimal(1) == "1";
    assert after[|t|] == Row(k, 1);
    var lines := Lines(after, rows, emojiText);
    assert lines.Ok? && |lines.value| == 1;
    assert lines.value[0] == emojiText(emojiId).value + " " + Text.Decimal(1);
    var x := emojiText(emojiId).value;
    assert x + " " + "1" == x + " 1" by {
      assert forall i | 0 <= i < |x| + 2 :: (x + " " + "1")[i] == (x + " 1")[i];
    }
    assert lines.value == [x + " 1"];
    assert Track(t, Some(guildId), Ok(emojiId), true).value == after;
    assert List(after, guildId, emojiText) == Ok(Pages([HEADER] + lines.value));
    assert [HEADER] + lines.value == [HEADER, x + " 1"];
  }

  lemma OnlyNewRow(t: Table, k: Key, after: Table)
    requires forall i | 0 <= i < |t| :: t[i].key.guildId != k.guildId
    requires after == t + [Row(k, 1)]
    ensures GuildRows(after, k.guildId) == [|t|]
  {
    var rows := GuildRows(after, k.guildId);
    assert |t| in rows;
    assert forall i | 0 <= i < |rows| :: rows[i] == |t| by {
      forall i | 0 <= i < |rows| ensures rows[i] == |t| {
        assert rows[i] < |after| && after[rows[i]].key.guildId == k.guildId;
      }
    }
    if |rows| > 1 {
      Ordering.SortedDistinct(ByCountDesc(after), rows, 0, 1);
    }
  }
}

=== FILE: emojis.dfy ===
/** The newer generation of the emoji commands. */
module Emojis {
  import opened Wrappers
  import opened Platform
  import Text
  import Commands
  import opened EmojiMarkup

  const ADD_EMOJIS_TIMEOUT_SECS: nat := 30
  const TIMEOUT_ANSWER: string := "No reaction, timeout :("
  const CANCELLED: string := "Cancelled"
  const NOT_AN_IMAGE: string := "Not an image"
  const NO_GUILD: string := "Can't fetch your guild, try again later."

  function DuplicateMessage(name: string): string {
    "There already is an emoji with the same name " + name
  }

  /** `add_emoji`: refuse when the guild cannot be fetched or already has an
      emoji of that name; otherwise create it (the platform's answer is
      `create`, the created emoji's display on success). */
  function AddEmoji(guildNames: Option<seq<string>>, name: string, create: Result<string>): (r: (Result<Unit>, seq<string>))
    ensures guildNames.None? ==> r == (Err(Failure(NO_GUILD)), [])
    ensures guildNames.Some? && name in guildNames.value ==> r == (Err(UserError(DuplicateMessage(name))), [])
    ensures r.0.Ok? <==> guildNames.Some? && name !in guildNames.value && create.Ok?
    ensures r.0.Ok? ==> r.1 == ["Added new emoji " + create.value]
  {
    match guildNames
    case None => (Err(Failure(NO_GUILD)), [])
    case Some(names) =>
      if name in names then (Err(UserError(DuplicateMessage(name))), [])
      else match create
        case Err(e) => (Err(e), [])
        case Ok(shown) => (Ok(Unit), ["Added new emoji " + shown])
  }

  /** How fetching one emoji's image went. */
  datatype Fetch = DownloadFailed | DecodeFailed | Fetched

  /** What the platform and network do for the batch: whether the guild can
      be fetched, each emoji's download, and each creation's answer. */
  datatype Env = Env(guildOk: bool, fetch: nat -> Fetch, create: nat -> Result<string>)

  /** What a run of the Add branch did: the amount it reports, the names it
      created and the offered positions they came from, and its replies. */
  datatype Batch = Batch(remaining: nat, created: seq<string>, at: seq<nat>, replies: seq<string>)

  /** The Add branch from emoji `i` on: each failure (download, decode or
      `add_emoji`) takes one off the amount; created names join the guild's. */
  function AddFrom(emojis: seq<NewEmoji>, names: seq<string>, env: Env, i: nat, amount: nat): (r: Batch)
    requires i <= |emojis| && |emojis| - i <= amount
    ensures r.remaining == amount - (|emojis| - i) + |r.created|
    ensures |r.created| == |r.at| <= |emojis| - i
    ensures forall k | 0 <= k < |r.at| :: i <= r.at[k] < |emojis| && r.created[k] == emojis[r.at[k]].name
    ensures forall a, b | 0 <= a < b < |r.at| :: r.at[a] < r.at[b]
    ensures forall k | 0 <= k < |r.created| :: r.created[k] !in names
    decreases |emojis| - i
  {
    if i == |emojis| then Batch(amount, [], [], [])
    else
      var e := emojis[i];
      match env.fetch(i)
      case DownloadFailed =>
        var rest := AddFrom(emojis, names, env, i + 1, amount - 1);
        Batch(rest.remaining, rest.created, rest.at, ["Error downloading emoji"] + rest.replies)
      case DecodeFailed =>
        var rest := AddFrom(emojis, names, env, i + 1, amount - 1);
        Batch(rest.remaining, rest.created, rest.at, ["Error decoding emoji"] + rest.replies)
      case Fetched =>
        var (res, said) := AddEmoji(if env.guildOk then Some(names) else None, e.name, env.create(i));
        if res.Ok? then
          var rest := AddFrom(emojis, names + [e.name], env, i + 1, amount);
          Batch(rest.remaining, [e.name] + rest.created, [i] + rest.at, said + rest.replies)
        else
          var rest := AddFrom(emojis, names, env, i + 1, amount - 1);
          Batch(rest.remaining, rest.created, rest.at, said + rest.replies)
  }

  /** Emoji `j` of the batch is created exactly when its image was fetched,
      the guild is known, creation succeeds and its name is neither in the
      guild nor among the emojis the batch created before it. */
  predicate CreatedExactly(emojis: seq<NewEmoji>, names: seq<string>, env: Env, r: Batch, j: nat)
    requires j < |emojis| && |r.created| == |r.at|
  {
    j in r.at <==>
      env.fetch(j) == Fetched && env.guildOk && env.create(j).Ok? && emojis[j].name !in names &&
      forall a | 0 <= a < |r.at| && r.at[a] < j :: r.created[a] != emojis[j].name
  }

  lemma {:induction false} AddFromCreates(emojis: seq<NewEmoji>, names: seq<string>, env: Env, i: nat, amount: nat)
    requires i <= |emojis| && |emojis| - i <= amount
    ensures forall j | i <= j < |emojis| :: CreatedExactly(emojis, names, env, AddFrom(emojis, names, env, i, amount), j)
    decreases |emojis| - i
  {
    if i < |emojis| {
      var e := emojis[i];
      var r := AddFrom(emojis, names, env, i, amount);
      if env.fetch(i) == Fetched && env.guildOk && env.create(i).Ok? && e.name !in names {
        var rest := AddFrom(emojis, names + [e.name], env, i + 1, amount);
        AddFromCreates(emojis, names + [e.name], env, i + 1, amount);
        CreatedHere(emojis, names, env, r, rest, i);
      } else {
        var rest := AddFrom(emojis, names, env, i + 1, amount - 1);
        AddFromCreates(emojis, names, env, i + 1, amount - 1);
        SkippedHere(emojis, names, env, r, rest, i);
      }
    }
  }

  lemma CreatedHere(emojis: seq<NewEmoji>, names: seq<string>, env: Env, r: Batch, rest: Batch, i: nat)
    requires i < |emojis| && |rest.created| == |rest.at|
    requires env.fetch(i) == Fetched && env.guildOk && env.create(i).Ok? && emojis[i].name !in names
    requires forall k | 0 <= k < |rest.at| :: i < rest.at[k]
    requires r.at == [i] + rest.at && r.created == [emojis[i].name] + rest.created
    requires forall j | i + 1 <= j < |emojis| :: CreatedExactly(emojis, names + [emojis[i].name], env, rest, j)
    ensures forall j | i <= j < |emojis| :: CreatedExactly(emojis, names, env, r, j)
  {
    forall j | i <= j < |emojis| ensures CreatedExactly(emojis, names, env, r, j) {
      if j > i {
        CreatedLater(emojis, names, env, r, rest, j);
      }
    }
  }

  lemma SkippedHere(emojis: seq<NewEmoji>, names: seq<string>, env: Env, r: Batch, rest: Batch, i: nat)
    requires i < |emojis| && |rest.created| == |rest.at|
    requires !(env.fetch(i) == Fetched && env.guildOk && env.create(i).Ok? && emojis[i].name !in names)
    requires forall k | 0 <= k < |rest.at| :: i < rest.at[k]
    requires r.at == rest.at && r.created == rest.created
    requires forall j | i + 1 <= j < |emojis| :: CreatedExactly(emojis, names, env, rest, j)
    ensures forall j | i <= j < |emojis| :: CreatedExactly(emojis, names, env, r, j)
  {
    forall j | i <= j < |emojis| ensures CreatedExactly(emojis, names, env, r, j) {
      if j > i {
        assert CreatedExactly(emojis, names, env, rest, j);
      } else {
        assert i !in rest.at;
      }
    }
  }

  /** One step of AddFromCreates: after a creation at `i`, a later emoji
      sees the created name as one more name of the guild. */
  lemma CreatedLater(emojis: seq<NewEmoji>, names: seq<string>, env: Env, r: Batch, rest: Batch, j: nat)
    requires 0 < |r.at| && r.at[0] < j < |emojis|
    requires |rest.created| == |rest.at|
    requires r.at == [r.at[0]] + rest.at && r.created == [emojis[r.at[0]].name] + rest.created
    requires CreatedExactly(emojis, names + [emojis[r.at[0]].name], env, rest, j)
    ensures CreatedExactly(emojis, names, env, r, j)
  {
    var name := emojis[r.at[0]].name;
    var n := emojis[j].name;
    assert n !in names + [name] <==> n !in names && n != name;
    if forall a | 0 <= a < |r.at| && r.at[a] < j :: r.created[a] != n {
      assert r.created[0] != n;
      forall a | 0 <= a < |rest.at| && rest.at[a] < j ensures rest.created[a] != n {
        assert r.at[a + 1] == rest.at[a] && r.created[a + 1] == rest.created[a];
      }
    }
    if name != n && forall a | 0 <= a < |rest.at| && rest.at[a] < j :: rest.created[a] != n {
      forall a | 0 < a < |r.at| && r.at[a] < j ensures r.created[a] != n {
        assert r.at[a] == rest.at[a - 1] && r.created[a] == rest.created[a - 1];
      }
    }
  }

  /** When every image is fetched, every creation succeeds and the offered
      names are new and distinct, all of them are created. */
  lemma {:induction false} AllCreated(emojis: seq<NewEmoji>, names: seq<string>, env: Env, i: nat, amount: nat)
    requires i <= |emojis| && |emojis| - i <= amount && env.guildOk
    requires forall j | i <= j < |emojis| :: env.fetch(j) == Fetched && env.create(j).Ok? && emojis[j].name !in names
    requires forall a, b | i <= a < b < |emojis| :: emojis[a].name != emojis[b].name
    ensures |AddFrom(emojis, names, env, i, amount).created| == |emojis| - i
    decreases |emojis| - i
  {
    if i < |emojis| {
      var e := emojis[i];
      forall j | i + 1 <= j < |emojis| ensures emojis[j].name !in names + [e.name] {
        assert emojis[j].name != e.name;
      }
      AllCreated(emojis, names + [e.name], env, i + 1, amount);
    }
  }

  /** The Add branch: the reported amount is the number created. */
  function AddAll(emojis: seq<NewEmoji>, names: seq<string>, env: Env): (r: Batch)
    ensures r.remaining == |r.created| <= |emojis| && |r.at| == |r.created|
    ensures forall k | 0 <= k < |r.created| :: r.created[k] !in names
    ensures forall j | 0 <= j < |emojis| :: CreatedExactly(emojis, names, env, r, j)
  {
    AddFromCreates(emojis, names, env, 0, |emojis|);
    AddFrom(emojis, names, env, 0, |emojis|)
  }

  predicate Distinct(s: seq<string>) {
    forall a, b | 0 <= a < b < |s| :: s[a] != s[b]
  }

  /** Two emojis of one batch with the same name: at most one is created,
      since the second sees the first in the guild. */
  lemma NoDuplicateCreated(emojis: seq<NewEmoji>, names: seq<string>, env: Env, i: nat, amount: nat)
    requires i <= |emojis| && |emojis| - i <= amount
    ensures Distinct(AddFrom(emojis, names, env, i, amount).created)
  {
    var r := AddFrom(emojis, names, env, i, amount);
    AddFromCreates(emojis, names, env, i, amount);
    forall a, b | 0 <= a < b < |r.created| ensures r.created[a] != r.created[b] {
      var j := r.at[b];
      assert j in r.at;
      assert CreatedExactly(emojis, names, env, r, j);
      assert r.at[a] < j;
    }
  }

  /** The confirmation collector: the first press by the author, in the
      channel, whose id starts with the invocation id; None on timeout. */
  function FirstAnswer(ctxId: nat, authorId: nat, channelId: nat, events: seq<CollectorEvent>): (r: Option<string>)
    ensures r.Some? ==> Text.Decimal(ctxId) <= r.value
    decreases |events|
  {
    if |events| == 0 || events[0].TimedOut? then None
    else
      var i := events[0].interaction;
      if i.userId == authorId && i.channelId == channelId && Text.Decimal(ctxId) <= i.customId then Some(i.customId)
      else FirstAnswer(ctxId, authorId, channelId, events[1..])
  }

  function Prompt(emojis: seq<NewEmoji>): (r: seq<Embed>)
    ensures |r| == |emojis|
    ensures forall k | 0 <= k < |r| :: r[k].title == Some(emojis[k].name) && r[k].thumbnail == Some(emojis[k].url)
  {
    if |emojis| == 0 then []
    else [NewEmbed().(title := Some(emojis[0].name), thumbnail := Some(emojis[0].url))] + Prompt(emojis[1..])
  }

  datatype Outcome = Outcome(answer: string, message: Message, created: seq<string>, replies: seq<string>)

  /** `extract_and_upload_emojis`: ask, wait for Add or Cancel, and always
      finish by showing the answer with the buttons removed. */
  function ExtractAndUpload(ctxId: nat, authorId: nat, channelId: nat, emojis: seq<NewEmoji>,
                            names: seq<string>, events: seq<CollectorEvent>, env: Env): (r: Outcome)
    ensures FirstAnswer(ctxId, authorId, channelId, events).None? ==> r.answer == TIMEOUT_ANSWER && r.created == []
    ensures FirstAnswer(ctxId, authorId, channelId, events) != Some(Text.Decimal(ctxId) + "add") ==> r.created == []
    ensures FirstAnswer(ctxId, authorId, channelId, events).Some? && FirstAnswer(ctxId, authorId, channelId, events) != Some(Text.Decimal(ctxId) + "add") ==>
      r.answer == CANCELLED
    ensures FirstAnswer(ctxId, authorId, channelId, events) == Some(Text.Decimal(ctxId) + "add") ==>
      r.answer == "Added " + Text.Decimal(|r.created|) + " emojis." &&
      r.created == AddAll(emojis, names, env).created && r.replies == AddAll(emojis, names, env).replies
    ensures r.message.content == r.answer && r.message.components == [] && |r.message.embeds| == |emojis|
  {
    var d := Text.Decimal(ctxId);
    var m := Message("Create " + Text.Decimal(|emojis|) + " emojis?", Prompt(emojis), [Button(d + "add"), Button(d + "cancel")]);
    var (answer, created, replies) :=
      match FirstAnswer(ctxId, authorId, channelId, events)
      case None => (TIMEOUT_ANSWER, [], [])
      case Some(id) =>
        if id == d + "add" then
          var b := AddAll(emojis, names, env);
          ("Added " + Text.Decimal(b.remaining) + " emojis.", b.created, b.replies)
        else (CANCELLED, [], []);
    Outcome(answer, Commands.TeardownWithContent(m, Some(answer)), created, replies)
  }

  /** `copy_reactions`: custom reactions become emojis to copy (a custom
      reaction without a name panics); Unicode ones are only reported. */
  function CopyReactions(reactions: seq<ReactionEmoji>): (r: Result<(seq<NewEmoji>, seq<string>)>)
    ensures r.Ok? <==> forall k | 0 <= k < |reactions| :: reactions[k].Custom? ==> reactions[k].name.Some?
    ensures r.Ok? ==> |r.value.0| + |r.value.1| == |reactions|
    ensures r.Ok? && |reactions| > 0 && reactions[0].Custom? ==>
      [NewEmojiOf(reactions[0].name.value, Text.Decimal(reactions[0].id), reactions[0].animated)] <= r.value.0
    ensures r.Ok? && |reactions| > 0 && reactions[0].Unicode? ==> [reactions[0].text + " is a builtin emoji"] <= r.value.1
  {
    if |reactions| == 0 then Ok(([], []))
    else
      var rest := CopyReactions(reactions[1..]);
      match reactions[0]
      case Custom(id, name, animated) =>
        if name.None? then Err(Failure("Emoji has a name"))
        else if rest.Err? then rest
        else Ok(([NewEmojiOf(name.value, Text.Decimal(id), animated)] + rest.value.0, rest.value.1))
      case Unicode(text) =>
        if rest.Err? then rest
        else Ok((rest.value.0, [text + " is a builtin emoji"] + rest.value.1))
  }

  /** Reactions are read one after another: the reactions of `a + b` give
      the emojis and notices of `a` followed by those of `b`. */
  lemma {:induction false} CopyReactionsAppend(a: seq<ReactionEmoji>, b: seq<ReactionEmoji>)
    ensures CopyReactions(a + b).Ok? <==> CopyReactions(a).Ok? && CopyReactions(b).Ok?
    ensures CopyReactions(a).Ok? && CopyReactions(b).Ok? ==>
      CopyReactions(a + b).value == (CopyReactions(a).value.0 + CopyReactions(b).value.0, CopyReactions(a).value.1 + CopyReactions(b).value.1)
    decreases |a|
  {
    if |a| == 0 {
      assert a + b == b;
      var y := CopyReactions(b);
      if y.Ok? {
        assert [] + y.value.0 == y.value.0 && [] + y.value.1 == y.value.1;
      }
    } else {
      assert (a + b)[1..] == a[1..] + b;
      CopyReactionsAppend(a[1..], b);
      CopyReactionsCons(a[0], a[1..]);
      CopyReactionsCons(a[0], a[1..] + b);
      assert [a[0]] + a[1..] == a && [a[0]] + (a[1..] + b) == a + b;
      var x, y := CopyReactions(a[1..]), CopyReactions(b);
      if x.Ok? && y.Ok? && !(a[0].Custom? && a[0].name.None?) {
        var xy := CopyReactions(a[1..] + b).value;
        assert xy == (x.value.0 + y.value.0, x.value.1 + y.value.1);
        if a[0].Custom? {
          var h := [NewEmojiOf(a[0].name.value, Text.Decimal(a[0].id), a[0].animated)];
          Regroup(h, x.value.0, y.value.0);
        } else {
          var h := [a[0].text + " is a builtin emoji"];
          Regroup(h, x.value.1, y.value.1);
        }
      }
    }
  }

  lemma Regroup<T>(h: seq<T>, p: seq<T>, q: seq<T>)
    ensures h + (p + q) == (h + p) + q
  {
  }

  /** One reaction in front adds its emoji or its notice in front. */
  lemma CopyReactionsCons(x: ReactionEmoji, rest: seq<ReactionEmoji>)
    ensures x.Custom? && x.name.None? ==> CopyReactions([x] + rest).Err?
    ensures !(x.Custom? && x.name.None?) ==> (CopyReactions([x] + rest).Ok? <==> CopyReactions(rest).Ok?)
    ensures x.Custom? && x.name.Some? && CopyReactions(rest).Ok? ==>
      CopyReactions([x] + rest).value == ([NewEmojiOf(x.name.value, Text.Decimal(x.id), x.animated)] + CopyReactions(rest).value.0, CopyReactions(rest).value.1)
    ensures x.Unicode? && CopyReactions(rest).Ok? ==>
      CopyReactions([x] + rest).value == (CopyReactions(rest).value.0, [x.text + " is a builtin emoji"] + CopyReactions(rest).value.1)
  {
    assert ([x] + rest)[0] == x && ([x] + rest)[1..] == rest;
  }

  /** `upload`: an attachment without an image content type is refused with
      a reply and nothing is created. */
  function Upload(guildNames: Option<seq<string>>, name: string, contentType: Option<string>,
                  download: Result<Unit>, create: Result<string>): (r: (Result<Unit>, seq<string>))
    ensures contentType.None? || !("image/" <= contentType.value) ==> r == (Ok(Unit), [NOT_AN_IMAGE])
    ensures contentType.Some? && "image/" <= contentType.value && download.Err? ==> r == (Err(download.error), [])
    ensures contentType.Some? && "image/" <= contentType.value && download.Ok? ==> r == AddEmoji(guildNames, name, create)
  {
    if contentType.None? || !("image/" <= contentType.value) then (Ok(Unit), [NOT_AN_IMAGE])
    else if download.Err? then (Err(download.error), [])
    else AddEmoji(guildNames, name, create)
  }
}

=== FILE: events.dfy ===
/** Scheduled events: creating one with its announcement thread, and
    exporting a guild's events as an iCalendar (RFC 5545) file. Times are
    seconds since 1970-01-01T00:00:00Z. */
module Events {
  import opened Wrappers
  import Text
  import Calendar
  import Commands
  import Platform

  const EVENT_URL: string := "https://discord.com/events/"
  const ONE_HOUR: int := 3600
  const SECONDS_PER_DAY: int := 86400
  const NO_CHANNEL: string := "Event has been created. To also send an announcement and create a thread, configure a channel for this server"
  const CALENDAR_VERSION: string := "2.0"
  const PRODUCT_ID: string := "ics-rs"
  const FILE_NAME: string := "calendar.ics"

  // ---------------------------------------------------------------------
  // The "%Y%m%dT%H%M%SZ" timestamp form (the UTC DATE-TIME of section
  // 3.3.5 of RFC 5545)

  /** The civil date and time of day of an instant, in UTC. */
  datatype DateTime = DateTime(date: Calendar.Date, hour: int, minute: int, second: int)

  function DateTimeOf(t: int): (r: DateTime)
    ensures 0 <= r.hour < 24 && 0 <= r.minute < 60 && 0 <= r.second < 60
  {
    var secs := t % SECONDS_PER_DAY;
    DateTime(Calendar.CivilFromDays(t / SECONDS_PER_DAY), secs / 3600, secs % 3600 / 60, secs % 60)
  }

  /** An instant formatted with "%Y%m%dT%H%M%SZ". */
  function IcsTime(t: int): string {
    var dt := DateTimeOf(t);
    DatePart(dt.date) + "T" + TimePart(dt) + "Z"
  }

  /** "%Y%m%d" */
  function DatePart(c: Calendar.Date): string {
    Calendar.FormatYear(c.year) + Text.ZeroPad(if c.month < 0 then 0 else c.month, 2)
      + Text.ZeroPad(if c.day < 0 then 0 else c.day, 2)
  }

  /** "%H%M%S" */
  function TimePart(dt: DateTime): string {
    Pad2(dt.hour) + Pad2(dt.minute) + Pad2(dt.second)
  }

  function Pad2(n: int): string {
    Text.ZeroPad(if n < 0 then 0 else n, 2)
  }

  /** Two digits carrying a number below 100. */
  lemma Pad2Reads(n: int)
    requires 0 <= n < 100
    ensures |Pad2(n)| == 2 && Text.AllDigits(Pad2(n)) && Text.DigitsValue(Pad2(n)) == n
  {
    Text.DecimalLength(n, 2);
  }

  /** Reads a "YYYYMMDDTHHMMSSZ" timestamp back into an instant. */
  function ParseIcsTime(s: string): Option<int> {
    if |s| == 16 && s[8] == 'T' && s[15] == 'Z' && Text.AllDigits(s[..8]) && Text.AllDigits(s[9..15])
    then
      match (ParseDatePart(s[..8]), ParseTimePart(s[9..15]))
      case (Some(day), Some(secs)) => Some(day * SECONDS_PER_DAY + secs)
      case _ => None
    else None
  }

  /** The day number of eight digits "YYYYMMDD". */
  function ParseDatePart(s: string): Option<int> {
    if |s| == 8 && Text.AllDigits(s)
    then Some(Calendar.DaysFromCivil(Digits(s, 0, 4), Digits(s, 4, 6), Digits(s, 6, 8)))
    else None
  }

  /** The seconds into the day of six digits "HHMMSS". */
  function ParseTimePart(s: string): Option<int> {
    if |s| == 6 && Text.AllDigits(s)
    then Some(Digits(s, 0, 2) * 3600 + Digits(s, 2, 4) * 60 + Digits(s, 4, 6))
    else None
  }

  /** The value of the digits at `i..j`. */
  function Digits(s: string, i: nat, j: nat): nat
    requires Text.AllDigits(s) && i <= j <= |s|
  {
    assert Text.AllDigits(s[i..j]) by {
      assert forall k | 0 <= k < j - i :: s[i..j][k] == s[i + k];
    }
    Text.DigitsValue(s[i..j])
  }

  /** A date of the years 0 to 9999 reads back as its day number. */
  lemma DatePartRoundTrip(z: int)
    requires 0 <= Calendar.CivilFromDays(z).year <= 9999
    ensures |DatePart(Calendar.CivilFromDays(z))| == 8
    ensures ParseDatePart(DatePart(Calendar.CivilFromDays(z))) == Some(z)
  {
    var c := Calendar.CivilFromDays(z);
    Text.DecimalLength(c.year, 4);
    Text.DecimalLength(c.month, 2);
    Text.DecimalLength(c.day, 2);
    var y, mo, d := Text.ZeroPad(c.year, 4), Text.ZeroPad(c.month, 2), Text.ZeroPad(c.day, 2);
    var s := DatePart(c);
    assert s == y + mo + d;
    assert s[0..4] == y && s[4..6] == mo && s[6..8] == d;
    AllDigitsJoin(y, mo, d);
    Calendar.CivilRoundTrip(z);
  }

  /** The seconds into the day a time of day stands for. */
  function ClockSeconds(dt: DateTime): int {
    dt.hour * 3600 + dt.minute * 60 + dt.second
  }

  /** A time of day reads back as the seconds into the day. */
  lemma TimePartRoundTrip(dt: DateTime)
    requires 0 <= dt.hour < 24 && 0 <= dt.minute < 60 && 0 <= dt.second < 60
    ensures |TimePart(dt)| == 6 && ParseTimePart(TimePart(dt)) == Some(ClockSeconds(dt))
  {
    Pad2Reads(dt.hour);
    Pad2Reads(dt.minute);
    Pad2Reads(dt.second);
    var h, mi, se := Pad2(dt.hour), Pad2(dt.minute), Pad2(dt.second);
    var s := TimePart(dt);
    assert s[0..2] == h && s[2..4] == mi && s[4..6] == se;
    AllDigitsJoin(h, mi, se);
  }

  lemma AllDigitsJoin(a: string, b: string, c: string)
    requires Text.AllDigits(a) && Text.AllDigits(b) && Text.AllDigits(c)
    ensures Text.AllDigits(a + b + c)
  {
    var s := a + b + c;
    forall k | 0 <= k < |s| ensures '0' <= s[k] <= '9' {
      if k < |a| { assert s[k] == a[k]; }
      else if k < |a| + |b| { assert s[k] == b[k - |a|]; }
      else { assert s[k] == c[k - |a| - |b|]; }
    }
  }

  /** A timestamp of the years 0 to 9999 reads back as its instant. */
  lemma IcsTimeRoundTrip(t: int)
    requires 0 <= DateTimeOf(t).date.year <= 9999
    ensures ParseIcsTime(IcsTime(t)) == Some(t)
  {
    var dt := DateTimeOf(t);
    DatePartRoundTrip(t / SECONDS_PER_DAY);
    TimePartRoundTrip(dt);
    SecondsOfDay(t);
    StampReads(DatePart(dt.date), TimePart(dt), t / SECONDS_PER_DAY, ClockSeconds(dt), t);
  }

  /** A stamp reads back as its date's day and its time's seconds. */
  lemma StampReads(date: string, time: string, day: int, secs: int, t: int)
    requires ParseDatePart(date) == Some(day) && ParseTimePart(time) == Some(secs)
    requires t == day * SECONDS_PER_DAY + secs
    ensures ParseIcsTime(date + "T" + time + "Z") == Some(t)
  {
    var s := date + "T" + time + "Z";
    assert s[..8] == date && s[9..15] == time;
  }

  /** An instant is its day and the hours, minutes and seconds into it. */
  lemma SecondsOfDay(t: int)
    ensures t == t / SECONDS_PER_DAY * SECONDS_PER_DAY + ClockSeconds(DateTimeOf(t))
  {
    var secs := t % SECONDS_PER_DAY;
    assert secs == secs / 3600 * 3600 + secs % 3600 / 60 * 60 + secs % 60;
  }

  /** Within those years, different instants give different timestamps. */
  lemma IcsTimeInjective(a: int, b: int)
    ensures (0 <= DateTimeOf(a).date.year <= 9999 && 0 <= DateTimeOf(b).date.year <= 9999
      && IcsTime(a) == IcsTime(b)) ==> a == b
  {
    if 0 <= DateTimeOf(a).date.year <= 9999 && 0 <= DateTimeOf(b).date.year <= 9999 {
      IcsTimeRoundTrip(a);
      IcsTimeRoundTrip(b);
    }
  }

  // ---------------------------------------------------------------------
  // export_events

  /** A guild's scheduled event as the platform reports it; `metadata` is
      absent for events in a channel and may carry a location otherwise. */
  datatype ScheduledEvent = ScheduledEvent(
    id: nat, name: string, description: Option<string>,
    metadata: Option<Option<string>>, start: int, end: Option<int>)

  /** The properties the export writes. */
  datatype PropertyName = Uid | DtStamp | Summary | Description | Location | DtStart | DtEnd {
    /** The name as it appears in the file. */
    function Spelling(): string {
      match this
      case Uid => "UID"
      case DtStamp => "DTSTAMP"
      case Summary => "SUMMARY"
      case Description => "DESCRIPTION"
      case Location => "LOCATION"
      case DtStart => "DTSTART"
      case DtEnd => "DTEND"
    }
  }

  datatype Property = Property(name: PropertyName, value: string)

  /** One VEVENT as a list of properties in the order they are written. */
  type IcsEvent = seq<Property>

  datatype ICalendar = ICalendar(version: string, productId: string, events: seq<IcsEvent>)

  /** The location of an event, when its metadata carries one. */
  function LocationOf(e: ScheduledEvent): Option<string> {
    if e.metadata.Some? then e.metadata.value else None
  }

  /** When the event ends: its end time, or an hour after it starts. */
  function EndOf(e: ScheduledEvent): (r: int)
    ensures e.end.None? ==> r == e.start + ONE_HOUR
    ensures e.end.Some? ==> r == e.end.value
  {
    if e.end.Some? then e.end.value else e.start + ONE_HOUR
  }

  /** The properties a present value adds. */
  function Optional(name: PropertyName, value: Option<string>): (r: seq<Property>)
    ensures value.None? <==> r == []
    ensures value.Some? ==> r == [Property(name, value.value)]
  {
    if value.Some? then [Property(name, value.value)] else []
  }

  /** The VEVENT for one scheduled event, stamped at `now`. */
  function ToIcs(e: ScheduledEvent, now: int): (r: IcsEvent)
    ensures |r| == 5 + |Optional(Description, e.description)| + |Optional(Location, LocationOf(e))|
    ensures r[0] == Property(Uid, Text.Decimal(e.id)) && r[1] == Property(DtStamp, IcsTime(now))
    ensures r[2] == Property(Summary, e.name)
    ensures r[|r| - 2] == Property(DtStart, IcsTime(e.start))
    ensures r[|r| - 1] == Property(DtEnd, IcsTime(EndOf(e)))
  {
    AssembleShape(Text.Decimal(e.id), IcsTime(now), e.name, e.description, LocationOf(e), IcsTime(e.start), IcsTime(EndOf(e)));
    Assemble(Text.Decimal(e.id), IcsTime(now), e.name, e.description, LocationOf(e), IcsTime(e.start), IcsTime(EndOf(e)))
  }

  /** Where each property of an assembled VEVENT sits. */
  lemma AssembleShape(uid: string, stamp: string, summary: string, description: Option<string>,
                      location: Option<string>, start: string, end: string)
    ensures var r := Assemble(uid, stamp, summary, description, location, start, end);
      && |r| == 5 + |Optional(Description, description)| + |Optional(Location, location)|
      && r[0] == Property(Uid, uid) && r[1] == Property(DtStamp, stamp) && r[2] == Property(Summary, summary)
      && r[|r| - 2] == Property(DtStart, start) && r[|r| - 1] == Property(DtEnd, end)
  {
  }

  /** The properties of a VEVENT in the order they are pushed. */
  function Assemble(uid: string, stamp: string, summary: string, description: Option<string>,
                    location: Option<string>, start: string, end: string): IcsEvent {
    [Property(Uid, uid), Property(DtStamp, stamp), Property(Summary, summary)]
      + Optional(Description, description) + Optional(Location, location)
      + [Property(DtStart, start), Property(DtEnd, end)]
  }

  /** The value of the first property called `name`, if any. */
  function Lookup(ev: IcsEvent, name: PropertyName): (r: Option<string>)
    ensures r.Some? ==> Property(name, r.value) in ev
    ensures r.None? ==> forall p | p in ev :: p.name != name
  {
    if |ev| == 0 then None
    else if ev[0].name == name then Some(ev[0].value)
    else Lookup(ev[1..], name)
  }

  /** Every property of an assembled VEVENT reads back as what was put in. */
  lemma AssembleReadsBack(uid: string, stamp: string, summary: string, description: Option<string>,
                          location: Option<string>, start: string, end: string)
    ensures var ev := Assemble(uid, stamp, summary, description, location, start, end);
      Lookup(ev, Uid) == Some(uid) && Lookup(ev, DtStamp) == Some(stamp)
      && Lookup(ev, Summary) == Some(summary)
      && Lookup(ev, Description) == description && Lookup(ev, Location) == location
      && Lookup(ev, DtStart) == Some(start) && Lookup(ev, DtEnd) == Some(end)
  {
    var a, b, c := Property(Uid, uid), Property(DtStamp, stamp), Property(Summary, summary);
    var s, e := Property(DtStart, start), Property(DtEnd, end);
    var tail := Optional(Location, location) + ([s] + ([e] + []));
    var rest := Optional(Description, description) + tail;
    assert Assemble(uid, stamp, summary, description, location, start, end) == [a] + ([b] + ([c] + rest));
    forall key: PropertyName
      ensures Lookup([a] + ([b] + ([c] + rest)), key) == match key
        case Uid => Some(uid) case DtStamp => Some(stamp) case Summary => Some(summary)
        case Description => description case Location => location
        case DtStart => Some(start) case DtEnd => Some(end)
    {
      LookupCons(a, [b] + ([c] + rest), key);
      LookupCons(b, [c] + rest, key);
      LookupCons(c, rest, key);
      OptionalThen(Description, description, tail, key);
      OptionalThen(Location, location, [s] + ([e] + []), key);
      LookupCons(s, [e] + [], key);
      LookupCons(e, [], key);
    }
  }

  /** Looking up in a sequence that starts with `p`. */
  lemma LookupCons(p: Property, rest: IcsEvent, name: PropertyName)
    ensures Lookup([p] + rest, name) == if p.name == name then Some(p.value) else Lookup(rest, name)
  {
    assert ([p] + rest)[1..] == rest;
  }

  /** Looking up past an optional property. */
  lemma OptionalThen(name: PropertyName, value: Option<string>, rest: IcsEvent, key: PropertyName)
    ensures Lookup(Optional(name, value) + rest, key) == if value.Some? && key == name then value else Lookup(rest, key)
  {
    if value.Some? {
      LookupCons(Property(name, value.value), rest, key);
    } else {
      assert Optional(name, value) + rest == rest;
    }
  }

  /** Read back, an exported event names its id, its summary, the
      description and location exactly when it has them, its start, and
      its end or start plus one hour. */
  lemma ToIcsReadsBack(e: ScheduledEvent, now: int)
    ensures 0 <= DateTimeOf(e.start).date.year <= 9999 && 0 <= DateTimeOf(EndOf(e)).date.year <= 9999 ==>
      var ev := ToIcs(e, now);
      Lookup(ev, Uid) == Some(Text.Decimal(e.id))
      && Lookup(ev, Summary) == Some(e.name)
      && Lookup(ev, Description) == e.description
      && Lookup(ev, Location) == LocationOf(e)
      && Lookup(ev, DtStart).Some? && ParseIcsTime(Lookup(ev, DtStart).value) == Some(e.start)
      && Lookup(ev, DtEnd).Some? && ParseIcsTime(Lookup(ev, DtEnd).value) == Some(EndOf(e))
  {
    if 0 <= DateTimeOf(e.start).date.year <= 9999 && 0 <= DateTimeOf(EndOf(e)).date.year <= 9999 {
      AssembleReadsBack(Text.Decimal(e.id), IcsTime(now), e.name, e.description, LocationOf(e), IcsTime(e.start), IcsTime(EndOf(e)));
      IcsTimeRoundTrip(e.start);
      IcsTimeRoundTrip(EndOf(e));
    }
  }

  /** `export_events`: one VEVENT per scheduled event, in the order the
      platform listed them, in a version 2.0 calendar. */
  function Export(events: seq<ScheduledEvent>, now: int): (r: ICalendar)
    ensures r.version == CALENDAR_VERSION && r.productId == PRODUCT_ID
    ensures |r.events| == |events|
    ensures forall i | 0 <= i < |events| :: r.events[i] == ToIcs(events[i], now)
  {
    ICalendar(CALENDAR_VERSION, PRODUCT_ID, seq(|events|, i requires 0 <= i < |events| => ToIcs(events[i], now)))
  }

  /** Events with different ids get different UIDs in the export. */
  lemma ExportUidsDistinct(events: seq<ScheduledEvent>, now: int, i: int, j: int)
    requires 0 <= i < |events| && 0 <= j < |events| && events[i].id != events[j].id
    ensures Export(events, now).events[i][0] != Export(events, now).events[j][0]
    ensures Export(events, now).events[i][0].name == Uid
  {
    Text.DigitsValueOfDecimal(events[i].id);
    Text.DigitsValueOfDecimal(events[j].id);
  }

  // ---------------------------------------------------------------------
  // event

  /** The platform calls `event` makes, in order. */
  datatype Action =
    | CreateScheduled(name: string, location: string, start: int, end: int)
    | Announce(channelId: nat, text: string)
    | OpenThread(channelId: nat, name: string)
    | AddThreadMember(userId: nat)

  datatype Outcome = Outcome(actions: seq<Action>, replies: seq<Commands.Reply>, result: Result<Unit>)

  /** The announcement line: the event as a link, then who made it. */
  function Announcement(name: string, guildId: nat, eventId: nat, authorId: nat): string {
    "[" + name + "](" + EVENT_URL + Text.Decimal(guildId) + "/" + Text.Decimal(eventId) + ") mit " + Platform.UserMention(authorId)
  }

  /** When the new event ends: `endText` read relative to the start, or
      an hour after the start when there is none. */
  function EndTime(start: int, endText: Option<string>, parseEnd: (int, string) -> Result<int>): (r: Result<int>)
    ensures endText.None? ==> r == Ok(start + ONE_HOUR)
    ensures endText.Some? ==> r == parseEnd(start, endText.value)
  {
    if endText.Some? then parseEnd(start, endText.value) else Ok(start + ONE_HOUR)
  }

  /** `event`: the start is read with `parseDate`, the end (when given)
      with `parseEnd` relative to the start, and defaults to an hour after
      the start. Once the event exists, a configured event channel gets the
      announcement, a thread on it, and the author in the thread; without
      one the author is told how to get them. `created` is what the
      platform answers to the creation request. */
  function CreateEvent(name: string, location: string, startText: string, endText: Option<string>,
                       guildId: nat, authorId: nat, eventChannel: Option<nat>,
                       parseDate: string -> Result<int>, parseEnd: (int, string) -> Result<int>,
                       created: Result<nat>): (r: Outcome)
    ensures parseDate(startText).Err? ==> r == Outcome([], [], Err(parseDate(startText).error))
    ensures r.result.Ok? <==>
      (parseDate(startText).Ok? && EndTime(parseDate(startText).value, endText, parseEnd).Ok? && created.Ok?)
    ensures r.actions != [] ==>
      parseDate(startText).Ok? && EndTime(parseDate(startText).value, endText, parseEnd).Ok?
      && r.actions[0] == CreateScheduled(name, location, parseDate(startText).value,
                                         EndTime(parseDate(startText).value, endText, parseEnd).value)
    ensures r.result.Ok? && eventChannel.None? ==>
      |r.actions| == 1 && r.replies == [Commands.Reply(NO_CHANNEL, true, true)]
    ensures r.result.Ok? && eventChannel.Some? ==>
      (|r.actions| == 4
       && r.actions[1] == Announce(eventChannel.value, Announcement(name, guildId, created.value, authorId))
       && r.actions[2] == OpenThread(eventChannel.value, name)
       && r.actions[3] == AddThreadMember(authorId)
       && r.replies == [Commands.Done().0])
    ensures (exists i | 0 <= i < |r.actions| :: r.actions[i].Announce?) ==> eventChannel.Some? && created.Ok?
  {
    match parseDate(startText)
    case Err(e) => Outcome([], [], Err(e))
    case Ok(start) =>
      match EndTime(start, endText, parseEnd)
      case Err(e) => Outcome([], [], Err(e))
      case Ok(finish) =>
        var create := [CreateScheduled(name, location, start, finish)];
        match created
        case Err(e) => Outcome(create, [], Err(e))
        case Ok(eventId) =>
          match eventChannel
          case None => Outcome(create, [Commands.Reply(NO_CHANNEL, true, true)], Ok(Unit))
          case Some(channel) =>
            var (ack, res) := Commands.Done();
            Outcome(create + [Announce(channel, Announcement(name, guildId, eventId, authorId)),
                              OpenThread(channel, name), AddThreadMember(authorId)], [ack], res)
  }

  /** An event created without an end and exported later ends, in the
      calendar, one hour after it starts, at the location it was given. */
  lemma CreatedWithoutEndExports(name: string, location: string, startText: string,
                                 guildId: nat, authorId: nat, eventChannel: Option<nat>,
                                 parseDate: string -> Result<int>, parseEnd: (int, string) -> Result<int>,
                                 created: Result<nat>, now: int)
    requires CreateEvent(name, location, startText, None, guildId, authorId, eventChannel, parseDate, parseEnd, created).result.Ok?
    ensures var a := CreateEvent(name, location, startText, None, guildId, authorId, eventChannel, parseDate, parseEnd, created).actions[0];
      var ev := ToIcs(ScheduledEvent(created.value, name, None, Some(Some(a.location)), a.start, Some(a.end)), now);
      Lookup(ev, DtEnd) == Some(IcsTime(parseDate(startText).value + ONE_HOUR))
      && Lookup(ev, Location) == Some(location)
  {
    var start := parseDate(startText).value;
    var a := CreateEvent(name, location, startText, None, guildId, authorId, eventChannel, parseDate, parseEnd, created).actions[0];
    assert a == CreateScheduled(name, location, start, start + ONE_HOUR);
    var e := ScheduledEvent(created.value, name, None, Some(Some(location)), start, Some(start + ONE_HOUR));
    AssembleReadsBack(Text.Decimal(e.id), IcsTime(now), e.name, e.description, LocationOf(e), IcsTime(e.start), IcsTime(EndOf(e)));
  }
}

=== FILE: exclude.dfy ===
/** `exclude`: the owner's toggle of channels the bot ignores. */
module Exclude {
  import opened Wrappers

  const FALLBACK_NAME: string := "Channel"

  /** The channel's name, or "Channel" when the lookup fails. */
  function ChannelName(lookup: Option<string>): string {
    match lookup
    case Some(name) => name
    case None => FALLBACK_NAME
  }

  /** Insert a channel that is not excluded, otherwise remove it. */
  function Toggle(excluded: set<nat>, channelId: nat, lookup: Option<string>): (r: (set<nat>, string))
    ensures channelId !in excluded ==> r == (excluded + {channelId}, "Excluded " + ChannelName(lookup))
    ensures channelId in excluded ==> r == (excluded - {channelId}, ChannelName(lookup) + " is no longer excluded")
    ensures r.0 - {channelId} == excluded - {channelId}
  {
    if channelId !in excluded then (excluded + {channelId}, "Excluded " + ChannelName(lookup))
    else (excluded - {channelId}, ChannelName(lookup) + " is no longer excluded")
  }

  /** Toggling twice restores the set, and the channel's membership flips
      each time. */
  lemma ToggleTwice(excluded: set<nat>, channelId: nat, a: Option<string>, b: Option<string>)
    ensures (channelId in Toggle(excluded, channelId, a).0) <==> channelId !in excluded
    ensures Toggle(Toggle(excluded, channelId, a).0, channelId, b).0 == excluded
  {
  }
}

=== FILE: feature_state.dfy ===
/** The state of a feature request, its integer encoding, display name,
    colour, emoji and select-menu option (newer generation). */
module FeatureStates {
  import opened Wrappers
  import opened Platform
  import Text

  datatype State = All | ToDo | Implemented | Rejected | Postponed

  /** The `#[repr(i64)]` discriminant: All = -1, then 0, 1, 2, 3. */
  function Discriminant(s: State): (d: int)
    ensures -1 <= d <= 3
    ensures d == -1 <==> s == All
  {
    match s
    case All => -1
    case ToDo => 0
    case Implemented => 1
    case Rejected => 2
    case Postponed => 3
  }

  /** `From<i64>`: 0..3 name the concrete states, every other value is All. */
  function FromI64(v: int): (s: State)
    ensures 0 <= v <= 3 ==> Discriminant(s) == v
    ensures !(0 <= v <= 3) ==> s == All
  {
    if v == 0 then ToDo
    else if v == 1 then Implemented
    else if v == 2 then Rejected
    else if v == 3 then Postponed
    else All
  }

  /** Converting a state to its discriminant and back gives the state. */
  lemma FromDiscriminant(s: State)
    ensures FromI64(Discriminant(s)) == s
  {
  }

  /** The discriminant is injective. */
  lemma DiscriminantInjective(s: State, t: State)
    requires Discriminant(s) == Discriminant(t)
    ensures s == t
  {
    FromDiscriminant(s);
    FromDiscriminant(t);
  }

  /** `Display`. */
  function Name(s: State): string {
    match s
    case All => "All"
    case ToDo => "To Do"
    case Implemented => "Implemented"
    case Rejected => "Rejected"
    case Postponed => "Postponed"
  }

  /** The five display names are distinct. */
  lemma NamesDistinct(s: State, t: State)
    requires s != t
    ensures Name(s) != Name(t)
  {
  }

  /** `From<FeatureState> for Colour`; All falls to the fallback, gold. */
  function ColourOf(s: State): Colour {
    match s
    case ToDo => DarkBlue
    case Implemented => DarkGreen
    case Rejected => DarkRed
    case Postponed => FadedPurple
    case _ => Gold
  }

  /** `From<FeatureState> for ReactionType`; All falls to the fallback, 🟡. */
  function EmojiOf(s: State): string {
    match s
    case ToDo => "🔵"
    case Implemented => "🟢"
    case Rejected => "🔴"
    case Postponed => "🟣"
    case _ => "🟡"
  }

  /** All gets the fallback colour and emoji; any two different states get
      different colours and different emoji. */
  lemma ColourAndEmoji(s: State, t: State)
    ensures ColourOf(All) == Gold && EmojiOf(All) == "🟡"
    ensures s != t ==> ColourOf(s) != ColourOf(t) && EmojiOf(s) != EmojiOf(t)
  {
  }

  /** An option of the state select menu. */
  datatype MenuOption = MenuOption(labelText: string, value: string, emoji: string)

  /** `menu`: label is the display name, value the decimal discriminant. */
  function Menu(s: State): (o: MenuOption)
    ensures o.labelText == Name(s) && o.emoji == EmojiOf(s)
    ensures Text.ParseI64(o.value) == Some(Discriminant(s))
  {
    Text.ParseI64IntDecimal(Discriminant(s));
    MenuOption(Name(s), Text.IntDecimal(Discriminant(s)), EmojiOf(s))
  }

  /** The list view's reading of a selected value:
      `parse::<i64>().map_or(All, FeatureState::from)`. */
  function ParseSelection(value: string): (s: State)
    ensures Text.ParseI64(value).None? ==> s == All
  {
    match Text.ParseI64(value)
    case None => All
    case Some(v) => FromI64(v)
  }

  /** Selecting a menu option yields the state it was built from. */
  lemma MenuRoundTrip(s: State)
    ensures ParseSelection(Menu(s).value) == s
  {
    FromDiscriminant(s);
  }
}

=== FILE: features.dfy ===
/** Feature requests: the `features` table, its add/update/delete commands
    and the paged list view that a collector loop drives with prev, next,
    refresh and a state filter (newer generation). The page arithmetic,
    rendering and filter selection are shared with the older generation. */
module Features {
  import opened Wrappers
  import opened Platform
  import Text
  import Commands
  import opened FeatureStates

  const VIEW_TIMEOUT_SECS: nat := 600
  const PER_PAGE: nat := 5

  const NO_FEATURES: string := "No features found"
  const ALREADY_SHOWING: string := "Already showing that state"
  const SELECT_PLACEHOLDER: string := "Select a state"

  /** A row of the `features` table. */
  datatype Feature = Feature(id: int, name: string, state: State, timestamp: int)

  predicate IdsAscending(rows: seq<Feature>) {
    forall i, j | 0 <= i < j < |rows| :: rows[i].id < rows[j].id
  }

  /** Whether a row belongs to the view of state `s`; All shows every row. */
  predicate Matches(f: Feature, s: State) {
    s == All || f.state == s
  }

  /** The rows a view of `s` shows, in table order (`WHERE state = $1 ORDER BY id`). */
  function Shown(rows: seq<Feature>, s: State): (r: seq<Feature>)
    ensures |r| <= |rows|
    ensures s == All ==> r == rows
  {
    if |rows| == 0 then []
    else (if Matches(rows[0], s) then [rows[0]] else []) + Shown(rows[1..], s)
  }

  /** A row is shown exactly when it is in the table and matches the view. */
  lemma {:induction false} ShownMembers(rows: seq<Feature>, s: State, f: Feature)
    ensures f in Shown(rows, s) <==> f in rows && Matches(f, s)
  {
    if |rows| > 0 {
      ShownMembers(rows[1..], s, f);
      assert rows == [rows[0]] + rows[1..];
    }
  }

  /** The shown rows keep the table's id order. */
  lemma {:induction false} ShownAscending(rows: seq<Feature>, s: State)
    requires IdsAscending(rows)
    ensures IdsAscending(Shown(rows, s))
  {
    if |rows| > 0 {
      var rest := Shown(rows[1..], s);
      TailAscending(rows);
      ShownAscending(rows[1..], s);
      if Matches(rows[0], s) {
        forall f | f in rest ensures f in rows[1..] {
          ShownMembers(rows[1..], s, f);
        }
        assert rows == [rows[0]] + rows[1..];
        ConsAscending(rows[0], rows[1..], rest);
      }
    }
  }

  /** `get_feature_count`. */
  function CountOf(rows: seq<Feature>, s: State): nat {
    |Shown(rows, s)|
  }

  function Min(a: nat, b: nat): nat {
    if a <= b then a else b
  }

  /** `LIMIT 5 OFFSET offset` over the shown rows. */
  function Page(shown: seq<Feature>, offset: nat): (r: seq<Feature>)
    ensures |r| == if offset >= |shown| then 0 else Min(PER_PAGE, |shown| - offset)
    ensures forall i | 0 <= i < |r| :: r[i] == shown[offset + i]
  {
    if offset >= |shown| then [] else shown[offset..offset + Min(PER_PAGE, |shown| - offset)]
  }

  /** The pages from `offset` on, in order. */
  function PagesFrom(shown: seq<Feature>, offset: nat): seq<Feature>
    decreases |shown| - offset
  {
    if offset >= |shown| then [] else Page(shown, offset) + PagesFrom(shown, offset + PER_PAGE)
  }

  /** The pages at offsets 0, 5, 10, ... below the count cover the shown
      rows exactly once, in order. */
  lemma {:induction false} PagesCover(shown: seq<Feature>, offset: nat)
    requires offset <= |shown|
    ensures PagesFrom(shown, offset) == shown[offset..]
    decreases |shown| - offset
  {
    if offset < |shown| {
      var p := Page(shown, offset);
      if offset + PER_PAGE <= |shown| {
        PagesCover(shown, offset + PER_PAGE);
        assert p == shown[offset..offset + PER_PAGE];
        assert shown[offset..] == shown[offset..offset + PER_PAGE] + shown[offset + PER_PAGE..];
      } else {
        assert p == shown[offset..];
        assert PagesFrom(shown, offset + PER_PAGE) == [];
      }
    }
  }

  /** What the list message currently shows. */
  datatype View = View(state: State, offset: nat, count: nat)

  predicate Aligned(v: View) {
    v.offset % PER_PAGE == 0
  }

  /** One embed per listed feature: the state name only in the All view. */
  function FeatureEmbed(f: Feature, all: bool, display: State -> string): Embed {
    Embed(Some(f.name), if all then Some(display(f.state)) else None, [], None,
          Some(ColourOf(f.state)), None, Some(f.timestamp))
  }

  function NoFeaturesEmbed(): Embed {
    NewEmbed().(title := Some(NO_FEATURES), description := Some(NO_FEATURES))
  }

  function FeatureEmbeds(page: seq<Feature>, all: bool, display: State -> string): (r: seq<Embed>)
    ensures |r| == |page|
    ensures forall i | 0 <= i < |r| :: r[i] == FeatureEmbed(page[i], all, display)
  {
    if |page| == 0 then [] else [FeatureEmbed(page[0], all, display)] + FeatureEmbeds(page[1..], all, display)
  }

  /** The header line; its last number is the count, not a page count. */
  function Header(v: View, display: State -> string): string {
    if v.state == All then
      "**All** Features " + Text.Decimal(v.offset) + "/" + Text.Decimal(v.count)
    else
      "**" + display(v.state) + "** " + Text.Decimal(v.offset) + "/" + Text.Decimal(v.count)
  }

  /** `make_feature_embeds`: content and embeds for a page of the view. */
  function Render(page: seq<Feature>, v: View, display: State -> string): (r: (string, seq<Embed>))
    ensures |page| == 0 <==> r.1 == [NoFeaturesEmbed()]
    ensures |page| > 0 ==> |r.1| == |page|
    ensures forall i | 0 <= i < |page| ::
      r.1[i].title == Some(page[i].name) && r.1[i].colour == Some(ColourOf(page[i].state))
      && r.1[i].timestamp == Some(page[i].timestamp)
      && (r.1[i].description.Some? <==> v.state == All)
      && (v.state == All ==> r.1[i].description == Some(display(page[i].state)))
    ensures v.state == All ==> r.0 == "**All** Features " + Text.Decimal(v.offset) + "/" + Text.Decimal(v.count)
    ensures v.state != All ==> r.0 == "**" + display(v.state) + "** " + Text.Decimal(v.offset) + "/" + Text.Decimal(v.count)
  {
    var embeds := FeatureEmbeds(page, v.state == All, display);
    (Header(v, display), if |page| == 0 then [NoFeaturesEmbed()] else embeds)
  }

  /** The page of the view over the table as it is when rendered. */
  function Show(rows: seq<Feature>, v: View, display: State -> string): (string, seq<Embed>) {
    Render(Page(Shown(rows, v.state), v.offset), v, display)
  }

  /** Next: advance a page, back to the first once past the count. */
  function NextOffset(offset: nat, count: nat): (r: nat)
    ensures r == 0 || r < count
    ensures offset % PER_PAGE == 0 ==> r % PER_PAGE == 0
    ensures offset + PER_PAGE < count ==> r == offset + PER_PAGE
    ensures offset + PER_PAGE >= count ==> r == 0
  {
    if offset + PER_PAGE >= count then 0 else offset + PER_PAGE
  }

  /** Prev: back a page; from the first page (`checked_sub` fails) jump to
      `(count / 5) * 5`. */
  function PrevOffset(offset: nat, count: nat): (r: nat)
    ensures r % PER_PAGE == 0 || r == offset - PER_PAGE
    ensures offset >= PER_PAGE ==> r == offset - PER_PAGE
    ensures offset < PER_PAGE ==> r <= count < r + PER_PAGE
    ensures offset % PER_PAGE == 0 ==> r % PER_PAGE == 0
  {
    if offset >= PER_PAGE then
      PageBack(offset);
      offset - PER_PAGE
    else (count / PER_PAGE) * PER_PAGE
  }

  lemma PageBack(offset: nat)
    requires offset >= PER_PAGE
    ensures (offset - PER_PAGE) % PER_PAGE == offset % PER_PAGE
  {
  }

  /** Next then prev returns to the page one started from, except when next
      wrapped around. */
  lemma NextThenPrev(offset: nat, count: nat)
    requires offset + PER_PAGE < count
    ensures PrevOffset(NextOffset(offset, count), count) == offset
  {
  }

  /** From the first page, prev lands on an empty page exactly when the
      count is a multiple of 5; the list then shows the "No features found"
      embed although features exist. */
  lemma PrevFromFirstPage(rows: seq<Feature>, s: State, display: State -> string)
    ensures var count := CountOf(rows, s);
      var v := View(s, PrevOffset(0, count), count);
      (Page(Shown(rows, s), v.offset) == [] <==> count % PER_PAGE == 0)
      && (count % PER_PAGE == 0 ==> Show(rows, v, display).1 == [NoFeaturesEmbed()])
  {
  }

  /** What a press asks for, read off its custom id. */
  datatype Action = Next | Prev | Refresh | Filter | Unrelated

  function ButtonId(ctxId: nat, suffix: string): string {
    Text.Decimal(ctxId) + suffix
  }

  function Classify(ctxId: nat, customId: string): Action {
    if customId == ButtonId(ctxId, "next") then Next
    else if customId == ButtonId(ctxId, "prev") then Prev
    else if customId == ButtonId(ctxId, "refresh") then Refresh
    else if customId == ButtonId(ctxId, "filter") then Filter
    else Unrelated
  }

  /** The collector admits presses whose custom id starts with the
      invocation id, in the invocation's channel. */
  predicate Collected(ctxId: nat, channelId: nat, pressChannel: nat, customId: string) {
    pressChannel == channelId && Text.Decimal(ctxId) <= customId
  }

  /** The components the list message starts with. */
  function Controls(ctxId: nat): seq<Component> {
    [Button(ButtonId(ctxId, "prev")), Button(ButtonId(ctxId, "refresh")),
     Button(ButtonId(ctxId, "next")), SelectMenu(ButtonId(ctxId, "filter"))]
  }

  /** Every control of the list message classifies as the action it was made for. */
  lemma ControlsClassify(ctxId: nat)
    ensures Classify(ctxId, Controls(ctxId)[0].customId) == Prev
    ensures Classify(ctxId, Controls(ctxId)[1].customId) == Refresh
    ensures Classify(ctxId, Controls(ctxId)[2].customId) == Next
    ensures Classify(ctxId, Controls(ctxId)[3].customId) == Filter
  {
    var d := Text.Decimal(ctxId);
    assert (d + "prev")[|d| + 3] == 'v';
    assert (d + "next")[|d| + 3] == 't';
    assert (d + "refresh")[|d| + 3] == 'r';
    assert (d + "filter")[|d| + 3] == 't';
    assert (d + "filter")[|d|] == 'f';
    assert (d + "next")[|d|] == 'n';
  }

  /** A press on another invocation's list whose id happens to start with
      this invocation's id is Unrelated here: the four suffixes end in four
      different letters and decimals are injective. */
  lemma OtherInvocationUnrelated(ctxId: nat, otherId: nat, suffix: string)
    requires ctxId != otherId
    requires suffix in ["next", "prev", "refresh", "filter"]
    ensures Classify(ctxId, ButtonId(otherId, suffix)) == Unrelated
  {
    var id := ButtonId(otherId, suffix);
    forall s | s in ["next", "prev", "refresh", "filter"]
      ensures id != ButtonId(ctxId, s)
    {
      if id == ButtonId(ctxId, s) {
        SameSuffix(Text.Decimal(otherId), suffix, Text.Decimal(ctxId), s);
        Commands.DecimalInjective(otherId, ctxId);
      }
    }
  }

  /** Two ids that are equal and end in suffixes from the four controls
      have the same suffix and the same head. */
  lemma SameSuffix(a: string, s: string, b: string, t: string)
    requires s in ["next", "prev", "refresh", "filter"] && t in ["next", "prev", "refresh", "filter"]
    requires a + s == b + t
    ensures s == t && a == b
  {
    var x := a + s;
    assert x[|x| - 1] == s[|s| - 1] && x[|x| - 1] == t[|t| - 1];
    assert |a| == |b|;
    assert a == x[..|a|] == b;
    assert s == x[|a|..] == t;
  }

  /** How a press is answered. */
  datatype Response =
    | UpdateMessage(content: string, embeds: seq<Embed>)
    | Ephemeral(text: string)
    | Ignored

  /** Next, prev and refresh, followed by the page re-fetch and update. */
  function Navigate(v: View, a: Action, rows: seq<Feature>, display: State -> string): (r: (View, Response))
    requires a == Next || a == Prev || a == Refresh
    ensures r.0.state == v.state
    ensures a == Refresh ==> r.0 == v.(count := CountOf(rows, v.state))
    ensures a != Refresh ==> r.0.count == v.count
    ensures Aligned(v) ==> Aligned(r.0)
    ensures var s := Show(rows, r.0, display); r.1 == UpdateMessage(s.0, s.1)
  {
    var v' :=
      if a == Next then v.(offset := NextOffset(v.offset, v.count))
      else if a == Prev then v.(offset := PrevOffset(v.offset, v.count))
      else v.(count := CountOf(rows, v.state));
    var s := Show(rows, v', display);
    (v', UpdateMessage(s.0, s.1))
  }

  /** The filter: a different state resets to its first page and recounts;
      the state already shown is answered ephemerally and nothing changes. */
  function Select(v: View, selected: State, rows: seq<Feature>, display: State -> string): (r: (View, Response))
    ensures selected == v.state <==> r == (v, Ephemeral(ALREADY_SHOWING))
    ensures selected != v.state ==> r.0 == View(selected, 0, CountOf(rows, selected))
    ensures Aligned(v) ==> Aligned(r.0)
  {
    if selected != v.state then
      var v' := View(selected, 0, CountOf(rows, selected));
      var s := Show(rows, v', display);
      (v', UpdateMessage(s.0, s.1))
    else (v, Ephemeral(ALREADY_SHOWING))
  }

  /** The payload of a component press. */
  datatype Data = ButtonData | StringSelect(values: seq<string>) | OtherSelect

  datatype Press = Press(channelId: nat, customId: string, data: Data)

  const INVALID_SELECT: string := "invalid select menu interaction"
  const NO_VALUE: string := "index out of bounds"

  /** One collected press. A filter press that is not a string select is
      refused with `bail!`; one without values panics on `values[0]`. */
  function Step(ctxId: nat, v: View, p: Press, rows: seq<Feature>): (r: Result<(View, Response)>)
    ensures Classify(ctxId, p.customId) == Unrelated ==> r == Ok((v, Ignored))
    ensures r.Err? <==> Classify(ctxId, p.customId) == Filter && !(p.data.StringSelect? && |p.data.values| > 0)
    ensures r.Ok? && Aligned(v) ==> Aligned(r.value.0)
  {
    match Classify(ctxId, p.customId)
    case Unrelated => Ok((v, Ignored))
    case Filter =>
      (match p.data
       case StringSelect(values) =>
         if |values| == 0 then Err(Failure(NO_VALUE))
         else Ok(Select(v, ParseSelection(values[0]), rows, Name))
       case _ => Err(Failure(INVALID_SELECT)))
    case a => Ok(Navigate(v, a, rows, Name))
  }

  /** Choosing a menu option of another state switches the view to that
      state's first page; choosing the shown one only answers ephemerally. */
  lemma StepSelectsMenuOption(ctxId: nat, v: View, channelId: nat, t: State, rows: seq<Feature>)
    ensures var r := Step(ctxId, v, Press(channelId, ButtonId(ctxId, "filter"), StringSelect([Menu(t).value])), rows);
      r.Ok? && (t != v.state ==> r.value.0 == View(t, 0, CountOf(rows, t)))
      && (t == v.state ==> r.value == (v, Ephemeral(ALREADY_SHOWING)))
  {
    ControlsClassify(ctxId);
    MenuRoundTrip(t);
  }

  /** A collector event: a press (with the table as it is at that time) or
      the ten-minute timeout. */
  datatype Event = Pressed(press: Press, rows: seq<Feature>) | Timeout

  datatype Outcome = Outcome(view: View, message: Message, responses: seq<Response>, result: Result<Unit>)

  /** The collector loop over `events`; after the timeout (or the last
      event) the message keeps its embeds and loses its components. An
      error ends the command at once, without the teardown. */
  function Loop(ctxId: nat, channelId: nat, v: View, m: Message, events: seq<Event>): (r: Outcome)
    ensures Aligned(v) ==> Aligned(r.view)
    ensures r.result.Ok? ==> r.message.components == []
    ensures |r.responses| <= |events|
    decreases |events|
  {
    if |events| == 0 || events[0].Timeout? then
      Outcome(v, Commands.TeardownWithContent(m, None), [], Ok(Unit))
    else
      var p := events[0].press;
      if !Collected(ctxId, channelId, p.channelId, p.customId) then
        Loop(ctxId, channelId, v, m, events[1..])
      else
        match Step(ctxId, v, p, events[0].rows)
        case Err(e) => Outcome(v, m, [], Err(e))
        case Ok(step) =>
          var m' := if step.1.UpdateMessage? then m.(content := step.1.content, embeds := step.1.embeds) else m;
          var rest := Loop(ctxId, channelId, step.0, m', events[1..]);
          Outcome(rest.view, rest.message, [step.1] + rest.responses, rest.result)
  }

  /** `list`: the All view from offset 0, its first page, the controls,
      then the loop. */
  function List(ctxId: nat, channelId: nat, rows: seq<Feature>, events: seq<Event>): (r: Outcome)
    ensures Aligned(r.view)
    ensures r.result.Ok? ==> r.message.components == []
  {
    var v := View(All, 0, CountOf(rows, All));
    var s := Show(rows, v, Name);
    Loop(ctxId, channelId, v, Message(s.0, s.1, Controls(ctxId)), events)
  }

  /** Presses the collector does not admit, and admitted ones that are
      unrelated, leave the view and the message untouched. */
  lemma {:induction false} IgnoredPressesChangeNothing(ctxId: nat, channelId: nat, v: View, m: Message, e: Event, events: seq<Event>)
    requires e.Pressed?
    requires !Collected(ctxId, channelId, e.press.channelId, e.press.customId)
      || Classify(ctxId, e.press.customId) == Unrelated
    ensures var a := Loop(ctxId, channelId, v, m, [e] + events);
      var b := Loop(ctxId, channelId, v, m, events);
      a.view == b.view && a.message == b.message && a.result == b.result
  {
    assert ([e] + events)[1..] == events;
  }

  /** `add`: a new row in state To Do, with the next serial id. */
  function Add(rows: seq<Feature>, name: string, newId: int, now: int): (r: (seq<Feature>, string))
    requires forall f | f in rows :: f.id < newId
    ensures IdsAscending(rows) ==> IdsAscending(r.0)
    ensures CountOf(r.0, ToDo) == CountOf(rows, ToDo) + 1
    ensures CountOf(r.0, All) == CountOf(rows, All) + 1
    ensures r.1 == "Added feature " + name
  {
    var r := rows + [Feature(newId, name, ToDo, now)];
    ShownAppend(rows, Feature(newId, name, ToDo, now), ToDo);
    ShownAppend(rows, Feature(newId, name, ToDo, now), All);
    assert forall i | 0 <= i < |rows| :: rows[i] in rows;
    (r, "Added feature " + name)
  }

  lemma {:induction false} ShownAppend(rows: seq<Feature>, f: Feature, s: State)
    ensures Shown(rows + [f], s) == Shown(rows, s) + (if Matches(f, s) then [f] else [])
  {
    if |rows| > 0 {
      ShownAppend(rows[1..], f, s);
      assert (rows + [f])[1..] == rows[1..] + [f];
    }
  }

  function SetState(rows: seq<Feature>, name: string, s: State): (r: seq<Feature>)
    ensures |r| == |rows|
    ensures forall i | 0 <= i < |rows| ::
      r[i] == if rows[i].name == name then rows[i].(state := s) else rows[i]
  {
    if |rows| == 0 then []
    else [if rows[0].name == name then rows[0].(state := s) else rows[0]] + SetState(rows[1..], name, s)
  }

  predicate Named(rows: seq<Feature>, name: string) {
    exists i | 0 <= i < |rows| :: rows[i].name == name
  }

  /** `update`: every row of that name takes the state; the reply says
      whether any row matched. */
  function Update(rows: seq<Feature>, name: string, s: State): (r: (seq<Feature>, string))
    ensures !Named(rows, name) <==> r.1 == "No feature named " + name
    ensures Named(rows, name) ==> r.1 == "Updated feature " + name
    ensures !Named(rows, name) ==> r.0 == rows
    ensures |r.0| == |rows|
    ensures forall i | 0 <= i < |rows| :: r.0[i].id == rows[i].id && r.0[i].name == rows[i].name
    ensures forall i | 0 <= i < |rows| && rows[i].name == name :: r.0[i].state == s
  {
    var r := SetState(rows, name, s);
    if Named(rows, name) then
      assert "Updated feature " + name != "No feature named " + name by {
        assert ("Updated feature " + name)[0] == 'U';
      }
      (r, "Updated feature " + name)
    else (r, "No feature named " + name)
  }

  function WithoutName(rows: seq<Feature>, name: string): (r: seq<Feature>)
    ensures forall f :: f in r <==> f in rows && f.name != name
    ensures |r| <= |rows|
    ensures IdsAscending(rows) ==> IdsAscending(r)
  {
    if |rows| == 0 then []
    else
      var rest := WithoutName(rows[1..], name);
      assert forall f | f in rows[1..] :: f in rows;
      if rows[0].name == name then
        assert IdsAscending(rows) ==> IdsAscending(rows[1..]) by {
          if IdsAscending(rows) { TailAscending(rows); }
        }
        rest
      else
        assert IdsAscending(rows) ==> IdsAscending([rows[0]] + rest) by {
          if IdsAscending(rows) {
            TailAscending(rows);
            ConsAscending(rows[0], rows[1..], rest);
          }
        }
        [rows[0]] + rest
  }

  lemma TailAscending(rows: seq<Feature>)
    requires |rows| > 0 && IdsAscending(rows)
    ensures IdsAscending(rows[1..])
  {
    forall i, j | 0 <= i < j < |rows[1..]| ensures rows[1..][i].id < rows[1..][j].id {
      assert rows[1..][i] == rows[i + 1] && rows[1..][j] == rows[j + 1];
    }
  }

  /** A row below every row of a tail stays below any selection from it. */
  lemma ConsAscending(x: Feature, tail: seq<Feature>, rest: seq<Feature>)
    requires IdsAscending([x] + tail) && IdsAscending(rest)
    requires forall f | f in rest :: f in tail
    ensures IdsAscending([x] + rest)
  {
    forall f | f in rest ensures x.id < f.id {
      var k :| 0 <= k < |tail| && tail[k] == f;
      assert ([x] + tail)[0] == x && ([x] + tail)[k + 1] == f;
    }
    var r := [x] + rest;
    forall i, j | 0 <= i < j < |r| ensures r[i].id < r[j].id {
      if i == 0 {
        assert r[j] == rest[j - 1] && r[j] in rest;
      } else {
        assert r[i] == rest[i - 1] && r[j] == rest[j - 1];
      }
    }
  }

  /** `delete` (owners only): every row of that name goes. */
  function Delete(rows: seq<Feature>, name: string): (r: (seq<Feature>, string))
    ensures !Named(r.0, name)
    ensures forall f | f in rows && f.name != name :: f in r.0
    ensures forall f | f in r.0 :: f in rows
    ensures |r.0| <= |rows|
    ensures r.1 == "Deleted feature " + name
  {
    var r := WithoutName(rows, name);
    assert forall i | 0 <= i < |r| :: r[i] in r;
    (r, "Deleted feature " + name)
  }
}

=== FILE: handler.dfy ===
/** The gateway event dispatcher: entry sounds on voice joins, reaction
    roles on reaction events, and on every human message the automatic
    reactions, automatic replies and the activity bookkeeping. */
module Handler {
  import opened Wrappers
  import opened Platform
  import Text
  import CounterTable
  import ReactionRole

  // ---------------------------------------------------------------------
  // Words: the matches of `\b\w+\b`

  /** A character of the class `\w` (restricted to ASCII, see README). */
  predicate IsWordChar(c: char) {
    Text.IsAsciiAlnum(c) || c == '_'
  }

  predicate IsWord(w: string) {
    |w| > 0 && forall i | 0 <= i < |w| :: IsWordChar(w[i])
  }

  /** Length of the longest prefix made of word characters. */
  function RunLength(s: string): (n: nat)
    ensures n <= |s|
    ensures forall i | 0 <= i < n :: IsWordChar(s[i])
    ensures n < |s| ==> !IsWordChar(s[n])
  {
    if |s| == 0 || !IsWordChar(s[0]) then 0 else 1 + RunLength(s[1..])
  }

  /** The matches of `\b\w+\b` from left to right: the maximal runs of word characters. */
  function Words(s: string): seq<string>
    decreases |s|
  {
    if |s| == 0 then []
    else if !IsWordChar(s[0]) then Words(s[1..])
    else
      var n := RunLength(s);
      [s[..n]] + Words(s[n..])
  }

  /** `w` occurs at `i` with a word boundary on both sides. */
  predicate WholeWordAt(s: string, w: string, i: int) {
    && Text.OccursAt(s, w, i)
    && (i == 0 || !IsWordChar(s[i - 1]))
    && (i + |w| == |s| || !IsWordChar(s[i + |w|]))
  }

  lemma {:induction false} WordsAreWords(s: string)
    ensures forall j | 0 <= j < |Words(s)| :: IsWord(Words(s)[j])
    decreases |s|
  {
    if |s| > 0 {
      if !IsWordChar(s[0]) {
        WordsAreWords(s[1..]);
      } else {
        var n := RunLength(s);
        WordsAreWords(s[n..]);
        assert Words(s) == [s[..n]] + Words(s[n..]);
      }
    }
  }

  lemma {:induction false} WordsSound(s: string, w: string)
    requires w in Words(s)
    ensures exists i :: WholeWordAt(s, w, i)
    decreases |s|
  {
    if !IsWordChar(s[0]) {
      WordsSound(s[1..], w);
      var j :| WholeWordAt(s[1..], w, j);
      ShiftWholeWord(s, w, 1, j);
    } else {
      var n := RunLength(s);
      if w == s[..n] {
        assert WholeWordAt(s, w, 0);
      } else {
        assert w in Words(s[n..]);
        WordsSound(s[n..], w);
        WordsAreWords(s[n..]);
        var j :| WholeWordAt(s[n..], w, j);
        assert j > 0 by {
          assert IsWordChar(w[0]);
          assert s[n..][j] == w[0];
        }
        ShiftWholeWord(s, w, n, j);
      }
    }
  }

  /** A whole word of a suffix is a whole word of the text, provided the
      suffix does not begin in the middle of it. */
  lemma ShiftWholeWord(s: string, w: string, d: nat, j: int)
    requires 0 < d <= |s| && WholeWordAt(s[d..], w, j)
    requires j > 0 || !IsWordChar(s[d - 1])
    ensures WholeWordAt(s, w, d + j)
  {
    assert s[d + j..d + j + |w|] == s[d..][j..j + |w|];
    if j > 0 {
      assert s[d..][j - 1] == s[d + j - 1];
    }
    if d + j + |w| < |s| {
      assert s[d..][j + |w|] == s[d + j + |w|];
    }
  }

  /** A word that starts the text and ends at a boundary is the text's first run. */
  lemma {:induction false} RunLengthOfWordPrefix(s: string, w: string)
    requires IsWord(w) && w <= s
    requires |w| == |s| || !IsWordChar(s[|w|])
    ensures RunLength(s) == |w|
    decreases |w|
  {
    assert s[0] == w[0];
    if |w| == 1 {
      assert |s[1..]| == 0 || s[1..][0] == s[1];
    } else {
      assert w[1..] <= s[1..];
      assert |w[1..]| == |s[1..]| || s[1..][|w[1..]|] == s[|w|];
      RunLengthOfWordPrefix(s[1..], w[1..]);
    }
  }

  lemma {:induction false} WordsComplete(s: string, w: string, i: int)
    requires IsWord(w) && WholeWordAt(s, w, i)
    ensures w in Words(s)
    decreases |s|
  {
    assert s[i] == w[0];
    if !IsWordChar(s[0]) {
      assert i > 0;
      assert s[1..][i - 1..i - 1 + |w|] == s[i..i + |w|];
      if i > 1 {
        assert s[1..][i - 2] == s[i - 1];
      }
      assert WholeWordAt(s[1..], w, i - 1);
      WordsComplete(s[1..], w, i - 1);
    } else {
      var n := RunLength(s);
      if i == 0 {
        RunLengthOfWordPrefix(s, w);
        assert w == s[..n];
      } else {
        assert i - 1 >= n;
        assert s[n..][i - n..i - n + |w|] == s[i..i + |w|];
        assert s[n..][i - n - 1] == s[i - 1];
        assert WholeWordAt(s[n..], w, i - n);
        WordsComplete(s[n..], w, i - n);
      }
    }
  }

  /** A string is among the regex matches exactly when it is a word that
      occurs in the text with a word boundary on both sides: a keyword
      inside a longer word does not match. */
  lemma WordsIff(s: string, w: string)
    ensures w in Words(s) <==> IsWord(w) && exists i :: WholeWordAt(s, w, i)
  {
    if w in Words(s) {
      WordsSound(s, w);
      WordsAreWords(s);
    }
    if IsWord(w) && exists i :: WholeWordAt(s, w, i) {
      var i :| WholeWordAt(s, w, i);
      WordsComplete(s, w, i);
    }
  }

  // ---------------------------------------------------------------------
  // auto_react

  /** Where `auto_react` stops, scanning from entry `i`: the first entry
      whose keyword is one of the words and whose reaction fails, or the end. */
  function AutoReactStop(
    words: seq<string>, reactions: seq<(string, ReactionEmoji)>,
    reactResult: ReactionEmoji -> Result<Unit>, i: nat): (stop: nat)
    requires i <= |reactions|
    ensures i <= stop <= |reactions|
    ensures forall j | i <= j < stop :: reactions[j].0 in words ==> reactResult(reactions[j].1).Ok?
    ensures stop < |reactions| ==> reactions[stop].0 in words && reactResult(reactions[stop].1).Err?
    decreases |reactions| - i
  {
    if i == |reactions| then i
    else if reactions[i].0 in words && reactResult(reactions[i].1).Err? then i
    else AutoReactStop(words, reactions, reactResult, i + 1)
  }

  /** Indices below `upto` of the entries whose keyword is one of the words. */
  function Matching(words: seq<string>, reactions: seq<(string, ReactionEmoji)>, upto: nat): (r: seq<nat>)
    requires upto <= |reactions|
    ensures forall k | 0 <= k < |r| :: r[k] < upto
  {
    if upto == 0 then []
    else if reactions[upto - 1].0 in words then Matching(words, reactions, upto - 1) + [upto - 1]
    else Matching(words, reactions, upto - 1)
  }

  lemma {:induction false} MatchingIff(words: seq<string>, reactions: seq<(string, ReactionEmoji)>, upto: nat, j: nat)
    requires upto <= |reactions|
    ensures j in Matching(words, reactions, upto) <==> j < upto && reactions[j].0 in words
  {
    if upto > 0 {
      MatchingIff(words, reactions, upto - 1, j);
    }
  }

  /** `auto_react`: react, in configuration order, with every entry whose
      keyword is one of the words; the first failing reaction aborts.
      Returns the indices of the attempted entries and the result. */
  function AutoReact(
    words: seq<string>, reactions: seq<(string, ReactionEmoji)>,
    reactResult: ReactionEmoji -> Result<Unit>): (r: (seq<nat>, Result<Unit>))
    ensures forall k | 0 <= k < |r.0| :: r.0[k] < |reactions|
    ensures r.1.Err? ==> exists j | 0 <= j < |reactions| :: reactions[j].0 in words && r.1 == reactResult(reactions[j].1)
    ensures r.1.Ok? ==> forall j | 0 <= j < |reactions| && reactions[j].0 in words :: reactResult(reactions[j].1).Ok?
  {
    var stop := AutoReactStop(words, reactions, reactResult, 0);
    if stop == |reactions| then (Matching(words, reactions, stop), Ok(Unit))
    else (Matching(words, reactions, stop + 1), reactResult(reactions[stop].1))
  }

  /** When no reaction fails, `auto_react` attempts exactly the entries
      whose keyword is a whole word of the lowercased content. */
  lemma AutoReactWholeWords(content: string, reactions: seq<(string, ReactionEmoji)>, j: nat)
    requires j < |reactions|
    ensures
      var r := AutoReact(Words(Text.AsciiLower(content)), reactions, e => Ok(Unit));
      j in r.0 <==> IsWord(reactions[j].0) && exists i :: WholeWordAt(Text.AsciiLower(content), reactions[j].0, i)
  {
    var words := Words(Text.AsciiLower(content));
    WordsIff(Text.AsciiLower(content), reactions[j].0);
    var stop := AutoReactStop(words, reactions, e => Ok(Unit), 0);
    assert stop == |reactions|;
    MatchingIff(words, reactions, stop, j);
  }

  // ---------------------------------------------------------------------
  // auto_reply

  /** A configured automatic reply; `hasChance` says whether a probability
      is configured (the roll itself is a parameter). */
  datatype AutoReplyConfig = AutoReplyConfig(
    keywords: seq<string>, user: nat, title: string, description: string, ping: bool, hasChance: bool)

  /** Conflict target of the `auto_replies` table. */
  datatype AutoReplyKey = AutoReplyKey(keyword: string, userId: nat)

  /** The reply message: plain content (the mention, only when pinging),
      embed title and description; it references the triggering message. */
  datatype ReplyMessage = ReplyMessage(content: Option<string>, title: string, description: string)

  /** Some keyword of the reply is a substring of the content. */
  predicate Triggered(reply: AutoReplyConfig, content: string) {
    exists k | 0 <= k < |reply.keywords| :: Text.Contains(content, reply.keywords[k])
  }

  /** `ILIKE '%' || kw || '%'`: a case-insensitive substring match. */
  predicate ILikeContains(value: string, kw: string) {
    Text.Contains(Text.AsciiLower(value), Text.AsciiLower(kw))
  }

  /** The embed description: "{user}" becomes the user's mention, then
      "{replies}" becomes the reply count. */
  function Describe(description: string, user: nat, amount: nat): string {
    Text.ReplaceAll(Text.ReplaceAll(description, "{user}", UserMention(user)), "{replies}", Text.Decimal(amount))
  }

  /** The total of `auto_replies` rows whose keyword matches `kw`. */
  function RepliesAmount(table: seq<CounterTable.Row<AutoReplyKey>>, kw: string): nat {
    CounterTable.SumWhere(table, (k: AutoReplyKey) => ILikeContains(k.keyword, kw))
  }

  /** `auto_reply` from configuration entry `i` on. For each triggered entry
      whose chance roll does not skip it: count the reply for (first
      keyword, author), sum the counts of matching keywords, fetch the
      configured user and send the reply. A failed user fetch aborts. */
  function AutoReplyFrom(
    content: string, authorId: nat, replies: seq<AutoReplyConfig>,
    table: seq<CounterTable.Row<AutoReplyKey>>, roll: nat -> bool,
    fetchUser: nat -> Result<Unit>, i: nat): (r: (seq<CounterTable.Row<AutoReplyKey>>, seq<ReplyMessage>, Result<Unit>))
    requires i <= |replies|
    ensures |r.1| <= |replies| - i
    decreases |replies| - i
  {
    if i == |replies| then (table, [], Ok(Unit))
    else
      var reply := replies[i];
      if !Triggered(reply, content) || (reply.hasChance && roll(i)) then
        AutoReplyFrom(content, authorId, replies, table, roll, fetchUser, i + 1)
      else
        var keyword := reply.keywords[0];
        var table' := CounterTable.Upsert(table, AutoReplyKey(keyword, authorId));
        var amount := RepliesAmount(table', keyword);
        if fetchUser(reply.user).Err? then (table', [], fetchUser(reply.user))
        else
          var rest := AutoReplyFrom(content, authorId, replies, table', roll, fetchUser, i + 1);
          (rest.0, [Message(reply, amount)] + rest.1, rest.2)
  }

  /** The message for a reply whose keyword has been counted `amount`
      times: the mention as plain content only when pinging, the title, and
      the description with its placeholders filled in. */
  function Message(reply: AutoReplyConfig, amount: nat): (m: ReplyMessage)
    ensures m.content.Some? <==> reply.ping
    ensures m.content.Some? ==> m.content.value == UserMention(reply.user)
    ensures m.title == reply.title && m.description == Describe(reply.description, reply.user, amount)
  {
    ReplyMessage(if reply.ping then Some(UserMention(reply.user)) else None, reply.title, Describe(reply.description, reply.user, amount))
  }

  /** Entry `j` replies: it is triggered and its chance roll does not skip
      it. */
  predicate Fires(replies: seq<AutoReplyConfig>, content: string, roll: nat -> bool, j: nat)
    requires j < |replies|
  {
    Triggered(replies[j], content) && !(replies[j].hasChance && roll(j))
  }

  /** The entries from `i` on that reply, in configuration order. */
  function FiringFrom(replies: seq<AutoReplyConfig>, content: string, roll: nat -> bool, i: nat): (r: seq<nat>)
    requires i <= |replies|
    ensures forall x :: x in r <==> i <= x < |replies| && Fires(replies, content, roll, x)
    ensures forall k | 0 <= k < |r| :: i <= r[k] < |replies| && Fires(replies, content, roll, r[k])
    ensures forall a, b | 0 <= a < b < |r| :: r[a] < r[b]
    decreases |replies| - i
  {
    if i == |replies| then []
    else if Fires(replies, content, roll, i) then [i] + FiringFrom(replies, content, roll, i + 1)
    else FiringFrom(replies, content, roll, i + 1)
  }

  /** How many of the listed entries have their user fetched before the
      first fetch that fails. */
  function FetchedCount(replies: seq<AutoReplyConfig>, fetchUser: nat -> Result<Unit>, idx: seq<nat>): (n: nat)
    requires forall k | 0 <= k < |idx| :: idx[k] < |replies|
    ensures n <= |idx|
    ensures forall k | 0 <= k < n :: fetchUser(replies[idx[k]].user).Ok?
    ensures n < |idx| ==> fetchUser(replies[idx[n]].user).Err?
    decreases |idx|
  {
    if |idx| == 0 || fetchUser(replies[idx[0]].user).Err? then 0
    else 1 + FetchedCount(replies, fetchUser, idx[1..])
  }

  /** The counter keys of the listed entries: first keyword and author. */
  function CountedKeys(replies: seq<AutoReplyConfig>, authorId: nat, idx: seq<nat>): (r: seq<AutoReplyKey>)
    requires forall k | 0 <= k < |idx| :: idx[k] < |replies| && |replies[idx[k]].keywords| > 0
    ensures |r| == |idx|
    ensures forall k | 0 <= k < |idx| :: r[k] == AutoReplyKey(replies[idx[k]].keywords[0], authorId)
    decreases |idx|
  {
    if |idx| == 0 then [] else [AutoReplyKey(replies[idx[0]].keywords[0], authorId)] + CountedKeys(replies, authorId, idx[1..])
  }

  /** What `auto_reply` does over the firing entries `idx`: the entries
      whose user is fetched reply in order, each reporting the total of its
      keyword after its own count; the counter of every entry reached, the
      failing one included, grows; a failed fetch is the result. */
  ghost predicate RepliesAs(
    r: (seq<CounterTable.Row<AutoReplyKey>>, seq<ReplyMessage>, Result<Unit>),
    authorId: nat, replies: seq<AutoReplyConfig>, table: seq<CounterTable.Row<AutoReplyKey>>,
    fetchUser: nat -> Result<Unit>, idx: seq<nat>)
    requires forall k | 0 <= k < |idx| :: idx[k] < |replies| && |replies[idx[k]].keywords| > 0
  {
    RepliesEnd(r, authorId, replies, table, fetchUser, idx) && RepliesSent(r.1, authorId, replies, table, fetchUser, idx)
  }

  /** How far the loop got: the counters and the result. */
  ghost predicate RepliesEnd(
    r: (seq<CounterTable.Row<AutoReplyKey>>, seq<ReplyMessage>, Result<Unit>),
    authorId: nat, replies: seq<AutoReplyConfig>, table: seq<CounterTable.Row<AutoReplyKey>>,
    fetchUser: nat -> Result<Unit>, idx: seq<nat>)
    requires forall k | 0 <= k < |idx| :: idx[k] < |replies| && |replies[idx[k]].keywords| > 0
  {
    var n := FetchedCount(replies, fetchUser, idx);
    && (n == |idx| ==> r.2 == Ok(Unit) && r.0 == CounterTable.UpsertAll(table, CountedKeys(replies, authorId, idx)))
    && (n < |idx| ==> r.2 == fetchUser(replies[idx[n]].user) && r.0 == CounterTable.UpsertAll(table, CountedKeys(replies, authorId, idx[..n + 1])))
  }

  /** The messages sent: one per fetched entry, in order. */
  ghost predicate RepliesSent(
    sent: seq<ReplyMessage>,
    authorId: nat, replies: seq<AutoReplyConfig>, table: seq<CounterTable.Row<AutoReplyKey>>,
    fetchUser: nat -> Result<Unit>, idx: seq<nat>)
    requires forall k | 0 <= k < |idx| :: idx[k] < |replies| && |replies[idx[k]].keywords| > 0
  {
    && |sent| == FetchedCount(replies, fetchUser, idx)
    && forall k | 0 <= k < |sent| ::
         sent[k] == Message(replies[idx[k]], RepliesAmount(CounterTable.UpsertAll(table, CountedKeys(replies, authorId, idx[..k + 1])), replies[idx[k]].keywords[0]))
  }

  /** `auto_reply` replies exactly for the triggered entries its rolls do
      not skip, in configuration order, counting each, until a user fetch
      fails. */
  lemma {:induction false} AutoReplySends(
    content: string, authorId: nat, replies: seq<AutoReplyConfig>,
    table: seq<CounterTable.Row<AutoReplyKey>>, roll: nat -> bool, fetchUser: nat -> Result<Unit>, i: nat)
    requires i <= |replies|
    ensures RepliesAs(AutoReplyFrom(content, authorId, replies, table, roll, fetchUser, i), authorId, replies, table, fetchUser, FiringFrom(replies, content, roll, i))
    decreases |replies| - i
  {
    var idx := FiringFrom(replies, content, roll, i);
    if i < |replies| {
      var rest := FiringFrom(replies, content, roll, i + 1);
      if !Fires(replies, content, roll, i) {
        AutoReplySends(content, authorId, replies, table, roll, fetchUser, i + 1);
      } else {
        var key := AutoReplyKey(replies[i].keywords[0], authorId);
        var table' := CounterTable.Upsert(table, key);
        assert idx == [i] + rest;
        if fetchUser(replies[i].user).Err? {
          AutoReplyFailedFetch(content, authorId, replies, table, roll, fetchUser, i);
        } else {
          AutoReplySends(content, authorId, replies, table', roll, fetchUser, i + 1);
          AutoReplySendStep(content, authorId, replies, table, roll, fetchUser, i);
        }
      }
    }
  }

  lemma AutoReplyFailedFetch(
    content: string, authorId: nat, replies: seq<AutoReplyConfig>,
    table: seq<CounterTable.Row<AutoReplyKey>>, roll: nat -> bool, fetchUser: nat -> Result<Unit>, i: nat)
    requires i < |replies| && Fires(replies, content, roll, i) && fetchUser(replies[i].user).Err?
    ensures RepliesAs(AutoReplyFrom(content, authorId, replies, table, roll, fetchUser, i), authorId, replies, table, fetchUser, FiringFrom(replies, content, roll, i))
  {
    var idx := FiringFrom(replies, content, roll, i);
    assert idx[0] == i;
    var key := AutoReplyKey(replies[i].keywords[0], authorId);
    assert CountedKeys(replies, authorId, idx[..1]) == [key];
    assert CounterTable.UpsertAll(CounterTable.Upsert(table, key), []) == CounterTable.Upsert(table, key);
  }

  lemma AutoReplySendStep(
    content: string, authorId: nat, replies: seq<AutoReplyConfig>,
    table: seq<CounterTable.Row<AutoReplyKey>>, roll: nat -> bool, fetchUser: nat -> Result<Unit>, i: nat)
    requires i < |replies| && Fires(replies, content, roll, i) && fetchUser(replies[i].user).Ok?
    requires RepliesAs(AutoReplyFrom(content, authorId, replies, CounterTable.Upsert(table, AutoReplyKey(replies[i].keywords[0], authorId)), roll, fetchUser, i + 1),
                       authorId, replies, CounterTable.Upsert(table, AutoReplyKey(replies[i].keywords[0], authorId)), fetchUser, FiringFrom(replies, content, roll, i + 1))
    ensures RepliesAs(AutoReplyFrom(content, authorId, replies, table, roll, fetchUser, i), authorId, replies, table, fetchUser, FiringFrom(replies, content, roll, i))
  {
    var key := AutoReplyKey(replies[i].keywords[0], authorId);
    var table' := CounterTable.Upsert(table, key);
    var idx := FiringFrom(replies, content, roll, i);
    var rest := FiringFrom(replies, content, roll, i + 1);
    assert idx == [i] + rest;
    var after := AutoReplyFrom(content, authorId, replies, table', roll, fetchUser, i + 1);
    var r := AutoReplyFrom(content, authorId, replies, table, roll, fetchUser, i);
    assert r == (after.0, [Message(replies[i], RepliesAmount(table', replies[i].keywords[0]))] + after.1, after.2);
    RepliesAsCons(r, after, authorId, replies, table, fetchUser, idx, rest);
  }

  /** A first entry that replies, followed by the replies of the rest. */
  lemma RepliesAsCons(
    r: (seq<CounterTable.Row<AutoReplyKey>>, seq<ReplyMessage>, Result<Unit>),
    after: (seq<CounterTable.Row<AutoReplyKey>>, seq<ReplyMessage>, Result<Unit>),
    authorId: nat, replies: seq<AutoReplyConfig>, table: seq<CounterTable.Row<AutoReplyKey>>,
    fetchUser: nat -> Result<Unit>, idx: seq<nat>, rest: seq<nat>)
    requires |idx| > 0 && idx[1..] == rest
    requires forall k | 0 <= k < |idx| :: idx[k] < |replies| && |replies[idx[k]].keywords| > 0
    requires fetchUser(replies[idx[0]].user).Ok?
    requires RepliesAs(after, authorId, replies, CounterTable.Upsert(table, AutoReplyKey(replies[idx[0]].keywords[0], authorId)), fetchUser, rest)
    requires r == (after.0, [Message(replies[idx[0]], RepliesAmount(CounterTable.Upsert(table, AutoReplyKey(replies[idx[0]].keywords[0], authorId)), replies[idx[0]].keywords[0]))] + after.1, after.2)
    ensures RepliesAs(r, authorId, replies, table, fetchUser, idx)
  {
    var table' := CounterTable.Upsert(table, AutoReplyKey(replies[idx[0]].keywords[0], authorId));
    EndCons(r, after, authorId, replies, table, fetchUser, idx, rest);
    var msg := Message(replies[idx[0]], RepliesAmount(table', replies[idx[0]].keywords[0]));
    SentCons(msg, after.1, authorId, replies, table, fetchUser, idx, rest);
    assert r.1 == [msg] + after.1;
  }

  lemma EndCons(
    r: (seq<CounterTable.Row<AutoReplyKey>>, seq<ReplyMessage>, Result<Unit>),
    after: (seq<CounterTable.Row<AutoReplyKey>>, seq<ReplyMessage>, Result<Unit>),
    authorId: nat, replies: seq<AutoReplyConfig>, table: seq<CounterTable.Row<AutoReplyKey>>,
    fetchUser: nat -> Result<Unit>, idx: seq<nat>, rest: seq<nat>)
    requires |idx| > 0 && idx[1..] == rest
    requires forall k | 0 <= k < |idx| :: idx[k] < |replies| && |replies[idx[k]].keywords| > 0
    requires fetchUser(replies[idx[0]].user).Ok?
    requires RepliesEnd(after, authorId, replies, CounterTable.Upsert(table, AutoReplyKey(replies[idx[0]].keywords[0], authorId)), fetchUser, rest)
    requires r.0 == after.0 && r.2 == after.2
    ensures RepliesEnd(r, authorId, replies, table, fetchUser, idx)
  {
    var n := FetchedCount(replies, fetchUser, rest);
    assert FetchedCount(replies, fetchUser, idx) == n + 1;
    var table' := CounterTable.Upsert(table, AutoReplyKey(replies[idx[0]].keywords[0], authorId));
    if n == |rest| {
      assert r.0 == CounterTable.UpsertAll(table', CountedKeys(replies, authorId, rest));
      EndConsAll(replies, authorId, idx, rest, table, r.0);
    } else {
      assert r.0 == CounterTable.UpsertAll(table', CountedKeys(replies, authorId, rest[..n + 1]));
      KeysCons(replies, authorId, idx, rest, n + 1, table);
      assert idx[n + 1] == rest[n];
    }
  }

  lemma EndConsAll(replies: seq<AutoReplyConfig>, authorId: nat, idx: seq<nat>, rest: seq<nat>,
                   table: seq<CounterTable.Row<AutoReplyKey>>, t: seq<CounterTable.Row<AutoReplyKey>>)
    requires |idx| > 0 && idx[1..] == rest
    requires forall k | 0 <= k < |idx| :: idx[k] < |replies| && |replies[idx[k]].keywords| > 0
    requires t == CounterTable.UpsertAll(CounterTable.Upsert(table, AutoReplyKey(replies[idx[0]].keywords[0], authorId)), CountedKeys(replies, authorId, rest))
    ensures t == CounterTable.UpsertAll(table, CountedKeys(replies, authorId, idx))
  {
    KeysCons(replies, authorId, idx, rest, |rest|, table);
    assert rest[..|rest|] == rest;
    assert idx[..|rest| + 1] == idx;
  }

  lemma SentCons(
    msg: ReplyMessage, sent: seq<ReplyMessage>,
    authorId: nat, replies: seq<AutoReplyConfig>, table: seq<CounterTable.Row<AutoReplyKey>>,
    fetchUser: nat -> Result<Unit>, idx: seq<nat>, rest: seq<nat>)
    requires |idx| > 0 && idx[1..] == rest
    requires forall k | 0 <= k < |idx| :: idx[k] < |replies| && |replies[idx[k]].keywords| > 0
    requires fetchUser(replies[idx[0]].user).Ok?
    requires RepliesSent(sent, authorId, replies, CounterTable.Upsert(table, AutoReplyKey(replies[idx[0]].keywords[0], authorId)), fetchUser, rest)
    requires msg == Message(replies[idx[0]], RepliesAmount(CounterTable.Upsert(table, AutoReplyKey(replies[idx[0]].keywords[0], authorId)), replies[idx[0]].keywords[0]))
    ensures RepliesSent([msg] + sent, authorId, replies, table, fetchUser, idx)
  {
    var all := [msg] + sent;
    assert FetchedCount(replies, fetchUser, idx) == |sent| + 1;
    forall k | 0 <= k < |all|
      ensures all[k] == Message(replies[idx[k]], RepliesAmount(CounterTable.UpsertAll(table, CountedKeys(replies, authorId, idx[..k + 1])), replies[idx[k]].keywords[0]))
    {
      KeysCons(replies, authorId, idx, rest, k, table);
      if k == 0 {
        assert rest[..0] == [];
        assert CountedKeys(replies, authorId, []) == [];
      } else {
        assert idx[k] == rest[k - 1];
        assert all[k] == sent[k - 1];
      }
    }
  }

  /** Counting the head entry first, then the rest. */
  lemma KeysCons(replies: seq<AutoReplyConfig>, authorId: nat, idx: seq<nat>, rest: seq<nat>, m: nat, table: seq<CounterTable.Row<AutoReplyKey>>)
    requires |idx| > 0 && idx[1..] == rest && m <= |rest|
    requires forall k | 0 <= k < |idx| :: idx[k] < |replies| && |replies[idx[k]].keywords| > 0
    ensures CounterTable.UpsertAll(table, CountedKeys(replies, authorId, idx[..m + 1]))
      == CounterTable.UpsertAll(CounterTable.Upsert(table, AutoReplyKey(replies[idx[0]].keywords[0], authorId)), CountedKeys(replies, authorId, rest[..m]))
  {
    var ks := CountedKeys(replies, authorId, idx[..m + 1]);
    assert idx[..m + 1][1..] == rest[..m];
    assert ks[0] == AutoReplyKey(replies[idx[0]].keywords[0], authorId);
    assert ks[1..] == CountedKeys(replies, authorId, rest[..m]);
  }

  /** One triggered, unskipped reply: the counter for (first keyword,
      author) grows by one, the reported amount is the previous matching
      total plus one, and the mention is plain content only when pinging. */
  lemma AutoReplyFirstEntry(
    content: string, authorId: nat, replies: seq<AutoReplyConfig>,
    table: seq<CounterTable.Row<AutoReplyKey>>, roll: nat -> bool, fetchUser: nat -> Result<Unit>)
    requires |replies| > 0 && Triggered(replies[0], content) && !(replies[0].hasChance && roll(0))
    requires fetchUser(replies[0].user).Ok?
    ensures
      var reply := replies[0];
      var key := AutoReplyKey(reply.keywords[0], authorId);
      var r := AutoReplyFrom(content, authorId, replies, table, roll, fetchUser, 0);
      && |r.1| > 0
      && r.1[0].title == reply.title
      && (r.1[0].content.Some? <==> reply.ping)
      && r.1[0].description
         == Describe(reply.description, reply.user, RepliesAmount(table, reply.keywords[0]) + 1)
  {
    UpsertAmount(table, replies[0].keywords[0], authorId);
  }

  /** Counting a reply for a keyword adds one to that keyword's total. */
  lemma UpsertAmount(table: seq<CounterTable.Row<AutoReplyKey>>, kw: string, authorId: nat)
    ensures RepliesAmount(CounterTable.Upsert(table, AutoReplyKey(kw, authorId)), kw) == RepliesAmount(table, kw) + 1
  {
    var key := AutoReplyKey(kw, authorId);
    var p := (k: AutoReplyKey) => ILikeContains(k.keyword, kw);
    CounterTable.UpsertSumWhere(table, key, p);
    Text.ContainsIff(Text.AsciiLower(kw), Text.AsciiLower(kw));
    assert Text.OccursAt(Text.AsciiLower(kw), Text.AsciiLower(kw), 0);
  }

  /** An untriggered entry sends nothing and leaves the table alone. */
  lemma AutoReplySkipsUntriggered(
    content: string, authorId: nat, replies: seq<AutoReplyConfig>,
    table: seq<CounterTable.Row<AutoReplyKey>>, roll: nat -> bool, fetchUser: nat -> Result<Unit>)
    requires |replies| == 1 && !Triggered(replies[0], content)
    ensures AutoReplyFrom(content, authorId, replies, table, roll, fetchUser, 0) == (table, [], Ok(Unit))
  {
  }

  /** A description without placeholders is sent as configured. */
  lemma DescribeWithoutPlaceholders(description: string, user: nat, amount: nat)
    requires !Text.Contains(description, "{user}") && !Text.Contains(description, "{replies}")
    ensures Describe(description, user, amount) == description
  {
    Text.ReplaceAbsent(description, "{user}", UserMention(user));
    Text.ReplaceAbsent(description, "{replies}", Text.Decimal(amount));
  }

  // ---------------------------------------------------------------------
  // Activity bookkeeping

  datatype ActivityRow = ActivityRow(lastActive: int, messageCount: nat)

  /** `activity_per_guild`: configured guilds and their users cached today,
      plus the `activity` table keyed by (guild, user). */
  datatype Activity = Activity(cache: map<nat, set<nat>>, table: map<(nat, nat), ActivityRow>)

  /** `update_activity`: only for configured guilds and uncached users;
      upsert the row's last activity and cache the user when that worked. */
  function UpdateActivity(a: Activity, guild: nat, user: nat, now: int, dbOk: bool): (r: Activity)
    ensures r != a ==> guild in a.cache && user !in a.cache[guild] && dbOk
    ensures guild in a.cache && user !in a.cache[guild] && dbOk ==>
      && r.cache == a.cache[guild := a.cache[guild] + {user}]
      && (guild, user) in r.table && r.table[(guild, user)].lastActive == now
      && r.table[(guild, user)].messageCount == (if (guild, user) in a.table then a.table[(guild, user)].messageCount else 0)
      && forall k | k in a.table && k != (guild, user) :: k in r.table && r.table[k] == a.table[k]
  {
    if guild !in a.cache || user in a.cache[guild] || !dbOk then a
    else
      var count := if (guild, user) in a.table then a.table[(guild, user)].messageCount else 0;
      Activity(a.cache[guild := a.cache[guild] + {user}], a.table[(guild, user) := ActivityRow(now, count)])
  }

  /** `update_message_count`: for configured guilds, count the message on
      an existing row; no row is created. */
  function UpdateMessageCount(a: Activity, guild: nat, user: nat, dbOk: bool): (r: Activity)
    ensures guild !in a.cache || !dbOk ==> r == a
    ensures r.cache == a.cache && r.table.Keys == a.table.Keys
    ensures forall k | k in a.table ::
      r.table[k] == (if k == (guild, user) && guild in a.cache && dbOk
                     then ActivityRow(a.table[k].lastActive, a.table[k].messageCount + 1) else a.table[k])
  {
    if guild !in a.cache || !dbOk || (guild, user) !in a.table then a
    else
      var row := a.table[(guild, user)];
      Activity(a.cache, a.table[(guild, user) := ActivityRow(row.lastActive, row.messageCount + 1)])
  }

  /** The activity rows of a user never disappear. */
  lemma ActivityRowsPersist(a: Activity, guild: nat, user: nat, now: int, dbOk: bool)
    ensures a.table.Keys <= UpdateActivity(a, guild, user, now, dbOk).table.Keys
    ensures a.table.Keys == UpdateMessageCount(a, guild, user, dbOk).table.Keys
  {
  }

  // ---------------------------------------------------------------------
  // Dispatch

  datatype VoiceState = VoiceState(guildId: Option<nat>, channelId: Option<nat>, userId: nat)

  datatype IncomingMessage = IncomingMessage(
    authorId: nat, authorBot: bool, guildId: Option<nat>, channelId: nat, content: string)

  datatype Event =
    | VoiceStateUpdate(before: Option<VoiceState>, after: VoiceState)
    | ReactionAdd(reaction: ReactionRole.Reaction)
    | ReactionRemove(reaction: ReactionRole.Reaction)
    | NewMessage(message: IncomingMessage)
    | OtherEvent

  /** Static configuration (`Data`): entry sounds per user, automatic
      reactions and replies, and whether the activity feature is compiled in. */
  datatype Config = Config(
    entrySounds: map<nat, string>,
    autoReactions: seq<(string, ReactionEmoji)>,
    autoReplies: seq<AutoReplyConfig>,
    activityFeature: bool)

  datatype BotState = BotState(
    registry: ReactionRole.Registry,
    activity: Activity,
    autoReplyCounts: seq<CounterTable.Row<AutoReplyKey>>)

  /** Outcomes of everything outside the process: emoji resolution, user,
      member and role calls, reaction and user fetches, the random rolls,
      the unmodelled celery fact, database success, the clock, which of the
      two concurrent activity updates ran first, and the voice join. */
  datatype Env = Env(
    emojiIds: ReactionRole.EmojiIds,
    userIsBot: Result<bool>,
    memberResult: Result<Unit>,
    roleResult: Result<Unit>,
    reactResult: ReactionEmoji -> Result<Unit>,
    roll: nat -> bool,
    fetchUser: nat -> Result<Unit>,
    celeryResult: Result<Unit>,
    dbOk: bool,
    now: int,
    countFirst: bool,
    joinResult: Result<Unit>)

  datatype Effect =
    | PlaySound(guildId: nat, channelId: nat, path: string)
    | ReactTo(messageChannel: nat, emoji: ReactionEmoji)
    | SendReply(reply: ReplyMessage)
    | RoleEffect(effect: ReactionRole.Effect)

  datatype Outcome = Outcome(state: BotState, effects: seq<Effect>, result: Result<Unit>)

  /** `r0.and(r1).and(r2)`: the first error, in order. */
  function FirstError(r0: Result<Unit>, r1: Result<Unit>, r2: Result<Unit>): (r: Result<Unit>)
    ensures r.Ok? <==> r0.Ok? && r1.Ok? && r2.Ok?
    ensures r0.Err? ==> r == r0
    ensures r0.Ok? && r1.Err? ==> r == r1
    ensures r0.Ok? && r1.Ok? ==> r == r2
  {
    if r0.Err? then r0 else if r1.Err? then r1 else r2
  }

  /** An entry sound plays when the user now is in a channel, was in none
      before, and has a sound configured. */
  predicate PlaysEntrySound(cfg: Config, before: Option<VoiceState>, after: VoiceState) {
    && after.guildId.Some?
    && after.channelId.Some?
    && !(before.Some? && before.value.channelId.Some?)
    && after.userId in cfg.entrySounds
  }

  function ReactEffects(channelId: nat, reactions: seq<(string, ReactionEmoji)>, idx: seq<nat>): seq<Effect>
    requires forall j | 0 <= j < |idx| :: idx[j] < |reactions|
  {
    if |idx| == 0 then [] else [ReactTo(channelId, reactions[idx[0]].1)] + ReactEffects(channelId, reactions, idx[1..])
  }

  function ReplyEffects(msgs: seq<ReplyMessage>): seq<Effect> {
    if |msgs| == 0 then [] else [SendReply(msgs[0])] + ReplyEffects(msgs[1..])
  }

  function RoleEffects(es: seq<ReactionRole.Effect>): seq<Effect> {
    if |es| == 0 then [] else [RoleEffect(es[0])] + RoleEffects(es[1..])
  }

  /** Both activity updates of a guild message, in the order the
      concurrent join happened to run them. */
  function MessageActivity(a: Activity, guild: nat, user: nat, env: Env): Activity {
    if env.countFirst then UpdateActivity(UpdateMessageCount(a, guild, user, env.dbOk), guild, user, env.now, env.dbOk)
    else UpdateMessageCount(UpdateActivity(a, guild, user, env.now, env.dbOk), guild, user, env.dbOk)
  }

  /** `event_handler`. */
  function EventHandler(st: BotState, cfg: Config, ev: Event, env: Env): (r: Outcome)
    ensures ev.NewMessage? && ev.message.authorBot ==> r == Outcome(st, [], Ok(Unit))
    ensures ev.OtherEvent? ==> r == Outcome(st, [], Ok(Unit))
    ensures ev.ReactionAdd? ==>
      r.result == ReactionRole.ChangeReactionRole(st.registry, env.emojiIds, ev.reaction, true,
                    env.userIsBot, env.memberResult, env.roleResult).result
    ensures ev.ReactionRemove? ==>
      r.result == ReactionRole.ChangeReactionRole(st.registry, env.emojiIds, ev.reaction, false,
                    env.userIsBot, env.memberResult, env.roleResult).result
    ensures ev.ReactionRemove? ==> r.state == st
    ensures ev.VoiceStateUpdate? ==>
      ((exists j | 0 <= j < |r.effects| :: r.effects[j].PlaySound?) <==>
         PlaysEntrySound(cfg, ev.before, ev.after) && env.joinResult.Ok?)
    ensures ev.VoiceStateUpdate? && PlaysEntrySound(cfg, ev.before, ev.after) && env.joinResult.Err? ==>
      r == Outcome(st, [], env.joinResult)
    ensures ev.NewMessage? && !ev.message.authorBot ==> r.state.registry == st.registry
  {
    match ev
    case OtherEvent => Outcome(st, [], Ok(Unit))
    case VoiceStateUpdate(before, after) =>
      if after.guildId.None? then Outcome(st, [], Ok(Unit))
      else
        var guild := after.guildId.value;
        var activity := if cfg.activityFeature then UpdateActivity(st.activity, guild, after.userId, env.now, env.dbOk) else st.activity;
        if PlaysEntrySound(cfg, before, after) then
          if env.joinResult.Err? then Outcome(st, [], env.joinResult)
          else
            var play := [PlaySound(guild, after.channelId.value, cfg.entrySounds[after.userId])];
            assert play[0].PlaySound?;
            Outcome(st.(activity := activity), play, Ok(Unit))
        else Outcome(st.(activity := activity), [], Ok(Unit))
    case ReactionAdd(rx) =>
      var activity :=
        if cfg.activityFeature && rx.guildId.Some? && rx.userId.Some?
        then UpdateActivity(st.activity, rx.guildId.value, rx.userId.value, env.now, env.dbOk)
        else st.activity;
      var c := ReactionRole.ChangeReactionRole(st.registry, env.emojiIds, rx, true, env.userIsBot, env.memberResult, env.roleResult);
      Outcome(st.(activity := activity), RoleEffects(c.effects), c.result)
    case ReactionRemove(rx) =>
      var c := ReactionRole.ChangeReactionRole(st.registry, env.emojiIds, rx, false, env.userIsBot, env.memberResult, env.roleResult);
      Outcome(st, RoleEffects(c.effects), c.result)
    case NewMessage(m) =>
      if m.authorBot then Outcome(st, [], Ok(Unit))
      else
        var content := Text.AsciiLower(m.content);
        var reacted := AutoReact(Words(content), cfg.autoReactions, env.reactResult);
        var replied := AutoReplyFrom(content, m.authorId, cfg.autoReplies, st.autoReplyCounts, env.roll, env.fetchUser, 0);
        var activity :=
          if cfg.activityFeature && m.guildId.Some? then MessageActivity(st.activity, m.guildId.value, m.authorId, env)
          else st.activity;
        Outcome(
          BotState(st.registry, activity, replied.0),
          ReactEffects(m.channelId, cfg.autoReactions, reacted.0) + ReplyEffects(replied.1),
          FirstError(reacted.1, replied.2, env.celeryResult))
  }
}

=== FILE: hashable_regexes.dfy ===
/** A compiled pattern compared and hashed by its source text. */
module HashableRegexes {
  import opened Wrappers

  /** The pattern is represented by its source; compilation itself is not
      modelled. */
  datatype HashableRegex = HashableRegex(source: string)

  /** `PartialEq`: the source strings are equal. */
  predicate Equal(a: HashableRegex, b: HashableRegex) {
    a.source == b.source
  }

  /** `Hash`: the hasher sees only the source string. */
  function Hash(h: string -> int, x: HashableRegex): int {
    h(x.source)
  }

  /** `Display`: the source string. */
  function Display(x: HashableRegex): string {
    x.source
  }

  /** Equal values hash equally, under every hasher. */
  lemma HashAgreesWithEq(h: string -> int, a: HashableRegex, b: HashableRegex)
    requires Equal(a, b)
    ensures Hash(h, a) == Hash(h, b)
  {
  }

  /** Equality is exactly equality of the displayed patterns. */
  lemma EqualIffDisplay(a: HashableRegex, b: HashableRegex)
    ensures Equal(a, b) <==> Display(a) == Display(b)
  {
  }

  /** `Deserialize`: a keyword becomes the pattern that matches it as a
      whole word; a pattern the engine rejects fails deserialization.
      Whether a pattern compiles is the engine's verdict, a parameter. */
  function Deserialize(s: string, compiles: string -> bool): (r: Result<HashableRegex>)
    ensures r.Ok? <==> compiles("\\b" + s + "\\b")
    ensures r.Ok? ==> Display(r.value) == "\\b" + s + "\\b"
  {
    var pattern := "\\b" + s + "\\b";
    if compiles(pattern) then Ok(HashableRegex(pattern)) else Err(Failure("regex parse error"))
  }

  /** Two keywords deserialize to equal patterns only when they are equal. */
  lemma DeserializeInjective(s: string, t: string, compiles: string -> bool)
    requires Deserialize(s, compiles).Ok? && Deserialize(t, compiles).Ok?
    requires Equal(Deserialize(s, compiles).value, Deserialize(t, compiles).value)
    ensures s == t
  {
    var ps, pt := "\\b" + s + "\\b", "\\b" + t + "\\b";
    assert ps[2..|ps| - 2] == s;
    assert pt[2..|pt| - 2] == t;
  }
}

=== FILE: history.dfy ===
/** Bulk deletion of a channel's latest messages, shared by both
    generations of `clear`. A channel's history is its message ids, newest
    first; snowflake ids grow with time, so newest first is descending. */
module History {
  import opened Wrappers
  import Text

  predicate NewestFirst(h: seq<nat>) {
    forall i, j | 0 <= i < j < |h| :: h[i] > h[j]
  }

  /** The messages a fetch may return: all of them, or those older than
      the `before` message. */
  function Older(h: seq<nat>, before: Option<nat>): (r: seq<nat>)
    ensures |r| <= |h|
    ensures forall m :: m in r <==> m in h && (before.None? || m < before.value)
    ensures NewestFirst(h) ==> NewestFirst(r)
  {
    if |h| == 0 then []
    else
      var rest := Older(h[1..], before);
      assert forall m | m in h[1..] :: m in h;
      assert forall m | m in h && m != h[0] :: m in h[1..];
      if before.None? || h[0] < before.value then
        assert NewestFirst(h) ==> NewestFirst([h[0]] + rest) by {
          if NewestFirst(h) {
            forall m | m in rest ensures h[0] > m {
              var k :| 0 <= k < |h[1..]| && h[1..][k] == m;
              assert h[k + 1] == m;
            }
            assert NewestFirst(h[1..]);
            ConsNewest(h[0], rest);
          }
        }
        [h[0]] + rest
      else rest
  }

  lemma ConsNewest(x: nat, rest: seq<nat>)
    requires NewestFirst(rest) && forall m | m in rest :: x > m
    ensures NewestFirst([x] + rest)
  {
    var r := [x] + rest;
    forall i, j | 0 <= i < j < |r| ensures r[i] > r[j] {
      assert r[j] == rest[j - 1] && rest[j - 1] in rest;
      if i > 0 {
        assert r[i] == rest[i - 1];
      }
    }
  }

  /** The fetch: at most `limit` of the newest messages older than
      `before`. */
  function Fetch(h: seq<nat>, before: Option<nat>, limit: nat): (r: seq<nat>)
    ensures |r| == if limit < |Older(h, before)| then limit else |Older(h, before)|
    ensures r == Older(h, before)[..|r|]
  {
    var o := Older(h, before);
    o[..if limit < |o| then limit else |o|]
  }

  /** A message the fetch skipped is older than every message it got. */
  lemma FetchTakesNewest(h: seq<nat>, before: Option<nat>, limit: nat, skipped: nat, got: nat)
    requires NewestFirst(h)
    requires skipped in Older(h, before) && skipped !in Fetch(h, before, limit)
    requires got in Fetch(h, before, limit)
    ensures skipped < got
  {
    var o := Older(h, before);
    var r := Fetch(h, before, limit);
    var i :| 0 <= i < |r| && r[i] == got;
    var j :| 0 <= j < |o| && o[j] == skipped;
    assert o[i] == got;
  }

  /** The history after the fetched messages are deleted. */
  function Without(h: seq<nat>, gone: seq<nat>): (r: seq<nat>)
    ensures forall m :: m in r <==> m in h && m !in gone
    ensures |r| <= |h|
  {
    if |h| == 0 then []
    else
      assert forall m | m in h[1..] :: m in h;
      assert forall m | m in h && m != h[0] :: m in h[1..];
      (if h[0] in gone then [] else [h[0]]) + Without(h[1..], gone)
  }

  function Deleted(n: nat): string {
    "Deleted " + Text.Decimal(n) + " messages."
  }

  const AMOUNT_RANGE: string := "Amount must be between 2 and 100"
  const DELETE_FAILED: string := "Error deleting messages"
  const DEFAULT_AMOUNT: nat := 2

  function AmountOrDefault(amount: Option<nat>): nat {
    match amount
    case Some(n) => n
    case None => DEFAULT_AMOUNT
  }

  predicate InRange(n: nat) {
    2 <= n <= 100
  }
}

=== FILE: keyword_statistics.dfy ===
/** `keyword_statistics`: per-user totals of the automatic replies whose
    keyword matches a search word, and their grand total. The older
    generation matches with a case-sensitive `LIKE '%kw%'`, the newer one
    with `ILIKE`. */
module KeywordStatistics {
  import opened Wrappers
  import opened Platform
  import Text
  import CounterTable
  import Handler

  type Rows = seq<CounterTable.Row<Handler.AutoReplyKey>>

  /** Whether a stored keyword matches the search word. */
  predicate KeywordMatches(caseInsensitive: bool, stored: string, kw: string) {
    if caseInsensitive then Handler.ILikeContains(stored, kw) else Text.Contains(stored, kw)
  }

  /** Sum of the matching rows' counts whose user is not in `except`. */
  function MatchSum(rows: Rows, ci: bool, kw: string, except: set<nat>): nat {
    if |rows| == 0 then 0
    else
      var k := rows[0].key;
      var here := if KeywordMatches(ci, k.keyword, kw) && k.userId !in except then rows[0].count else 0;
      here + MatchSum(rows[1..], ci, kw, except)
  }

  /** One group of `SUM(count) ... GROUP BY user_id`. */
  function GroupSum(rows: Rows, ci: bool, kw: string, user: nat): nat {
    if |rows| == 0 then 0
    else
      var k := rows[0].key;
      var here := if KeywordMatches(ci, k.keyword, kw) && k.userId == user then rows[0].count else 0;
      here + GroupSum(rows[1..], ci, kw, user)
  }

  /** A result row of the grouped query; the sum is nullable. */
  datatype Stat = Stat(userId: nat, count: Option<int>)

  /** The grouped query, its groups listed in the order `users` gives. */
  function Query(rows: Rows, ci: bool, kw: string, users: seq<nat>): (r: seq<Stat>)
    ensures |r| == |users|
    ensures forall i | 0 <= i < |r| :: r[i] == Stat(users[i], Some(GroupSum(rows, ci, kw, users[i])))
  {
    if |users| == 0 then [] else [Stat(users[0], Some(GroupSum(rows, ci, kw, users[0])))] + Query(rows, ci, kw, users[1..])
  }

  predicate AllCounted(stats: seq<Stat>) {
    forall i | 0 <= i < |stats| :: stats[i].count.Some?
  }

  function Total(stats: seq<Stat>): int
    requires AllCounted(stats)
  {
    if |stats| == 0 then 0 else stats[0].count.value + Total(stats[1..])
  }

  /** "name: count", the name falling back to the numeric id when the user
      lookup fails. */
  function StatLine(s: Stat, names: nat -> Option<string>): string
    requires s.count.Some?
  {
    var name := match names(s.userId) case Some(n) => n case None => Text.Decimal(s.userId);
    name + ": " + Text.IntDecimal(s.count.value)
  }

  function StatLines(stats: seq<Stat>, names: nat -> Option<string>): (r: seq<string>)
    requires AllCounted(stats)
    ensures |r| == |stats|
    ensures forall i | 0 <= i < |r| :: r[i] == StatLine(stats[i], names)
  {
    if |stats| == 0 then [] else [StatLine(stats[0], names)] + StatLines(stats[1..], names)
  }

  const NULL_COUNT: string := "count is null"

  /** The reply embed: a title naming the keyword, one line per user, and
      the total in the footer; a null sum aborts the command. */
  function Statistics(keyword: string, stats: seq<Stat>, names: nat -> Option<string>): (r: Result<Embed>)
    ensures r.Ok? <==> AllCounted(stats)
    ensures r.Err? ==> r == Err(Failure(NULL_COUNT))
    ensures r.Ok? ==> r.value.title == Some(keyword + " statistics")
    ensures r.Ok? ==> r.value.footer == Some("Total: " + Text.IntDecimal(Total(stats)))
    ensures r.Ok? ==> r.value.description == Some(Text.Join(StatLines(stats, names), "\n"))
  {
    if AllCounted(stats) then
      Ok(NewEmbed().(title := Some(keyword + " statistics"),
                     description := Some(Text.Join(StatLines(stats, names), "\n")),
                     footer := Some("Total: " + Text.IntDecimal(Total(stats)))))
    else Err(Failure(NULL_COUNT))
  }

  /** Taking one user's group out of a sum of the other users' groups. */
  lemma {:induction false} SplitOff(rows: Rows, ci: bool, kw: string, except: set<nat>, user: nat)
    requires user !in except
    ensures MatchSum(rows, ci, kw, except) == GroupSum(rows, ci, kw, user) + MatchSum(rows, ci, kw, except + {user})
  {
    if |rows| > 0 {
      SplitOff(rows[1..], ci, kw, except, user);
    }
  }

  /** With every matching row's user excluded, nothing is left to sum. */
  lemma {:induction false} NothingLeft(rows: Rows, ci: bool, kw: string, except: set<nat>)
    requires forall i | 0 <= i < |rows| :: KeywordMatches(ci, rows[i].key.keyword, kw) ==> rows[i].key.userId in except
    ensures MatchSum(rows, ci, kw, except) == 0
  {
    if |rows| > 0 {
      NothingLeft(rows[1..], ci, kw, except);
    }
  }

  /** The groups of distinct users that cover every matching row not yet
      excluded add up to the sum over those rows. */
  lemma {:induction false} GroupsPartition(rows: Rows, ci: bool, kw: string, users: seq<nat>, except: set<nat>)
    requires forall i, j | 0 <= i < j < |users| :: users[i] != users[j]
    requires forall i | 0 <= i < |users| :: users[i] !in except
    requires forall i | 0 <= i < |rows| :: KeywordMatches(ci, rows[i].key.keyword, kw) ==>
      rows[i].key.userId in except || rows[i].key.userId in users
    ensures Total(Query(rows, ci, kw, users)) == MatchSum(rows, ci, kw, except)
    decreases |users|
  {
    if |users| == 0 {
      NothingLeft(rows, ci, kw, except);
    } else {
      var u := users[0];
      SplitOff(rows, ci, kw, except, u);
      forall i | 0 <= i < |rows| && KeywordMatches(ci, rows[i].key.keyword, kw)
        ensures rows[i].key.userId in except + {u} || rows[i].key.userId in users[1..]
      {
        if rows[i].key.userId !in except && rows[i].key.userId != u {
          var j :| 0 <= j < |users| && users[j] == rows[i].key.userId;
          assert users[1..][j - 1] == users[j];
        }
      }
      GroupsPartition(rows, ci, kw, users[1..], except + {u});
      assert Query(rows, ci, kw, users)[1..] == Query(rows, ci, kw, users[1..]);
    }
  }

  /** The footer's total is the sum of every matching row's count, given
      that the query returns one group per user with a matching row. */
  lemma StatisticsTotal(rows: Rows, ci: bool, kw: string, users: seq<nat>, keyword: string, names: nat -> Option<string>)
    requires forall i, j | 0 <= i < j < |users| :: users[i] != users[j]
    requires forall i | 0 <= i < |rows| :: KeywordMatches(ci, rows[i].key.keyword, kw) ==> rows[i].key.userId in users
    ensures var r := Statistics(keyword, Query(rows, ci, kw, users), names);
      r.Ok? && r.value.footer == Some("Total: " + Text.IntDecimal(MatchSum(rows, ci, kw, {})))
  {
    GroupsPartition(rows, ci, kw, users, {});
  }

  /** The newer generation's total is the count an automatic reply shows for
      the same keyword. */
  lemma {:induction false} NewerTotalIsRepliesAmount(rows: Rows, kw: string)
    ensures MatchSum(rows, true, kw, {}) == Handler.RepliesAmount(rows, kw)
  {
    if |rows| > 0 {
      NewerTotalIsRepliesAmount(rows[1..], kw);
    }
  }
}

=== FILE: legacy_clear.dfy ===
/** `clear` (the builder generation): the framework checks the author's
    permissions; problems are replied rather than returned, and fewer than
    two fetched messages are refused. */
module LegacyClear {
  import opened Wrappers
  import opened History
  import Newer = Clear

  datatype Outcome = Outcome(history: seq<nat>, reply: string, fetched: bool)

  function Clear(h: seq<nat>, amount: Option<nat>, before: Option<nat>, deleteOk: bool): (r: Outcome)
    ensures !InRange(AmountOrDefault(amount)) ==> r == Outcome(h, AMOUNT_RANGE, false)
    ensures r.history != h ==> deleteOk && InRange(AmountOrDefault(amount))
    ensures InRange(AmountOrDefault(amount)) ==> r.fetched
    ensures InRange(AmountOrDefault(amount)) ==>
      var fetched := Fetch(h, before, AmountOrDefault(amount));
      && (|fetched| < 2 ==> r == Outcome(h, AMOUNT_RANGE, true))
      && (|fetched| >= 2 && deleteOk ==> r == Outcome(Without(h, fetched), Deleted(|fetched|), true))
      && (|fetched| >= 2 && !deleteOk ==> r == Outcome(h, DELETE_FAILED, true))
  {
    var n := AmountOrDefault(amount);
    if !InRange(n) then Outcome(h, AMOUNT_RANGE, false)
    else
      var fetched := Fetch(h, before, n);
      if |fetched| < 2 then Outcome(h, AMOUNT_RANGE, true)
      else if deleteOk then Outcome(Without(h, fetched), Deleted(|fetched|), true)
      else Outcome(h, DELETE_FAILED, true)
  }

  /** Where both generations delete, they delete the same messages and
      reply the same; the older one refuses a single fetched message the
      newer one deletes. */
  lemma GenerationsAgree(h: seq<nat>, amount: Option<nat>, before: Option<nat>)
    requires InRange(AmountOrDefault(amount))
    ensures |Fetch(h, before, AmountOrDefault(amount))| >= 2 ==>
      Clear(h, amount, before, true).history == Newer.Clear(h, Some(Some(true)), false, amount, before, true).value.history
      && Clear(h, amount, before, true).reply == Newer.Clear(h, Some(Some(true)), false, amount, before, true).value.reply
    ensures |Fetch(h, before, AmountOrDefault(amount))| < 2 ==> Clear(h, amount, before, true).history == h
  {
  }
}

=== FILE: legacy_emojis.dfy ===
/** The older generation of the emoji commands. `add_emoji` answers its
    refusals with a reply and returns Ok; a failed HTTP send ends the whole
    command early; the final count is the number of emojis offered. */
module LegacyEmojis {
  import opened Wrappers
  import opened Platform
  import Text
  import Commands
  import opened EmojiMarkup
  import Emojis

  const DUPLICATE: string := "There already is an emoji with the same name"
  const DOWNLOAD_IMAGE_FAILED: string := "Error downloading image"
  const DOWNLOAD_EMOJI_FAILED: string := "Error downloading emoji"

  /** The shown markup of the created emoji; "a" when the content type
      names the animated format. */
  function CreatedMarkup(name: string, id: nat, contentType: string): string {
    "<" + (if Text.Contains(contentType, ANIMATED_EMOJI_FORMAT) then "a" else "") + ":" + name + ":" + Text.Decimal(id) + ">"
  }

  /** `add_emoji`: the created flag says whether an emoji was made; `create`
      is the new emoji's id or the platform's error. */
  function AddEmoji(guildNames: Option<seq<string>>, name: string, data: Result<Unit>,
                    contentType: string, create: Result<nat>): (r: (Result<Unit>, seq<string>, bool))
    ensures r.2 <==> guildNames.Some? && name !in guildNames.value && data.Ok? && create.Ok?
    ensures r.0.Err? <==> guildNames.Some? && name !in guildNames.value && data.Ok? && create.Err?
    ensures guildNames.None? ==> r == (Ok(Unit), [Emojis.NO_GUILD], false)
    ensures guildNames.Some? && name in guildNames.value ==> r == (Ok(Unit), [DUPLICATE], false)
    ensures r.2 ==> r.1 == ["Added new emoji " + CreatedMarkup(name, create.value, contentType)]
  {
    match guildNames
    case None => (Ok(Unit), [Emojis.NO_GUILD], false)
    case Some(names) =>
      if name in names then (Ok(Unit), [DUPLICATE], false)
      else if data.Err? then (Ok(Unit), [DOWNLOAD_IMAGE_FAILED], false)
      else match create
        case Err(e) => (Err(e), [], false)
        case Ok(id) => (Ok(Unit), ["Added new emoji " + CreatedMarkup(name, id, contentType)], true)
  }

  /** The network and platform for the batch: whether each HTTP send and
      body read succeeds, and each creation's answer. */
  datatype Env = Env(guildOk: bool, send: nat -> bool, body: nat -> bool, create: nat -> Result<nat>)

  /** `Stop` is the early `return Ok(())` after a failed send. */
  datatype Flow = Continue | Stop | Abort(error: Error)

  datatype Batch = Batch(flow: Flow, created: seq<string>, replies: seq<string>)

  function AddFrom(emojis: seq<NewEmoji>, names: seq<string>, env: Env, i: nat): (r: Batch)
    requires i <= |emojis|
    ensures |r.created| <= |emojis| - i
    ensures i < |emojis| && !env.send(i) ==> r.flow == Stop && r.created == []
    ensures r.flow.Continue? ==> forall j | i <= j < |emojis| :: env.send(j)
    ensures forall k | 0 <= k < |r.created| :: r.created[k] !in names
    decreases |emojis| - i
  {
    if i == |emojis| then Batch(Continue, [], [])
    else
      var e := emojis[i];
      if !env.send(i) then Batch(Stop, [], [DOWNLOAD_EMOJI_FAILED])
      else
        var data: Result<Unit> := if env.body(i) then Ok(Unit) else Err(Failure(DOWNLOAD_IMAGE_FAILED));
        var (res, said, made) := AddEmoji(if env.guildOk then Some(names) else None, e.name, data, e.contentType, env.create(i));
        if res.Err? then Batch(Abort(res.error), [], said)
        else
          var rest := AddFrom(emojis, if made then names + [e.name] else names, env, i + 1);
          Batch(rest.flow, (if made then [e.name] else []) + rest.created, said + rest.replies)
  }

  datatype Outcome = Outcome(answer: Option<string>, message: Message, created: seq<string>, replies: seq<string>, result: Result<Unit>)

  /** `extract_and_upload_emojis` (older): after Add the answer counts every
      offered emoji. A failed send returns Ok at once and an `add_emoji`
      error aborts; both skip the final edit and the teardown. */
  function ExtractAndUpload(ctxId: nat, authorId: nat, channelId: nat, emojis: seq<NewEmoji>,
                            names: seq<string>, events: seq<CollectorEvent>, env: Env): (r: Outcome)
    ensures Emojis.FirstAnswer(ctxId, authorId, channelId, events).None? ==>
      r.answer == Some(Emojis.TIMEOUT_ANSWER) && r.created == [] && r.message.components == []
    ensures r.answer.Some? && Emojis.FirstAnswer(ctxId, authorId, channelId, events) == Some(Text.Decimal(ctxId) + "add") ==>
      r.answer.value == "Added " + Text.Decimal(|emojis|) + " emojis."
    ensures var first := Emojis.FirstAnswer(ctxId, authorId, channelId, events);
      first.Some? && first != Some(Text.Decimal(ctxId) + "add") ==> r.answer == Some(Emojis.CANCELLED) && r.created == []
    ensures Emojis.FirstAnswer(ctxId, authorId, channelId, events) == Some(Text.Decimal(ctxId) + "add") ==>
      var b := AddFrom(emojis, names, env, 0);
      (r.answer.None? <==> !b.flow.Continue?) && r.created == b.created && r.replies == b.replies &&
      (b.flow.Abort? ==> r.result == Err(b.flow.error)) && (b.flow.Stop? ==> r.result.Ok?)
    ensures r.answer.Some? ==> r.message.content == r.answer.value && r.message.components == [] && r.result.Ok?
    ensures r.answer.None? ==> r.message.components != []
  {
    var d := Text.Decimal(ctxId);
    var m := Message("Create " + Text.Decimal(|emojis|) + " emojis?", Emojis.Prompt(emojis), [Button(d + "add"), Button(d + "cancel")]);
    match Emojis.FirstAnswer(ctxId, authorId, channelId, events)
    case None => Outcome(Some(Emojis.TIMEOUT_ANSWER), Commands.RemoveComponentsButKeepEmbeds(m.(content := Emojis.TIMEOUT_ANSWER)), [], [], Ok(Unit))
    case Some(id) =>
      if id != d + "add" then
        Outcome(Some(Emojis.CANCELLED), Commands.RemoveComponentsButKeepEmbeds(m.(content := Emojis.CANCELLED)), [], [], Ok(Unit))
      else
        var b := AddFrom(emojis, names, env, 0);
        match b.flow
        case Stop => Outcome(None, m, b.created, b.replies, Ok(Unit))
        case Abort(e) => Outcome(None, m, b.created, b.replies, Err(e))
        case Continue =>
          var answer := "Added " + Text.Decimal(|emojis|) + " emojis.";
          Outcome(Some(answer), Commands.RemoveComponentsButKeepEmbeds(m.(content := answer)), b.created, b.replies, Ok(Unit))
  }

  /** When every download and creation succeeds and the offered names are
      new and distinct, the older count is right: all are created and the
      answer counts them. */
  lemma {:induction false} AllCreated(emojis: seq<NewEmoji>, names: seq<string>, env: Env, i: nat)
    requires i <= |emojis| && env.guildOk
    requires forall j | i <= j < |emojis| :: env.send(j) && env.body(j) && env.create(j).Ok? && emojis[j].name !in names
    requires forall a, b | i <= a < b < |emojis| :: emojis[a].name != emojis[b].name
    ensures AddFrom(emojis, names, env, i).flow == Continue
    ensures |AddFrom(emojis, names, env, i).created| == |emojis| - i
    decreases |emojis| - i
  {
    if i < |emojis| {
      var e := emojis[i];
      forall j | i + 1 <= j < |emojis| ensures emojis[j].name !in names + [e.name] {
        assert emojis[j].name != e.name;
      }
      AllCreated(emojis, names + [e.name], env, i + 1);
    }
  }

  /** The older count overstates: one offered emoji whose name the guild
      already has is not created, yet the answer says one was added. */
  lemma CountOverstates(ctxId: nat, authorId: nat, channelId: nat, e: NewEmoji, env: Env)
    requires env.guildOk && env.send(0) && env.body(0)
    ensures var ev := [Interacted(Interaction(channelId, authorId, Text.Decimal(ctxId) + "add"))];
      var r := ExtractAndUpload(ctxId, authorId, channelId, [e], [e.name], ev, env);
      r.created == [] && r.answer == Some("Added " + Text.Decimal(1) + " emojis.")
  {
    var ev := [Interacted(Interaction(channelId, authorId, Text.Decimal(ctxId) + "add"))];
    assert Emojis.FirstAnswer(ctxId, authorId, channelId, ev) == Some(Text.Decimal(ctxId) + "add");
    assert AddFrom([e], [e.name], env, 1) == Batch(Continue, [], []);
    assert AddFrom([e], [e.name], env, 0) == Batch(Continue, [], [DUPLICATE]);
  }

  /** The newer generation reports what was created for the same input. */
  lemma NewerCountsCreated(ctxId: nat, authorId: nat, channelId: nat, e: NewEmoji, env: Emojis.Env)
    requires env.guildOk && env.fetch(0) == Emojis.Fetched
    ensures var ev := [Interacted(Interaction(channelId, authorId, Text.Decimal(ctxId) + "add"))];
      var r := Emojis.ExtractAndUpload(ctxId, authorId, channelId, [e], [e.name], ev, env);
      r.created == [] && r.answer == "Added " + Text.Decimal(0) + " emojis."
  {
    var ev := [Interacted(Interaction(channelId, authorId, Text.Decimal(ctxId) + "add"))];
    assert Emojis.FirstAnswer(ctxId, authorId, channelId, ev) == Some(Text.Decimal(ctxId) + "add");
    assert Emojis.AddFrom([e], [e.name], env, 1, 0).created == [];
    assert Emojis.AddFrom([e], [e.name], env, 0, 1).created == [];
  }

  /** `upload` (older): refusals reply and return Ok. */
  function Upload(guildNames: Option<seq<string>>, name: string, contentType: Option<string>,
                  data: Result<Unit>, create: Result<nat>): (r: (Result<Unit>, seq<string>, bool))
    ensures contentType.None? || !("image/" <= contentType.value) ==> r == (Ok(Unit), [Emojis.NOT_AN_IMAGE], false)
    ensures r.2 ==> contentType.Some? && "image/" <= contentType.value
    ensures contentType.Some? && "image/" <= contentType.value ==>
      && r == AddEmoji(guildNames, name, data, contentType.value, create)
      && (r.2 <==> guildNames.Some? && name !in guildNames.value && data.Ok? && create.Ok?)
      && (r.2 ==> r.1 == ["Added new emoji " + CreatedMarkup(name, create.value, contentType.value)])
  {
    if contentType.None? || !("image/" <= contentType.value) then (Ok(Unit), [Emojis.NOT_AN_IMAGE], false)
    else AddEmoji(guildNames, name, data, contentType.value, create)
  }
}

=== FILE: legacy_feature_states.dfy ===
/** The older generation's select-menu encoding, which sends the state
    as an unsigned 32-bit value. The enum, `From<i64>`, colour and emoji
    maps of the older file are the same as the newer generation's and are
    shared with it. */
module LegacyFeatureStates {
  import opened Wrappers
  import Text
  import opened FeatureStates

  const TWO_POW_32: int := 0x1_0000_0000

  /** `v as u32` for an i64 `v`: the low 32 bits, read as unsigned. */
  function AsU32(v: int): (r: nat)
    ensures r < TWO_POW_32
    ensures (r - v) % TWO_POW_32 == 0
  {
    v % TWO_POW_32
  }

  /** `menu`: label from the derived display, value `state as u32`. */
  function Menu(s: State, display: State -> string): (o: MenuOption)
    ensures o.labelText == display(s) && o.emoji == EmojiOf(s)
    ensures s == All ==> o.value == Text.Decimal(Text.U32_MAX)
    ensures s != All ==> o.value == Text.IntDecimal(Discriminant(s))
  {
    var d := Discriminant(s);
    assert s == All ==> AsU32(d) == Text.U32_MAX by {
      if s == All { assert d == -1 && -1 % TWO_POW_32 == TWO_POW_32 - 1; }
    }
    assert s != All ==> AsU32(d) == d && Text.IntDecimal(d) == Text.Decimal(d) by {
      if s != All { assert 0 <= d < 4 && d % TWO_POW_32 == d; }
    }
    MenuOption(display(s), Text.Decimal(AsU32(d)), EmojiOf(s))
  }

  /** Every option still selects the state it was built from: All's
      wrapped value, the u32 maximum, lies outside 0..3 and so maps back to All. */
  lemma MenuRoundTrip(s: State, display: State -> string)
    ensures ParseSelection(Menu(s, display).value) == s
  {
    var v := AsU32(Discriminant(s));
    Text.ParseUnsignedDecimal(v, Text.U32_MAX);
    Text.ParseI64IntDecimal(v);
    FromDiscriminant(s);
  }
}

=== FILE: legacy_features.dfy ===
/** The older generation of the feature list: the same paging and filter,
    but the filter reads the first selected value without checking the
    payload kind, the state names come from a derived display that is not
    shown, the menu sends states as u32, and there is no delete. */
module LegacyFeatures {
  import opened Wrappers
  import opened Platform
  import Commands
  import opened FeatureStates
  import LegacyFeatureStates
  import F = Features

  /** A press carries the selected values; buttons carry none. */
  datatype Press = Press(channelId: nat, customId: string, values: seq<string>)

  function Step(ctxId: nat, v: F.View, p: Press, rows: seq<F.Feature>, display: State -> string): (r: Result<(F.View, F.Response)>)
    ensures F.Classify(ctxId, p.customId) == F.Unrelated ==> r == Ok((v, F.Ignored))
    ensures r.Err? <==> F.Classify(ctxId, p.customId) == F.Filter && |p.values| == 0
    ensures r.Ok? && F.Aligned(v) ==> F.Aligned(r.value.0)
  {
    match F.Classify(ctxId, p.customId)
    case Unrelated => Ok((v, F.Ignored))
    case Filter =>
      if |p.values| == 0 then Err(Failure(F.NO_VALUE))
      else Ok(F.Select(v, ParseSelection(p.values[0]), rows, display))
    case a => Ok(F.Navigate(v, a, rows, display))
  }

  /** The u32 menu values still select the state each option was made for. */
  lemma StepSelectsMenuOption(ctxId: nat, v: F.View, channelId: nat, t: State, rows: seq<F.Feature>, display: State -> string)
    ensures var r := Step(ctxId, v, Press(channelId, F.ButtonId(ctxId, "filter"), [LegacyFeatureStates.Menu(t, display).value]), rows, display);
      r.Ok? && (t != v.state ==> r.value.0 == F.View(t, 0, F.CountOf(rows, t)))
      && (t == v.state ==> r.value == (v, F.Ephemeral(F.ALREADY_SHOWING)))
  {
    F.ControlsClassify(ctxId);
    LegacyFeatureStates.MenuRoundTrip(t, display);
  }

  datatype Event = Pressed(press: Press, rows: seq<F.Feature>) | Timeout

  function Loop(ctxId: nat, channelId: nat, v: F.View, m: Message, events: seq<Event>, display: State -> string): (r: F.Outcome)
    ensures F.Aligned(v) ==> F.Aligned(r.view)
    ensures r.result.Ok? ==> r.message.components == []
    ensures |r.responses| <= |events|
    decreases |events|
  {
    if |events| == 0 || events[0].Timeout? then
      F.Outcome(v, Commands.RemoveComponentsButKeepEmbeds(m), [], Ok(Unit))
    else
      var p := events[0].press;
      if !F.Collected(ctxId, channelId, p.channelId, p.customId) then
        Loop(ctxId, channelId, v, m, events[1..], display)
      else
        match Step(ctxId, v, p, events[0].rows, display)
        case Err(e) => F.Outcome(v, m, [], Err(e))
        case Ok(step) =>
          var m' := if step.1.UpdateMessage? then m.(content := step.1.content, embeds := step.1.embeds) else m;
          var rest := Loop(ctxId, channelId, step.0, m', events[1..], display);
          F.Outcome(rest.view, rest.message, [step.1] + rest.responses, rest.result)
  }

  function List(ctxId: nat, channelId: nat, rows: seq<F.Feature>, events: seq<Event>, display: State -> string): (r: F.Outcome)
    ensures F.Aligned(r.view)
    ensures r.result.Ok? ==> r.message.components == []
  {
    var v := F.View(All, 0, F.CountOf(rows, All));
    var s := F.Show(rows, v, display);
    Loop(ctxId, channelId, v, Message(s.0, s.1, F.Controls(ctxId)), events, display)
  }
}

=== FILE: legacy_reminders.dfy ===
/** The older reminder commands: a parsed duration capped at one year
    instead of a date, and listing in storage order. */
module LegacyReminders {
  import opened Wrappers
  import opened Platform
  import Text
  import opened Reminders

  const ONE_HOUR_SECS: nat := 60 * 60
  const ONE_YEAR_SECS: nat := 365 * 24 * 60 * 60

  /** `add`: the duration is the parsed one capped at a year, or an hour.
      `duration` is what `parse_duration::parse` gave, in seconds. */
  function Add(
    rows: seq<Reminder>, channelId: nat, userId: Snowflake, content: string,
    duration: Option<Result<nat>>, now: int, sent: Result<nat>): (r: Outcome)
    ensures duration.Some? && duration.value.Err? ==> r == Outcome(rows, [], Err(duration.value.error))
    ensures r.result.Ok? <==> (duration.None? || duration.value.Ok?) && sent.Ok?
    ensures r.result.Ok? ==> |r.rows| == |rows| + 1 && r.rows[..|rows|] == rows
    ensures r.result.Ok? ==> now <= r.rows[|rows|].time <= now + ONE_YEAR_SECS
    ensures r.result.Ok? && duration.None? ==> r.rows[|rows|].time == now + ONE_HOUR_SECS
    ensures r.result.Ok? ==> r.rows[|rows|] == Reminder(channelId, sent.value, userId, content, r.rows[|rows|].time)
    ensures r.result.Ok? ==> r.replies == [SetFor(r.rows[|rows|].time)]
  {
    match duration
    case Some(Err(e)) => Outcome(rows, [], Err(e))
    case None => StoreCapped(rows, channelId, userId, content, ONE_HOUR_SECS, now, sent)
    case Some(Ok(secs)) => StoreCapped(rows, channelId, userId, content, secs, now, sent)
  }

  function StoreCapped(rows: seq<Reminder>, channelId: nat, userId: Snowflake, content: string, secs: nat, now: int, sent: Result<nat>): (r: Outcome)
    ensures r.result.Ok? <==> sent.Ok?
    ensures r.result.Ok? ==> |r.rows| == |rows| + 1 && r.rows[..|rows|] == rows
    ensures r.result.Ok? ==> r.rows[|rows|].time == now + (if secs < ONE_YEAR_SECS then secs else ONE_YEAR_SECS)
    ensures r.result.Ok? ==> r.rows[|rows|] == Reminder(channelId, sent.value, userId, content, r.rows[|rows|].time)
    ensures r.result.Err? ==> r.rows == rows
    ensures r.replies == [SetFor(now + (if secs < ONE_YEAR_SECS then secs else ONE_YEAR_SECS))]
  {
    var capped := if secs < ONE_YEAR_SECS then secs else ONE_YEAR_SECS;
    var r := Store(rows, channelId, userId, content, now + capped, sent);
    assert r.result.Ok? ==> r.rows[..|rows|] == rows;
    r
  }

  /** `list`: the selected reminders in storage order, with the same
      panicking cut as the newer listing. */
  function List(rows: seq<Reminder>, user: Option<(Snowflake, string)>): (r: Result<Embed>)
    ensures var (title, shown) := Selected(rows, user);
      && (r.Ok? <==> forall i | 0 <= i < |shown| :: FieldAsWritten(shown[i]).Ok?)
      && (r.Ok? ==> r.value.title == Some(title) && r.value.fields == FieldsAsWritten(shown).value)
  {
    var (title, shown) := Selected(rows, user);
    var fields :- FieldsAsWritten(shown);
    Ok(NewEmbed().(title := Some(title), fields := fields))
  }

  /** A reminder added by a user is the last one in that user's listing,
      after the ones the user had before. */
  lemma AddListedLast(
    rows: seq<Reminder>, channelId: nat, userId: Snowflake, name: string, content: string,
    duration: Option<Result<nat>>, now: int, sent: Result<nat>)
    requires Add(rows, channelId, userId, content, duration, now, sent).result.Ok?
    ensures var r := Add(rows, channelId, userId, content, duration, now, sent);
      Selected(r.rows, Some((userId, name))).1 == OfUser(rows, userId) + [r.rows[|rows|]]
  {
    var r := Add(rows, channelId, userId, content, duration, now, sent);
    assert r.rows == rows + [r.rows[|rows|]];
    OfUserAppend(rows, [r.rows[|rows|]], userId);
    assert OfUser([r.rows[|rows|]], userId) == [r.rows[|rows|]] by {
      assert [r.rows[|rows|]][1..] == [];
    }
  }
}

=== FILE: man.dfy ===
/** `man`: the output of the system's manual viewer, split into pages that
    fit a message, shown one at a time with prev/next buttons. */
module Man {
  import opened Wrappers
  import opened Platform
  import Text
  import Commands

  const VIEW_TIMEOUT_SECS: nat := 600
  /** 2000 bytes per message, less 25 for the page header. */
  const MSG_MAX_LEN: nat := 2000 - 25
  const NO_PAGE: string := "No man page available!"

  /** Index of the first '\n' in `s`, or `|s|` when there is none. */
  function LineEnd(s: string): (k: nat)
    ensures k <= |s|
    ensures forall i | 0 <= i < k :: s[i] != '\n'
    ensures k < |s| ==> s[k] == '\n'
  {
    if |s| == 0 || s[0] == '\n' then 0 else 1 + LineEnd(s[1..])
  }

  /** `str::lines`: split at '\n'; a '\r' just before a '\n' goes with the
      line ending; a final line ending adds no empty line. */
  function Lines(s: string): (r: seq<string>)
    ensures s == "" <==> r == []
    ensures forall i | 0 <= i < |r| :: '\n' !in r[i]
    decreases |s|
  {
    if |s| == 0 then []
    else
      var k := LineEnd(s);
      var line := s[..k];
      assert '\n' !in line by {
        forall j | 0 <= j < |line| ensures line[j] != '\n' { assert line[j] == s[j]; }
      }
      if k == |s| then [line]
      else
        var stripped := if |line| > 0 && line[|line| - 1] == '\r' then line[..|line| - 1] else line;
        assert forall j | 0 <= j < |stripped| :: stripped[j] == line[j];
        [stripped] + Lines(s[k + 1..])
  }

  /** Each line followed by '\n', concatenated. */
  function Terminated(lines: seq<string>): string {
    if |lines| == 0 then "" else lines[0] + "\n" + Terminated(lines[1..])
  }

  /** The loop of `get_pages` from the current page `msg` on: a page is
      closed before a line that would push it past the limit; the last
      page is always pushed. */
  function Fill(lines: seq<string>, msg: string): (r: seq<string>)
    ensures |r| >= 1
    decreases |lines|
  {
    if |lines| == 0 then [msg]
    else if Text.Utf8Len(msg) + Text.Utf8Len(lines[0]) + 1 > MSG_MAX_LEN then
      [msg] + Fill(lines[1..], lines[0] + "\n")
    else
      Fill(lines[1..], msg + lines[0] + "\n")
  }

  /** `get_pages` over the lines of the output: the first and last lines
      (the manual's header and footer) are dropped. */
  function GetPages(lines: seq<string>): (r: seq<string>)
    ensures |r| >= 1
    ensures |lines| <= 2 <==> r == [NO_PAGE]
  {
    if |lines| <= 2 then [NO_PAGE]
    else
      var pages := Fill(lines[1..|lines| - 1], "");
      assert pages[0] != NO_PAGE by {
        PagesAreTerminated(lines[1..|lines| - 1], "");
        assert NO_PAGE[|NO_PAGE| - 1] == '!';
      }
      pages
  }

  /** Every page the fill produces from an empty or terminated page is
      empty or ends in '\n'; the fixed message does not. */
  lemma {:induction false} PagesAreTerminated(lines: seq<string>, msg: string)
    requires msg == "" || msg[|msg| - 1] == '\n'
    ensures forall i | 0 <= i < |Fill(lines, msg)| ::
      Fill(lines, msg)[i] == "" || Fill(lines, msg)[i][|Fill(lines, msg)[i]| - 1] == '\n'
    decreases |lines|
  {
    if |lines| > 0 {
      var next := lines[0] + "\n";
      if Text.Utf8Len(msg) + Text.Utf8Len(lines[0]) + 1 > MSG_MAX_LEN {
        PagesAreTerminated(lines[1..], next);
      } else {
        PagesAreTerminated(lines[1..], msg + next);
        assert msg + lines[0] + "\n" == msg + next;
      }
    }
  }

  /** Nothing is lost or reordered: the pages concatenate to the page in
      progress followed by every remaining line and its '\n'. */
  lemma {:induction false} FillConcat(lines: seq<string>, msg: string)
    ensures Text.Concat(Fill(lines, msg)) == msg + Terminated(lines)
    decreases |lines|
  {
    if |lines| == 0 {
      Text.ConcatCons(msg, []);
    } else {
      var next := lines[0] + "\n";
      var rest := Terminated(lines[1..]);
      assert Terminated(lines) == next + rest;
      if Text.Utf8Len(msg) + Text.Utf8Len(lines[0]) + 1 > MSG_MAX_LEN {
        FillConcat(lines[1..], next);
        Text.ConcatCons(msg, Fill(lines[1..], next));
      } else {
        FillConcat(lines[1..], msg + lines[0] + "\n");
        Text.AppendLine(msg, lines[0], rest);
      }
    }
  }

  /** The pages are exactly the output without its first and last line. */
  lemma GetPagesConcat(lines: seq<string>)
    requires |lines| > 2
    ensures Text.Concat(GetPages(lines)) == Terminated(lines[1..|lines| - 1])
  {
    FillConcat(lines[1..|lines| - 1], "");
  }

  /** When no line (with its '\n') exceeds the limit, no page does. */
  lemma {:induction false} FillBounded(lines: seq<string>, msg: string)
    requires Text.Utf8Len(msg) <= MSG_MAX_LEN
    requires forall i | 0 <= i < |lines| :: Text.Utf8Len(lines[i]) + 1 <= MSG_MAX_LEN
    ensures forall i | 0 <= i < |Fill(lines, msg)| :: Text.Utf8Len(Fill(lines, msg)[i]) <= MSG_MAX_LEN
    decreases |lines|
  {
    if |lines| > 0 {
      var next := lines[0] + "\n";
      Text.Utf8LenAppend(lines[0], "\n");
      assert Text.Utf8Len("\n") == 1;
      if Text.Utf8Len(msg) + Text.Utf8Len(lines[0]) + 1 > MSG_MAX_LEN {
        FillBounded(lines[1..], next);
      } else {
        Text.Utf8LenAppend(msg, next);
        assert msg + lines[0] + "\n" == msg + next;
        FillBounded(lines[1..], msg + next);
      }
    }
  }

  lemma GetPagesBounded(lines: seq<string>)
    requires forall i | 0 <= i < |lines| :: Text.Utf8Len(lines[i]) + 1 <= MSG_MAX_LEN
    ensures forall i | 0 <= i < |GetPages(lines)| :: Text.Utf8Len(GetPages(lines)[i]) <= MSG_MAX_LEN
  {
    if |lines| > 2 {
      Text.AsciiUtf8Len("");
      FillBounded(lines[1..|lines| - 1], "");
    } else {
      Text.AsciiUtf8Len(NO_PAGE);
    }
  }

  /** next: one page on, the last wraps to the first. */
  function NextIdx(idx: nat, count: nat): (r: nat)
    requires idx < count
    ensures r == (idx + 1) % count
  {
    if idx + 1 >= count then 0 else idx + 1
  }

  /** prev: one page back, the first wraps to the last. */
  function PrevIdx(idx: nat, count: nat): (r: nat)
    requires idx < count
    ensures r == (idx + count - 1) % count
  {
    if idx > 0 then idx - 1 else count - 1
  }

  /** prev undoes next and next undoes prev. */
  lemma PrevNextInverse(idx: nat, count: nat)
    requires idx < count
    ensures PrevIdx(NextIdx(idx, count), count) == idx
    ensures NextIdx(PrevIdx(idx, count), count) == idx
  {
  }

  /** The message text for page `idx`. */
  function PageContent(pages: seq<string>, idx: nat): string
    requires idx < |pages|
  {
    "**Page " + Text.Decimal(idx + 1) + "/" + Text.Decimal(|pages|) + "**```" + pages[idx] + "```"
  }

  function Controls(ctxId: nat): seq<Component> {
    [Button(Text.Decimal(ctxId) + "prev"), Button(Text.Decimal(ctxId) + "next")]
  }

  /** The final page, the final message, and the page shown by each update. */
  datatype Outcome = Outcome(idx: nat, message: Message, updates: seq<nat>)

  /** The collector loop: prefix-filtered presses in the channel; unrelated
      ids are skipped; after the timeout the buttons are removed. */
  function Loop(ctxId: nat, channelId: nat, pages: seq<string>, idx: nat, m: Message, events: seq<CollectorEvent>): (r: Outcome)
    requires idx < |pages|
    ensures r.idx < |pages|
    ensures r.message.components == [] && r.message.embeds == m.embeds
    ensures |r.updates| <= |events|
    ensures forall k | 0 <= k < |r.updates| :: r.updates[k] < |pages|
    decreases |events|
  {
    if |events| == 0 || events[0].TimedOut? then
      Outcome(idx, Commands.TeardownWithContent(m, None), [])
    else
      var i := events[0].interaction;
      var d := Text.Decimal(ctxId);
      if i.channelId != channelId || !(d <= i.customId) then
        Loop(ctxId, channelId, pages, idx, m, events[1..])
      else if i.customId == d + "next" || i.customId == d + "prev" then
        var idx' := if i.customId == d + "next" then NextIdx(idx, |pages|) else PrevIdx(idx, |pages|);
        var rest := Loop(ctxId, channelId, pages, idx', m.(content := PageContent(pages, idx')), events[1..]);
        Outcome(rest.idx, rest.message, [idx'] + rest.updates)
      else
        Loop(ctxId, channelId, pages, idx, m, events[1..])
  }

  /** `man`: split the viewer's output into pages, show the first with the
      two buttons, then page on presses. */
  function Man(ctxId: nat, channelId: nat, output: string, events: seq<CollectorEvent>): (r: Outcome)
    ensures r.idx < |GetPages(Lines(output))|
    ensures r.message.components == []
  {
    var pages := GetPages(Lines(output));
    Loop(ctxId, channelId, pages, 0, Message(PageContent(pages, 0), [], Controls(ctxId)), events)
  }

  /** A press of neither button leaves the page and the message as they were. */
  lemma {:induction false} UnrelatedPressIgnored(ctxId: nat, channelId: nat, pages: seq<string>, idx: nat, m: Message, i: Interaction, events: seq<CollectorEvent>)
    requires idx < |pages|
    requires i.customId != Text.Decimal(ctxId) + "next" && i.customId != Text.Decimal(ctxId) + "prev"
    ensures Loop(ctxId, channelId, pages, idx, m, [Interacted(i)] + events) == Loop(ctxId, channelId, pages, idx, m, events)
  {
    assert ([Interacted(i)] + events)[1..] == events;
  }

  /** A next press on this invocation's message advances the shown page. */
  lemma NextPressAdvances(ctxId: nat, channelId: nat, pages: seq<string>, idx: nat, m: Message, events: seq<CollectorEvent>)
    requires idx < |pages|
    ensures var r := Loop(ctxId, channelId, pages, idx, m,
                          [Interacted(Interaction(channelId, 0, Text.Decimal(ctxId) + "next"))] + events);
      r.updates[0] == (idx + 1) % |pages|
  {
    assert ([Interacted(Interaction(channelId, 0, Text.Decimal(ctxId) + "next"))] + events)[1..] == events;
  }
}

=== FILE: meme.dfy ===
/** `parse_color` of the meme command: "R G B" text becomes an opaque
    colour. */
module Meme {
  import opened Wrappers
  import Text

  datatype Rgba = Rgba(r: nat, g: nat, b: nat, a: nat)

  const WHITE: Rgba := Rgba(255, 255, 255, 255)
  const NEED_THREE: string := "Invalid color format: need 3 colors"
  const BAD_CHANNEL_PREFIX: string := "Invalid color [0-255]: "

  /** `\d+` then a space, with the number of characters it spans. Since a
      space is not a digit, the greedy run is the only candidate. */
  function DigitsThen(s: string, sep: bool): Option<nat> {
    var n := Text.DigitRun(s);
    if n == 0 then None
    else if !sep then Some(n)
    else if n < |s| && s[n] == ' ' then Some(n + 1)
    else None
  }

  /** `\d+ \d+ \d+` matches starting at the front of `s`. */
  predicate ColourAt(s: string) {
    match DigitsThen(s, true)
    case None => false
    case Some(i) =>
      match DigitsThen(s[i..], true)
      case None => false
      case Some(j) => DigitsThen(s[i + j..], false).Some?
  }

  /** `COLOR_REGEX.is_match`: a match anywhere. */
  predicate IsMatch(s: string) {
    exists k | 0 <= k <= |s| :: ColourAt(s[k..])
  }

  /** Index of the first ' ', or `|s|`. */
  function SpaceAt(s: string): (k: nat)
    ensures k <= |s|
    ensures k < |s| ==> s[k] == ' '
  {
    if |s| == 0 || s[0] == ' ' then 0 else 1 + SpaceAt(s[1..])
  }

  /** No space comes before the first one. */
  lemma {:induction false} SpaceAtFirst(s: string, p: nat)
    requires p < |s| && s[p] == ' '
    ensures SpaceAt(s) <= p
  {
    if s[0] != ' ' {
      assert s[1..][p - 1] == ' ';
      SpaceAtFirst(s[1..], p - 1);
    }
  }

  /** `splitn(n, " ")`: at most `n` parts, the last one keeping any
      further spaces. */
  function SplitN(s: string, n: nat): (r: seq<string>)
    requires n >= 1
    ensures 1 <= |r| <= n
    decreases n
  {
    var k := SpaceAt(s);
    if n == 1 || k == |s| then [s] else [s[..k]] + SplitN(s[k + 1..], n - 1)
  }

  /** Joining the parts with single spaces gives the input back. */
  lemma {:induction false} SplitNJoin(s: string, n: nat)
    requires n >= 1
    ensures Text.Join(SplitN(s, n), " ") == s
    decreases n
  {
    var k := SpaceAt(s);
    if n == 1 || k == |s| {
      assert SplitN(s, n) == [s];
    } else {
      SplitNJoin(s[k + 1..], n - 1);
      SplitNCons(s, n);
      Text.JoinCons(s[..k], SplitN(s[k + 1..], n - 1), " ");
    }
  }

  /** One split step: the part before the first space, the space, the rest. */
  lemma SplitNCons(s: string, n: nat)
    requires n > 1 && SpaceAt(s) < |s|
    ensures var k := SpaceAt(s);
      && SplitN(s, n) == [s[..k]] + SplitN(s[k + 1..], n - 1)
      && s == s[..k] + " " + s[k + 1..]
  {
    Text.Around(s, SpaceAt(s));
  }

  /** Parse each part as `u8`, stopping at the first failure. */
  function ParseChannels(parts: seq<string>): (r: Result<seq<nat>>)
    ensures r.Ok? <==> forall i | 0 <= i < |parts| :: Text.ParseUnsigned(parts[i], Text.U8_MAX).Some?
    ensures r.Ok? ==> |r.value| == |parts|
    ensures r.Ok? ==> forall i | 0 <= i < |parts| :: r.value[i] == Text.ParseUnsigned(parts[i], Text.U8_MAX).value
  {
    if |parts| == 0 then Ok([])
    else
      Text.FromStrAgrees(parts[0], Text.U8_MAX);
      match Text.FromStrUnsigned(parts[0], Text.U8_MAX)
      case Rejected(kind) => Err(Failure(BAD_CHANNEL_PREFIX + Text.IntErrorText(kind)))
      case Parsed(v) =>
        match ParseChannels(parts[1..])
        case Err(e) => Err(e)
        case Ok(vs) => Ok([v] + vs)
  }

  /** `parse_color`: the text must contain three space-separated numbers
      somewhere; then its first three space-separated parts must each be a
      byte, in the order red, green, blue; alpha is always opaque. */
  function ParseColor(colour: string): (r: Result<Rgba>)
    ensures !IsMatch(colour) ==> r == Err(Failure(NEED_THREE))
    ensures r.Ok? ==> r.value.a == 255 && r.value.r <= 255 && r.value.g <= 255 && r.value.b <= 255
    ensures r.Ok? ==> IsMatch(colour)
  {
    if !IsMatch(colour) then Err(Failure(NEED_THREE))
    else
      var parts := SplitN(colour, 3);
      match ParseChannels(parts)
      case Err(e) => Err(e)
      case Ok(vs) =>
        MatchSplitsInThree(colour);
        Ok(Rgba(vs[0], vs[1], vs[2], 255))
  }

  /** A match contains two spaces, so the split always yields three parts
      (the four-element array the source builds always exists). */
  lemma MatchSplitsInThree(s: string)
    ensures IsMatch(s) ==> |SplitN(s, 3)| == 3
  {
    if IsMatch(s) {
      var k :| 0 <= k <= |s| && ColourAt(s[k..]);
      var p := ColourSpacesFrom(s, k);
      TwoSpaces(s, p.0, p.1);
    }
  }

  /** The two spaces of a match starting at `k`. */
  function ColourSpacesFrom(s: string, k: nat): (p: (nat, nat))
    requires k <= |s| && ColourAt(s[k..])
    ensures p.0 < p.1 < |s| && s[p.0] == ' ' && s[p.1] == ' '
  {
    var p := ColourSpaces(s[k..]);
    assert s[k + p.0] == s[k..][p.0] && s[k + p.1] == s[k..][p.1];
    (k + p.0, k + p.1)
  }

  /** The two spaces of a match at the front. */
  function ColourSpaces(t: string): (p: (nat, nat))
    requires ColourAt(t)
    ensures p.0 < p.1 < |t| && t[p.0] == ' ' && t[p.1] == ' '
  {
    var i := DigitsThen(t, true).value;
    DigitsThenSpace(t, i);
    var j := DigitsThen(t[i..], true).value;
    DigitsThenSpace(t[i..], j);
    assert t[i..][j - 1] == t[i + j - 1];
    (i - 1, i + j - 1)
  }

  /** A number followed by a space ends in that space. */
  lemma DigitsThenSpace(t: string, i: nat)
    requires DigitsThen(t, true) == Some(i)
    ensures 2 <= i <= |t| && t[i - 1] == ' '
  {
  }

  /** Two spaces anywhere give three parts. */
  lemma TwoSpaces(s: string, p: nat, q: nat)
    requires p < q < |s| && s[p] == ' ' && s[q] == ' '
    ensures |SplitN(s, 3)| == 3
  {
    SpaceAtFirst(s, p);
    var a := SpaceAt(s);
    var rest := s[a + 1..];
    SplitAtSpace(s, 3);
    assert rest[q - (a + 1)] == ' ';
    SpaceAtFirst(rest, q - (a + 1));
    SplitAtSpace(rest, 2);
  }

  /** A text with a space splits there first. */
  lemma SplitAtSpace(s: string, n: nat)
    requires n > 1 && SpaceAt(s) < |s|
    ensures |SplitN(s, n)| == 1 + |SplitN(s[SpaceAt(s) + 1..], n - 1)|
  {
  }

  /** `color.map_or(Ok(WHITE), parse_color)`. */
  function Colour(colour: Option<string>): (r: Result<Rgba>)
    ensures colour.None? ==> r == Ok(WHITE)
    ensures colour.Some? ==> r == ParseColor(colour.value)
  {
    match colour
    case None => Ok(WHITE)
    case Some(c) => ParseColor(c)
  }

  /** Three parts joined by spaces split back into them when the first two
      hold no space. */
  lemma SplitThree(a: string, b: string, c: string)
    requires ' ' !in a && ' ' !in b
    ensures SplitN(a + " " + b + " " + c, 3) == [a, b, c]
  {
    var s := a + " " + b + " " + c;
    var t := b + " " + c;
    assert s == a + " " + t;
    SpaceAfter(a, t);
    assert s[..|a|] == a;
    assert s[|a| + 1..] == t;
    SpaceAfter(b, c);
    assert t[..|b|] == b;
    assert t[|b| + 1..] == c;
    assert SplitN(t, 2) == [b] + SplitN(c, 1);
    assert SplitN(s, 3) == [a] + SplitN(t, 2);
  }

  lemma {:induction false} SpaceAfter(d: string, rest: string)
    requires ' ' !in d
    ensures SpaceAt(d + " " + rest) == |d|
    decreases |d|
  {
    if |d| > 0 {
      assert (d + " " + rest)[1..] == d[1..] + " " + rest;
      SpaceAfter(d[1..], rest);
    }
  }

  /** Three numbers separated by single spaces match the pattern. */
  lemma TripleMatches(a: string, b: string, c: string)
    requires Text.AllDigits(a) && Text.AllDigits(b) && Text.AllDigits(c)
    requires |a| > 0 && |b| > 0 && |c| > 0
    ensures IsMatch(a + " " + b + " " + c)
  {
    var s := a + " " + b + " " + c;
    assert s == a + " " + (b + " " + c);
    NumberThenSpace(a, b + " " + c);
    assert s[|a| + 1..] == b + " " + c;
    NumberThenSpace(b, c);
    assert (b + " " + c)[|b| + 1..] == c;
    Text.DigitRunOf(c, "");
    assert c + "" == c;
    assert s[0..] == s;
  }

  /** Three bytes written as "R G B" come back as that colour. */
  lemma ParseColorRoundTrip(r: nat, g: nat, b: nat)
    requires r <= 255 && g <= 255 && b <= 255
    ensures ParseColor(Text.Decimal(r) + " " + Text.Decimal(g) + " " + Text.Decimal(b)) == Ok(Rgba(r, g, b, 255))
  {
    var dr, dg, db := Text.Decimal(r), Text.Decimal(g), Text.Decimal(b);
    TripleMatches(dr, dg, db);
    DecimalNoSpace(r);
    DecimalNoSpace(g);
    SplitThree(dr, dg, db);
    Text.ParseUnsignedDecimal(r, Text.U8_MAX);
    Text.ParseUnsignedDecimal(g, Text.U8_MAX);
    Text.ParseUnsignedDecimal(b, Text.U8_MAX);
    ThreeChannels(dr, dg, db, r, g, b);
    ParseColorOk(dr + " " + dg + " " + db, [dr, dg, db], [r, g, b]);
  }

  lemma DecimalNoSpace(n: nat)
    ensures ' ' !in Text.Decimal(n)
  {
    var d := Text.Decimal(n);
    assert forall i | 0 <= i < |d| :: Text.IsAsciiDigit(d[i]);
  }

  lemma ThreeChannels(a: string, b: string, c: string, x: nat, y: nat, z: nat)
    requires Text.ParseUnsigned(a, Text.U8_MAX) == Some(x)
    requires Text.ParseUnsigned(b, Text.U8_MAX) == Some(y)
    requires Text.ParseUnsigned(c, Text.U8_MAX) == Some(z)
    ensures ParseChannels([a, b, c]) == Ok([x, y, z])
  {
    var parts := [a, b, c];
    assert forall i | 0 <= i < 3 :: Text.ParseUnsigned(parts[i], Text.U8_MAX).Some?;
    var vs := ParseChannels(parts).value;
    assert |vs| == 3 && vs[0] == x && vs[1] == y && vs[2] == z;
    assert vs == [x, y, z];
  }

  lemma ParseColorOk(s: string, parts: seq<string>, vs: seq<nat>)
    ensures IsMatch(s) && SplitN(s, 3) == parts && ParseChannels(parts) == Ok(vs) && |vs| == 3 ==>
      ParseColor(s) == Ok(Rgba(vs[0], vs[1], vs[2], 255))
  {
  }

  lemma NumberThenSpace(d: string, rest: string)
    requires Text.AllDigits(d) && |d| > 0
    ensures DigitsThen(d + " " + rest, true) == Some(|d| + 1)
  {
    assert d + " " + rest == d + (" " + rest);
    Text.DigitRunOf(d, " " + rest);
  }

  /** A fourth space-separated part stays in the third one, which then is
      not a byte: "1 2 3 4" is refused. */
  lemma ExtraPartRejected(a: string, b: string, c: string, d: string)
    requires ' ' !in a && ' ' !in b
    ensures ParseColor(a + " " + b + " " + c + " " + d).Err?
  {
    var s := a + " " + b + " " + c + " " + d;
    var third := c + " " + d;
    assert s == a + " " + b + " " + third;
    SplitThree(a, b, third);
    SpacedNotByte(c, d);
    NoThirdChannel(a, b, third);
    ParseColorErr(s, [a, b, third]);
  }

  lemma SpacedNotByte(c: string, d: string)
    ensures Text.ParseUnsigned(c + " " + d, Text.U8_MAX).None?
  {
    var t := c + " " + d;
    assert t[|c|] == ' ';
    if |t| > 0 && t[0] == '+' {
      assert t[1..][|c| - 1] == ' ';
      assert !Text.AllDigits(t[1..]) by { assert !Text.IsAsciiDigit(t[1..][|c| - 1]); }
    } else {
      assert !Text.AllDigits(t) by { assert !Text.IsAsciiDigit(t[|c|]); }
    }
  }

  lemma NoThirdChannel(a: string, b: string, c: string)
    requires Text.ParseUnsigned(c, Text.U8_MAX).None?
    ensures ParseChannels([a, b, c]).Err?
  {
    assert [a, b, c][2] == c;
  }

  lemma ParseColorErr(s: string, parts: seq<string>)
    requires SplitN(s, 3) == parts && ParseChannels(parts).Err?
    ensures ParseColor(s).Err?
  {
  }
}

=== FILE: mensa.dfy ===
/** The canteen menus (`mensa next`, `mensa week`, `mensa list`): canteens
    and weekly menus come from the eat-api, looked up by a normalised
    name, for the next weekday. Days are local day numbers (see
    `Calendar`). */
module Mensa {
  import opened Wrappers
  import Text
  import Utf8
  import Calendar
  import Platform
  import PercentEncoding

  const EAT_API_URL: string := "https://tum-dev.github.io/eat-api"
  const GOOGLE_MAPS_SEARCH_URL: string := "https://www.google.de/maps/place/"
  const FIELDS_PER_EMBED: nat := 25
  const DEFAULT_CANTEEN: string := "Mensa Garching"
  const CANTEEN_NOT_FOUND: string := "Canteen not found"
  const MENU_CLOSED: string := "No menu found, maybe the mensa is closed?"
  const MENU_FETCH_FAILED: string := "Menu fetching failed"
  const NO_MENU_TODAY: string := "No menu available for today."
  const LIST_TITLE: string := "List of all canteens"
  /** From this hour on, the next day's menu is shown. */
  const SWITCH_HOUR: nat := 20

  datatype Canteen = Canteen(name: string, canteenId: string, queueStatus: Option<string>, address: string)
  datatype Dish = Dish(name: string, dishType: string, labels: seq<string>)
  datatype DayMenu = DayMenu(date: string, dishes: seq<Dish>)
  datatype WeekMenu = WeekMenu(year: int, days: seq<DayMenu>)

  /** What the menu request yields: no answer at all, or an HTTP status
      with the body as it parses. */
  datatype Response = SendFailed(message: string) | Status(code: nat, body: Body)

  /** A response body: the week's menu, or the reason it does not parse. */
  datatype Body = Parsed(menu: WeekMenu) | Unparsable(message: string)

  /** A reply: its text and its embeds. */
  datatype Reply = Reply(content: string, embeds: seq<Platform.Embed>)

  // ---------------------------------------------------------------------
  // Choosing the day

  predicate IsWeekend(day: int) {
    Calendar.Weekday(day) >= 5
  }

  /** The first weekday from `day` on. */
  function SkipWeekend(day: int): (r: int)
    ensures !IsWeekend(r)
    ensures r == day + if IsWeekend(day) then 7 - Calendar.Weekday(day) else 0
    ensures forall d | day <= d < r :: IsWeekend(d)
    decreases if IsWeekend(day) then 7 - Calendar.Weekday(day) else 0
  {
    if IsWeekend(day) then
      Calendar.WeekdayNext(day);
      SkipWeekend(day + 1)
    else day
  }

  /** `next_week_day`: from 20:00 on the next day counts, and a weekend
      day moves on to Monday. */
  function NextWeekDay(day: int, hour: nat): (r: int)
    ensures !IsWeekend(r)
    ensures day <= r <= day + 3
    ensures hour < SWITCH_HOUR && !IsWeekend(day) ==> r == day
    ensures hour >= SWITCH_HOUR ==> r > day
    ensures forall d | (if hour >= SWITCH_HOUR then day + 1 else day) <= d < r :: IsWeekend(d)
  {
    SkipWeekend(if hour >= SWITCH_HOUR then day + 1 else day)
  }

  // ---------------------------------------------------------------------
  // Finding the canteen

  /** The string without spaces and hyphens. */
  function StripSeparators(s: string): (r: string)
    ensures |r| <= |s|
    ensures ' ' !in r && '-' !in r
    ensures forall c | c in r :: c in s
  {
    if |s| == 0 then ""
    else
      var rest := StripSeparators(s[1..]);
      assert forall c | c in s[1..] :: c in s;
      (if s[0] == ' ' || s[0] == '-' then "" else [s[0]]) + rest
  }

  /** Stripping distributes over concatenation. */
  lemma {:induction false} StripAppend(a: string, b: string)
    ensures StripSeparators(a + b) == StripSeparators(a) + StripSeparators(b)
  {
    if |a| > 0 {
      assert (a + b)[1..] == a[1..] + b;
      StripAppend(a[1..], b);
    } else {
      assert a + b == b;
    }
  }

  /** A string without separators is kept as it is. */
  lemma {:induction false} StripNone(s: string)
    requires ' ' !in s && '-' !in s
    ensures StripSeparators(s) == s
  {
    if |s| > 0 {
      assert s[0] in s;
      assert forall c | c in s[1..] :: c in s;
      StripNone(s[1..]);
      assert [s[0]] + s[1..] == s;
    }
  }

  /** `normalize`: transliterated to ASCII by `deunicode`, lower-cased,
      spaces and hyphens dropped. */
  function Normalize(s: string, deunicode: string -> string): (r: string)
    ensures ' ' !in r && '-' !in r
    ensures forall c | c in r :: !Text.IsAsciiUpper(c)
  {
    var lower := Text.AsciiLower(deunicode(s));
    var r := StripSeparators(lower);
    assert forall c | c in r :: c in lower;
    r
  }

  /** `autocomplete_canteen`: the names of the canteens whose normalised
      name contains the normalised partial text, in list order; nothing if
      the canteens cannot be fetched. */
  function Autocomplete(canteens: Result<seq<Canteen>>, partial: string, deunicode: string -> string): (r: seq<string>)
    ensures canteens.Err? ==> r == []
    ensures canteens.Ok? ==> forall n :: n in r <==>
      exists c | c in canteens.value :: c.name == n && Text.Contains(Normalize(c.name, deunicode), Normalize(partial, deunicode))
  {
    match canteens
    case Err(_) => []
    case Ok(cs) => Names(cs, Normalize(partial, deunicode), deunicode)
  }

  function Names(cs: seq<Canteen>, key: string, deunicode: string -> string): (r: seq<string>)
    ensures |r| <= |cs|
    ensures forall n :: n in r <==> exists c | c in cs :: c.name == n && Text.Contains(Normalize(c.name, deunicode), key)
  {
    if |cs| == 0 then []
    else
      var rest := Names(cs[1..], key, deunicode);
      assert forall c | c in cs[1..] :: c in cs;
      assert forall c | c in cs && c != cs[0] :: c in cs[1..];
      (if Text.Contains(Normalize(cs[0].name, deunicode), key) then [cs[0].name] else []) + rest
  }

  /** A single canteen is offered once, by its name, exactly when its
      normalised name contains the key. */
  lemma NamesOne(c: Canteen, key: string, deunicode: string -> string)
    ensures Names([c], key, deunicode) == if Text.Contains(Normalize(c.name, deunicode), key) then [c.name] else []
  {
    assert [c][1..] == [];
  }

  /** Names keeps list order and multiplicity: the names offered for `a + b`
      are those for `a` followed by those for `b`. */
  lemma {:induction false} NamesAppend(a: seq<Canteen>, b: seq<Canteen>, key: string, deunicode: string -> string)
    ensures Names(a + b, key, deunicode) == Names(a, key, deunicode) + Names(b, key, deunicode)
    decreases |a|
  {
    if |a| == 0 {
      assert a + b == b;
    } else {
      assert (a + b)[0] == a[0] && (a + b)[1..] == a[1..] + b;
      NamesAppend(a[1..], b, key, deunicode);
      var h := if Text.Contains(Normalize(a[0].name, deunicode), key) then [a[0].name] else [];
      assert h + (Names(a[1..], key, deunicode) + Names(b, key, deunicode))
          == (h + Names(a[1..], key, deunicode)) + Names(b, key, deunicode);
    }
  }

  /** The suggestions for a concatenated list are the suggestions for each
      part in turn, so duplicates are offered as often as they occur. */
  lemma AutocompleteAppend(a: seq<Canteen>, b: seq<Canteen>, partial: string, deunicode: string -> string)
    ensures Autocomplete(Ok(a + b), partial, deunicode)
         == Autocomplete(Ok(a), partial, deunicode) + Autocomplete(Ok(b), partial, deunicode)
  {
    NamesAppend(a, b, Normalize(partial, deunicode), deunicode);
  }

  /** `find`: the first canteen whose normalised name contains the key. */
  function Find(cs: seq<Canteen>, key: string, deunicode: string -> string): (r: Option<nat>)
    ensures r.Some? ==> r.value < |cs| && Text.Contains(Normalize(cs[r.value].name, deunicode), key)
    ensures r.Some? ==> forall j | 0 <= j < r.value :: !Text.Contains(Normalize(cs[j].name, deunicode), key)
    ensures r.None? ==> forall j | 0 <= j < |cs| :: !Text.Contains(Normalize(cs[j].name, deunicode), key)
  {
    if |cs| == 0 then None
    else if Text.Contains(Normalize(cs[0].name, deunicode), key) then Some(0)
    else
      match Find(cs[1..], key, deunicode)
      case None => None
      case Some(i) => Some(i + 1)
  }

  /** The key as the code chooses it: with no name given, the literal
      default name, which is not normalised. */
  function SearchKeyAsWritten(name: Option<string>, deunicode: string -> string): string {
    match name
    case None => DEFAULT_CANTEEN
    case Some(n) => Normalize(n, deunicode)
  }

  /** The key with the default normalised like any given name. */
  function SearchKey(name: Option<string>, deunicode: string -> string): (r: string)
    ensures ' ' !in r && '-' !in r
  {
    Normalize(match name case None => DEFAULT_CANTEEN case Some(n) => n, deunicode)
  }

  /** A needle that holds a character the haystack lacks is not in it. */
  lemma {:induction false} ContainsChar(haystack: string, needle: string, c: char)
    requires c in needle && c !in haystack
    ensures !Text.Contains(haystack, needle)
  {
    Text.ContainsIff(haystack, needle);
  }

  /** A string contains itself. */
  lemma ContainsSelf(s: string)
    ensures Text.Contains(s, s)
  {
  }

  // ---------------------------------------------------------------------
  // The menu's address

  /** The menu address as the code builds it: the calendar year of the day
      next to the ISO 8601 week number. */
  function MenuUrlAsWritten(canteenId: string, day: int): string {
    EAT_API_URL + "/" + canteenId + "/" + Text.IntDecimal(Calendar.CivilFromDays(day).year)
      + "/" + Text.ZeroPad(Calendar.IsoWeek(day), 2) + ".json"
  }

  /** The menu address with the week's own ISO 8601 year. */
  function MenuUrl(canteenId: string, day: int): string {
    EAT_API_URL + "/" + canteenId + "/" + Text.IntDecimal(Calendar.IsoYear(day))
      + "/" + Text.ZeroPad(Calendar.IsoWeek(day), 2) + ".json"
  }

  /** Every day of a Monday-to-Sunday week asks for the same menu. */
  lemma SameWeekSameUrl(canteenId: string, monday: int, k: int)
    requires Calendar.Weekday(monday) == 0 && 0 <= k < 7
    ensures MenuUrl(canteenId, monday + k) == MenuUrl(canteenId, monday)
  {
    Calendar.SameIsoWeek(monday, k);
  }

  /** The two addresses agree whenever the week's Thursday lies in the
      day's calendar year. */
  lemma UrlsAgreeInsideYear(canteenId: string, day: int)
    ensures Calendar.CivilFromDays(day).year == Calendar.IsoYear(day) ==>
      MenuUrlAsWritten(canteenId, day) == MenuUrl(canteenId, day)
  {
  }

  /** Monday 2024-12-30 (day 20087) and Friday 2025-01-03 (day 20091) are
      in the same ISO 8601 week, yet the code asks for that week of 2024 on
      the Monday and of 2025 on the Friday. */
  lemma YearEndMismatch(canteenId: string)
    ensures Calendar.Weekday(20087) == 0 && Calendar.Weekday(20091) == 4
    ensures MenuUrl(canteenId, 20087) == MenuUrl(canteenId, 20091)
    ensures MenuUrlAsWritten(canteenId, 20087) != MenuUrlAsWritten(canteenId, 20091)
  {
    SameWeekSameUrl(canteenId, 20087, 4);
    Calendar.SameIsoWeek(20087, 4);
    YearEndUrls(canteenId);
    DifferentYears(canteenId, Text.ZeroPad(Calendar.IsoWeek(20087), 2));
  }

  lemma YearEndUrls(canteenId: string)
    ensures var week := Text.ZeroPad(Calendar.IsoWeek(20087), 2);
      && MenuUrlAsWritten(canteenId, 20087) == EAT_API_URL + "/" + canteenId + "/" + Text.Decimal(2024) + "/" + week + ".json"
      && MenuUrlAsWritten(canteenId, 20091) == EAT_API_URL + "/" + canteenId + "/" + Text.Decimal(2025) + "/" + week + ".json"
  {
    Calendar.YearEnd2024();
    Calendar.SameIsoWeek(20087, 4);
    AsWrittenYear(canteenId, 20087, 2024);
    AsWrittenYear(canteenId, 20091, 2025);
  }

  lemma DifferentYears(canteenId: string, week: string)
    ensures EAT_API_URL + "/" + canteenId + "/" + Text.Decimal(2024) + "/" + week + ".json"
      != EAT_API_URL + "/" + canteenId + "/" + Text.Decimal(2025) + "/" + week + ".json"
  {
    assert Text.Decimal(2024) == "2024" && Text.Decimal(2025) == "2025";
    DifferentMiddle(EAT_API_URL + "/" + canteenId + "/", "2024", "2025", week);
  }

  lemma AsWrittenYear(canteenId: string, day: int, year: nat)
    requires Calendar.CivilFromDays(day).year == year
    ensures MenuUrlAsWritten(canteenId, day)
      == EAT_API_URL + "/" + canteenId + "/" + Text.Decimal(year) + "/" + Text.ZeroPad(Calendar.IsoWeek(day), 2) + ".json"
  {
  }

  /** Strings that differ only in an equally long middle part differ. */
  lemma DifferentMiddle(pre: string, a: string, b: string, week: string)
    requires |a| == |b| && a != b
    ensures pre + a + "/" + week + ".json" != pre + b + "/" + week + ".json"
  {
    var k :| 0 <= k < |a| && a[k] != b[k];
    assert (pre + a + "/" + week + ".json")[|pre| + k] == a[k];
    assert (pre + b + "/" + week + ".json")[|pre| + k] == b[k];
  }

  // ---------------------------------------------------------------------
  // get_menu

  /** `get_menu` with the search key and the address as given: `canteens`
      is the fetched canteen list, `day` the chosen day, `fetch` the answer
      to a request for an address. */
  function GetMenuWith(key: string, canteens: Result<seq<Canteen>>, deunicode: string -> string,
                       day: int, url: (string, int) -> string, fetch: string -> Response): (r: Result<(Canteen, WeekMenu)>)
  {
    match canteens
    case Err(e) => Err(e)
    case Ok(cs) =>
      match Find(cs, key, deunicode)
      case None => Err(UserError(CANTEEN_NOT_FOUND))
      case Some(i) =>
        match fetch(url(cs[i].canteenId, day))
        case SendFailed(m) => Err(Failure(m))
        case Status(code, body) =>
          if code == 404 then Err(Failure(MENU_CLOSED))
          else if 400 <= code < 600 then Err(Failure(MENU_FETCH_FAILED))
          else match body
            case Unparsable(m) => Err(Failure(m))
            case Parsed(menu) => Ok((cs[i], menu))
  }

  /** No normalised name contains the literal default name: normalising
      removes its space. */
  lemma DefaultKeyAbsent(cs: seq<Canteen>, deunicode: string -> string)
    ensures Find(cs, DEFAULT_CANTEEN, deunicode).None?
  {
    forall j | 0 <= j < |cs|
      ensures !Text.Contains(Normalize(cs[j].name, deunicode), DEFAULT_CANTEEN)
    {
      assert DEFAULT_CANTEEN[5] == ' ';
      ContainsChar(Normalize(cs[j].name, deunicode), DEFAULT_CANTEEN, ' ');
    }
  }

  /** `get_menu` as the code does it. */
  function GetMenuAsWritten(name: Option<string>, canteens: Result<seq<Canteen>>, deunicode: string -> string,
                            day: int, fetch: string -> Response): (r: Result<(Canteen, WeekMenu)>)
    ensures canteens.Ok? && name.None? ==> r == Err(UserError(CANTEEN_NOT_FOUND))
  {
    assert canteens.Ok? && name.None? ==> Find(canteens.value, DEFAULT_CANTEEN, deunicode).None? by {
      if canteens.Ok? && name.None? {
        DefaultKeyAbsent(canteens.value, deunicode);
      }
    }
    GetMenuWith(SearchKeyAsWritten(name, deunicode), canteens, deunicode, day, MenuUrlAsWritten, fetch)
  }

  /** `get_menu` with both corrections: the default name normalised, and
      the ISO year in the address. */
  function GetMenu(name: Option<string>, canteens: Result<seq<Canteen>>, deunicode: string -> string,
                   day: int, fetch: string -> Response): (r: Result<(Canteen, WeekMenu)>)
    ensures canteens.Err? ==> r == Err(canteens.error)
    ensures canteens.Ok? && Find(canteens.value, SearchKey(name, deunicode), deunicode).None? ==>
      r == Err(UserError(CANTEEN_NOT_FOUND))
    ensures r.Ok? ==>
      var i := Find(canteens.value, SearchKey(name, deunicode), deunicode);
      var answer := fetch(MenuUrl(r.value.0.canteenId, day));
      && i.Some? && r.value.0 == canteens.value[i.value]
      && answer.Status? && !(400 <= answer.code < 600) && answer.body == Parsed(r.value.1)
    ensures canteens.Ok? && Find(canteens.value, SearchKey(name, deunicode), deunicode).Some? ==>
      var c := canteens.value[Find(canteens.value, SearchKey(name, deunicode), deunicode).value];
      var answer := fetch(MenuUrl(c.canteenId, day));
      && (answer.Status? && answer.code == 404 ==> r == Err(Failure(MENU_CLOSED)))
      && (answer.Status? && answer.code != 404 && 400 <= answer.code < 600 ==> r == Err(Failure(MENU_FETCH_FAILED)))
      && r != Err(UserError(CANTEEN_NOT_FOUND))
  {
    GetMenuWith(SearchKey(name, deunicode), canteens, deunicode, day, MenuUrl, fetch)
  }

  /** With the correction, leaving the name out finds a canteen named
      "Mensa Garching" whenever the list has one (and no earlier canteen
      matches). */
  lemma DefaultFindsGarching(canteens: seq<Canteen>, deunicode: string -> string, i: nat)
    requires i < |canteens| && canteens[i].name == DEFAULT_CANTEEN
    ensures Find(canteens, SearchKey(None, deunicode), deunicode).Some?
    ensures Find(canteens, SearchKey(None, deunicode), deunicode).value <= i
  {
    ContainsSelf(Normalize(DEFAULT_CANTEEN, deunicode));
  }

  /** As written, leaving the name out fails whatever the list holds, even
      when it has a canteen called exactly "Mensa Garching"; corrected, such
      a list gets past the search. */
  lemma DefaultNeverFound(cs: seq<Canteen>, deunicode: string -> string, day: int, fetch: string -> Response, i: nat)
    requires i < |cs| && cs[i].name == DEFAULT_CANTEEN
    ensures GetMenuAsWritten(None, Ok(cs), deunicode, day, fetch) == Err(UserError(CANTEEN_NOT_FOUND))
    ensures GetMenu(None, Ok(cs), deunicode, day, fetch) != Err(UserError(CANTEEN_NOT_FOUND))
  {
    DefaultFindsGarching(cs, deunicode, i);
  }

  // ---------------------------------------------------------------------
  // Replies

  /** `link_location`: the maps search address followed by the canteen's
      address, its UTF-8 bytes percent-encoded. */
  function LinkLocation(c: Canteen): (r: string)
    ensures GOOGLE_MAPS_SEARCH_URL <= r
    ensures forall i | |GOOGLE_MAPS_SEARCH_URL| <= i < |r| :: Text.IsAsciiAlnum(r[i]) || r[i] == '%'
    ensures match PercentEncoding.Decode(r[|GOOGLE_MAPS_SEARCH_URL|..])
      case Some(bytes) => Utf8.Decode(bytes) == Some(c.address)
      case None => false
  {
    var encoded := PercentEncoding.Encode(Utf8.Encode(c.address));
    PercentEncoding.DecodeEncode(Utf8.Encode(c.address));
    Utf8.DecodeEncode(c.address);
    var r := GOOGLE_MAPS_SEARCH_URL + encoded;
    assert r[|GOOGLE_MAPS_SEARCH_URL|..] == encoded;
    r
  }

  /** A markdown link to the canteen's place on the map. */
  function MapLink(text: string, c: Canteen): string {
    "[" + text + "](" + LinkLocation(c) + ")"
  }

  /** The field `list` shows for a canteen. */
  function CanteenField(c: Canteen): Platform.Field {
    var queue := match c.queueStatus case Some(q) => q case None => "";
    Platform.Field(c.name, MapLink(c.address, c) + "\n" + queue, true)
  }

  function CanteenFields(cs: seq<Canteen>): (r: seq<Platform.Field>)
    ensures |r| == |cs| && forall i | 0 <= i < |cs| :: r[i] == CanteenField(cs[i])
  {
    if |cs| == 0 then [] else [CanteenField(cs[0])] + CanteenFields(cs[1..])
  }

  function Flatten<T>(parts: seq<seq<T>>): seq<T> {
    if |parts| == 0 then [] else parts[0] + Flatten(parts[1..])
  }

  /** `itertools::chunks(n)`: consecutive pieces of `n`, the last one
      possibly shorter; no piece is empty. */
  function Chunks<T>(xs: seq<T>, n: nat): (r: seq<seq<T>>)
    requires n > 0
    ensures |r| == (|xs| + n - 1) / n
    ensures forall i | 0 <= i < |r| :: 0 < |r[i]| <= n
    decreases |xs|
  {
    if |xs| == 0 then
      assert (n - 1) / n == 0 by { QuotientIs(n - 1, n, 0); }
      []
    else if |xs| <= n then
      assert (|xs| + n - 1) / n == 1 by { QuotientIs(|xs| + n - 1, n, 1); }
      [xs]
    else
      var rest := Chunks(xs[n..], n);
      CeilStep(|xs| - n, n);
      var r := [xs[..n]] + rest;
      assert forall i | 0 <= i < |r| :: 0 < |r[i]| <= n by {
        forall i | 0 <= i < |r| ensures 0 < |r[i]| <= n {
          if i > 0 { assert r[i] == rest[i - 1]; }
        }
      }
      r
  }

  lemma QuotientIs(x: int, n: nat, q: int)
    requires n > 0 && q * n <= x < q * n + n
    ensures x / n == q
  {
    var d, r := x / n, x % n;
    assert x == d * n + r && 0 <= r < n;
    var k := d - q;
    assert k * n == d * n - q * n;
    if k > 0 {
      MulAtLeast(k, n);
    } else if k < 0 {
      MulAtLeast(-k, n);
    }
  }

  lemma CeilStep(a: nat, n: nat)
    requires n > 0
    ensures (a + n + n - 1) / n == (a + n - 1) / n + 1
  {
    var x := a + n - 1;
    var q, r := x / n, x % n;
    var q', r' := (x + n) / n, (x + n) % n;
    assert x + n == (q + 1) * n + r by {
      assert (q + 1) * n == q * n + n;
    }
    var k := q' - (q + 1);
    assert k * n == r - r' by {
      assert k * n == q' * n - (q + 1) * n;
    }
    if k > 0 {
      MulAtLeast(k, n);
    } else if k < 0 {
      MulAtLeast(-k, n);
    }
  }

  lemma {:induction false} MulAtLeast(k: int, n: nat)
    requires k >= 1
    ensures k * n >= n
    decreases k
  {
    if k > 1 {
      MulAtLeast(k - 1, n);
      assert k * n == (k - 1) * n + n;
    }
  }

  /** The pieces, put back together, are the sequence. */
  lemma {:induction false} ChunksFlatten<T>(xs: seq<T>, n: nat)
    requires n > 0
    ensures Flatten(Chunks(xs, n)) == xs
    decreases |xs|
  {
    if |xs| == 0 {
    } else if |xs| <= n {
      assert Flatten([xs]) == xs + Flatten([xs][1..]);
      assert [xs][1..] == [];
    } else {
      var r := Chunks(xs, n);
      assert r[1..] == Chunks(xs[n..], n);
      ChunksFlatten(xs[n..], n);
      assert xs[..n] + xs[n..] == xs;
    }
  }

  function ListEmbed(fields: seq<Platform.Field>): Platform.Embed {
    Platform.Embed(Some(LIST_TITLE), None, fields, None, Some(Platform.Random), None, None)
  }

  function ListEmbeds(chunks: seq<seq<Platform.Field>>): (r: seq<Platform.Embed>)
    ensures |r| == |chunks| && forall i | 0 <= i < |r| :: r[i] == ListEmbed(chunks[i])
  {
    if |chunks| == 0 then [] else [ListEmbed(chunks[0])] + ListEmbeds(chunks[1..])
  }

  /** The fields of a reply's embeds, one embed after the other. */
  function AllFields(embeds: seq<Platform.Embed>): seq<Platform.Field> {
    if |embeds| == 0 then [] else embeds[0].fields + AllFields(embeds[1..])
  }

  /** `mensa list`: one field per canteen, at most 25 to an embed, every
      embed titled alike; a failed fetch is passed on. */
  function List(canteens: Result<seq<Canteen>>): (r: Result<Reply>)
    ensures canteens.Err? ==> r == Err(canteens.error)
    ensures canteens.Ok? ==> r.Ok? && r.value.content == ""
    ensures r.Ok? ==> |r.value.embeds| == (|canteens.value| + FIELDS_PER_EMBED - 1) / FIELDS_PER_EMBED
    ensures r.Ok? ==> forall i | 0 <= i < |r.value.embeds| ::
      0 < |r.value.embeds[i].fields| <= FIELDS_PER_EMBED && r.value.embeds[i].title == Some(LIST_TITLE)
  {
    match canteens
    case Err(e) => Err(e)
    case Ok(cs) => Ok(Reply("", ListEmbeds(Chunks(CanteenFields(cs), FIELDS_PER_EMBED))))
  }

  lemma {:induction false} AllFieldsOfList(chunks: seq<seq<Platform.Field>>)
    ensures AllFields(ListEmbeds(chunks)) == Flatten(chunks)
  {
    if |chunks| > 0 {
      assert ListEmbeds(chunks)[1..] == ListEmbeds(chunks[1..]);
      AllFieldsOfList(chunks[1..]);
    }
  }

  /** The listing shows every canteen once, in list order. */
  lemma ListShowsAll(cs: seq<Canteen>)
    ensures AllFields(List(Ok(cs)).value.embeds) == CanteenFields(cs)
  {
    AllFieldsOfList(Chunks(CanteenFields(cs), FIELDS_PER_EMBED));
    ChunksFlatten(CanteenFields(cs), FIELDS_PER_EMBED);
  }

  /** The emojis of the labels the label table knows, in label order. */
  function LabelEmojis(labels: seq<string>, emojis: map<string, string>): (r: seq<string>)
    ensures |r| <= |labels|
    ensures forall e | e in r :: exists l | l in labels :: l in emojis && emojis[l] == e
    ensures (forall l | l in labels :: l in emojis) ==>
      |r| == |labels| && forall i | 0 <= i < |labels| :: r[i] == emojis[labels[i]]
  {
    if |labels| == 0 then []
    else
      var rest := LabelEmojis(labels[1..], emojis);
      assert forall l | l in labels[1..] :: l in labels;
      (if labels[0] in emojis then [emojis[labels[0]]] else []) + rest
  }

  function DishField(d: Dish, emojis: map<string, string>): Platform.Field {
    Platform.Field(d.dishType, d.name + "\n" + Text.Join(LabelEmojis(d.labels, emojis), " "), true)
  }

  function DishFields(ds: seq<Dish>, emojis: map<string, string>): (r: seq<Platform.Field>)
    ensures |r| == |ds| && forall i | 0 <= i < |ds| :: r[i] == DishField(ds[i], emojis)
  {
    if |ds| == 0 then [] else [DishField(ds[0], emojis)] + DishFields(ds[1..], emojis)
  }

  /** `create_menu_embed`: the day's date as title, a field per dish. */
  function MenuEmbed(day: DayMenu, emojis: map<string, string>): (r: Platform.Embed)
    ensures r.title == Some(day.date) && |r.fields| == |day.dishes|
  {
    Platform.Embed(Some(day.date), None, DishFields(day.dishes, emojis), None, Some(Platform.Random), None, None)
  }

  function MenuEmbeds(days: seq<DayMenu>, emojis: map<string, string>): (r: seq<Platform.Embed>)
    ensures |r| == |days| && forall i | 0 <= i < |days| :: r[i] == MenuEmbed(days[i], emojis)
  {
    if |days| == 0 then [] else [MenuEmbed(days[0], emojis)] + MenuEmbeds(days[1..], emojis)
  }

  /** `position`: the first day of the menu with the given date. */
  function DayWithDate(days: seq<DayMenu>, date: string): (r: Option<nat>)
    ensures r.Some? ==> r.value < |days| && days[r.value].date == date
    ensures r.Some? ==> forall j | 0 <= j < r.value :: days[j].date != date
    ensures r.None? ==> forall j | 0 <= j < |days| :: days[j].date != date
  {
    if |days| == 0 then None
    else if days[0].date == date then Some(0)
    else
      match DayWithDate(days[1..], date)
      case None => None
      case Some(i) => Some(i + 1)
  }

  /** What `mensa next` shows once the lookup for `day` answered `got`:
      the day's menu from the week's menu, found by its `%Y-%m-%d` date;
      the label table is fetched only when there is such a day. */
  function NextReply(got: Result<(Canteen, WeekMenu)>, day: int, labels: Result<map<string, string>>): (r: Result<Reply>)
    ensures got.Err? ==> r == Err(got.error)
    ensures r.Ok? ==> got.Ok?
    ensures r.Ok? && r.value.embeds == [] ==>
      r.value.content == NO_MENU_TODAY && DayWithDate(got.value.1.days, Calendar.FormatDate(day)).None?
    ensures r.Ok? && r.value.embeds != [] ==>
      && |r.value.embeds| == 1
      && r.value.embeds[0].title == Some(Calendar.FormatDate(day))
      && r.value.content == "The menu in " + MapLink(got.value.0.name, got.value.0)
    ensures got.Ok? && DayWithDate(got.value.1.days, Calendar.FormatDate(day)).None? ==> r == Ok(Reply(NO_MENU_TODAY, []))
    ensures got.Ok? && DayWithDate(got.value.1.days, Calendar.FormatDate(day)).Some? ==>
      (r.Ok? <==> labels.Ok?) && (labels.Err? ==> r == Err(labels.error))
  {
    match got
    case Err(e) => Err(e)
    case Ok((c, menu)) =>
      match DayWithDate(menu.days, Calendar.FormatDate(day))
      case None => Ok(Reply(NO_MENU_TODAY, []))
      case Some(i) =>
        match labels
        case Err(e) => Err(e)
        case Ok(emojis) => Ok(Reply("The menu in " + MapLink(c.name, c), [MenuEmbed(menu.days[i], emojis)]))
  }

  /** When the week's menu has the chosen day, `next` shows that day's
      dishes under a link to the canteen. */
  lemma NextShowsChosenDay(c: Canteen, menu: WeekMenu, day: int, emojis: map<string, string>, i: nat)
    ensures FirstWithDate(menu.days, Calendar.FormatDate(day), i) ==>
      NextReply(Ok((c, menu)), day, Ok(emojis))
        == Ok(Reply("The menu in " + MapLink(c.name, c), [MenuEmbed(menu.days[i], emojis)]))
  {
    if FirstWithDate(menu.days, Calendar.FormatDate(day), i) {
      assert DayWithDate(menu.days, Calendar.FormatDate(day)) == Some(i);
    }
  }

  /** Day `i` is the first of `days` dated `date`. */
  predicate FirstWithDate(days: seq<DayMenu>, date: string, i: nat) {
    i < |days| && days[i].date == date && forall j | 0 <= j < i :: days[j].date != date
  }

  /** `mensa next` as written, for today's day number `now` and the local
      `hour`: with no canteen named, the lookup never finds one. */
  function Next(name: Option<string>, canteens: Result<seq<Canteen>>, deunicode: string -> string,
                now: int, hour: nat, fetch: string -> Response, labels: Result<map<string, string>>): (r: Result<Reply>)
    ensures canteens.Ok? && name.None? ==> r == Err(UserError(CANTEEN_NOT_FOUND))
    ensures r.Ok? ==> GetMenuAsWritten(name, canteens, deunicode, NextWeekDay(now, hour), fetch).Ok?
    ensures r.Ok? && r.value.embeds != [] ==>
      r.value.embeds[0].title == Some(Calendar.FormatDate(NextWeekDay(now, hour)))
  {
    var day := NextWeekDay(now, hour);
    NextReply(GetMenuAsWritten(name, canteens, deunicode, day, fetch), day, labels)
  }

  /** `mensa next` with the corrected lookup. */
  function NextFixed(name: Option<string>, canteens: Result<seq<Canteen>>, deunicode: string -> string,
                     now: int, hour: nat, fetch: string -> Response, labels: Result<map<string, string>>): (r: Result<Reply>)
    ensures r.Ok? ==> GetMenu(name, canteens, deunicode, NextWeekDay(now, hour), fetch).Ok?
    ensures r.Ok? && r.value.embeds != [] ==>
      r.value.embeds[0].title == Some(Calendar.FormatDate(NextWeekDay(now, hour)))
  {
    var day := NextWeekDay(now, hour);
    NextReply(GetMenu(name, canteens, deunicode, day, fetch), day, labels)
  }

  /** What `mensa week` shows once the lookup answered `got`: every day of
      the week's menu, one embed each, in order. */
  function WeekReply(got: Result<(Canteen, WeekMenu)>, labels: Result<map<string, string>>): (r: Result<Reply>)
    ensures r.Ok? <==> got.Ok? && labels.Ok?
    ensures got.Err? ==> r == Err(got.error)
    ensures r.Ok? ==>
      && r.value.content == "This week's menu in " + MapLink(got.value.0.name, got.value.0)
      && |r.value.embeds| == |got.value.1.days|
      && forall i | 0 <= i < |got.value.1.days| :: r.value.embeds[i].title == Some(got.value.1.days[i].date)
  {
    match got
    case Err(e) => Err(e)
    case Ok((c, menu)) =>
      match labels
      case Err(e) => Err(e)
      case Ok(emojis) => Ok(Reply("This week's menu in " + MapLink(c.name, c), MenuEmbeds(menu.days, emojis)))
  }

  /** `mensa week` as written: with no canteen named, the lookup never finds
      one. */
  function Week(name: Option<string>, canteens: Result<seq<Canteen>>, deunicode: string -> string,
                now: int, hour: nat, fetch: string -> Response, labels: Result<map<string, string>>): (r: Result<Reply>)
    ensures r.Ok? <==> GetMenuAsWritten(name, canteens, deunicode, NextWeekDay(now, hour), fetch).Ok? && labels.Ok?
    ensures canteens.Ok? && name.None? ==> r == Err(UserError(CANTEEN_NOT_FOUND))
  {
    WeekReply(GetMenuAsWritten(name, canteens, deunicode, NextWeekDay(now, hour), fetch), labels)
  }

  /** `mensa week` with the corrected lookup. */
  function WeekFixed(name: Option<string>, canteens: Result<seq<Canteen>>, deunicode: string -> string,
                     now: int, hour: nat, fetch: string -> Response, labels: Result<map<string, string>>): (r: Result<Reply>)
    ensures r.Ok? <==> GetMenu(name, canteens, deunicode, NextWeekDay(now, hour), fetch).Ok? && labels.Ok?
    ensures r.Ok? ==>
      var got := GetMenu(name, canteens, deunicode, NextWeekDay(now, hour), fetch).value;
      && r.value.content == "This week's menu in " + MapLink(got.0.name, got.0)
      && |r.value.embeds| == |got.1.days|
  {
    WeekReply(GetMenu(name, canteens, deunicode, NextWeekDay(now, hour), fetch), labels)
  }

  /** Wherever the written lookup succeeds, the commands show what the
      corrected ones show for the same answer. */
  lemma AsWrittenAgreesWhenFound(name: Option<string>, canteens: Result<seq<Canteen>>, deunicode: string -> string,
                                 day: int, fetch: string -> Response)
    requires name.Some?
    ensures Calendar.CivilFromDays(day).year == Calendar.IsoYear(day) ==>
      GetMenuAsWritten(name, canteens, deunicode, day, fetch) == GetMenu(name, canteens, deunicode, day, fetch)
  {
    if canteens.Ok? {
      match Find(canteens.value, SearchKey(name, deunicode), deunicode)
      case None =>
      case Some(i) =>
        UrlsAgreeInsideYear(canteens.value[i].canteenId, day);
    }
  }
}

=== FILE: mensaplan.dfy ===
/** `mp add`: a seat in the canteen is given as a letter A-J and a number
    1-10, in either order, and sent to the external plan service with an
    expiry. */
module MensaPlan {
  import opened Wrappers
  import Text

  const ONE_HOUR_SECS: nat := 60 * 60
  const ONE_DAY_SECS: nat := 24 * 60 * 60
  const DEFAULT_DISAPPEAR_SECS: nat := ONE_HOUR_SECS
  const MAX_DISAPPEAR_SECS: nat := ONE_DAY_SECS

  const MIN_X: char := 'A'
  const MAX_X: char := 'J'
  const MIN_Y: nat := 1
  const MAX_Y: nat := 10

  const BAD_LENGTH: string := "Bad position format, 2-3 characters"
  const NO_LETTER: string := "Bad position format, no letter"
  const OUT_OF_BOUNDS: string := "Bad position format, out of bounds: A-J, 1-10"

  predicate InBounds(x: char, y: nat) {
    MIN_X <= x <= MAX_X && MIN_Y <= y <= MAX_Y
  }

  /** `parse_cruisine_letters`. */
  function ParseCruisineLetters(position: string): (r: Result<(char, nat)>)
    ensures (Text.Utf8Len(position) < 2 || Text.Utf8Len(position) > 3) ==> r == Err(Failure(BAD_LENGTH))
    ensures r.Ok? ==> InBounds(r.value.0, r.value.1)
  {
    if Text.Utf8Len(position) < 2 || Text.Utf8Len(position) > 3 then Err(Failure(BAD_LENGTH))
    else
      var u := Text.AsciiUpper(position);
      if |u| == 0 then Err(Failure(BAD_LENGTH))
      else
        var split: Option<(char, string)> :=
          if Text.IsAsciiAlpha(u[0]) then Some((u[0], u[1..]))
          else if Text.IsAsciiAlpha(u[|u| - 1]) then Some((u[|u| - 1], u[..|u| - 1]))
          else None;
        match split
        case None => Err(Failure(NO_LETTER))
        case Some((letter, rest)) =>
          match Text.FromStrUnsigned(rest, Text.U8_MAX)
          case Rejected(kind) => Err(Failure(Text.IntErrorText(kind)))
          case Parsed(number) =>
            if InBounds(letter, number) then Ok((letter, number)) else Err(Failure(OUT_OF_BOUNDS))
  }

  /** The upper-cased input is the letter followed or preceded by the text
      of the number. */
  predicate Spells(position: string, x: char, y: nat) {
    var u := Text.AsciiUpper(position);
    |u| > 0 &&
    ((u[0] == x && Text.ParseUnsigned(u[1..], Text.U8_MAX) == Some(y)) ||
     (u[|u| - 1] == x && Text.ParseUnsigned(u[..|u| - 1], Text.U8_MAX) == Some(y)))
  }

  /** A parsed number starts with a digit or '+', never with a letter. */
  lemma ParsedStartsWithNoLetter(s: string, max: nat)
    requires Text.ParseUnsigned(s, max).Some?
    ensures !Text.IsAsciiAlpha(s[0])
  {
  }

  /** The parser accepts exactly the inputs of two or three bytes that spell
      an in-bounds position, letter first or last. */
  lemma {:induction false} ParseIff(position: string, x: char, y: nat)
    ensures ParseCruisineLetters(position) == Ok((x, y)) <==>
      2 <= Text.Utf8Len(position) <= 3 && InBounds(x, y) && Spells(position, x, y)
  {
    var u := Text.AsciiUpper(position);
    if |u| > 0 {
      Text.FromStrAgrees(u[1..], Text.U8_MAX);
      Text.FromStrAgrees(u[..|u| - 1], Text.U8_MAX);
    }
    if 2 <= Text.Utf8Len(position) <= 3 && InBounds(x, y) && Spells(position, x, y) {
      if !(u[0] == x && Text.ParseUnsigned(u[1..], Text.U8_MAX) == Some(y)) && Text.IsAsciiAlpha(u[0]) {
        var rest := u[..|u| - 1];
        assert |rest| > 0;
        assert rest[0] == u[0];
        if Text.ParseUnsigned(rest, Text.U8_MAX).Some? {
          ParsedStartsWithNoLetter(rest, Text.U8_MAX);
        }
      }
    }
  }

  /** The number's text is one or two ASCII digits. */
  lemma ShortNumber(y: nat)
    requires InBounds('A', y)
    ensures 1 <= |Text.Decimal(y)| <= 2 && Text.IsAscii(Text.Decimal(y))
    ensures Text.ParseUnsigned(Text.Decimal(y), Text.U8_MAX) == Some(y)
  {
    if y == 10 { assert Text.Decimal(y) == Text.Decimal(1) + [Text.DigitChar(0)]; }
    Text.ParseUnsignedDecimal(y, Text.U8_MAX);
  }

  /** Every in-bounds seat parses written letter first. */
  lemma LetterFirstParses(x: char, y: nat)
    requires InBounds(x, y)
    ensures ParseCruisineLetters([x] + Text.Decimal(y)) == Ok((x, y))
  {
    var d := Text.Decimal(y);
    ShortNumber(y);
    var p := [x] + d;
    Text.AsciiUtf8Len(p);
    assert Text.AsciiUpper(p) == p;
    assert p[1..] == d;
    ParseIff(p, x, y);
  }

  /** Every in-bounds seat parses written number first. */
  lemma NumberFirstParses(x: char, y: nat)
    requires InBounds(x, y)
    ensures ParseCruisineLetters(Text.Decimal(y) + [x]) == Ok((x, y))
  {
    var d := Text.Decimal(y);
    ShortNumber(y);
    var p := d + [x];
    Text.AsciiUtf8Len(p);
    assert Text.AsciiUpper(p) == p;
    assert p[..|p| - 1] == d;
    ParseIff(p, x, y);
  }

  /** A lower-case letter is read as its upper-case form. */
  lemma LowerCaseParses(x: char, y: nat)
    requires InBounds(x, y)
    ensures ParseCruisineLetters([Text.AsciiLowerChar(x)] + Text.Decimal(y)) == Ok((x, y))
  {
    var d := Text.Decimal(y);
    ShortNumber(y);
    var p := [Text.AsciiLowerChar(x)] + d;
    Text.AsciiUtf8Len(p);
    assert Text.AsciiUpper(p) == [x] + d;
    assert Text.AsciiUpper(p)[1..] == d;
    ParseIff(p, x, y);
  }

  /** The rejected examples: a number past 10, a letter past J, no number,
      no letter. */
  lemma RejectedExamples()
    ensures ParseCruisineLetters("A11") == Err(Failure(OUT_OF_BOUNDS))
    ensures ParseCruisineLetters("K5") == Err(Failure(OUT_OF_BOUNDS))
    ensures ParseCruisineLetters("A") == Err(Failure(BAD_LENGTH))
    ensures ParseCruisineLetters("10") == Err(Failure(NO_LETTER))
  {
    RejectsA11();
    RejectsK5();
    Text.AsciiUtf8Len("A");
    Text.AsciiUtf8Len("10");
  }

  lemma RejectsA11()
    ensures ParseCruisineLetters("A11") == Err(Failure(OUT_OF_BOUNDS))
  {
    Text.AsciiUtf8Len("A11");
    assert Text.AsciiUpper("A11")[1..] == "11";
    assert Text.DigitsValue("11") == 11 by {
      assert "11"[..1] == "1";
    }
  }

  lemma RejectsK5()
    ensures ParseCruisineLetters("K5") == Err(Failure(OUT_OF_BOUNDS))
  {
    Text.AsciiUtf8Len("K5");
    assert Text.AsciiUpper("K5")[1..] == "5";
  }

  /** The expiry: one hour when none is given, a given duration capped at
      one day; a duration that does not parse aborts. */
  function Expiry(expires: Option<Result<nat>>): (r: Result<nat>)
    ensures expires.None? ==> r == Ok(DEFAULT_DISAPPEAR_SECS)
    ensures expires.Some? && expires.value.Err? ==> r == Err(expires.value.error)
    ensures r.Ok? ==> r.value <= MAX_DISAPPEAR_SECS
    ensures expires.Some? && expires.value.Ok? ==>
      r.Ok? && (r.value == expires.value.value || r.value == MAX_DISAPPEAR_SECS) && r.value <= expires.value.value
  {
    match expires
    case None => Ok(DEFAULT_DISAPPEAR_SECS)
    case Some(Err(e)) => Err(e)
    case Some(Ok(d)) => Ok(if d < MAX_DISAPPEAR_SECS then d else MAX_DISAPPEAR_SECS)
  }

  /** The request body the plan service receives, with the seat as grid
      indices (the service's percentage scaling is floating point). */
  datatype PositionRequest = PositionRequest(xIndex: nat, yIndex: nat, isPublic: bool, expiresInMinutes: nat)

  /** The checks and values of `add` before any network call. */
  function Add(position: string, expires: Option<Result<nat>>, isPublic: Option<bool>): (r: Result<PositionRequest>)
    ensures r.Ok? ==> r.value.xIndex <= 9 && r.value.yIndex <= 9
    ensures r.Ok? ==> r.value.expiresInMinutes <= MAX_DISAPPEAR_SECS / 60
    ensures r.Ok? ==> r.value.isPublic == (isPublic == Some(true))
    ensures ParseCruisineLetters(position).Err? ==> r == Err(ParseCruisineLetters(position).error)
    ensures r.Ok? <==> ParseCruisineLetters(position).Ok? && Expiry(expires).Ok?
    ensures ParseCruisineLetters(position).Ok? && Expiry(expires).Err? ==> r == Err(Expiry(expires).error)
    ensures r.Ok? ==>
      && MIN_X as nat + r.value.xIndex == ParseCruisineLetters(position).value.0 as nat
      && MIN_Y + r.value.yIndex == ParseCruisineLetters(position).value.1
      && r.value.expiresInMinutes == Expiry(expires).value / 60
  {
    match ParseCruisineLetters(position)
    case Err(e) => Err(e)
    case Ok((letter, number)) =>
      match Expiry(expires)
      case Err(e) => Err(e)
      case Ok(secs) =>
        Ok(PositionRequest(letter as nat - MIN_X as nat, number - MIN_Y,
                           match isPublic case Some(b) => b case None => false, secs / 60))
  }

  /** An in-bounds seat written letter first reaches the service as the
      grid cell it names, with the expiry in whole minutes. */
  lemma AddSendsSeat(x: char, y: nat, expires: Option<Result<nat>>, isPublic: Option<bool>)
    requires InBounds(x, y) && Expiry(expires).Ok?
    ensures Add([x] + Text.Decimal(y), expires, isPublic)
      == Ok(PositionRequest(x as nat - MIN_X as nat, y - MIN_Y, isPublic == Some(true), Expiry(expires).value / 60))
  {
    LetterFirstParses(x, y);
  }
}

=== FILE: modules.dfy ===
/** Per-guild command modules: which command groups a guild has enabled,
    stored as (guild, module) rows, and the command list registered from
    them. */
module Modules {
  import opened Wrappers
  import Text

  datatype Module = Canteen | Images | Owner | Utility | Events | Misc

  /** `module as i32`: declaration order from 0. */
  function Discriminant(m: Module): (d: int)
    ensures 0 <= d <= 5
  {
    match m
    case Canteen => 0
    case Images => 1
    case Owner => 2
    case Utility => 3
    case Events => 4
    case Misc => 5
  }

  const INVALID_MODULE: string := "Invalid module value"

  /** `From<i32>`: 0..5 name the modules; any other value panics. */
  function FromI32(i: int): (r: Result<Module>)
    ensures r.Ok? <==> 0 <= i <= 5
    ensures r.Err? ==> r == Err(Failure(INVALID_MODULE))
  {
    if i == 0 then Ok(Canteen)
    else if i == 1 then Ok(Images)
    else if i == 2 then Ok(Owner)
    else if i == 3 then Ok(Utility)
    else if i == 4 then Ok(Events)
    else if i == 5 then Ok(Misc)
    else Err(Failure(INVALID_MODULE))
  }

  /** Storing a module and reading it back gives the same module, and every
      stored value the reader accepts was written by one module only. */
  lemma FromDiscriminant(m: Module)
    ensures FromI32(Discriminant(m)) == Ok(m)
  {
  }

  lemma DiscriminantOfFrom(i: int)
    requires FromI32(i).Ok?
    ensures Discriminant(FromI32(i).value) == i
  {
  }

  /** The choice name shown to users. */
  function Name(m: Module): string {
    match m
    case Canteen => "Canteen"
    case Images => "Images"
    case Owner => "Owner"
    case Utility => "Utility"
    case Events => "Events"
    case Misc => "Misc"
  }

  /** The commands each module contributes, by name, in registration order. */
  function CommandsOf(m: Module): (r: seq<string>)
    ensures |r| > 0
  {
    match m
    case Canteen => ["mensa", "mp"]
    case Images => ["floof", "capy", "cutie_pie", "obama"]
    case Owner => ["activity", "inactive", "latency", "servers", "sql", "refresh_emojis"]
    case Utility => ["clear", "emoji", "emoji_usage", "features", "embed", "reminder", "react", "say", "music"]
    case Events => ["event", "export_events", "reaction_role", "birthday"]
    case Misc => ["boop", "keyword_usage", "uwu", "uwu_text", "ping", "man"]
  }

  /** `get_active_commands`: the modules' command lists, concatenated in the
      order the modules are given. */
  function ActiveCommands(modules: seq<Module>): (r: seq<string>)
    ensures forall c :: c in r <==> exists i | 0 <= i < |modules| :: c in CommandsOf(modules[i])
  {
    if |modules| == 0 then []
    else
      var rest := ActiveCommands(modules[1..]);
      assert forall i | 1 <= i < |modules| :: modules[i] == modules[1..][i - 1];
      CommandsOf(modules[0]) + rest
  }

  lemma {:induction false} ActiveCommandsAppend(a: seq<Module>, b: seq<Module>)
    ensures ActiveCommands(a + b) == ActiveCommands(a) + ActiveCommands(b)
    decreases |a|
  {
    if |a| == 0 {
      assert a + b == b;
    } else {
      assert (a + b)[1..] == a[1..] + b;
      ActiveCommandsAppend(a[1..], b);
    }
  }

  const ALL_MODULES: seq<Module> := [Canteen, Images, Owner, Utility, Events, Misc]

  /** `get_all_commands`: every module's commands, then the two management
      commands. */
  function AllCommands(): (r: seq<string>)
    ensures |r| >= 2 && r[|r| - 2..] == ["modules", "register_commands"]
  {
    ActiveCommands(ALL_MODULES) + ["modules", "register_commands"]
  }

  /** Every module's commands are among all commands, whatever the guild
      has enabled. */
  lemma ActiveWithinAll(modules: seq<Module>, c: string)
    requires c in ActiveCommands(modules)
    ensures c in AllCommands()
  {
    var i :| 0 <= i < |modules| && c in CommandsOf(modules[i]);
    var m := modules[i];
    var k := match m
      case Canteen => 0 case Images => 1 case Owner => 2 case Utility => 3 case Events => 4 case Misc => 5;
    assert ALL_MODULES[k] == m;
    assert c in ActiveCommands(ALL_MODULES);
  }

  /** The `modules` table: (guild, stored module value) rows in storage
      order. */
  type Table = seq<(nat, int)>

  /** `get_active_modules`: the guild's rows, decoded; an undecodable value
      aborts. */
  function ActiveModules(t: Table, guild: nat): (r: Result<seq<Module>>)
    ensures r.Ok? <==> forall i | 0 <= i < |t| && t[i].0 == guild :: 0 <= t[i].1 <= 5
    ensures r.Err? ==> r == Err(Failure(INVALID_MODULE))
    ensures r.Ok? ==> forall m :: m in r.value <==> exists i | 0 <= i < |t| :: t[i] == (guild, Discriminant(m))
  {
    if |t| == 0 then Ok([])
    else
      var rest := ActiveModules(t[1..], guild);
      assert forall i | 1 <= i < |t| :: t[i] == t[1..][i - 1];
      if t[0].0 != guild then rest
      else match FromI32(t[0].1)
        case Err(e) => Err(e)
        case Ok(m) =>
          if rest.Err? then rest
          else
            DiscriminantOfFrom(t[0].1);
            assert forall n :: t[0] == (guild, Discriminant(n)) ==> n == m;
            Ok([m] + rest.value)
  }

  /** Reading the rows of two tables one after the other reads the
      modules of the first, then those of the second. */
  lemma {:induction false} ActiveModulesAppend(a: Table, b: Table, guild: nat)
    ensures ActiveModules(a + b, guild).Ok? <==> ActiveModules(a, guild).Ok? && ActiveModules(b, guild).Ok?
    ensures ActiveModules(a + b, guild).Ok? ==>
      ActiveModules(a + b, guild).value == ActiveModules(a, guild).value + ActiveModules(b, guild).value
    decreases |a|
  {
    if |a| == 0 {
      assert a + b == b;
    } else {
      assert (a + b)[1..] == a[1..] + b;
      assert (a + b)[0] == a[0];
      ActiveModulesAppend(a[1..], b, guild);
      if a[0].0 == guild && FromI32(a[0].1).Ok? && ActiveModules(a + b, guild).Ok? {
        var m := FromI32(a[0].1).value;
        assert ActiveModules(a + b, guild).value == [m] + ActiveModules(a[1..] + b, guild).value;
        assert ActiveModules(a, guild).value == [m] + ActiveModules(a[1..], guild).value;
      }
    }
  }

  /** A single row reads as its module for its guild and as nothing for
      any other guild. */
  lemma ActiveModulesOne(g: nat, v: int, guild: nat)
    ensures g != guild ==> ActiveModules([(g, v)], guild) == Ok([])
    ensures g == guild && FromI32(v).Ok? ==> ActiveModules([(g, v)], guild) == Ok([FromI32(v).value])
  {
    assert [(g, v)][1..] == [];
    assert ActiveModules([], guild) == Ok([]);
    if g == guild && FromI32(v).Ok? {
      assert [FromI32(v).value] + [] == [FromI32(v).value];
    }
  }

  /** `enable`: insert the row. */
  function Enable(t: Table, guild: nat, m: Module): (r: Table)
    ensures |r| == |t| + 1 && r[..|t|] == t && r[|t|] == (guild, Discriminant(m))
  {
    t + [(guild, Discriminant(m))]
  }

  /** `disable`: delete every row of that guild and module. */
  function Disable(t: Table, guild: nat, m: Module): (r: Table)
    ensures forall row :: row in r <==> row in t && row != (guild, Discriminant(m))
  {
    if |t| == 0 then []
    else (if t[0] == (guild, Discriminant(m)) then [] else [t[0]]) + Disable(t[1..], guild, m)
  }

  /** Enabling a module that was not enabled and disabling it again leaves
      the table as it was. */
  lemma {:induction false} DisableUndoesEnable(t: Table, guild: nat, m: Module)
    requires (guild, Discriminant(m)) !in t
    ensures Disable(Enable(t, guild, m), guild, m) == t
    decreases |t|
  {
    if |t| == 0 {
      assert Enable(t, guild, m) == [(guild, Discriminant(m))];
    } else {
      assert Enable(t, guild, m)[1..] == Enable(t[1..], guild, m);
      DisableUndoesEnable(t[1..], guild, m);
    }
  }

  /** After enabling, the guild's active modules include the module; after
      disabling, they do not; other guilds' modules are unaffected. */
  lemma EnableDisableEffect(t: Table, guild: nat, m: Module, other: nat)
    requires other != guild
    ensures ActiveModules(Enable(t, guild, m), guild).Ok? ==> m in ActiveModules(Enable(t, guild, m), guild).value
    ensures ActiveModules(Disable(t, guild, m), guild).Ok? ==> m !in ActiveModules(Disable(t, guild, m), guild).value
    ensures ActiveModules(Enable(t, guild, m), other) == ActiveModules(t, other)
    ensures ActiveModules(Enable(t, guild, m), guild) ==
      if ActiveModules(t, guild).Ok? then Ok(ActiveModules(t, guild).value + [m]) else ActiveModules(t, guild)
  {
    ActiveModulesAppend(t, [(guild, Discriminant(m))], guild);
    ActiveModulesOne(guild, Discriminant(m), guild);
    FromDiscriminant(m);
    var e := Enable(t, guild, m);
    assert e[|t|] == (guild, Discriminant(m));
    var d := Disable(t, guild, m);
    assert (guild, Discriminant(m)) !in d;
    assert !exists i | 0 <= i < |d| :: d[i] == (guild, Discriminant(m));
    OtherGuildUnaffected(t, [(guild, Discriminant(m))], other);
    assert ActiveModules([(guild, Discriminant(m))], other) == Ok([]);
  }

  lemma {:induction false} OtherGuildUnaffected(t: Table, extra: Table, other: nat)
    requires forall i | 0 <= i < |extra| :: extra[i].0 != other
    requires ActiveModules(extra, other) == Ok([])
    ensures ActiveModules(t + extra, other) == ActiveModules(t, other)
    decreases |t|
  {
    if |t| == 0 {
      assert t + extra == extra;
    } else {
      assert (t + extra)[1..] == t[1..] + extra;
      OtherGuildUnaffected(t[1..], extra, other);
    }
  }

  /** What `enable` and `disable` register for the guild and reply. */
  datatype Outcome = Outcome(table: Table, registered: seq<string>, reply: string)

  function Toggle(t: Table, guild: nat, m: Module, enable: bool): (r: Result<Outcome>)
    ensures r.Ok? ==> r.value.table == (if enable then Enable(t, guild, m) else Disable(t, guild, m))
    ensures r.Ok? ==> ActiveModules(r.value.table, guild).Ok? && r.value.registered == ActiveCommands(ActiveModules(r.value.table, guild).value)
    ensures r.Ok? ==> r.value.reply == "Module " + Name(m) + (if enable then " enabled" else " disabled")
    ensures r.Err? <==> ActiveModules(if enable then Enable(t, guild, m) else Disable(t, guild, m), guild).Err?
  {
    var after := if enable then Enable(t, guild, m) else Disable(t, guild, m);
    match ActiveModules(after, guild)
    case Err(e) => Err(e)
    case Ok(ms) => Ok(Outcome(after, ActiveCommands(ms), "Module " + Name(m) + (if enable then " enabled" else " disabled")))
  }

  /** `list`: the active module names joined by ", ". */
  function List(t: Table, guild: nat): (r: Result<string>)
    ensures r.Ok? <==> ActiveModules(t, guild).Ok?
    ensures r.Ok? ==> r.value == "Active modules: " + Text.Join(Names(ActiveModules(t, guild).value), ", ")
  {
    match ActiveModules(t, guild)
    case Err(e) => Err(e)
    case Ok(ms) => Ok("Active modules: " + Text.Join(Names(ms), ", "))
  }

  function Names(ms: seq<Module>): (r: seq<string>)
    ensures |r| == |ms| && forall i | 0 <= i < |ms| :: r[i] == Name(ms[i])
  {
    if |ms| == 0 then [] else [Name(ms[0])] + Names(ms[1..])
  }
}

=== FILE: order.dfy ===
/** Row order of `ORDER BY` queries over snowflake-keyed rows: a set of ids
    listed by a sort key, ties broken by the id itself. */
module Ordering {

  /** `a` sorts strictly before `b`. */
  predicate Before(key: nat -> int, a: nat, b: nat) {
    key(a) < key(b) || (key(a) == key(b) && a < b)
  }

  /** No id is listed twice. */
  predicate Distinct(xs: seq<nat>) {
    forall i, j | 0 <= i < j < |xs| :: xs[i] != xs[j]
  }

  predicate IsLeast(key: nat -> int, s: set<nat>, m: nat) {
    m in s && forall x | x in s && x != m :: Before(key, m, x)
  }

  lemma {:induction false} LeastExists(key: nat -> int, s: set<nat>)
    requires s != {}
    ensures exists m :: IsLeast(key, s, m)
    decreases |s|
  {
    var x :| x in s;
    if s != {x} {
      LeastExists(key, s - {x});
      var m :| IsLeast(key, s - {x}, m);
      if Before(key, x, m) {
        forall z | z in s && z != x
          ensures Before(key, x, z)
        {
          if z != m {
            assert Before(key, m, z);
          }
        }
        assert IsLeast(key, s, x);
      } else {
        assert IsLeast(key, s, m);
      }
    } else {
      assert IsLeast(key, s, x);
    }
  }

  /** The ids of `s`, each once, in ascending (key, id) order. */
  function SortBy(key: nat -> int, s: set<nat>): (r: seq<nat>)
    ensures |r| == |s|
    ensures forall x :: x in r <==> x in s
    ensures forall i, j | 0 <= i < j < |r| :: Before(key, r[i], r[j])
    decreases |s|
  {
    if s == {} then []
    else
      LeastExists(key, s);
      var m :| IsLeast(key, s, m);
      var rest := SortBy(key, s - {m});
      assert forall j | 0 <= j < |rest| :: rest[j] in s - {m};
      [m] + rest
  }

  function NoKey(x: nat): int {
    0
  }

  /** The order of the rows of a query without `ORDER BY`: ascending ids,
      each once. */
  function Unordered(s: set<nat>): (r: seq<nat>)
    ensures |r| == |s|
    ensures forall x :: x in r <==> x in s
    ensures forall i, j | 0 <= i < j < |r| :: r[i] < r[j]
  {
    var r := SortBy(NoKey, s);
    assert forall i, j | 0 <= i < j < |r| :: Before(NoKey, r[i], r[j]);
    r
  }

  /** A list in strictly ascending (key, id) order has no repeated id. */
  lemma SortedDistinct(key: nat -> int, r: seq<nat>, i: nat, j: nat)
    requires forall a, b | 0 <= a < b < |r| :: Before(key, r[a], r[b])
    requires i < j < |r|
    ensures r[i] != r[j]
  {
  }

  /** The first `n` ids of a sorted list come no later than every id left
      out: a `LIMIT` keeps the least rows. */
  lemma {:induction false} TakeIsLeast(key: nat -> int, s: set<nat>, n: nat, x: nat, y: nat)
    ensures var taken := SortBy(key, s)[..if n < |s| then n else |s|];
      x in taken && y in s && y !in taken ==> Before(key, x, y)
  {
    var r := SortBy(key, s);
    var k := if n < |s| then n else |s|;
    if x in r[..k] && y in s && y !in r[..k] {
      var i :| 0 <= i < k && r[i] == x;
      var j :| 0 <= j < |r| && r[j] == y;
      assert forall t | 0 <= t < k :: r[..k][t] == r[t];
    }
  }
}

=== FILE: percent_encoding.dfy ===
/** Percent-encoding of bytes with the `NON_ALPHANUMERIC` set of the
    `percent_encoding` crate: every byte except the ASCII letters and
    digits becomes `%` and two upper-case hex digits (section 2.1 of
    RFC 3986). */
module PercentEncoding {
  import opened Wrappers
  import Text
  import Utf8

  type Byte = Utf8.Byte

  const HEX: string := "0123456789ABCDEF"

  predicate Unreserved(b: Byte) {
    Text.IsAsciiAlnum(b as char)
  }

  function EncodeByte(b: Byte): (r: string)
    ensures Unreserved(b) ==> r == [b as char]
    ensures !Unreserved(b) ==> |r| == 3 && r[0] == '%'
  {
    if Unreserved(b) then [b as char] else ['%', HEX[b / 16], HEX[b % 16]]
  }

  function Encode(bytes: seq<Byte>): (r: string)
    ensures |r| >= |bytes|
    ensures forall i | 0 <= i < |r| :: Text.IsAsciiAlnum(r[i]) || r[i] == '%'
  {
    if |bytes| == 0 then "" else EncodeByte(bytes[0]) + Encode(bytes[1..])
  }

  /** The value of an upper-case hex digit. */
  function HexValue(c: char): (r: nat)
    ensures r < 16
  {
    if '0' <= c <= '9' then c as int - '0' as int
    else if 'A' <= c <= 'F' then c as int - 'A' as int + 10
    else 0
  }

  /** Reads an encoded string back into bytes; a `%` escape cut short or a
      character outside one byte is rejected. */
  function Decode(s: string): Option<seq<Byte>>
    decreases |s|
  {
    if |s| == 0 then Some([])
    else if s[0] == '%' then
      if |s| < 3 then None
      else
        match Decode(s[3..])
        case None => None
        case Some(rest) => Some([HexValue(s[1]) * 16 + HexValue(s[2])] + rest)
    else if s[0] as int < 256 then
      match Decode(s[1..])
      case None => None
      case Some(rest) => Some([s[0] as int] + rest)
    else None
  }

  lemma HexDigit(d: nat)
    requires d < 16
    ensures HexValue(HEX[d]) == d
  {
  }

  /** Decoding reads one encoded byte off the front. */
  lemma DecodeByte(b: Byte, t: string)
    ensures Decode(EncodeByte(b) + t) == match Decode(t) case None => None case Some(rest) => Some([b] + rest)
  {
    var s := EncodeByte(b) + t;
    if Unreserved(b) {
      assert s[1..] == t;
    } else {
      assert s[3..] == t;
      HexDigit(b / 16);
      HexDigit(b % 16);
    }
  }

  /** Decoding undoes encoding. */
  lemma {:induction false} DecodeEncode(bytes: seq<Byte>)
    ensures Decode(Encode(bytes)) == Some(bytes)
  {
    if |bytes| > 0 {
      DecodeEncode(bytes[1..]);
      DecodeByte(bytes[0], Encode(bytes[1..]));
      assert [bytes[0]] + bytes[1..] == bytes;
    }
  }
}

=== FILE: platform.dfy ===
/** Value shapes of the chat platform's builders that the bot fills in:
    embeds, message components, messages, mentions and reaction emoji.
    Only the parts the bot's logic decides are represented. */
module Platform {
  import opened Wrappers
  import Text

  /** Named colours the bot uses; `Random` stands for whatever the
      unshown helper `random_color` returned. */
  datatype Colour = Gold | DarkBlue | DarkGreen | DarkRed | FadedPurple | Blue | Random

  datatype Field = Field(name: string, value: string, inline: bool)

  datatype Embed = Embed(
    title: Option<string>,
    description: Option<string>,
    fields: seq<Field>,
    footer: Option<string>,
    colour: Option<Colour>,
    thumbnail: Option<string>,
    timestamp: Option<int>)

  function NewEmbed(): Embed {
    Embed(None, None, [], None, None, None, None)
  }

  /** An interactive control, identified by its custom id. */
  datatype Component = Button(customId: string) | SelectMenu(customId: string)

  /** A component interaction as a collector sees it: where it happened,
      who pressed, and the custom id of the pressed component. */
  datatype Interaction = Interaction(channelId: nat, userId: nat, customId: string)

  /** What a collector's wait yields: an interaction or the timeout. */
  datatype CollectorEvent = Interacted(interaction: Interaction) | TimedOut

  /** The visible state of a message the bot owns. */
  datatype Message = Message(content: string, embeds: seq<Embed>, components: seq<Component>)

  /** A reaction emoji: a custom guild emoji (with its snowflake id) or a Unicode one. */
  datatype ReactionEmoji =
    | Custom(id: nat, name: Option<string>, animated: bool)
    | Unicode(text: string)

  function UserMention(id: nat): string {
    "<@" + Text.Decimal(id) + ">"
  }

  /** One mention per user, in order. */
  function Mentions(users: seq<nat>): (r: seq<string>)
    ensures |r| == |users| && forall i | 0 <= i < |users| :: r[i] == UserMention(users[i])
  {
    if |users| == 0 then [] else [UserMention(users[0])] + Mentions(users[1..])
  }

  function RoleMention(id: nat): string {
    "<@&" + Text.Decimal(id) + ">"
  }

  /** A timestamp in the platform's default display style. */
  function FormattedTimestamp(t: int): string {
    "<t:" + Text.IntDecimal(t) + ">"
  }

  /** A timestamp shown relative to the reader's clock. */
  function RelativeTimestamp(t: int): string {
    "<t:" + Text.IntDecimal(t) + ":R>"
  }
}

=== FILE: reaction_role.dfy ===
/** The reaction-role registry: the `reaction_roles` table, keyed by
    (message, emoji), together with the in-memory set `reaction_msgs` of
    message ids that the reaction handler uses as a fast-path filter.
    Commands add and remove bindings; the reaction event handler grants or
    revokes the bound role. */
module ReactionRole {
  import opened Wrappers
  import opened Platform
  import Commands
  import Text

  const TIMEOUT_SECS: nat := 60
  const PROMPT_ADD: string := "React to the message with the emoji"
  const PROMPT_REMOVE: string := "React to the message"
  const TIMEOUT_TEXT: string := "Timeout :(, try again"
  const ADD_FAILED: string := "Adding reaction role failed, is the role/emoji already assigned to this message?"
  const LIST_HEADER: string := "**Message | Emoji | Role**"

  /** Primary key of a `reaction_roles` row. */
  datatype Key = Key(messageId: nat, emojiId: nat)

  /** The rest of a `reaction_roles` row. */
  datatype Binding = Binding(channelId: nat, guildId: nat, roleId: nat)

  /** Both sources of truth: the table and the message-id cache. */
  datatype Registry = Registry(table: map<Key, Binding>, reactionMsgs: set<nat>)

  /** The unshown helper `get_emoji_id`, which resolves an emoji to the id
      stored in the table (and can fail). */
  type EmojiIds = ReactionEmoji -> Result<nat>

  /** A reaction as delivered by the platform. */
  datatype Reaction = Reaction(
    channelId: nat, messageId: nat, guildId: Option<nat>, userId: Option<nat>, emoji: ReactionEmoji)

  datatype Effect =
    | Say(text: string)
    | Ack(reply: Commands.Reply)
    | React(channelId: nat, messageId: nat, emoji: ReactionEmoji)
    | DeleteReaction(channelId: nat, messageId: nat, emoji: ReactionEmoji)
    | DeleteAllReactions(channelId: nat, messageId: nat, emoji: ReactionEmoji)
    | AddRole(guildId: nat, userId: nat, roleId: nat)
    | RemoveRole(guildId: nat, userId: nat, roleId: nat)

  /** Result of a command: the registry afterwards, the platform effects in
      order, and what the command returned. */
  datatype Outcome = Outcome(reg: Registry, effects: seq<Effect>, result: Result<Unit>)

  /** The cache holds every message that has a binding. */
  predicate Consistent(reg: Registry) {
    forall k | k in reg.table :: k.messageId in reg.reactionMsgs
  }

  // ---------------------------------------------------------------------
  // Startup

  /** At startup the cache is the set of message ids of all rows. */
  function Startup(table: map<Key, Binding>): (r: Registry)
    ensures r.table == table
    ensures Consistent(r)
    ensures forall m | m in r.reactionMsgs :: exists k | k in table :: k.messageId == m
  {
    Registry(table, set k | k in table :: k.messageId)
  }

  // ---------------------------------------------------------------------
  // Adding

  /** `add_reaction_role`: resolve the emoji, insert the row (the primary key
      rejects a second binding of the same pair), cache the message, react. */
  function AddReactionRole(
    reg: Registry, emojiIds: EmojiIds, guildId: nat, roleId: nat,
    channelId: nat, messageId: nat, emoji: ReactionEmoji, reactResult: Result<Unit>): (r: Outcome)
    ensures emojiIds(emoji).Err? ==> r == Outcome(reg, [], Err(emojiIds(emoji).error))
    ensures emojiIds(emoji).Ok? && Key(messageId, emojiIds(emoji).value) in reg.table ==>
      r == Outcome(reg, [], Err(Failure(ADD_FAILED)))
    ensures r.result.Ok? <==>
      emojiIds(emoji).Ok? && Key(messageId, emojiIds(emoji).value) !in reg.table && reactResult.Ok?
    ensures emojiIds(emoji).Ok? && Key(messageId, emojiIds(emoji).value) !in reg.table ==>
      && r.reg.table == reg.table[Key(messageId, emojiIds(emoji).value) := Binding(channelId, guildId, roleId)]
      && r.reg.reactionMsgs == reg.reactionMsgs + {messageId}
      && [React(channelId, messageId, emoji)] <= r.effects
    ensures Consistent(reg) ==> Consistent(r.reg)
  {
    var id := emojiIds(emoji);
    if id.Err? then Outcome(reg, [], Err(id.error))
    else
      var key := Key(messageId, id.value);
      if key in reg.table then Outcome(reg, [], Err(Failure(ADD_FAILED)))
      else
        var reg' := Registry(reg.table[key := Binding(channelId, guildId, roleId)], reg.reactionMsgs + {messageId});
        var react := React(channelId, messageId, emoji);
        if reactResult.Err? then Outcome(reg', [react], reactResult)
        else
          var (ack, res) := Commands.Done();
          Outcome(reg', [react, Ack(ack)], res)
  }

  /** `add_easy`: prompt, wait for the author's reaction, then bind its emoji
      on its message. A timeout only replies. */
  function AddEasy(
    reg: Registry, emojiIds: EmojiIds, guildId: nat, roleId: nat,
    collected: Option<Reaction>, fetchResult: Result<Unit>, deleteResult: Result<Unit>,
    reactResult: Result<Unit>): (r: Outcome)
    ensures collected.None? ==> r == Outcome(reg, [Say(PROMPT_ADD), Say(TIMEOUT_TEXT)], Ok(Unit))
    ensures [Say(PROMPT_ADD)] <= r.effects
    ensures r.reg != reg ==> collected.Some? && fetchResult.Ok? && deleteResult.Ok?
    ensures collected.Some? && fetchResult.Err? ==> r == Outcome(reg, [Say(PROMPT_ADD)], fetchResult)
    ensures collected.Some? && fetchResult.Ok? && deleteResult.Ok? ==>
      var rx := collected.value;
      var added := AddReactionRole(reg, emojiIds, guildId, roleId, rx.channelId, rx.messageId, rx.emoji, reactResult);
      r.reg == added.reg && r.result == added.result
    ensures Consistent(reg) ==> Consistent(r.reg)
  {
    var prompt := [Say(PROMPT_ADD)];
    match collected
    case None => Outcome(reg, prompt + [Say(TIMEOUT_TEXT)], Ok(Unit))
    case Some(rx) =>
      if fetchResult.Err? then Outcome(reg, prompt, fetchResult)
      else
        var delete := DeleteReaction(rx.channelId, rx.messageId, rx.emoji);
        if deleteResult.Err? then Outcome(reg, prompt + [delete], deleteResult)
        else
          var o := AddReactionRole(reg, emojiIds, guildId, roleId, rx.channelId, rx.messageId, rx.emoji, reactResult);
          Outcome(o.reg, prompt + [delete] + o.effects, o.result)
  }

  // ---------------------------------------------------------------------
  // Removing

  /** `remove_reaction_role` as written: delete the (message, emoji) row and
      drop the message from the cache unconditionally. */
  function RemoveReactionRole(reg: Registry, emojiIds: EmojiIds, rx: Reaction): (r: Outcome)
    ensures emojiIds(rx.emoji).Err? ==> r == Outcome(reg, [], Err(emojiIds(rx.emoji).error))
    ensures emojiIds(rx.emoji).Ok? ==>
      && r.result.Ok?
      && r.reg.table == reg.table - {Key(rx.messageId, emojiIds(rx.emoji).value)}
      && r.reg.reactionMsgs == reg.reactionMsgs - {rx.messageId}
  {
    var id := emojiIds(rx.emoji);
    if id.Err? then Outcome(reg, [], Err(id.error))
    else
      var (ack, res) := Commands.Done();
      Outcome(Registry(reg.table - {Key(rx.messageId, id.value)}, reg.reactionMsgs - {rx.messageId}), [Ack(ack)], res)
  }

  /** The message still has a binding in the table. */
  predicate HasBinding(table: map<Key, Binding>, messageId: nat) {
    exists k | k in table :: k.messageId == messageId
  }

  /** The corrected removal: the message leaves the cache only when its last
      binding is gone. */
  function RemoveReactionRoleKeepingCache(reg: Registry, emojiIds: EmojiIds, rx: Reaction): (r: Outcome)
    ensures emojiIds(rx.emoji).Err? ==> r == Outcome(reg, [], Err(emojiIds(rx.emoji).error))
    ensures emojiIds(rx.emoji).Ok? ==>
      && r.result.Ok?
      && r.reg.table == reg.table - {Key(rx.messageId, emojiIds(rx.emoji).value)}
      && (rx.messageId in r.reg.reactionMsgs <==> rx.messageId in reg.reactionMsgs && HasBinding(r.reg.table, rx.messageId))
      && (forall m | m != rx.messageId :: m in r.reg.reactionMsgs <==> m in reg.reactionMsgs)
    ensures Consistent(reg) ==> Consistent(r.reg)
  {
    var id := emojiIds(rx.emoji);
    if id.Err? then Outcome(reg, [], Err(id.error))
    else
      var table := reg.table - {Key(rx.messageId, id.value)};
      var msgs := if HasBinding(table, rx.messageId) then reg.reactionMsgs else reg.reactionMsgs - {rx.messageId};
      var (ack, res) := Commands.Done();
      Outcome(Registry(table, msgs), [Ack(ack)], res)
  }

  /** `remove`: prompt, wait for the author's reaction, clear that emoji's
      reactions from the message, then unbind it. A timeout only replies.
      `keepCache` selects the corrected removal. */
  function Remove(
    reg: Registry, emojiIds: EmojiIds, collected: Option<Reaction>, deleteAllResult: Result<Unit>,
    keepCache: bool): (r: Outcome)
    ensures collected.None? ==> r == Outcome(reg, [Say(PROMPT_REMOVE), Say(TIMEOUT_TEXT)], Ok(Unit))
    ensures collected.Some? && deleteAllResult.Err? ==> r.reg == reg && r.result == deleteAllResult
    ensures collected.Some? && deleteAllResult.Ok? ==>
      [Say(PROMPT_REMOVE), DeleteAllReactions(collected.value.channelId, collected.value.messageId, collected.value.emoji)] <= r.effects
    ensures keepCache && Consistent(reg) ==> Consistent(r.reg)
  {
    var prompt := [Say(PROMPT_REMOVE)];
    match collected
    case None => Outcome(reg, prompt + [Say(TIMEOUT_TEXT)], Ok(Unit))
    case Some(rx) =>
      if deleteAllResult.Err? then Outcome(reg, prompt, deleteAllResult)
      else
        var o := if keepCache then RemoveReactionRoleKeepingCache(reg, emojiIds, rx) else RemoveReactionRole(reg, emojiIds, rx);
        Outcome(o.reg, prompt + [DeleteAllReactions(rx.channelId, rx.messageId, rx.emoji)] + o.effects, o.result)
  }

  // ---------------------------------------------------------------------
  // Reaction events

  /** What `change_reaction_role` did: whether it looked the binding up,
      the role change it attempted, and its result. */
  datatype Change = Change(queried: bool, effects: seq<Effect>, result: Result<Unit>)

  /** The error `change_reaction_role` reports when the role call fails. */
  function RoleChangeError(add: bool, roleId: nat): string {
    "Couldn't " + (if add then "add" else "remove") + " role " + Text.Decimal(roleId)
  }

  /** `change_reaction_role`: for a cached message and a human user, look up
      the binding of the reacted emoji and grant (add) or revoke (remove)
      its role in the binding's guild. `userIsBot` is the outcome of
      fetching the reacting user; `memberResult` and `roleResult` the
      outcomes of fetching the member and of the role call. */
  function ChangeReactionRole(
    reg: Registry, emojiIds: EmojiIds, rx: Reaction, add: bool,
    userIsBot: Result<bool>, memberResult: Result<Unit>, roleResult: Result<Unit>): (r: Change)
    ensures rx.messageId !in reg.reactionMsgs ==> r == Change(false, [], Ok(Unit))
    ensures userIsBot == Ok(true) ==> !r.queried && r.effects == [] && r.result.Ok?
    ensures r.queried <==> rx.messageId in reg.reactionMsgs && userIsBot == Ok(false) && emojiIds(rx.emoji).Ok?
    ensures r.queried && Key(rx.messageId, emojiIds(rx.emoji).value) !in reg.table ==> r.effects == [] && r.result.Ok?
    ensures r.effects != [] <==>
      r.queried && Key(rx.messageId, emojiIds(rx.emoji).value) in reg.table && rx.userId.Some? && memberResult.Ok?
    ensures r.effects != [] ==>
      var b := reg.table[Key(rx.messageId, emojiIds(rx.emoji).value)];
      && r.effects == [if add then AddRole(b.guildId, rx.userId.value, b.roleId) else RemoveRole(b.guildId, rx.userId.value, b.roleId)]
      && (r.result.Ok? <==> roleResult.Ok?)
      && (roleResult.Err? ==> r.result == Err(Failure(RoleChangeError(add, b.roleId))))
    ensures rx.messageId in reg.reactionMsgs && userIsBot.Err? ==> r == Change(false, [], Err(userIsBot.error))
    ensures rx.messageId in reg.reactionMsgs && userIsBot == Ok(true) ==> r == Change(false, [], Ok(Unit))
    ensures r.queried && emojiIds(rx.emoji).Ok? && Key(rx.messageId, emojiIds(rx.emoji).value) in reg.table && rx.userId.None? ==>
      r.result == Err(Failure("Couldn't get user from reaction"))
    ensures r.queried && Key(rx.messageId, emojiIds(rx.emoji).value) in reg.table && rx.userId.Some? && memberResult.Err? ==>
      r.result == Err(memberResult.error)
  {
    if rx.messageId !in reg.reactionMsgs then Change(false, [], Ok(Unit))
    else if userIsBot.Err? then Change(false, [], Err(userIsBot.error))
    else if userIsBot.value then Change(false, [], Ok(Unit))
    else
      var id := emojiIds(rx.emoji);
      if id.Err? then Change(false, [], Err(id.error))
      else
        var key := Key(rx.messageId, id.value);
        if key !in reg.table then Change(true, [], Ok(Unit))
        else if rx.userId.None? then Change(true, [], Err(Failure("Couldn't get user from reaction")))
        else if memberResult.Err? then Change(true, [], Err(memberResult.error))
        else
          var b := reg.table[key];
          var effect := if add then AddRole(b.guildId, rx.userId.value, b.roleId)
                        else RemoveRole(b.guildId, rx.userId.value, b.roleId);
          if roleResult.Err? then Change(true, [effect], Err(Failure(RoleChangeError(add, b.roleId))))
          else Change(true, [effect], Ok(Unit))
  }

  // ---------------------------------------------------------------------
  // Listing

  /** Owners see every binding; everyone else only their guild's. */
  predicate Visible(b: Binding, isOwner: bool, guildId: nat) {
    isOwner || b.guildId == guildId
  }

  /** The rows the listing query returns, in the order the table yields them. */
  function Selected(table: map<Key, Binding>, order: seq<Key>, isOwner: bool, guildId: nat): (r: seq<Key>)
    ensures forall i | 0 <= i < |r| :: r[i] in table
  {
    if |order| == 0 then []
    else
      var rest := Selected(table, order[1..], isOwner, guildId);
      if order[0] in table && Visible(table[order[0]], isOwner, guildId) then [order[0]] + rest else rest
  }

  /** A binding is listed exactly when it is in the table and visible to the caller. */
  lemma {:induction false} SelectedIff(table: map<Key, Binding>, order: seq<Key>, isOwner: bool, guildId: nat, k: Key)
    ensures k in Selected(table, order, isOwner, guildId) <==>
      k in order && k in table && Visible(table[k], isOwner, guildId)
  {
    if |order| > 0 {
      SelectedIff(table, order[1..], isOwner, guildId, k);
      assert order == [order[0]] + order[1..];
    }
  }

  /** No key is listed twice. */
  predicate NoRepeats(keys: seq<Key>) {
    forall i, j | 0 <= i < j < |keys| :: keys[i] != keys[j]
  }

  /** `order` is how the query yields the table: each row once. */
  predicate Enumerates(table: map<Key, Binding>, order: seq<Key>) {
    && (forall k | k in table :: k in order)
    && (forall i | 0 <= i < |order| :: order[i] in table)
    && NoRepeats(order)
  }

  /** Selecting from a list without repeats gives one without repeats. */
  lemma {:induction false} SelectedNoRepeats(table: map<Key, Binding>, order: seq<Key>, isOwner: bool, guildId: nat)
    requires NoRepeats(order)
    ensures NoRepeats(Selected(table, order, isOwner, guildId))
  {
    if |order| > 0 {
      var rest := Selected(table, order[1..], isOwner, guildId);
      assert NoRepeats(order[1..]) by {
        forall i, j | 0 <= i < j < |order[1..]| ensures order[1..][i] != order[1..][j] {
          assert order[1..][i] == order[i + 1] && order[1..][j] == order[j + 1];
        }
      }
      SelectedNoRepeats(table, order[1..], isOwner, guildId);
      if order[0] in table && Visible(table[order[0]], isOwner, guildId) {
        assert order[0] !in rest by {
          SelectedIff(table, order[1..], isOwner, guildId, order[0]);
          forall j | 1 <= j < |order| ensures order[j] != order[0] {}
          assert order[0] !in order[1..];
        }
        var sel := [order[0]] + rest;
        forall i, j | 0 <= i < j < |sel| ensures sel[i] != sel[j] {
          assert sel[j] == rest[j - 1];
          if i == 0 {
            assert rest[j - 1] in rest;
          } else {
            assert sel[i] == rest[i - 1];
          }
        }
      }
    }
  }

  /** When the query yields every row once, the listing selects every
      binding the caller may see, each exactly once, and nothing else. */
  lemma ListsEachOnce(table: map<Key, Binding>, order: seq<Key>, isOwner: bool, guildId: nat)
    requires Enumerates(table, order)
    ensures forall k :: k in Selected(table, order, isOwner, guildId) <==> k in table && Visible(table[k], isOwner, guildId)
    ensures NoRepeats(Selected(table, order, isOwner, guildId))
  {
    forall k
      ensures k in Selected(table, order, isOwner, guildId) <==> k in table && Visible(table[k], isOwner, guildId)
    {
      SelectedIff(table, order, isOwner, guildId, k);
    }
    SelectedNoRepeats(table, order, isOwner, guildId);
  }

  /** One listing line: message link, emoji, role mention. */
  function RowLine(k: Key, b: Binding, emojiText: string): string {
    Commands.LinkMessage(b.guildId, b.channelId, k.messageId) + " " + emojiText + " " + RoleMention(b.roleId)
  }

  /** The unshown helper `get_emoji_from_id`, given a guild and an emoji id. */
  type EmojiTexts = (nat, nat) -> Result<string>

  function RowLines(table: map<Key, Binding>, rows: seq<Key>, emojiTexts: EmojiTexts): (r: Result<seq<string>>)
    requires forall i | 0 <= i < |rows| :: rows[i] in table
    ensures r.Ok? <==> forall i | 0 <= i < |rows| :: emojiTexts(table[rows[i]].guildId, rows[i].emojiId).Ok?
    ensures r.Ok? ==> |r.value| == |rows| && forall i | 0 <= i < |rows| ::
      r.value[i] == RowLine(rows[i], table[rows[i]], emojiTexts(table[rows[i]].guildId, rows[i].emojiId).value)
  {
    if |rows| == 0 then Ok([])
    else
      var k := rows[0];
      var e := emojiTexts(table[k].guildId, k.emojiId);
      if e.Err? then Err(e.error)
      else
        var rest := RowLines(table, rows[1..], emojiTexts);
        if rest.Err? then rest
        else Ok([RowLine(k, table[k], e.value)] + rest.value)
  }

  /** `list`: the header line, then one line per visible binding, handed to
      the unshown paginator. */
  function List(table: map<Key, Binding>, order: seq<Key>, isOwner: bool, guildId: nat, emojiTexts: EmojiTexts): (r: Result<seq<string>>)
    ensures var sel := Selected(table, order, isOwner, guildId);
      r.Ok? <==> forall i | 0 <= i < |sel| :: emojiTexts(table[sel[i]].guildId, sel[i].emojiId).Ok?
    ensures r.Ok? ==> |r.value| == |Selected(table, order, isOwner, guildId)| + 1 && r.value[0] == LIST_HEADER
  {
    var lines := RowLines(table, Selected(table, order, isOwner, guildId), emojiTexts);
    if lines.Err? then Err(lines.error) else Ok([LIST_HEADER] + lines.value)
  }

  /** Line i + 1 of a successful listing shows the i-th selected binding. */
  lemma ListLine(table: map<Key, Binding>, order: seq<Key>, isOwner: bool, guildId: nat, emojiTexts: EmojiTexts, i: nat)
    requires List(table, order, isOwner, guildId, emojiTexts).Ok?
    requires i < |Selected(table, order, isOwner, guildId)|
    ensures
      var k := Selected(table, order, isOwner, guildId)[i];
      List(table, order, isOwner, guildId, emojiTexts).value[i + 1]
        == RowLine(k, table[k], emojiTexts(table[k].guildId, k.emojiId).value)
  {
    var sel := Selected(table, order, isOwner, guildId);
    var lines := RowLines(table, sel, emojiTexts);
    assert ([LIST_HEADER] + lines.value)[i + 1] == lines.value[i];
  }

  // ---------------------------------------------------------------------
  // Properties across operations

  /** Binding an emoji and then reacting with it grants the role, and
      removing the reaction revokes it. */
  lemma BindThenReact(
    reg: Registry, emojiIds: EmojiIds, guildId: nat, roleId: nat, channelId: nat, messageId: nat,
    emoji: ReactionEmoji, userId: nat)
    requires emojiIds(emoji).Ok? && Key(messageId, emojiIds(emoji).value) !in reg.table
    ensures
      var a := AddReactionRole(reg, emojiIds, guildId, roleId, channelId, messageId, emoji, Ok(Unit));
      var rx := Reaction(channelId, messageId, Some(guildId), Some(userId), emoji);
      && a.result.Ok?
      && ChangeReactionRole(a.reg, emojiIds, rx, true, Ok(false), Ok(Unit), Ok(Unit))
         == Change(true, [AddRole(guildId, userId, roleId)], Ok(Unit))
      && ChangeReactionRole(a.reg, emojiIds, rx, false, Ok(false), Ok(Unit), Ok(Unit))
         == Change(true, [RemoveRole(guildId, userId, roleId)], Ok(Unit))
  {
  }

  /** With a consistent registry, a human reaction on a bound emoji always
      reaches the lookup: the fast-path filter never hides a binding. */
  lemma ConsistentNeverHidesBinding(
    reg: Registry, emojiIds: EmojiIds, rx: Reaction, add: bool, memberResult: Result<Unit>, roleResult: Result<Unit>)
    requires Consistent(reg)
    requires emojiIds(rx.emoji).Ok? && Key(rx.messageId, emojiIds(rx.emoji).value) in reg.table
    ensures ChangeReactionRole(reg, emojiIds, rx, add, Ok(false), memberResult, roleResult).queried
  {
    assert rx.messageId in reg.reactionMsgs;
  }

  /** The removal as written breaks the cache when a sibling binding remains:
      the sibling is still in the table, yet its message has left the cache,
      so reacting with the sibling's emoji changes no role. */
  lemma RemoveAsWrittenHidesSibling(
    reg: Registry, emojiIds: EmojiIds, rx: Reaction, sibling: ReactionEmoji, add: bool,
    memberResult: Result<Unit>, roleResult: Result<Unit>)
    requires emojiIds(rx.emoji).Ok? && emojiIds(sibling).Ok?
    requires emojiIds(sibling).value != emojiIds(rx.emoji).value
    requires Key(rx.messageId, emojiIds(sibling).value) in reg.table
    ensures
      var o := RemoveReactionRole(reg, emojiIds, rx);
      var rx2 := Reaction(rx.channelId, rx.messageId, rx.guildId, rx.userId, sibling);
      && Key(rx.messageId, emojiIds(sibling).value) in o.reg.table
      && !Consistent(o.reg)
      && ChangeReactionRole(o.reg, emojiIds, rx2, add, Ok(false), memberResult, roleResult) == Change(false, [], Ok(Unit))
  {
    var o := RemoveReactionRole(reg, emojiIds, rx);
    var k2 := Key(rx.messageId, emojiIds(sibling).value);
    assert k2 in o.reg.table;
    assert rx.messageId !in o.reg.reactionMsgs;
  }

  /** With the corrected removal the sibling binding keeps working. */
  lemma RemoveKeepingCacheKeepsSibling(
    reg: Registry, emojiIds: EmojiIds, rx: Reaction, sibling: ReactionEmoji, add: bool,
    memberResult: Result<Unit>, roleResult: Result<Unit>)
    requires Consistent(reg)
    requires emojiIds(rx.emoji).Ok? && emojiIds(sibling).Ok?
    requires emojiIds(sibling).value != emojiIds(rx.emoji).value
    requires Key(rx.messageId, emojiIds(sibling).value) in reg.table
    ensures
      var o := RemoveReactionRoleKeepingCache(reg, emojiIds, rx);
      var rx2 := Reaction(rx.channelId, rx.messageId, rx.guildId, rx.userId, sibling);
      ChangeReactionRole(o.reg, emojiIds, rx2, add, Ok(false), memberResult, roleResult).queried
  {
    var o := RemoveReactionRoleKeepingCache(reg, emojiIds, rx);
    var k2 := Key(rx.messageId, emojiIds(sibling).value);
    assert k2 in o.reg.table;
    assert HasBinding(o.reg.table, rx.messageId);
    assert rx.messageId in o.reg.reactionMsgs;
  }
}

=== FILE: reminders.dfy ===
/** Reminders: a user schedules a message for later, lists and deletes
    scheduled reminders, and a sweep delivers the due ones. Both command
    generations share the `reminder` table and its listing format. */
module Reminders {
  import opened Wrappers
  import opened Platform
  import Text

  /** A user id as stored in a signed 64-bit column. */
  type Snowflake = n: nat | n <= Text.I64_MAX

  /** A row of `reminder`, which has no key the bot relies on; rows are
      kept in storage order. */
  datatype Reminder = Reminder(channelId: nat, msgId: nat, userId: Snowflake, content: string, time: int)

  const DEFAULT_REMINDER_SECS: nat := 3600
  const MAX_FIELD_LENGTH: nat := 1024

  function SetFor(time: int): string {
    "Reminder set for " + FormattedTimestamp(time)
  }

  datatype Outcome = Outcome(rows: seq<Reminder>, replies: seq<string>, result: Result<Unit>)

  /** `add`: the time is the parsed `when` or one hour from now; the row is
      stored only after the confirmation is sent, with that message's id.
      `when` is what the unshown `parse_duration_or_date` gave, `sent` the
      id of the confirmation or the failure to send it. */
  function Add(
    rows: seq<Reminder>, channelId: nat, userId: Snowflake, content: string,
    when: Option<Result<int>>, now: int, sent: Result<nat>): (r: Outcome)
    ensures when.Some? && when.value.Err? ==> r == Outcome(rows, [], Err(when.value.error))
    ensures r.result.Ok? <==> (when.None? || when.value.Ok?) && sent.Ok?
    ensures r.result.Err? ==> r.rows == rows
    ensures r.result.Ok? ==> var time := if when.None? then now + DEFAULT_REMINDER_SECS else when.value.value;
      r.rows == rows + [Reminder(channelId, sent.value, userId, content, time)]
      && r.replies == [SetFor(time)]
  {
    match when
    case None => Store(rows, channelId, userId, content, now + DEFAULT_REMINDER_SECS, sent)
    case Some(Err(e)) => Outcome(rows, [], Err(e))
    case Some(Ok(time)) => Store(rows, channelId, userId, content, time, sent)
  }

  /** Confirm, then insert the row with the confirmation's id. */
  function Store(rows: seq<Reminder>, channelId: nat, userId: Snowflake, content: string, time: int, sent: Result<nat>): (r: Outcome)
    ensures r.result.Ok? <==> sent.Ok?
    ensures r.replies == [SetFor(time)]
    ensures r.rows == if sent.Ok? then rows + [Reminder(channelId, sent.value, userId, content, time)] else rows
  {
    match sent
    case Err(e) => Outcome(rows, [SetFor(time)], Err(e))
    case Ok(msgId) => Outcome(rows + [Reminder(channelId, msgId, userId, content, time)], [SetFor(time)], Ok(Unit))
  }

  // ---------------------------------------------------------------------
  // Listing

  predicate SortedByTime(rows: seq<Reminder>) {
    forall i, j | 0 <= i < j < |rows| :: rows[i].time <= rows[j].time
  }

  lemma ConsSorted(h: Reminder, t: seq<Reminder>)
    requires SortedByTime(t) && forall j | 0 <= j < |t| :: h.time <= t[j].time
    ensures SortedByTime([h] + t)
  {
    var r := [h] + t;
    forall i, j | 0 <= i < j < |r|
      ensures r[i].time <= r[j].time
    {
      assert r[j] == t[j - 1];
      if i > 0 {
        assert r[i] == t[i - 1];
      }
    }
  }

  /** Whatever is made of a sorted tail and a later `x` starts no earlier
      than the head. */
  lemma BelowAll(rows: seq<Reminder>, x: Reminder, rest: seq<Reminder>)
    requires SortedByTime(rows) && |rows| > 0 && rows[0].time < x.time
    requires multiset(rest) == multiset(rows[1..]) + multiset{x}
    ensures forall j | 0 <= j < |rest| :: rows[0].time <= rest[j].time
  {
    var tail := rows[1..];
    forall j | 0 <= j < |rest|
      ensures rows[0].time <= rest[j].time
    {
      assert rest[j] in multiset(rest);
      if rest[j] != x {
        assert rest[j] in multiset(tail);
        var k :| 0 <= k < |tail| && tail[k] == rest[j];
        assert rows[k + 1] == tail[k];
      }
    }
  }

  function InsertByTime(x: Reminder, rows: seq<Reminder>): (r: seq<Reminder>)
    requires SortedByTime(rows)
    ensures multiset(r) == multiset(rows) + multiset{x}
    ensures SortedByTime(r)
  {
    if |rows| == 0 then [x]
    else if x.time <= rows[0].time then
      ConsSorted(x, rows);
      [x] + rows
    else
      var tail := rows[1..];
      assert rows == [rows[0]] + tail;
      var rest := InsertByTime(x, tail);
      BelowAll(rows, x, rest);
      ConsSorted(rows[0], rest);
      [rows[0]] + rest
  }

  /** `ORDER BY time`: the rows by time, earlier stored first among equal
      times. */
  function SortByTime(rows: seq<Reminder>): (r: seq<Reminder>)
    ensures SortedByTime(r) && multiset(r) == multiset(rows)
  {
    if |rows| == 0 then []
    else
      assert rows == [rows[0]] + rows[1..];
      InsertByTime(rows[0], SortByTime(rows[1..]))
  }

  function OfUser(rows: seq<Reminder>, userId: nat): (r: seq<Reminder>)
    ensures forall x :: x in r <==> x in rows && x.userId == userId
    ensures |r| <= |rows|
  {
    if |rows| == 0 then []
    else (if rows[0].userId == userId then [rows[0]] else []) + OfUser(rows[1..], userId)
  }

  /** Selecting a user's reminders commutes with concatenation, so the
      listing keeps storage order. */
  lemma {:induction false} OfUserAppend(a: seq<Reminder>, b: seq<Reminder>, userId: nat)
    ensures OfUser(a + b, userId) == OfUser(a, userId) + OfUser(b, userId)
  {
    if |a| > 0 {
      assert (a + b)[1..] == a[1..] + b;
      OfUserAppend(a[1..], b, userId);
    } else {
      assert a + b == b;
    }
  }

  function AuthorSuffix(userId: Snowflake): string {
    " ~ " + UserMention(userId)
  }

  /** A stored user id has at most 19 digits, so the suffix is short. */
  lemma AuthorSuffixShort(userId: Snowflake)
    ensures Text.Utf8Len(AuthorSuffix(userId)) <= 25
  {
    Text.I64Digits(userId);
    var s := AuthorSuffix(userId);
    assert Text.IsAscii(s);
    Text.AsciiUtf8Len(s);
  }

  /** The bytes left for the content once the author suffix is added. */
  function Room(userId: Snowflake): (n: nat)
    ensures n + Text.Utf8Len(AuthorSuffix(userId)) == MAX_FIELD_LENGTH
  {
    AuthorSuffixShort(userId);
    MAX_FIELD_LENGTH - Text.Utf8Len(AuthorSuffix(userId))
  }

  /** One listed reminder as written: its content cut to the bytes left
      after the author suffix with `String::truncate`, which panics when
      the cut splits a character. */
  function FieldAsWritten(x: Reminder): (r: Result<Field>)
    ensures r.Err? <==> Text.Truncate(x.content, Room(x.userId)).Err?
    ensures r.Ok? ==> r.value.name == FormattedTimestamp(x.time)
  {
    var suffix := AuthorSuffix(x.userId);
    var cut :- Text.Truncate(x.content, Room(x.userId));
    Ok(Field(FormattedTimestamp(x.time), cut + suffix, false))
  }

  /** One listed reminder with the cut moved down to a character
      boundary: never fails, and the value fits the platform's 1024-byte
      field limit. */
  function FieldFixed(x: Reminder): (r: Field)
    ensures r.name == FormattedTimestamp(x.time)
    ensures Text.Utf8Len(r.value) <= MAX_FIELD_LENGTH
    ensures exists cut :: cut <= x.content && r.value == cut + AuthorSuffix(x.userId)
  {
    var suffix := AuthorSuffix(x.userId);
    var cut := Text.FloorTruncate(x.content, Room(x.userId));
    Text.Utf8LenAppend(cut, suffix);
    Field(FormattedTimestamp(x.time), cut + suffix, false)
  }

  /** Wherever the written code does not panic, it shows what the fixed
      field shows. */
  lemma FieldFixedAgrees(x: Reminder)
    requires FieldAsWritten(x).Ok?
    ensures FieldAsWritten(x).value == FieldFixed(x)
  {
    Text.FloorTruncateAgrees(x.content, Room(x.userId));
  }

  function FieldsAsWritten(rows: seq<Reminder>): (r: Result<seq<Field>>)
    ensures r.Ok? <==> forall i | 0 <= i < |rows| :: FieldAsWritten(rows[i]).Ok?
    ensures r.Ok? ==> |r.value| == |rows| && forall i | 0 <= i < |rows| :: r.value[i] == FieldAsWritten(rows[i]).value
  {
    if |rows| == 0 then Ok([])
    else
      var first :- FieldAsWritten(rows[0]);
      var rest :- FieldsAsWritten(rows[1..]);
      assert forall i | 1 <= i < |rows| :: rows[i] == rows[1..][i - 1];
      Ok([first] + rest)
  }

  function FieldsFixed(rows: seq<Reminder>): (r: seq<Field>)
    ensures |r| == |rows| && forall i | 0 <= i < |rows| :: r[i] == FieldFixed(rows[i])
  {
    if |rows| == 0 then [] else [FieldFixed(rows[0])] + FieldsFixed(rows[1..])
  }

  /** The listing's title and rows: one user's reminders or everyone's. */
  function Selected(rows: seq<Reminder>, user: Option<(Snowflake, string)>): (r: (string, seq<Reminder>))
    ensures user.None? ==> r == ("Reminders", rows)
    ensures user.Some? ==> r == ("Reminders for " + user.value.1, OfUser(rows, user.value.0))
  {
    match user
    case None => ("Reminders", rows)
    case Some((id, name)) => ("Reminders for " + name, OfUser(rows, id))
  }

  /** Sorting by time keeps the reminders and their number. */
  lemma SortByTimeKeeps(rows: seq<Reminder>)
    ensures |SortByTime(rows)| == |rows|
    ensures forall x :: x in SortByTime(rows) <==> x in rows
  {
    var ordered := SortByTime(rows);
    assert |multiset(ordered)| == |multiset(rows)|;
    forall x ensures x in ordered <==> x in rows {
      assert x in ordered <==> x in multiset(ordered);
      assert x in rows <==> x in multiset(rows);
    }
  }

  /** `list` as written: the selected reminders by time, field `i` showing
      the `i`-th earliest; a reminder whose cut splits a character makes
      the whole listing fail. */
  function List(rows: seq<Reminder>, user: Option<(Snowflake, string)>): (r: Result<Embed>)
    ensures r.Ok? <==> forall x | x in Selected(rows, user).1 :: FieldAsWritten(x).Ok?
    ensures r.Ok? ==> r.value.title == Some(Selected(rows, user).0) && |r.value.fields| == |Selected(rows, user).1|
    ensures r.Ok? ==> FieldsAsWritten(SortByTime(Selected(rows, user).1)) == Ok(r.value.fields)
  {
    var sel := Selected(rows, user);
    var ordered := SortByTime(sel.1);
    SortByTimeKeeps(sel.1);
    match FieldsAsWritten(ordered)
    case Err(e) =>
      assert exists i | 0 <= i < |ordered| :: FieldAsWritten(ordered[i]).Err?;
      Err(e)
    case Ok(fields) =>
      assert forall x | x in ordered :: FieldAsWritten(x).Ok?;
      Ok(NewEmbed().(title := Some(sel.0), fields := fields))
  }

  /** `list` with the cut at a character boundary: never fails, every
      field fits, and field `i` shows the `i`-th earliest reminder. */
  function ListFixed(rows: seq<Reminder>, user: Option<(Snowflake, string)>): (r: Embed)
    ensures r.title == Some(Selected(rows, user).0)
    ensures |r.fields| == |Selected(rows, user).1|
    ensures forall i | 0 <= i < |r.fields| :: Text.Utf8Len(r.fields[i].value) <= MAX_FIELD_LENGTH
    ensures r.fields == FieldsFixed(SortByTime(Selected(rows, user).1))
  {
    var sel := Selected(rows, user);
    var ordered := SortByTime(sel.1);
    SortByTimeKeeps(sel.1);
    NewEmbed().(title := Some(sel.0), fields := FieldsFixed(ordered))
  }

  /** A reminder whose content is 1016 ASCII characters followed by 'é',
      set by user 1: the suffix " ~ <@1>" takes 7 bytes, so the cut at
      byte 1017 falls inside the two bytes of 'é' and the listing fails,
      while the fixed listing shows the 1016 characters and the suffix. */
  lemma ListPanicsOnSplitChar()
    ensures var x := Reminder(0, 0, 1, seq(1016, _ => 'a') + "é", 0);
      && List([x], None).Err?
      && ListFixed([x], None).fields[0].value == seq(1016, _ => 'a') + AuthorSuffix(1)
  {
    var head: string := seq(1016, _ => 'a');
    var x := Reminder(0, 0, 1, head + "é", 0);
    SplitCharCut(head);
    assert FieldAsWritten(x).Err?;
    assert FieldFixed(x).value == head + AuthorSuffix(1);
    assert x in Selected([x], None).1;
    assert SortByTime([x]) == [x];
  }

  /** The example's numbers: the suffix leaves 1017 bytes, byte 1017 falls
      inside 'é', and the boundary-respecting cut keeps the 1016 'a's. */
  lemma SplitCharCut(head: string)
    requires head == seq(1016, _ => 'a')
    ensures Room(1) == 1017
    ensures Text.Truncate(head + "é", 1017).Err?
    ensures Text.FloorTruncate(head + "é", 1017) == head
  {
    var content := head + "é";
    assert AuthorSuffix(1) == " ~ <@1>";
    Text.AsciiUtf8Len(" ~ <@1>");
    Text.AsciiUtf8Len(head);
    assert content[..1016] == head;
    Text.PrefixUtf8Step(content, 1016);
    assert content[..1017] == content;
    assert !Text.IsCharBoundary(content, 1017) by {
      forall k | 0 <= k <= |content|
        ensures Text.Utf8Len(content[..k]) != 1017
      {
        if k < 1016 {
          Text.PrefixUtf8Grows(content, k, 1016);
        }
      }
    }
    var cut := Text.FloorTruncate(content, 1017);
    assert Text.Utf8Len(content[..1016]) == 1016;
    assert cut == content[..|cut|];
    assert |cut| == 1016 by {
      if |cut| + 1 < 1016 {
        Text.PrefixUtf8Grows(content, |cut| + 1, 1016);
      }
    }
  }

  // ---------------------------------------------------------------------
  // Deleting

  /** `content ILIKE message || '%'`: the content starts with the message,
      ignoring case. */
  predicate Matches(x: Reminder, message: string) {
    Text.AsciiLower(message) <= Text.AsciiLower(x.content)
  }

  predicate Deleted(x: Reminder, message: string, userId: nat, everyone: bool) {
    Matches(x, message) && (everyone || x.userId == userId)
  }

  function Remaining(rows: seq<Reminder>, message: string, userId: nat, everyone: bool): (r: seq<Reminder>)
    ensures forall x :: x in r <==> x in rows && !Deleted(x, message, userId, everyone)
    ensures |r| <= |rows|
  {
    if |rows| == 0 then []
    else (if Deleted(rows[0], message, userId, everyone) then [] else [rows[0]]) + Remaining(rows[1..], message, userId, everyone)
  }

  function CountDeleted(rows: seq<Reminder>, message: string, userId: nat, everyone: bool): nat {
    if |rows| == 0 then 0
    else (if Deleted(rows[0], message, userId, everyone) then 1 else 0) + CountDeleted(rows[1..], message, userId, everyone)
  }

  /** The rows left and the rows counted make up the table. */
  lemma {:induction false} RemainingCount(rows: seq<Reminder>, message: string, userId: nat, everyone: bool)
    ensures |Remaining(rows, message, userId, everyone)| + CountDeleted(rows, message, userId, everyone) == |rows|
  {
    if |rows| > 0 {
      RemainingCount(rows[1..], message, userId, everyone);
    }
  }

  /** `delete`: the caller's reminders starting with `message`; everyone's
      only when an owner asks for all. The reply counts the rows removed. */
  function Delete(rows: seq<Reminder>, message: string, userId: nat, all: Option<bool>, isOwner: bool): (r: (seq<Reminder>, string))
    ensures var everyone := all == Some(true) && isOwner;
      r.0 == Remaining(rows, message, userId, everyone)
    ensures r.1 == "Deleted " + Text.Decimal(|rows| - |r.0|) + " reminder(s)"
    ensures !(all == Some(true) && isOwner) ==> forall x | x in rows && x.userId != userId :: x in r.0
  {
    var everyone := all == Some(true) && isOwner;
    RemainingCount(rows, message, userId, everyone);
    (Remaining(rows, message, userId, everyone), "Deleted " + Text.Decimal(CountDeleted(rows, message, userId, everyone)) + " reminder(s)")
  }
}

=== FILE: sql.dfy ===
/** The owner's `sql` command: runs a query and shows the rows as
    tab-separated text, inline in an embed when short, as a file
    otherwise. */
module Sql {
  import opened Wrappers
  import Text

  const EMPTY_TITLE: string := "SQL Result"
  const NO_ROWS: string := "No rows returned."
  const RESULT_TITLE: string := "Query Result"
  const FILE_NAME: string := "result.tsv"
  /** Tables up to this many bytes are shown inline. */
  const INLINE_LIMIT: nat := 4096
  /** The most characters the platform accepts in an embed description. */
  const DESCRIPTION_LIMIT: nat := 4096
  const NULL_TEXT: string := " - "
  const FENCE_OPEN: string := "```\n"
  const FENCE_CLOSE: string := "```"

  /** A cell as Postgres hands it over, by column type. Floating-point and
      date-time values carry the text their `Display` gives. */
  datatype Value =
    | Null
    | Str(s: string)
    | Int8(i: int)
    | Int4(i: int)
    | Int2(i: int)
    | Float8(shown: string)
    | Float4(shown: string)
    | Boolean(b: bool)
    | TimestampTz(shown: string)
    | Timestamp(shown: string)
    | Date(shown: string)
    | Bytes(length: nat)
    | Unsupported

  function BoolText(b: bool): string {
    if b then "true" else "false"
  }

  /** The decoding attempts in the order the code makes them: `String`,
      `i64`, `i32`, `i16`, `f64`, `f32`, `bool`, `DateTime<Utc>`,
      `NaiveDateTime`, `NaiveDate`, `Vec<u8>`. An attempt yields nothing
      for a column of another type and for a null. */
  function Attempts(v: Value): (r: seq<Option<string>>)
    ensures |r| == 11
  {
    [ if v.Str? then Some(v.s) else None,
      if v.Int8? then Some(Text.IntDecimal(v.i)) else None,
      if v.Int4? then Some(Text.IntDecimal(v.i)) else None,
      if v.Int2? then Some(Text.IntDecimal(v.i)) else None,
      if v.Float8? then Some(v.shown) else None,
      if v.Float4? then Some(v.shown) else None,
      if v.Boolean? then Some(BoolText(v.b)) else None,
      if v.TimestampTz? then Some(v.shown) else None,
      if v.Timestamp? then Some(v.shown) else None,
      if v.Date? then Some(v.shown) else None,
      if v.Bytes? then Some("BLOB(" + Text.Decimal(v.length) + " bytes)") else None ]
  }

  /** `or_else` down the chain, then `unwrap_or_else`: the first attempt
      that yields text, else the fallback. */
  function FirstOr(attempts: seq<Option<string>>, fallback: string): (r: string)
    ensures (forall i | 0 <= i < |attempts| :: attempts[i].None?) ==> r == fallback
    ensures forall i | 0 <= i < |attempts| ::
      attempts[i].Some? && (forall j | 0 <= j < i :: attempts[j].None?) ==> r == attempts[i].value
  {
    if |attempts| == 0 then fallback
    else if attempts[0].Some? then attempts[0].value
    else
      assert forall i | 1 <= i < |attempts| :: attempts[i] == attempts[1..][i - 1];
      FirstOr(attempts[1..], fallback)
  }

  /** `sql_value_to_string`. */
  function CellText(v: Value): string {
    FirstOr(Attempts(v), NULL_TEXT)
  }

  /** What each kind of cell shows: its text, its decimal, its `Display`,
      the size of a byte string, or " - " for null and unknown types. */
  function Shown(v: Value): string {
    match v
    case Null => NULL_TEXT
    case Str(s) => s
    case Int8(i) => Text.IntDecimal(i)
    case Int4(i) => Text.IntDecimal(i)
    case Int2(i) => Text.IntDecimal(i)
    case Float8(s) => s
    case Float4(s) => s
    case Boolean(b) => BoolText(b)
    case TimestampTz(s) => s
    case Timestamp(s) => s
    case Date(s) => s
    case Bytes(n) => "BLOB(" + Text.Decimal(n) + " bytes)"
    case Unsupported => NULL_TEXT
  }

  /** Each type is accepted by exactly one attempt, so the chain shows
      every cell as its own type does. */
  lemma CellTextShown(v: Value)
    ensures CellText(v) == Shown(v)
  {
    var a := Attempts(v);
    if v.Null? || v.Unsupported? {
      assert forall i | 0 <= i < |a| :: a[i].None?;
    } else {
      var k := match v
        case Str(_) => 0 case Int8(_) => 1 case Int4(_) => 2 case Int2(_) => 3
        case Float8(_) => 4 case Float4(_) => 5 case Boolean(_) => 6 case TimestampTz(_) => 7
        case Timestamp(_) => 8 case Date(_) => 9 case Bytes(_) => 10 case _ => 0;
      assert a[k].Some? && forall j | 0 <= j < k :: a[j].None?;
    }
  }

  /** A line of the table: the fields joined by tabs, then a newline. */
  function Line(fields: seq<string>): string {
    Text.Join(fields, "\t") + "\n"
  }

  function Cells(row: seq<Value>): (r: seq<string>)
    ensures |r| == |row| && forall i | 0 <= i < |row| :: r[i] == CellText(row[i])
  {
    if |row| == 0 then [] else [CellText(row[0])] + Cells(row[1..])
  }

  function RowLines(rows: seq<seq<Value>>): (r: string) {
    if |rows| == 0 then "" else Line(Cells(rows[0])) + RowLines(rows[1..])
  }

  /** The table: the header line, then one line per row. */
  function Table(headers: seq<string>, rows: seq<seq<Value>>): string {
    Line(headers) + RowLines(rows)
  }

  /** The lines of a tab-separated text, each cut at its tabs; the piece
      after the final newline is dropped. */
  function ParseTable(s: string): seq<seq<string>> {
    var lines := Text.Split(s, '\n');
    SplitAll(lines[..|lines| - 1])
  }

  function SplitAll(lines: seq<string>): (r: seq<seq<string>>)
    ensures |r| == |lines| && forall i | 0 <= i < |lines| :: r[i] == Text.Split(lines[i], '\t')
  {
    if |lines| == 0 then [] else [Text.Split(lines[0], '\t')] + SplitAll(lines[1..])
  }

  /** Newline-terminated lines are the lines joined by newlines, with an
      empty piece at the end. */
  function Terminated(lines: seq<string>): string {
    if |lines| == 0 then "" else lines[0] + "\n" + Terminated(lines[1..])
  }

  lemma {:induction false} TerminatedJoin(lines: seq<string>)
    ensures Terminated(lines) == Text.Join(lines + [""], "\n")
  {
    if |lines| > 0 {
      TerminatedJoin(lines[1..]);
      assert (lines + [""])[1..] == lines[1..] + [""];
    }
  }

  /** The joined fields of every row. */
  function JoinedRows(rows: seq<seq<Value>>): (r: seq<string>)
    ensures |r| == |rows| && forall i | 0 <= i < |rows| :: r[i] == Text.Join(Cells(rows[i]), "\t")
  {
    if |rows| == 0 then [] else [Text.Join(Cells(rows[0]), "\t")] + JoinedRows(rows[1..])
  }

  lemma {:induction false} RowLinesTerminated(rows: seq<seq<Value>>)
    ensures RowLines(rows) == Terminated(JoinedRows(rows))
  {
    if |rows| > 0 {
      RowLinesTerminated(rows[1..]);
      assert JoinedRows(rows)[1..] == JoinedRows(rows[1..]);
    }
  }

  /** No field can be mistaken for a separator. */
  predicate Clean(fields: seq<string>) {
    forall i | 0 <= i < |fields| :: '\t' !in fields[i] && '\n' !in fields[i]
  }

  /** A joined line holds no newline when its fields hold none. */
  lemma {:induction false} JoinNoNewline(fields: seq<string>)
    requires Clean(fields)
    ensures '\n' !in Text.Join(fields, "\t")
  {
    if |fields| > 1 {
      JoinNoNewline(fields[1..]);
    }
  }

  /** When no header and no cell holds a tab or a newline, the table reads
      back as the headers followed by every row's cells: one line for the
      headers and one per row. */
  lemma TableRoundTrip(headers: seq<string>, rows: seq<seq<Value>>)
    requires |headers| > 0 && Clean(headers)
    requires forall i | 0 <= i < |rows| :: |rows[i]| == |headers| && Clean(Cells(rows[i]))
    ensures |ParseTable(Table(headers, rows))| == |rows| + 1
    ensures ParseTable(Table(headers, rows))[0] == headers
    ensures forall i | 0 <= i < |rows| :: ParseTable(Table(headers, rows))[i + 1] == Cells(rows[i])
  {
    var lines := [Text.Join(headers, "\t")] + JoinedRows(rows);
    RowLinesTerminated(rows);
    assert Table(headers, rows) == Terminated(lines);
    TerminatedJoin(lines);
    forall i | 0 <= i < |lines + [""]| ensures '\n' !in (lines + [""])[i] {
      if i == 0 {
        JoinNoNewline(headers);
      } else if i <= |rows| {
        JoinNoNewline(Cells(rows[i - 1]));
      }
    }
    Text.SplitJoin(lines + [""], '\n');
    assert (lines + [""])[..|lines|] == lines;
    Text.SplitJoin(headers, '\t');
    forall i | 0 <= i < |rows| ensures Text.Split(lines[i + 1], '\t') == Cells(rows[i]) {
      Text.SplitJoin(Cells(rows[i]), '\t');
    }
  }

  /** What the command sends: an embed, or a message with the table as a
      file; `ephemeral` is whether only the caller sees it. */
  datatype Reply =
    | Embedded(title: string, description: string, ephemeral: bool)
    | File(content: string, fileName: string, file: string, ephemeral: bool)

  /** `sql` as the code does it: the switch to a file looks at the table's
      byte length, not at the description the fences make longer. */
  function SqlAsWritten(headers: seq<string>, rows: Result<seq<seq<Value>>>, ephemeral: Option<bool>): (r: Result<Reply>)
    ensures rows.Err? ==> r == Err(rows.error)
    ensures rows.Ok? && rows.value == [] ==> r == Ok(Embedded(EMPTY_TITLE, NO_ROWS, ephemeral != Some(false)))
    ensures rows.Ok? && rows.value != [] && Text.Utf8Len(Table(headers, rows.value)) <= INLINE_LIMIT ==>
      r == Ok(Embedded(RESULT_TITLE, FENCE_OPEN + Table(headers, rows.value) + FENCE_CLOSE, ephemeral != Some(false)))
    ensures rows.Ok? && rows.value != [] && Text.Utf8Len(Table(headers, rows.value)) > INLINE_LIMIT ==>
      r == Ok(File(Text.Decimal(|rows.value|) + " rows returned", FILE_NAME, Table(headers, rows.value), ephemeral != Some(false)))
  {
    Respond(headers, rows, ephemeral, (table: string) => Text.Utf8Len(table) <= INLINE_LIMIT)
  }

  /** `sql` with the switch deciding on the description the embed would
      carry. */
  function Sql(headers: seq<string>, rows: Result<seq<seq<Value>>>, ephemeral: Option<bool>): (r: Result<Reply>)
    ensures rows.Err? ==> r == Err(rows.error)
    ensures rows.Ok? && rows.value == [] ==> r == Ok(Embedded(EMPTY_TITLE, NO_ROWS, ephemeral != Some(false)))
    ensures r.Ok? ==> r.value.ephemeral == (ephemeral != Some(false))
    ensures r.Ok? && r.value.Embedded? ==> |r.value.description| <= DESCRIPTION_LIMIT
    ensures r.Ok? && r.value.File? ==> r.value.file == Table(headers, rows.value) && r.value.fileName == FILE_NAME
    ensures rows.Ok? && rows.value != [] && |FENCE_OPEN + Table(headers, rows.value) + FENCE_CLOSE| <= DESCRIPTION_LIMIT ==>
      r == Ok(Embedded(RESULT_TITLE, FENCE_OPEN + Table(headers, rows.value) + FENCE_CLOSE, ephemeral != Some(false)))
    ensures rows.Ok? && rows.value != [] && |FENCE_OPEN + Table(headers, rows.value) + FENCE_CLOSE| > DESCRIPTION_LIMIT ==>
      r == Ok(File(Text.Decimal(|rows.value|) + " rows returned", FILE_NAME, Table(headers, rows.value), ephemeral != Some(false)))
  {
    Respond(headers, rows, ephemeral, (table: string) => |FENCE_OPEN + table + FENCE_CLOSE| <= DESCRIPTION_LIMIT)
  }

  function Respond(headers: seq<string>, rows: Result<seq<seq<Value>>>, ephemeral: Option<bool>, inline: string -> bool): Result<Reply> {
    var hidden := ephemeral != Some(false);
    match rows
    case Err(e) => Err(e)
    case Ok(rs) =>
      if rs == [] then Ok(Embedded(EMPTY_TITLE, NO_ROWS, hidden))
      else
        var table := Table(headers, rs);
        if inline(table) then Ok(Embedded(RESULT_TITLE, FENCE_OPEN + table + FENCE_CLOSE, hidden))
        else Ok(File(Text.Decimal(|rs|) + " rows returned", FILE_NAME, table, hidden))
  }

  /** A one-column result whose table is exactly 4096 bytes is put inline,
      in a description of 4103 characters, past what an embed may hold;
      the corrected switch sends it as a file. */
  lemma OverlongDescription(header: string)
    requires |header| == 4091 && Text.IsAscii(header)
    ensures && SqlAsWritten([header], Ok([[Null]]), None).value.Embedded?
            && |SqlAsWritten([header], Ok([[Null]]), None).value.description| == 4103
            && Sql([header], Ok([[Null]]), None).value.File?
  {
    var table := Table([header], [[Null]]);
    NullTableSize(header);
    assert SqlAsWritten([header], Ok([[Null]]), None) == Ok(Embedded(RESULT_TITLE, FENCE_OPEN + table + FENCE_CLOSE, true));
  }

  /** The table of one ASCII column name of 4091 characters over one NULL
      is 4096 characters and bytes. */
  lemma NullTableSize(header: string)
    requires |header| == 4091 && Text.IsAscii(header)
    ensures |Table([header], [[Null]])| == 4096
    ensures Text.Utf8Len(Table([header], [[Null]])) == 4096
  {
    CellTextShown(Null);
    assert Cells([Null]) == [NULL_TEXT];
    var table := Table([header], [[Null]]);
    assert table == header + "\n" + NULL_TEXT + "\n";
    assert Text.IsAscii(table);
    Text.AsciiUtf8Len(table);
  }
}

=== FILE: text.dfy ===
/** String primitives of the Rust standard library that the bot relies on:
    UTF-8 byte length (`str::len`), ASCII case mapping, decimal formatting
    (`to_string` on integers), integer parsing (`str::parse`), `contains`,
    `join` and `replace`. Strings are sequences of Unicode scalar values. */
module Text {
  import opened Wrappers

  // ---------------------------------------------------------------------
  // UTF-8 length

  /** Number of bytes the character takes in UTF-8. */
  function CharUtf8Len(c: char): (n: nat)
    ensures 1 <= n <= 4
    ensures n == 1 <==> c as int < 0x80
  {
    if c as int < 0x80 then 1
    else if c as int < 0x800 then 2
    else if c as int < 0x10000 then 3
    else 4
  }

  /** Byte length of a string, which is what Rust's `str::len` returns. */
  function Utf8Len(s: string): nat
  {
    if |s| == 0 then 0 else Utf8Len(s[..|s| - 1]) + CharUtf8Len(s[|s| - 1])
  }

  lemma {:induction false} Utf8LenAppend(a: string, b: string)
    ensures Utf8Len(a + b) == Utf8Len(a) + Utf8Len(b)
    decreases |b|
  {
    if |b| == 0 {
      assert a + b == a;
    } else {
      var b' := b[..|b| - 1];
      assert (a + b)[..|a + b| - 1] == a + b';
      Utf8LenAppend(a, b');
    }
  }

  /** Every character takes at least one byte. */
  lemma {:induction false} Utf8LenAtLeastLength(s: string)
    ensures |s| <= Utf8Len(s)
    decreases |s|
  {
    if |s| > 0 {
      Utf8LenAtLeastLength(s[..|s| - 1]);
    }
  }

  predicate IsAscii(s: string) {
    forall i | 0 <= i < |s| :: s[i] as int < 0x80
  }

  /** An all-ASCII string has one byte per character. */
  lemma {:induction false} AsciiUtf8Len(s: string)
    requires IsAscii(s)
    ensures Utf8Len(s) == |s|
    decreases |s|
  {
    if |s| > 0 {
      AsciiUtf8Len(s[..|s| - 1]);
    }
  }

  // ---------------------------------------------------------------------
  // ASCII character classes and case mapping

  predicate IsAsciiDigit(c: char) {
    '0' <= c <= '9'
  }

  predicate IsAsciiUpper(c: char) {
    'A' <= c <= 'Z'
  }

  predicate IsAsciiLower(c: char) {
    'a' <= c <= 'z'
  }

  predicate IsAsciiAlpha(c: char) {
    IsAsciiUpper(c) || IsAsciiLower(c)
  }

  predicate IsAsciiAlnum(c: char) {
    IsAsciiAlpha(c) || IsAsciiDigit(c)
  }

  predicate AllDigits(s: string) {
    forall i | 0 <= i < |s| :: IsAsciiDigit(s[i])
  }
  /** Length of the longest prefix of ASCII digits. */
  function DigitRun(s: string): (n: nat)
    ensures n <= |s|
    ensures forall i | 0 <= i < n :: IsAsciiDigit(s[i])
    ensures n < |s| ==> !IsAsciiDigit(s[n])
  {
    if |s| == 0 || !IsAsciiDigit(s[0]) then 0 else 1 + DigitRun(s[1..])
  }

  /** A run of digits followed by anything that does not start with a
      digit: the run is exactly the digits. */
  lemma {:induction false} DigitRunOf(d: string, rest: string)
    requires AllDigits(d)
    requires |rest| > 0 ==> !IsAsciiDigit(rest[0])
    ensures DigitRun(d + rest) == |d|
    decreases |d|
  {
    if |d| > 0 {
      assert (d + rest)[1..] == d[1..] + rest;
      DigitRunOf(d[1..], rest);
    } else {
      assert d + rest == rest;
    }
  }


  function AsciiUpperChar(c: char): char {
    if IsAsciiLower(c) then (c as int - 32) as char else c
  }

  function AsciiLowerChar(c: char): char {
    if IsAsciiUpper(c) then (c as int + 32) as char else c
  }

  /** `str::to_ascii_uppercase`: only a-z change. */
  function AsciiUpper(s: string): (r: string)
    ensures |r| == |s|
    ensures forall i | 0 <= i < |s| :: r[i] == AsciiUpperChar(s[i])
  {
    if |s| == 0 then [] else [AsciiUpperChar(s[0])] + AsciiUpper(s[1..])
  }

  /** Lower-casing restricted to A-Z (see README: Unicode case mapping is left out). */
  function AsciiLower(s: string): (r: string)
    ensures |r| == |s|
    ensures forall i | 0 <= i < |s| :: r[i] == AsciiLowerChar(s[i])
  {
    if |s| == 0 then [] else [AsciiLowerChar(s[0])] + AsciiLower(s[1..])
  }

  // ---------------------------------------------------------------------
  // Decimal formatting and parsing

  function DigitChar(d: nat): char
    requires d < 10
  {
    ('0' as int + d) as char
  }

  /** `n.to_string()` for an unsigned integer. */
  function Decimal(n: nat): (r: string)
    ensures |r| > 0 && AllDigits(r)
  {
    if n < 10 then [DigitChar(n)] else Decimal(n / 10) + [DigitChar(n % 10)]
  }

  /** `i.to_string()` for a signed integer. */
  function IntDecimal(i: int): string {
    if i < 0 then "-" + Decimal(-i) else Decimal(i)
  }

  /** The value of a string of ASCII digits, most significant first. */
  function DigitsValue(s: string): nat
    requires AllDigits(s)
  {
    if |s| == 0 then 0
    else DigitsValue(s[..|s| - 1]) * 10 + (s[|s| - 1] as int - '0' as int)
  }

  lemma {:induction false} DigitsValueOfDecimal(n: nat)
    ensures DigitsValue(Decimal(n)) == n
  {
    if n >= 10 {
      var d := Decimal(n);
      assert d[..|d| - 1] == Decimal(n / 10);
      DigitsValueOfDecimal(n / 10);
    }
  }

  /** A leading zero does not change a digit string's value. */
  lemma {:induction false} LeadingZero(s: string)
    requires AllDigits(s)
    ensures AllDigits("0" + s) && DigitsValue("0" + s) == DigitsValue(s)
    decreases |s|
  {
    if |s| > 0 {
      assert ("0" + s)[..|"0" + s| - 1] == "0" + s[..|s| - 1];
      LeadingZero(s[..|s| - 1]);
    }
  }

  /** `format!("{:0w}", n)`: the decimal of `n`, zero-padded on the left
      to at least `width` digits. */
  function ZeroPad(n: nat, width: nat): (r: string)
    ensures AllDigits(r)
    ensures |r| == if |Decimal(n)| < width then width else |Decimal(n)|
    ensures DigitsValue(r) == n
    decreases width
  {
    if |Decimal(n)| >= width then
      DigitsValueOfDecimal(n);
      Decimal(n)
    else
      var rest := ZeroPad(n, width - 1);
      LeadingZero(rest);
      "0" + rest
  }

  const U8_MAX: nat := 255
  const U32_MAX: nat := 0xFFFF_FFFF
  const I64_MIN: int := -0x8000_0000_0000_0000
  const I64_MAX: int := 0x7FFF_FFFF_FFFF_FFFF

  /** `str::parse` for an unsigned integer type whose largest value is `max`:
      an optional leading '+', then at least one ASCII digit; overflow fails. */
  function ParseUnsigned(s: string, max: nat): (r: Option<nat>)
    ensures r.Some? ==> r.value <= max
    ensures r.Some? ==> |s| > 0
  {
    if |s| == 0 then None
    else if (s[0] == '+' || s[0] == '-') && |s| == 1 then None
    else
      var digits := if s[0] == '+' then s[1..] else s;
      if AllDigits(digits) && DigitsValue(digits) <= max then Some(DigitsValue(digits))
      else None
  }

  /** `str::parse::<i64>`: an optional sign, then at least one ASCII digit. */
  function ParseI64(s: string): (r: Option<int>)
    ensures r.Some? ==> I64_MIN <= r.value <= I64_MAX
  {
    if |s| == 0 then None
    else if (s[0] == '+' || s[0] == '-') && |s| == 1 then None
    else
      var digits := if s[0] == '+' || s[0] == '-' then s[1..] else s;
      if !AllDigits(digits) then None
      else
        var v: int := if s[0] == '-' then -(DigitsValue(digits) as int) else DigitsValue(digits);
        if I64_MIN <= v <= I64_MAX then Some(v) else None
  }

  /** Formatting an unsigned value and parsing it back gives the value. */
  lemma ParseUnsignedDecimal(n: nat, max: nat)
    requires n <= max
    ensures ParseUnsigned(Decimal(n), max) == Some(n)
  {
    DigitsValueOfDecimal(n);
  }

  /** Formatting an i64 and parsing it back gives the value. */
  lemma ParseI64IntDecimal(i: int)
    requires I64_MIN <= i <= I64_MAX
    ensures ParseI64(IntDecimal(i)) == Some(i)
  {
    if i < 0 {
      var s := IntDecimal(i);
      assert s[1..] == Decimal(-i);
      DigitsValueOfDecimal(-i);
    } else {
      DigitsValueOfDecimal(i);
    }
  }

  /** Why `str::parse` rejected its input, as `ParseIntError` names it. */
  datatype IntError = EmptyInput | InvalidDigit | PosOverflow

  /** The `Display` text of each kind. */
  function IntErrorText(e: IntError): string {
    match e
    case EmptyInput => "cannot parse integer from empty string"
    case InvalidDigit => "invalid digit found in string"
    case PosOverflow => "number too large to fit in target type"
  }

  datatype Parsed = Parsed(value: nat) | Rejected(kind: IntError)

  function DigitOf(c: char): nat
    requires IsAsciiDigit(c)
  {
    c as int - '0' as int
  }

  /** The digit loop of the standard library's unsigned parser, left to
      right: a non-digit is reported before an overflow of the same step. */
  function ScanDigits(d: string, acc: nat, max: nat): (r: Parsed)
    requires acc <= max
    ensures r.Parsed? ==> r.value <= max
    decreases |d|
  {
    if |d| == 0 then Parsed(acc)
    else if !IsAsciiDigit(d[0]) then Rejected(InvalidDigit)
    else if acc * 10 + DigitOf(d[0]) > max then Rejected(PosOverflow)
    else ScanDigits(d[1..], acc * 10 + DigitOf(d[0]), max)
  }

  /** `str::parse` for an unsigned type with largest value `max`, with the
      reason for a rejection. */
  function FromStrUnsigned(s: string, max: nat): (r: Parsed)
    ensures |s| == 0 ==> r == Rejected(EmptyInput)
  {
    if |s| == 0 then Rejected(EmptyInput)
    else if (s[0] == '+' || s[0] == '-') && |s| == 1 then Rejected(InvalidDigit)
    else ScanDigits(if s[0] == '+' then s[1..] else s, 0, max)
  }

  /** The value of digits read left to right after `acc`. */
  function FoldDigits(acc: nat, d: string): nat
    requires AllDigits(d)
    decreases |d|
  {
    if |d| == 0 then acc else FoldDigits(acc * 10 + DigitOf(d[0]), d[1..])
  }

  lemma {:induction false} FoldDigitsSnoc(acc: nat, p: string, c: char)
    requires AllDigits(p) && IsAsciiDigit(c)
    ensures AllDigits(p + [c])
    ensures FoldDigits(acc, p + [c]) == FoldDigits(acc, p) * 10 + DigitOf(c)
    decreases |p|
  {
    if |p| > 0 {
      assert (p + [c])[1..] == p[1..] + [c];
      FoldDigitsSnoc(acc * 10 + DigitOf(p[0]), p[1..], c);
    }
  }

  /** Read from the left from zero, digits have the value `DigitsValue`
      gives reading from the right. */
  lemma {:induction false} FoldDigitsValue(d: string)
    requires AllDigits(d)
    ensures FoldDigits(0, d) == DigitsValue(d)
    decreases |d|
  {
    if |d| > 0 {
      var p := d[..|d| - 1];
      assert d == p + [d[|d| - 1]];
      FoldDigitsValue(p);
      FoldDigitsSnoc(0, p, d[|d| - 1]);
    }
  }

  lemma {:induction false} FoldDigitsGrows(acc: nat, d: string)
    requires AllDigits(d)
    ensures FoldDigits(acc, d) >= acc
    ensures |d| > 0 ==> FoldDigits(acc, d) >= acc * 10 + DigitOf(d[0])
    decreases |d|
  {
    if |d| > 0 {
      FoldDigitsGrows(acc * 10 + DigitOf(d[0]), d[1..]);
    }
  }

  /** The digit loop accepts exactly all-digit text whose value fits. */
  lemma {:induction false} ScanDigitsIff(d: string, acc: nat, max: nat)
    requires acc <= max
    ensures ScanDigits(d, acc, max).Parsed? <==> AllDigits(d) && FoldDigits(acc, d) <= max
    ensures ScanDigits(d, acc, max).Parsed? ==> ScanDigits(d, acc, max).value == FoldDigits(acc, d)
    decreases |d|
  {
    if |d| > 0 && IsAsciiDigit(d[0]) {
      var next := acc * 10 + DigitOf(d[0]);
      if next > max {
        if AllDigits(d) {
          FoldDigitsGrows(acc, d);
        }
      } else {
        ScanDigitsIff(d[1..], next, max);
        assert AllDigits(d) <==> AllDigits(d[1..]);
      }
    }
  }

  /** The detailed parser accepts the same inputs, with the same values, as
      `ParseUnsigned`. */
  lemma FromStrAgrees(s: string, max: nat)
    ensures FromStrUnsigned(s, max).Parsed? <==> ParseUnsigned(s, max).Some?
    ensures FromStrUnsigned(s, max).Parsed? ==> FromStrUnsigned(s, max).value == ParseUnsigned(s, max).value
  {
    if |s| > 0 && !((s[0] == '+' || s[0] == '-') && |s| == 1) {
      var digits := if s[0] == '+' then s[1..] else s;
      ScanDigitsIff(digits, 0, max);
      if AllDigits(digits) {
        FoldDigitsValue(digits);
      }
    }
  }

  // ---------------------------------------------------------------------
  // Searching, joining, replacing

  /** `haystack.contains(needle)` for a string needle. */
  predicate Contains(haystack: string, needle: string)
    decreases |haystack|
  {
    needle <= haystack || (|haystack| > 0 && Contains(haystack[1..], needle))
  }

  /** The needle occurs in the haystack starting at index `i`. */
  predicate OccursAt(haystack: string, needle: string, i: int) {
    0 <= i <= |haystack| - |needle| && haystack[i..i + |needle|] == needle
  }

  /** `Contains` means the needle occurs at some index. */
  lemma {:induction false} ContainsIff(haystack: string, needle: string)
    ensures Contains(haystack, needle) <==> exists i :: OccursAt(haystack, needle, i)
    decreases |haystack|
  {
    if needle <= haystack {
      assert OccursAt(haystack, needle, 0);
    } else if |haystack| > 0 {
      ContainsIff(haystack[1..], needle);
      if Contains(haystack[1..], needle) {
        var i :| OccursAt(haystack[1..], needle, i);
        assert haystack[i + 1..i + 1 + |needle|] == haystack[1..][i..i + |needle|];
        assert OccursAt(haystack, needle, i + 1);
      }
      if exists i :: OccursAt(haystack, needle, i) {
        var i :| OccursAt(haystack, needle, i);
        if i > 0 {
          assert haystack[1..][i - 1..i - 1 + |needle|] == haystack[i..i + |needle|];
          assert OccursAt(haystack[1..], needle, i - 1);
        }
      }
    }
  }

  /** `parts.join(sep)`. */
  function Join(parts: seq<string>, sep: string): string {
    if |parts| == 0 then ""
    else if |parts| == 1 then parts[0]
    else parts[0] + sep + Join(parts[1..], sep)
  }

  /** A string is the part before a position, the character there, and the
      rest. */
  lemma Around(s: string, k: nat)
    requires k < |s|
    ensures s == s[..k] + [s[k]] + s[k + 1..]
  {
    assert s == s[..k] + s[k..];
    assert s[k..] == [s[k]] + s[k + 1..];
  }

  /** Joining a part in front of at least one more adds it and a separator. */
  lemma JoinCons(a: string, rest: seq<string>, sep: string)
    requires |rest| >= 1
    ensures Join([a] + rest, sep) == a + sep + Join(rest, sep)
  {
    assert ([a] + rest)[1..] == rest;
  }

  /** `s.split(c)`: the pieces between separators, empty ones included. */
  function Split(s: string, c: char): (r: seq<string>)
    ensures |r| > 0
    ensures forall i | 0 <= i < |r| :: c !in r[i]
  {
    if |s| == 0 then [""]
    else
      var rest := Split(s[1..], c);
      if s[0] == c then [""] + rest
      else [[s[0]] + rest[0]] + rest[1..]
  }

  lemma {:induction false} SplitPrefix(p: string, s: string, c: char)
    requires c !in p
    ensures Split(p + s, c) == [p + Split(s, c)[0]] + Split(s, c)[1..]
    decreases |p|
  {
    if |p| > 0 {
      assert (p + s)[1..] == p[1..] + s;
      assert (p + s)[0] == p[0] && p[0] != c;
      SplitPrefix(p[1..], s, c);
      var rest := Split(p[1..] + s, c);
      assert rest[0] == p[1..] + Split(s, c)[0] && rest[1..] == Split(s, c)[1..];
      assert [p[0]] + (p[1..] + Split(s, c)[0]) == p + Split(s, c)[0];
    } else {
      assert p + s == s;
      var t := Split(s, c);
      assert p + t[0] == t[0];
      assert [t[0]] + t[1..] == t;
    }
  }

  lemma {:induction false} SplitJoin(ps: seq<string>, c: char)
    requires |ps| > 0
    requires forall i | 0 <= i < |ps| :: c !in ps[i]
    ensures Split(Join(ps, [c]), c) == ps
    decreases |ps|
  {
    if |ps| == 1 {
      SplitPrefix(ps[0], "", c);
      assert ps[0] + "" == ps[0];
    } else {
      var tail := Join(ps[1..], [c]);
      SplitJoin(ps[1..], c);
      assert Join(ps, [c]) == ps[0] + ([c] + tail);
      SplitPrefix(ps[0], [c] + tail, c);
      assert ([c] + tail)[1..] == tail;
      assert Split([c] + tail, c) == [""] + ps[1..];
      assert ps[0] + "" == ps[0];
    }
  }

  /** Concatenation of all parts, `parts.concat()`. */
  function Concat(parts: seq<string>): string {
    if |parts| == 0 then "" else Concat(parts[..|parts| - 1]) + parts[|parts| - 1]
  }

  lemma {:induction false} ConcatAppend(a: seq<string>, b: seq<string>)
    ensures Concat(a + b) == Concat(a) + Concat(b)
    decreases |b|
  {
    if |b| == 0 {
      assert a + b == a;
    } else {
      assert (a + b)[..|a + b| - 1] == a + b[..|b| - 1];
      assert (a + b)[|a + b| - 1] == b[|b| - 1];
      ConcatAppend(a, b[..|b| - 1]);
    }
  }

  /** The concatenation of a leading part and the rest. */
  lemma ConcatCons(x: string, rest: seq<string>)
    ensures Concat([x] + rest) == x + Concat(rest)
  {
    ConcatAppend([x], rest);
    assert [x][..0] == [];
  }

  /** A line with its '\n' appended to a page, then more text. */
  lemma AppendLine(page: string, line: string, rest: string)
    ensures page + line + "\n" + rest == page + (line + "\n" + rest)
  {
  }

  /** `s.replace(pattern, replacement)`: every non-overlapping occurrence,
      scanning left to right, is replaced. */
  function ReplaceAll(s: string, pattern: string, replacement: string): string
    requires |pattern| > 0
    decreases |s|
  {
    if |s| < |pattern| then s
    else if pattern <= s then replacement + ReplaceAll(s[|pattern|..], pattern, replacement)
    else [s[0]] + ReplaceAll(s[1..], pattern, replacement)
  }

  /** Replacing a pattern that does not occur leaves the string as it is. */
  lemma {:induction false} ReplaceAbsent(s: string, pattern: string, replacement: string)
    requires |pattern| > 0
    requires !Contains(s, pattern)
    ensures ReplaceAll(s, pattern, replacement) == s
    decreases |s|
  {
    if |s| >= |pattern| {
      assert !(pattern <= s);
      ReplaceAbsent(s[1..], pattern, replacement);
      assert [s[0]] + s[1..] == s;
    }
  }

  // ---------------------------------------------------------------------
  // Byte offsets and truncation

  /** Adding one character to a prefix adds that character's bytes. */
  lemma PrefixUtf8Step(s: string, k: nat)
    requires k < |s|
    ensures Utf8Len(s[..k + 1]) == Utf8Len(s[..k]) + CharUtf8Len(s[k])
  {
    assert s[..k + 1][..k] == s[..k];
  }

  /** Longer prefixes take strictly more bytes. */
  lemma {:induction false} PrefixUtf8Grows(s: string, j: nat, k: nat)
    requires j < k <= |s|
    ensures Utf8Len(s[..j]) < Utf8Len(s[..k])
    decreases k - j
  {
    PrefixUtf8Step(s, k - 1);
    if j < k - 1 {
      PrefixUtf8Grows(s, j, k - 1);
    }
  }

  /** Byte offset `n` lies on a character boundary of `s`. */
  predicate IsCharBoundary(s: string, n: nat) {
    exists k | 0 <= k <= |s| :: Utf8Len(s[..k]) == n
  }

  /** The number of leading characters that end exactly at byte `n`,
      searching from character `k` on. */
  function CharsUpTo(s: string, n: nat, k: nat): (r: Option<nat>)
    requires k <= |s| && Utf8Len(s[..k]) <= n
    ensures r.Some? ==> k <= r.value <= |s| && Utf8Len(s[..r.value]) == n
    ensures r.None? ==> forall j | k <= j <= |s| :: Utf8Len(s[..j]) != n
    decreases |s| - k
  {
    if Utf8Len(s[..k]) == n then Some(k)
    else if k == |s| then None
    else
      PrefixUtf8Step(s, k);
      if Utf8Len(s[..k + 1]) > n then
        assert forall j | k + 1 < j <= |s| :: Utf8Len(s[..j]) > n by {
          forall j | k + 1 < j <= |s| ensures Utf8Len(s[..j]) > n {
            PrefixUtf8Grows(s, k + 1, j);
          }
        }
        None
      else CharsUpTo(s, n, k + 1)
  }

  const CHAR_BOUNDARY_PANIC: string := "assertion failed: self.is_char_boundary(new_len)"

  /** `String::truncate(n)`: nothing happens when the string is at most `n`
      bytes long; otherwise the cut must fall on a character boundary or
      the call panics. */
  function Truncate(s: string, n: nat): (r: Result<string>)
    ensures Utf8Len(s) <= n ==> r == Ok(s)
    ensures r.Ok? ==> r.value <= s && Utf8Len(r.value) <= n
    ensures r.Err? <==> Utf8Len(s) > n && !IsCharBoundary(s, n)
  {
    assert s[..|s|] == s;
    if Utf8Len(s) <= n then Ok(s)
    else
      match CharsUpTo(s, n, 0)
      case Some(k) => Ok(s[..k])
      case None => Err(Failure(CHAR_BOUNDARY_PANIC))
  }

  /** The longest prefix of `s` that fits in `n` bytes: a cut moved down to
      the nearest character boundary. */
  function FloorTruncate(s: string, n: nat): (r: string)
    ensures r <= s && Utf8Len(r) <= n
    ensures |r| < |s| ==> Utf8Len(s[..|r| + 1]) > n
  {
    FloorFrom(s, n, 0)
  }

  function FloorFrom(s: string, n: nat, k: nat): (r: string)
    requires k <= |s| && Utf8Len(s[..k]) <= n
    ensures |r| >= k && r <= s && Utf8Len(r) <= n
    ensures |r| < |s| ==> Utf8Len(s[..|r| + 1]) > n
    decreases |s| - k
  {
    if k == |s| then
      assert s[..k] == s;
      s
    else if Utf8Len(s[..k + 1]) > n then s[..k]
    else FloorFrom(s, n, k + 1)
  }

  /** Where truncation does not panic, cutting at the nearest boundary
      gives the same string. */
  lemma FloorTruncateAgrees(s: string, n: nat)
    requires Truncate(s, n).Ok?
    ensures FloorTruncate(s, n) == Truncate(s, n).value
  {
    var t := Truncate(s, n).value;
    var f := FloorTruncate(s, n);
    assert t == s[..|t|] && f == s[..|f|];
    assert s[..|s|] == s;
    if Utf8Len(s) <= n {
      if |f| + 1 < |s| {
        PrefixUtf8Grows(s, |f| + 1, |s|);
      }
    } else {
      var k :| 0 <= k <= |s| && Utf8Len(s[..k]) == n;
      if |t| < k {
        PrefixUtf8Grows(s, |t|, k);
      } else if k < |t| {
        PrefixUtf8Grows(s, k, |t|);
      }
      if |f| + 1 < |t| {
        PrefixUtf8Grows(s, |f| + 1, |t|);
      }
      if |t| < |f| {
        PrefixUtf8Grows(s, |t|, |f|);
      }
    }
  }

  function Pow10(k: nat): nat {
    if k == 0 then 1 else 10 * Pow10(k - 1)
  }

  /** A signed 64-bit id has at most 19 digits. */
  lemma I64Digits(n: nat)
    requires n <= I64_MAX
    ensures |Decimal(n)| <= 19
  {
    assert Pow10(19) == 10_000_000_000_000_000_000 by {
      assert Pow10(4) == 10_000;
      assert Pow10(8) == 100_000_000;
      assert Pow10(12) == 1_000_000_000_000;
      assert Pow10(16) == 10_000_000_000_000_000;
    }
    DecimalLength(n, 19);
  }

  /** A number below 10^k has at most k digits. */
  lemma {:induction false} DecimalLength(n: nat, k: nat)
    requires 1 <= k && n < Pow10(k)
    ensures |Decimal(n)| <= k
  {
    if n >= 10 {
      DecimalLength(n / 10, k - 1);
    }
  }

  /** Digits are one byte each. */
  lemma DecimalUtf8Len(n: nat)
    ensures Utf8Len(Decimal(n)) == |Decimal(n)|
  {
    AsciiUtf8Len(Decimal(n));
  }
}

=== FILE: url_query.dfy ===
/** The parts of the `url` crate a query goes through: `query_pairs()`
    reads names and values with the `application/x-www-form-urlencoded`
    rules, `form_urlencoded::byte_serialize` writes them back, and
    `set_query` percent-encodes the special-query set of an http(s) URL
    (section 5 of the WHATWG URL Standard). */
module UrlQuery {
  import Text
  import Utf8

  type Byte = Utf8.Byte

  const HEX: string := "0123456789ABCDEF"

  // ---------------------------------------------------------------------
  // Reading a name or a value

  predicate IsHex(b: Byte) {
    48 <= b <= 57 || 65 <= b <= 70 || 97 <= b <= 102
  }

  /** The value of a hex digit of either case. */
  function HexValue(b: Byte): (r: nat)
    requires IsHex(b)
    ensures r < 16
  {
    if b <= 57 then b - 48 else if b <= 70 then b - 55 else b - 87
  }

  /** '+' is a space, '%' with two hex digits is the byte they spell, and
      any other byte, a lone '%' among them, stands for itself. */
  function DecodeBytes(b: seq<Byte>): (r: seq<Byte>)
    ensures |r| <= |b|
    decreases |b|
  {
    if |b| == 0 then []
    else if b[0] == '+' as int then [' ' as int] + DecodeBytes(b[1..])
    else if b[0] == '%' as int && |b| >= 3 && IsHex(b[1]) && IsHex(b[2]) then
      [HexValue(b[1]) * 16 + HexValue(b[2])] + DecodeBytes(b[3..])
    else [b[0]] + DecodeBytes(b[1..])
  }

  /** A name or value as `query_pairs()` yields it: decoded bytes read as
      UTF-8, lossily. */
  function Decode(s: string): string {
    Utf8.DecodeLossy(DecodeBytes(Utf8.Encode(s)))
  }

  // ---------------------------------------------------------------------
  // Writing a name or a value (`byte_serialize`)

  /** `%` and the byte's two upper-case hex digits. */
  function Escape(b: Byte): (r: string)
    ensures |r| == 3 && r[0] == '%' && Text.IsAsciiAlnum(r[1]) && Text.IsAsciiAlnum(r[2])
    ensures IsHex(r[1] as int) && IsHex(r[2] as int)
    ensures HexValue(r[1] as int) * 16 + HexValue(r[2] as int) == b
  {
    HexDigit(b / 16);
    HexDigit(b % 16);
    ['%', HEX[b / 16], HEX[b % 16]]
  }

  lemma HexDigit(d: nat)
    requires d < 16
    ensures IsHex(HEX[d] as int) && Text.IsAsciiAlnum(HEX[d]) && HexValue(HEX[d] as int) == d
  {
  }

  /** The bytes `byte_serialize` writes as they are. */
  predicate Verbatim(b: Byte) {
    Text.IsAsciiAlnum(b as char) || b == '*' as int || b == '-' as int || b == '.' as int || b == '_' as int
  }

  function SerializeByte(b: Byte): (r: string)
    ensures Verbatim(b) ==> r == [b as char]
    ensures b == ' ' as int ==> r == "+"
    ensures !Verbatim(b) && b != ' ' as int ==> r == Escape(b)
  {
    if Verbatim(b) then [b as char]
    else if b == ' ' as int then "+"
    else Escape(b)
  }

  function SerializeBytes(bs: seq<Byte>): string {
    if |bs| == 0 then "" else SerializeByte(bs[0]) + SerializeBytes(bs[1..])
  }

  function Serialize(s: string): string {
    SerializeBytes(Utf8.Encode(s))
  }

  /** The characters a serialized name or value is made of. */
  predicate SerializedChar(c: char) {
    Text.IsAsciiAlnum(c) || c in "*-._+%"
  }

  predicate SerializedText(s: string) {
    forall i | 0 <= i < |s| :: SerializedChar(s[i])
  }

  lemma {:induction false} SerializedChars(bs: seq<Byte>)
    ensures SerializedText(SerializeBytes(bs))
  {
    if |bs| > 0 {
      SerializedChars(bs[1..]);
      var h := SerializeByte(bs[0]);
      assert forall i | 0 <= i < |h| :: SerializedChar(h[i]);
      assert SerializeBytes(bs) == h + SerializeBytes(bs[1..]);
    }
  }

  lemma {:induction false} EncodeAppend(a: string, b: string)
    ensures Utf8.Encode(a + b) == Utf8.Encode(a) + Utf8.Encode(b)
  {
    if |a| > 0 {
      assert (a + b)[1..] == a[1..] + b;
      EncodeAppend(a[1..], b);
    } else {
      assert a + b == b;
    }
  }

  /** The bytes of an escape are its three characters. */
  lemma EncodeEscape(b: Byte)
    ensures var r := Escape(b); Utf8.Encode(r) == [r[0] as int, r[1] as int, r[2] as int]
  {
    var r := Escape(b);
    assert r[1..][1..] == [r[2]] && [r[2]][1..] == [];
    assert Utf8.Encode([r[2]]) == [r[2] as int];
    assert Utf8.Encode(r[1..]) == [r[1] as int, r[2] as int];
  }

  /** Reading one serialized byte back. */
  lemma DecodeSerializedByte(b: Byte, rest: seq<Byte>)
    ensures DecodeBytes(Utf8.Encode(SerializeByte(b)) + rest) == [b] + DecodeBytes(rest)
  {
    var h := SerializeByte(b);
    if Verbatim(b) || b == ' ' as int {
      assert Utf8.Encode(h) == [h[0] as int];
      var e := [h[0] as int] + rest;
      assert e[1..] == rest;
    } else {
      EncodeEscape(b);
      var e := [h[0] as int, h[1] as int, h[2] as int] + rest;
      assert e[3..] == rest;
    }
  }

  lemma {:induction false} DecodeSerializeBytes(bs: seq<Byte>)
    ensures DecodeBytes(Utf8.Encode(SerializeBytes(bs))) == bs
  {
    if |bs| > 0 {
      var h := SerializeByte(bs[0]);
      EncodeAppend(h, SerializeBytes(bs[1..]));
      DecodeSerializedByte(bs[0], Utf8.Encode(SerializeBytes(bs[1..])));
      DecodeSerializeBytes(bs[1..]);
      assert [bs[0]] + bs[1..] == bs;
    }
  }

  /** Reading a serialized name or value gives it back, whatever
      characters it holds. */
  lemma DecodeSerialize(s: string)
    ensures Decode(Serialize(s)) == s
    ensures SerializedText(Serialize(s))
  {
    DecodeSerializeBytes(Utf8.Encode(s));
    Utf8.DecodeLossyEncode(s);
    SerializedChars(Utf8.Encode(s));
  }

  /** Text made of letters, digits and `*-._` only. */
  predicate Verbatims(s: string) {
    forall i | 0 <= i < |s| :: Text.IsAsciiAlnum(s[i]) || s[i] in "*-._"
  }

  /** Such text is serialized as it is. */
  lemma {:induction false} SerializeVerbatim(s: string)
    requires Verbatims(s)
    ensures Serialize(s) == s
  {
    if |s| > 0 {
      assert [s[0]] + s[1..] == s;
      assert Utf8.Encode(s) == Utf8.EncodeChar(s[0]) + Utf8.Encode(s[1..]);
      assert Utf8.EncodeChar(s[0]) == [s[0] as int];
      SerializeVerbatim(s[1..]);
      assert Utf8.Encode(s)[1..] == Utf8.Encode(s[1..]);
    }
  }

  // ---------------------------------------------------------------------
  // `set_query` on an http(s) URL

  /** The special-query percent-encode set: controls, space, '"', '#',
      '<', '>', '\'' and every byte outside ASCII. */
  predicate InQuerySet(b: Byte) {
    b < 0x20 || b >= 0x7F || b == ' ' as int || b == '"' as int || b == '#' as int
      || b == '<' as int || b == '>' as int || b == '\'' as int
  }

  function EncodeQueryBytes(bs: seq<Byte>): string {
    if |bs| == 0 then ""
    else
      (if InQuerySet(bs[0]) then Escape(bs[0]) else [bs[0] as char]) + EncodeQueryBytes(bs[1..])
  }

  /** Tabs and line breaks are dropped, then each character's bytes are
      encoded. */
  function EncodeQuery(s: string): string {
    if |s| == 0 then ""
    else
      (if s[0] in "\t\n\r" then "" else EncodeQueryBytes(Utf8.EncodeChar(s[0]))) + EncodeQuery(s[1..])
  }

  /** The characters `set_query` leaves alone. */
  predicate QuerySafe(c: char) {
    0x20 < c as int < 0x7F && c !in "\"#<>'"
  }

  predicate QuerySafeText(s: string) {
    forall i | 0 <= i < |s| :: QuerySafe(s[i])
  }

  /** A serialized text holds no '&', no '=' and nothing `set_query`
      would encode. */
  lemma SerializedSafe(s: string)
    requires SerializedText(s)
    ensures QuerySafeText(s) && '&' !in s && '=' !in s
  {
  }

  lemma QuerySafeAppend(a: string, b: string)
    requires QuerySafeText(a) && QuerySafeText(b)
    ensures QuerySafeText(a + b)
  {
    assert forall i | |a| <= i < |a + b| :: (a + b)[i] == b[i - |a|];
  }

  /** A query made of characters outside the set is kept as it is. */
  lemma {:induction false} EncodeQuerySafe(s: string)
    requires QuerySafeText(s)
    ensures EncodeQuery(s) == s
  {
    if |s| > 0 {
      assert Utf8.EncodeChar(s[0]) == [s[0] as int];
      assert EncodeQueryBytes([s[0] as int]) == [s[0]];
      EncodeQuerySafe(s[1..]);
      assert [s[0]] + s[1..] == s;
    }
  }
}

=== FILE: utf8.dfy ===
/** UTF-8 encoding of strings (Rust's `str::as_bytes`), with the decoder
    that reads it back. */
module Utf8 {
  import opened Wrappers
  import Text

  type Byte = b: int | 0 <= b < 256

  /** The bytes of one character. */
  function EncodeChar(c: char): (r: seq<Byte>)
    ensures |r| == Text.CharUtf8Len(c)
    ensures |r| == 1 ==> r[0] == c as int
    ensures forall i | 1 <= i < |r| :: 0x80 <= r[i] < 0xC0
  {
    var n := c as int;
    if n < 0x80 then [n]
    else if n < 0x800 then [0xC0 + n / 64, 0x80 + n % 64]
    else if n < 0x10000 then [0xE0 + n / 4096, 0x80 + (n / 64) % 64, 0x80 + n % 64]
    else [0xF0 + n / 262144, 0x80 + (n / 4096) % 64, 0x80 + (n / 64) % 64, 0x80 + n % 64]
  }

  function Encode(s: string): (r: seq<Byte>)
    ensures |r| == Text.Utf8Len(s)
  {
    if |s| == 0 then []
    else
      Text.Utf8LenAppend([s[0]], s[1..]);
      assert [s[0]] + s[1..] == s;
      assert Text.Utf8Len([s[0]]) == Text.CharUtf8Len(s[0]) by {
        assert [s[0]][..0] == [];
      }
      EncodeChar(s[0]) + Encode(s[1..])
  }

  /** The length of a sequence, as its leading byte announces it. */
  function LeadLength(b: Byte): nat {
    if b < 0x80 then 1 else if b < 0xE0 then 2 else if b < 0xF0 then 3 else 4
  }

  /** The scalar value a sequence of the announced length carries. */
  function Scalar(b: seq<Byte>): int
    requires |b| >= 1 && |b| >= LeadLength(b[0])
  {
    var b0, b1, b2, b3 := b[0] as int, Cont(b, 1), Cont(b, 2), Cont(b, 3);
    match LeadLength(b[0])
    case 1 => b0
    case 2 => (b0 - 0xC0) * 64 + b1
    case 3 => (b0 - 0xE0) * 4096 + b1 * 64 + b2
    case 4 => (b0 - 0xF0) * 262144 + b1 * 4096 + b2 * 64 + b3
  }

  /** The six payload bits of the continuation byte at `i`, if there is one. */
  function Cont(b: seq<Byte>, i: nat): int {
    if i < |b| then b[i] as int - 0x80 else 0
  }

  predicate IsScalar(n: int) {
    0 <= n < 0xD800 || 0xE000 <= n < 0x11_0000
  }

  /** Reads bytes back into characters; a sequence cut short or carrying
      no Unicode scalar value is rejected. */
  function Decode(b: seq<Byte>): Option<string>
    decreases |b|
  {
    if |b| == 0 then Some([])
    else if |b| < LeadLength(b[0]) || !IsScalar(Scalar(b)) then None
    else
      match Decode(b[LeadLength(b[0])..])
      case None => None
      case Some(rest) => Some([Scalar(b) as char] + rest)
  }

  /** A character's bytes announce their own length and carry its value. */
  lemma EncodeCharReads(c: char, rest: seq<Byte>)
    ensures var b := EncodeChar(c) + rest;
      LeadLength(b[0]) == |EncodeChar(c)| && Scalar(b) == c as int
  {
    var n := c as int;
    var b := EncodeChar(c) + rest;
    if n >= 0x10000 {
      assert n == (n / 262144) * 262144 + ((n / 4096) % 64) * 4096 + ((n / 64) % 64) * 64 + n % 64;
    } else if n >= 0x800 {
      assert n == (n / 4096) * 4096 + ((n / 64) % 64) * 64 + n % 64;
    }
  }

  /** Decoding undoes encoding. */
  lemma {:induction false} DecodeEncode(s: string)
    ensures Decode(Encode(s)) == Some(s)
  {
    if |s| > 0 {
      var b := Encode(s);
      var head := EncodeChar(s[0]);
      assert b == head + Encode(s[1..]);
      EncodeCharReads(s[0], Encode(s[1..]));
      assert b[|head|..] == Encode(s[1..]);
      DecodeEncode(s[1..]);
      assert [s[0]] + s[1..] == s;
    }
  }

  /** An ASCII string's bytes are its characters. */
  lemma {:induction false} EncodeAscii(s: string)
    requires Text.IsAscii(s)
    ensures |Encode(s)| == |s| && forall i | 0 <= i < |s| :: Encode(s)[i] == s[i] as int
  {
    if |s| > 0 {
      assert Text.IsAscii(s[1..]) by {
        assert forall i | 0 <= i < |s[1..]| :: s[1..][i] == s[i + 1];
      }
      EncodeAscii(s[1..]);
      assert s[0] as int < 0x80;
    }
  }
  // ---------------------------------------------------------------------
  // Lossy decoding (`String::from_utf8_lossy`)

  /** How many bytes a well-formed sequence led by `b` has, or 0 when `b`
      cannot lead one (Table 3-7 of the Unicode Standard). */
  function Needed(b: Byte): nat {
    if b < 0x80 then 1
    else if 0xC2 <= b < 0xE0 then 2
    else if 0xE0 <= b < 0xF0 then 3
    else if 0xF0 <= b < 0xF5 then 4
    else 0
  }

  /** The range the second byte must fall in after the leading byte `b`. */
  function SecondLow(b: Byte): int {
    if b == 0xE0 then 0xA0 else if b == 0xF0 then 0x90 else 0x80
  }

  function SecondHigh(b: Byte): int {
    if b == 0xED then 0x9F else if b == 0xF4 then 0x8F else 0xBF
  }

  predicate IsCont(b: Byte) {
    0x80 <= b < 0xC0
  }

  /** The length of the longest start of `b` that can begin a well-formed
      sequence; a byte that cannot lead one counts alone. */
  function Prefix(b: seq<Byte>): (k: nat)
    requires |b| > 0
    ensures 1 <= k <= |b| && k <= 4
    ensures Needed(b[0]) <= 1 ==> k == 1
  {
    var n := Needed(b[0]);
    if n <= 1 || |b| < 2 || !(SecondLow(b[0]) <= b[1] <= SecondHigh(b[0])) then 1
    else if n == 2 || |b| < 3 || !IsCont(b[2]) then 2
    else if n == 3 || |b| < 4 || !IsCont(b[3]) then 3
    else 4
  }

  /** `b` starts with a whole well-formed sequence. */
  predicate WellFormedStart(b: seq<Byte>)
    requires |b| > 0
  {
    Needed(b[0]) == Prefix(b)
  }

  /** A well-formed sequence carries a Unicode scalar value. */
  lemma WellFormedScalar(b: seq<Byte>)
    requires |b| > 0 && WellFormedStart(b)
    ensures |b| >= LeadLength(b[0]) && IsScalar(Scalar(b))
  {
    var b0 := b[0] as int;
    if Needed(b[0]) == 3 {
      var v := (b0 - 0xE0) * 4096 + Cont(b, 1) * 64 + Cont(b, 2);
      assert Scalar(b) == v;
      if b0 == 0xED {
        assert v <= 13 * 4096 + 0x1F * 64 + 63;
      } else if b0 < 0xED {
        assert v <= 12 * 4096 + 63 * 64 + 63;
      } else {
        assert v >= 14 * 4096;
      }
    } else if Needed(b[0]) == 4 {
      var v := (b0 - 0xF0) * 262144 + Cont(b, 1) * 4096 + Cont(b, 2) * 64 + Cont(b, 3);
      assert Scalar(b) == v;
      if b0 == 0xF4 {
        assert v <= 4 * 262144 + 15 * 4096 + 63 * 64 + 63;
      } else {
        assert v <= 3 * 262144 + 63 * 4096 + 63 * 64 + 63;
      }
    }
  }

  function ScalarChar(b: seq<Byte>): (c: char)
    requires |b| > 0 && WellFormedStart(b)
    ensures |b| >= LeadLength(b[0]) && c as int == Scalar(b)
  {
    WellFormedScalar(b);
    Scalar(b) as char
  }

  const REPLACEMENT: char := 0xFFFD as char

  /** Reads bytes into characters, putting one replacement character for
      every maximal start of a sequence that is not well-formed. */
  function DecodeLossy(b: seq<Byte>): (s: string)
    ensures |s| <= |b|
    decreases |b|
  {
    if |b| == 0 then []
    else
      var k := Prefix(b);
      (if WellFormedStart(b) then [ScalarChar(b)] else [REPLACEMENT]) + DecodeLossy(b[k..])
  }

  /** A character's bytes are a whole well-formed sequence. */
  lemma EncodeCharWellFormed(c: char, rest: seq<Byte>)
    ensures var b := EncodeChar(c) + rest;
      Prefix(b) == |EncodeChar(c)| && WellFormedStart(b)
  {
    var n := c as int;
    var b := EncodeChar(c) + rest;
    if n >= 0x10000 {
      assert b[0] == 0xF0 + n / 262144 && b[1] == 0x80 + (n / 4096) % 64;
      assert n / 262144 <= 4;
      if n / 262144 == 0 {
        assert (n / 4096) % 64 >= 16;
      } else if n / 262144 == 4 {
        assert (n / 4096) % 64 <= 15;
      }
    } else if n >= 0x800 {
      assert b[0] == 0xE0 + n / 4096 && b[1] == 0x80 + (n / 64) % 64;
      if n / 4096 == 0 {
        assert (n / 64) % 64 >= 32;
      } else if n / 4096 == 13 {
        assert n < 0xD800;
        assert (n / 64) % 64 <= 0x1F;
      }
    } else if n >= 0x80 {
      assert b[0] == 0xC0 + n / 64 && n / 64 >= 2;
    }
  }

  /** Lossy decoding undoes encoding. */
  lemma {:induction false} DecodeLossyEncode(s: string)
    ensures DecodeLossy(Encode(s)) == s
  {
    if |s| > 0 {
      var b := Encode(s);
      var head := EncodeChar(s[0]);
      assert b == head + Encode(s[1..]);
      EncodeCharWellFormed(s[0], Encode(s[1..]));
      EncodeCharReads(s[0], Encode(s[1..]));
      assert b[|head|..] == Encode(s[1..]);
      DecodeLossyEncode(s[1..]);
      assert [s[0]] + s[1..] == s;
    }
  }
}

=== FILE: wrappers.dfy ===
/** Failure-carrying datatypes shared by every module of the model. */
module Wrappers {

  datatype Option<+T> = None | Some(value: T)

  /** The bot distinguishes errors shown to the user verbatim (`UserError`)
      from every other propagated failure (database, platform, panics). */
  datatype Error =
    | UserError(message: string)
    | Failure(message: string)

  datatype Result<+T> = Ok(value: T) | Err(error: Error) {
    predicate IsFailure() {
      Err?
    }

    function PropagateFailure<U>(): Result<U>
      requires Err?
    {
      Err(error)
    }

    function Extract(): T
      requires Ok?
    {
      value
    }
  }

  /** The unit value for operations that only succeed or fail. */
  datatype Unit = Unit
}
